=== FILE: README.md ===
# kakuho in Dafny

kakuho is a ticket reservation system for small theatre productions. An
event has stages (performances at a start time). A stage has seat groups,
each with a number of free seats (`capacity`). A seat group has ticket
types (a name and a price), and a user reserves a number of seats
(`num_attendees`) of one ticket type. The backend is a FastAPI service over
SQLAlchemy tables. The frontend is a React application: audiences book and
change reservations, and staff create events, manage stages and seat
groups, check in audiences with a QR scanner, and search users.

This project models the core of both halves and proves what each promises.

**Backend.** `Ledger.Database` is a class whose fields are the tables:
maps from id to row for stages, seat groups, ticket types and users, and a
sequence of reservations in id order. The CRUD operations are its
`modifies` methods. The route handlers in `ReservationRoutes`,
`UserRoutes`, `TicketTypeRoutes` and `SeatGroupRoutes` call them in the
same order as the Python code, with the same checks and the same HTTP
statuses (`Models.Error`).

The main invariant is seat conservation: for each seat group, its
`capacity` plus the attendees of the live reservations of its ticket types
(`Database.Total`) is left unchanged by creating, changing and deleting a
reservation and by deleting a user. Only the admin's seat-group update
changes it. No foreign key in `backend/models.py` cascades and each is NOT
NULL, so deleting a ticket type that still has reservations, a seat group
that still has ticket types, or a user who still has reservations, fails at the commit with a 500 and
writes nothing; every other delete keeps the totals too, and no ticket type
is left pointing at a missing seat group, nor any reservation at a missing
ticket type or user (`Database.NoDangling`). Every handler that writes
the seat-group, ticket-type, reservation or user tables keeps that
invariant. A reservation is created for the calling user, who
`get_current_user` has just loaded from the users table
(backend/routes/auth.py:95-97), so `CreateReservationHandler` requires the
caller's id to be a user.

**Frontend.** Pure computations (filters, joins, limits, validators,
plans of API calls) are functions over sequences of rows. Rows are
`ClientData` datatypes. Dates are milliseconds as `int`, and "now" is a
parameter. Where a component keeps state that its handlers update (the
data store, the event form, the seat-group editor, the scanner, the
capacity editor, the confirm dialog, the reservation list), it is a class
whose methods are proved against those functions. `forEach` loops that
fill a map or accumulate a value are methods with loop invariants, proved
equal to a function. Each API call a handler issues is a datatype value
(`Call`, `Removal`, `Addition`), and the handler's plan is the sequence of
those values.

## Model

| member | source | states |
|---|---|---|
| Models.Error.Status | backend/routes/reservation.py:24-29 | every modelled error is one of 400, 403, 404 or 500; it is 400 exactly for a bad request or too few seats |
| Models.NewReservation | backend/models.py:76-83 | a new reservation keeps the id, ticket type, user and count it is given, and starts unpaid (`is_paid` defaults to False) |
| Models.NewUser | backend/crud/user.py:32-41 | a signed-up user keeps the email and nickname and is never an admin |
| Models.CheckAdmin | backend/routes/auth.py:116-120 | the admin check passes exactly for an admin caller and otherwise fails with 403 |
| Models.PatchReservation | backend/crud/reservation.py:57-68 | an update overwrites exactly the fields given (count, paid flag), keeps the others, and never changes id, ticket type or user |
| Models.PatchSeatGroup | backend/crud/seat_group.py:28-35 | the capacity becomes the value given, or stays when none is given; the stage never changes |
| Models.PatchTicketType | backend/crud/ticket_type.py:31-38 | name and price are overwritten only when given; the seat group never changes |
| Models.PatchUser | backend/crud/user.py:43-54 | email and nickname are overwritten only when given; the admin flag never changes |
| Models.PatchReservationIdempotent | backend/crud/reservation.py:63-65 | applying the same update twice equals applying it once, and an empty update changes nothing |
| Ledger.IndexOf | backend/crud/base.py:18-20 | finds a reservation with the id, or reports that none has it |
| Ledger.ReservationsOfTicketType | backend/crud/reservation.py:14-23 | exactly the reservations of the ticket type, in table order (a subsequence) |
| Ledger.ReservationsOfUser | backend/crud/reservation.py:26-33 | exactly the user's reservations, still in ascending id order |
| Ledger.ReservationsOfUserAndTicketType | backend/crud/reservation.py:36-48 | exactly the reservations matching both ids; equal to filtering by user, then by ticket type |
| Ledger.FilterKeepsIdOrder | backend/crud/reservation.py:14-48 | any filter of the table keeps ascending id order |
| Ledger.BookedNonNegative | backend/routes/reservation.py:24-37 | with no negative reservation, the seats booked in a group are never negative |
| Ledger.BookedAppend | backend/routes/reservation.py:144-146 | adding a reservation adds its seats to its group's booked seats and to no other group's |
| Ledger.BookedRemoveAt | backend/routes/reservation.py:207-208 | removing a reservation takes its seats off its group's booked seats |
| Ledger.BookedReplaceAt | backend/routes/reservation.py:179-182 | replacing a reservation changes booked seats by the new count minus the old |
| Ledger.SeatGroupsOfStage | backend/crud/seat_group.py:13-19 | exactly the seat groups of the stage, unchanged |
| Ledger.TicketTypesOfSeatGroup | backend/crud/ticket_type.py:13-22 | exactly the ticket types of the seat group, unchanged |
| Ledger.TicketTypesOfSeatGroupDistinctNames | backend/models.py:67-68 | under the unique constraint, two ticket types of one seat group never share a name |
| Ledger.RemoveAtKeepsOrder | backend/crud/base.py:29-33 | deleting a row keeps the table in id order and adds no row |
| Ledger.Database.constructor | backend/models.py:28-103 | empty tables, which meet every constraint |
| Ledger.Database.FindReservation | backend/crud/base.py:18-20 | the position of the reservation with the id, or none when no row has it |
| Ledger.Database.InsertStage | backend/models.py:37-38 | a second stage at the same start in the same event is refused with 400 and nothing changes; otherwise one new stage under a fresh id |
| Ledger.Database.CreateSeatGroup | backend/crud/seat_group.py:21-26 | one new seat group under a fresh id with the stage and capacity given; its total is its capacity; no other group's total changes |
| Ledger.Database.UpdateSeatGroup | backend/crud/seat_group.py:28-35 | the patched group replaces the old one; its total moves by the capacity change; no other group's total changes; no dangling key introduced |
| Ledger.Database.DeleteSeatGroup | backend/crud/base.py:29-33 | fails with 500 and changes nothing exactly when a ticket type still points at the group (backend/models.py:56-63 has no cascade and a NOT NULL key); otherwise the group is removed; no remaining group's total changes and no row is left dangling |
| Ledger.Database.CreateTicketType | backend/crud/ticket_type.py:24-29 | a name already used in the same seat group violates the unique constraint (error, nothing changes); otherwise one new type under a fresh id; totals kept |
| Ledger.Database.UpdateTicketType | backend/crud/ticket_type.py:31-38 | the patched type replaces the old one unless its name clashes in its group; totals kept |
| Ledger.Database.DeleteTicketType | backend/crud/base.py:29-33 | fails with 500 and changes nothing exactly when a reservation still points at the type (backend/models.py:73-80 has no cascade and a NOT NULL key); otherwise the type is removed; every total is kept and no row is left dangling |
| Ledger.Database.CreateReservation | backend/crud/reservation.py:50-55 | appends an unpaid reservation with a fresh id; booked seats grow by its share; no dangling key introduced when the user exists |
| Ledger.Database.UpdateReservation | backend/crud/reservation.py:57-68 | an unknown id is a 404 and nothing changes; otherwise the patched row replaces the old one in place, and booked seats move by new minus old; no dangling key introduced |
| Ledger.Database.DeleteReservation | backend/crud/base.py:29-33 | the row is removed, the id is no longer found, and booked seats drop by its share; no dangling key introduced |
| Ledger.Database.CreateUser | backend/crud/user.py:32-41 | an email already registered violates the unique constraint; otherwise one new non-admin user |
| Ledger.Database.UpdateUser | backend/crud/user.py:43-54 | the patched user replaces the old one unless the new email clashes with another user's |
| Ledger.Database.DeleteUser | backend/crud/base.py:29-33 | fails with 500 and changes nothing exactly when a reservation still points at the user (backend/models.py:81 is NOT NULL and :102 has no cascade); otherwise the user is removed; totals are kept and no row is left dangling |
| ReservationRoutes.CheckCapacity | backend/routes/reservation.py:24-29 | refuses with 400, reporting the seats left, exactly when capacity + delta < 0 |
| ReservationRoutes.CheckedUpdateNonNegative | backend/routes/reservation.py:24-37 | a capacity update that passed the check leaves capacity ≥ 0 |
| ReservationRoutes.UpdateCapacity | backend/routes/reservation.py:33-37 | the group's capacity and total move by delta; every other table and total is unchanged; no dangling key introduced |
| ReservationRoutes.ReadReservation | backend/routes/reservation.py:45-56 | 404 exactly for an unknown id, then 403 exactly when the caller is neither admin nor owner; otherwise the row |
| ReservationRoutes.ReadReservations | backend/routes/reservation.py:61-67 | the whole table for an admin, 403 for anyone else |
| ReservationRoutes.ReadReservationsByUser | backend/routes/reservation.py:76-89 | 404 for an unknown user, then 403 unless admin or self; otherwise exactly that user's reservations |
| ReservationRoutes.ReadReservationsByTicketType | backend/routes/reservation.py:99-115 | 404 for an unknown type; otherwise exactly its reservations, restricted to the caller's own unless admin |
| ReservationRoutes.CreateReservationHandler | backend/routes/reservation.py:122-153 | for a caller who is a user: 404 for a missing ticket type or seat group; 400 exactly when the seats asked exceed the seats left; on error nothing changes; on success the reservation is the caller's, unpaid, appended, and its group's capacity drops by the count; totals kept, no overbooking and no dangling key introduced |
| ReservationRoutes.UpdateReservationHandler | backend/routes/reservation.py:160-185 | 404, then 403 as for reads; then 400 exactly when the reservation's ticket type or seat group is gone; then 400 reporting the seats left exactly when the growth (new − old count, a missing count being zero) exceeds them; it succeeds exactly otherwise, the capacity moving by old − new; totals kept, no dangling key introduced |
| ReservationRoutes.DeleteReservationHandler | backend/routes/reservation.py:190-210 | 404, then 403, then 400 exactly when its ticket type or seat group is gone; it succeeds exactly otherwise: the row is gone, a second delete is a 404, and the group gets back exactly the reservation's seats; totals kept, no dangling key introduced |
| UserRoutes.CreateUserHandler | backend/routes/user.py:32-37 | an already-registered email is a 400 and nothing changes; otherwise one new non-admin user |
| UserRoutes.ReadUser | backend/routes/user.py:42-54 | 403 unless admin or self, checked before the 404 for an unknown user |
| UserRoutes.ReadUsers | backend/routes/user.py:59-66 | the user table for an admin, 403 for anyone else |
| UserRoutes.UpdateUserHandler | backend/routes/user.py:73-87 | 403 unless admin or self, then 404; then 500 exactly when the new email belongs to another user; it succeeds exactly otherwise, and only the given fields change |
| UserRoutes.DeleteUserHandler | backend/routes/user.py:94-126 | 404 for an unknown user, then 400 for an admin target (before the caller's role), then 403 for a non-admin caller; on success the user and all their reservations are gone (so the user's own delete cannot fail), no row is left dangling, every seat is credited back, other users' reservations stay, and totals are kept; the result is a 500 exactly when one of the user's reservations has lost its ticket type or seat group, and a success exactly otherwise |
| UserRoutes.RemoveUser | backend/routes/user.py:117-126 | the deletion loop, then the user's row: a 500 exactly when one of the user's reservations has lost its ticket type or seat group (the users are then untouched); otherwise the user is gone with all their reservations, which is why their own delete cannot fail; other users' reservations stay, totals are kept and no row is left dangling |
| UserRoutes.RefundAll | backend/routes/user.py:118-123 | the loop over the user's reservations gets through exactly when each of them still has its ticket type and seat group; on completion none of the user's reservations is left, other users' reservations all stay, nothing new appears, users, ticket types and stages are untouched, totals are kept and no group goes negative |
| UserRoutes.RefundReservation | backend/routes/user.py:119-123 | one loop step: the reservation's seats go back to its group and the row is removed, when its type and group exist; totals kept |
| UserRoutes.CreditBack | backend/routes/user.py:122-123 | with both rows present: exactly that reservation disappears, its group's capacity grows by its attendees and no other group changes; totals kept |
| TicketTypeRoutes.ReadTicketType | backend/routes/ticket_type.py:18-25 | 404 exactly for an unknown id; otherwise that row |
| TicketTypeRoutes.ReadTicketTypesBySeatGroup | backend/routes/ticket_type.py:40-48 | 404 exactly for an unknown seat group; otherwise exactly the ticket types of that group |
| TicketTypeRoutes.CreateTicketTypeHandler | backend/routes/ticket_type.py:55-71 | 403 exactly for a non-admin, then 404 exactly for an unknown seat group, then 400 exactly when the name is taken in that group; it succeeds exactly otherwise; on error nothing changes; on success one new type under a fresh id; totals kept, no dangling key introduced |
| TicketTypeRoutes.UpdateTicketTypeHandler | backend/routes/ticket_type.py:78-89 | 403 exactly for a non-admin, then 404 exactly for an unknown id, then 500 exactly when the patched name is another type's name in the same group (backend/models.py:68 unique constraint); it succeeds exactly otherwise; on error nothing changes; on success the patched type replaces the old one; totals kept, no dangling key introduced |
| TicketTypeRoutes.DeleteTicketTypeHandler | backend/routes/ticket_type.py:94-103 | 403, then 404, then 500 with nothing changed exactly when the type has reservations; it succeeds exactly otherwise, removing only that type; totals kept, no dangling key |
| SeatGroupRoutes.ReadSeatGroup | backend/routes/seat_group.py:16-23 | 404 exactly for an unknown id; otherwise that row |
| SeatGroupRoutes.ReadSeatGroupsByStage | backend/routes/seat_group.py:38-46 | 404 exactly for an unknown stage; otherwise exactly the seat groups of that stage |
| SeatGroupRoutes.CreateSeatGroupHandler | backend/routes/seat_group.py:53-65 | 403 exactly for a non-admin, then 404 exactly for an unknown stage; it succeeds exactly otherwise; on error nothing changes; on success one new group under a fresh id; other totals kept, no dangling key introduced |
| SeatGroupRoutes.UpdateSeatGroupHandler | backend/routes/seat_group.py:70-81 | 403 exactly for a non-admin, then 404 exactly for an unknown id; it succeeds exactly otherwise; on error nothing changes; on success the patched group replaces the old one and no other group's total changes; no dangling key introduced |
| SeatGroupRoutes.DeleteSeatGroupHandler | backend/routes/seat_group.py:86-95 | 403, then 404, then 500 with nothing changed exactly when the group has ticket types; it succeeds exactly otherwise, removing only that group; remaining totals kept, no dangling key |
| ReservationChanger.InitialLimitAccepted | frontend/app/src/components/ReservationChanger.tsx:48-50 | every count up to the initial limit is accepted by the server's capacity check |
| ReservationChanger.OnSelectionChange | frontend/app/src/components/ReservationChanger.tsx:126-149 | nothing changes for an unknown type or group; otherwise the limit is the smaller of 20 and the seats available (own group: free seats plus the reservation's own), and the alert is set exactly when the count exceeds it |
| ReservationChanger.NoAlertServerAccepts | frontend/app/src/components/ReservationChanger.tsx:137-147 | a count the form accepts (no alert) passes the server's capacity check |
| ReservationChanger.CountOptions | frontend/app/src/components/ReservationChanger.tsx:335-347 | options 1..limit enabled, plus the current value disabled when it is over the limit |
| ReservationChanger.EnabledCountsWithinLimit | frontend/app/src/components/ReservationChanger.tsx:335-347 | every enabled option lies in 1..limit |
| ReservationChanger.BuildSoldOut | frontend/app/src/components/ReservationChanger.tsx:98-121 | the loop's map marks a type sold out exactly when it is outside the own seat group and its group has capacity 0 |
| ReservationChanger.StageSoldOutIff | frontend/app/src/components/ReservationChanger.tsx:178-186 | a stage is sold out exactly when every ticket type of its seat groups is sold out |
| ReservationChanger.OwnStageNotSoldOut | frontend/app/src/components/ReservationChanger.tsx:98-121 | the stage of the reservation being changed is never shown as sold out |
| ReservationChanger.OnStageChange | frontend/app/src/components/ReservationChanger.tsx:152-175 | nothing changes for an unknown stage or one without groups or types; otherwise the selection moves to the first type with the same name, else to the first type |
| ReservationChanger.Retargeted | frontend/app/src/components/ReservationChanger.tsx:170-174 | the offer is kept; the selection is the first type with the current name, or the first type when none has it |
| ReservationChanger.SubmitPlan | frontend/app/src/components/ReservationChanger.tsx:189-209 | a different type means delete then create with the same user and count; the same type means one update of the count |
| ReservationCreater.InitialOffer | frontend/app/src/components/ReservationCreater.tsx:75-88 | the selectable types are exactly those of the stage's seat groups; the first is preselected (unless its id is 0) and the limit is its group's capacity, or 0 |
| ReservationCreater.OfferedTypesHaveGroups | frontend/app/src/components/ReservationCreater.tsx:77-86 | the first offered type's seat group is a group of the stage, and the initial limit is its capacity |
| ReservationCreater.OnSelectionChange | frontend/app/src/components/ReservationCreater.tsx:91-112 | the limit is min(capacity, 20), and the alert is set exactly when the count exceeds it |
| ReservationCreater.NoAlertServerAccepts | frontend/app/src/components/ReservationCreater.tsx:105-111 | a count the form accepts passes the server's capacity check |
| ReservationCreater.OnSubmit | frontend/app/src/components/ReservationCreater.tsx:115-124 | nothing is sent without a type or a user; otherwise the booking carries the logged-in user's id |
| Scanner.EncodeReservation | frontend/app/src/components/ReservationCard.tsx:138 | every QR text starts with `Kakuho-` |
| Scanner.ScannedId | frontend/app/src/components/ScannerModal.tsx:21-25 | a text without the prefix is rejected; otherwise the id text is what follows the prefix |
| Scanner.DecodeEncode | frontend/app/src/components/ScannerModal.tsx:25-33 | decoding the QR text of a reservation gives back its id |
| Scanner.CheckReservation | frontend/app/src/components/ScannerModal.tsx:31-47 | not found exactly when the text is not a number or no entry has that id; for the first entry with it, other stage before already paid, and payment only for an unpaid reservation of this stage |
| Scanner.OnDecode | frontend/app/src/components/ScannerModal.tsx:20-28 | an invalid code exactly when the prefix is missing, with no lookup; otherwise the check on the rest |
| Scanner.ScanOwnCard | frontend/app/src/components/ScannerModal.tsx:20-47 | scanning a reservation's own card gives other stage, already paid, or payment of that reservation, by its stage and paid flag |
| Scanner.ScannerState.constructor | frontend/app/src/components/ScannerModal.tsx:15-17 | no result, no alert, not paying |
| Scanner.ScannerState.OnDecodeResult | frontend/app/src/components/ScannerModal.tsx:20-47 | each outcome sets its alert, or opens the payment dialog; an invalid code stores no result |
| Scanner.ScannerState.Close | frontend/app/src/components/ScannerModal.tsx:49-52 | closing clears the result only |
| FormRules.JsLength | frontend/app/src/components/ValidatedForm.tsx:6-50 | the UTF-16 length used by `maxLength` lies between the number of characters and twice that |
| FormRules.RulesOf | frontend/app/src/components/ValidatedForm.tsx:5-52 | only the password has a minimum length; every field but nickname and the default is required |
| FormRules.Violations | frontend/app/src/components/ValidatedForm.tsx:5-52 | an empty value violates exactly the required rule, when the field has one |
| FormRules.AcceptedValues | frontend/app/src/components/ValidatedForm.tsx:5-52 | each field accepts exactly: title 1..50, description 1..500, password 6..20 UTF-16 units, nickname ≤ 50, a mail shape, one or more digits, anything |
| FormRules.OnBlur | frontend/app/src/components/ValidatedForm.tsx:90-105 | a number field becomes its digits in order, full-width ones made ASCII; other fields pass through unchanged |
| FormRules.OnBlurIdempotent | frontend/app/src/components/ValidatedForm.tsx:96-102 | normalising twice equals normalising once |
| FormRules.CleanedNumberAccepted | frontend/app/src/components/ValidatedForm.tsx:96-102 | a normalised number field passes its rule exactly when the input held some digit |
| FormRules.InputType | frontend/app/src/components/ValidatedForm.tsx:124-130 | "password", "email" or "text" according to the field type |
| Text.ParseInt | frontend/app/src/components/ScannerModal.tsx:33 | a parsed value is the value of the first maximal digit run after leading white space and an optional sign, negated for `-` |
| Text.ParseIntExact | frontend/app/src/components/ScannerModal.tsx:33 | whenever the text is white space, an optional sign, a maximal digit run and anything after, that run's value (signed) is the result |
| Text.ParseIntNone | frontend/app/src/components/ScannerModal.tsx:33 | parsing gives no number (NaN) exactly when the text has no such prefix |
| Text.ParseShow | frontend/app/src/components/ReservationCard.tsx:138 | parsing the decimal text of an integer gives it back |
| Text.ParseDigits | frontend/app/src/components/EditSeatGroup.tsx:50 | a non-empty digit string parses to its value |
| Text.Trim | frontend/app/src/components/EditSeatGroup.tsx:44 | the result has no space at either end |
| Text.TrimIsSlice | frontend/app/src/components/EditSeatGroup.tsx:44 | the result is a slice of the input with only spaces cut off each end |
| Text.TrimEmpty | frontend/app/src/components/ConfirmEvent.tsx:52-53 | trimming gives the empty string exactly for a blank value |
| Text.NarrowDigits | frontend/app/src/components/ValidatedForm.tsx:98-100 | each full-width digit becomes its ASCII digit, and nothing else changes |
| Text.KeepDigits | frontend/app/src/components/ValidatedForm.tsx:101 | only ASCII digits remain |
| Text.KeepNarrowIsDigitsInOrder | frontend/app/src/components/ValidatedForm.tsx:98-101 | narrowing then deleting non-digits keeps every digit of the input, in order |
| SeatGroupEditor.ValidateNum | frontend/app/src/components/EditSeatGroup.tsx:33-38 | valid exactly for a non-empty string of ASCII digits; the negative-number branch is never taken |
| SeatGroupEditor.ValidCapacityNonNegative | frontend/app/src/components/EditSeatGroup.tsx:34-36 | a valid value parses to a number ≥ 0 |
| SeatGroupEditor.SpliceOne | frontend/app/src/components/EditSeatGroup.tsx:73-77 | `splice(index, 1)`: removes the entry at the index (counted from the end when negative); nothing beyond the end |
| SeatGroupEditor.SpliceOneKeepsOthers | frontend/app/src/components/EditSeatGroup.tsx:73-77 | the other entries keep their order |
| SeatGroupEditor.SeatGroupEditor.constructor | frontend/app/src/components/EditSeatGroup.tsx:27-30 | the input shows the capacity, with no error |
| SeatGroupEditor.SeatGroupEditor.CheckNumOfSeats | frontend/app/src/components/EditSeatGroup.tsx:41-55 | the input is narrowed and trimmed before validation; a valid entry sets capacity to its value and notifies; an invalid one shows the error and reverts the input to the capacity |
| SeatGroupEditor.SeatGroupEditor.AddTicketType | frontend/app/src/components/EditSeatGroup.tsx:58-63 | appends an empty ticket at price 0 and notifies |
| SeatGroupEditor.SeatGroupEditor.UpdateTicketType | frontend/app/src/components/EditSeatGroup.tsx:66-70 | replaces only the entry at the index |
| SeatGroupEditor.SeatGroupEditor.DeleteTicketType | frontend/app/src/components/EditSeatGroup.tsx:73-77 | removes the entry as `splice` does |
| Schedule.Get | frontend/app/src/pages/CreateEvent.tsx:76 | the times stored under a date key, or none when the key is absent |
| Schedule.PutGet | frontend/app/src/pages/CreateEvent.tsx:92-95 | after `{...now, [date]: times}` the date holds exactly the written times |
| Schedule.PutShape | frontend/app/src/pages/CreateEvent.tsx:92-95 | a known key keeps its place, a new key goes last, and every entry of another date is unchanged |
| Schedule.PutDates | frontend/app/src/pages/CreateEvent.tsx:92-95 | the keys afterwards are the old keys and the written date |
| Schedule.PutOthers | frontend/app/src/pages/CreateEvent.tsx:92-95 | writing one date leaves every other date's times unchanged |
| Schedule.PutKeepsUnique | frontend/app/src/pages/CreateEvent.tsx:92-95 | writing a date never creates a second key for it |
| Schedule.NoTimesIffEmpty | frontend/app/src/components/ConfirmEvent.tsx:54 | every date has no time exactly when the flattened list of times is empty |
| CreateEventPage.EventDates | frontend/app/src/pages/CreateEvent.tsx:59-68 | every day from start to end, one day apart, or none if a date is missing |
| CreateEventPage.DayCount | frontend/app/src/pages/CreateEvent.tsx:59-68 | the list has (end − start) / day + 1 dates, and none when end is before start |
| CreateEventPage.SyncSchedule | frontend/app/src/pages/CreateEvent.tsx:71-79 | the keys are exactly the event dates, and the times of dates that remain are kept |
| CreateEventPage.SyncStep | frontend/app/src/pages/CreateEvent.tsx:71-79 | writing one more date keeps one entry per date, the keys equal to the dates seen so far, each with the times it had |
| CreateEventPage.ScheduleItem | frontend/app/src/pages/CreateEvent.tsx:84-87 | the time falls on its day and has zero seconds |
| CreateEventPage.AddSchedule | frontend/app/src/pages/CreateEvent.tsx:82-98 | the time is on its date afterwards; an exact duplicate changes nothing; otherwise it is appended; other dates are untouched |
| CreateEventPage.AddScheduleKeepsShape | frontend/app/src/pages/CreateEvent.tsx:82-98 | no repeated date key and no repeated time on a date |
| CreateEventPage.DeleteSchedule | frontend/app/src/pages/CreateEvent.tsx:101-108 | a missing date fails (the source throws); otherwise only the matching time leaves that date, and other dates are untouched |
| CreateEventPage.IdsAreIds | frontend/app/src/pages/CreateEvent.tsx:213 | the key set lists exactly the ids of the entries |
| CreateEventPage.AscendingIsOrdered | frontend/app/src/pages/CreateEvent.tsx:213 | integer keys are listed in ascending order, as JavaScript orders them |
| CreateEventPage.Lookup | frontend/app/src/pages/CreateEvent.tsx:213 | an id is found exactly when it is a key |
| CreateEventPage.PutSeat | frontend/app/src/pages/CreateEvent.tsx:221-225 | writing a key keeps the keys ascending, stores the entry, and leaves other keys alone |
| CreateEventPage.RemoveSeat | frontend/app/src/pages/CreateEvent.tsx:127 | `delete` removes only that key and keeps the order |
| CreateEventPage.PutSeatAbove | frontend/app/src/pages/CreateEvent.tsx:117 | a key above all others is appended at the end |
| CreateEventPage.NewSeatId | frontend/app/src/pages/CreateEvent.tsx:113-116 | 0 for an empty dictionary, else max + 1: never an existing id |
| CreateEventPage.AddSeatGroup | frontend/app/src/pages/CreateEvent.tsx:111-122 | appends a new group under a fresh id, so ids never collide |
| CreateEventPage.DeleteSeatGroup | frontend/app/src/pages/CreateEvent.tsx:125-129 | removes only that id |
| CreateEventPage.UpdateSeatGroup | frontend/app/src/pages/CreateEvent.tsx:219-225 | replaces only that id's entry |
| CreateEventPage.EventForm.constructor | frontend/app/src/pages/CreateEvent.tsx:32-48 | empty fields and the default seat dictionary: one group, id 0, capacity 0, "一般" at price 0 |
| CreateEventPage.EventForm.Reset | frontend/app/src/pages/CreateEvent.tsx:272-274 | back to the default values |
| CreateEventPage.EventForm.SetDates | frontend/app/src/pages/CreateEvent.tsx:53-79 | the schedule's keys become the new event dates, keeping existing times |
| CreateEventPage.EventForm.AddTime | frontend/app/src/pages/CreateEvent.tsx:82-98 | the schedule is updated as AddSchedule; nothing else changes |
| CreateEventPage.EventForm.DeleteTime | frontend/app/src/pages/CreateEvent.tsx:101-108 | fails exactly for a missing date, changing nothing; otherwise as DeleteSchedule |
| CreateEventPage.EventForm.AddGroup | frontend/app/src/pages/CreateEvent.tsx:111-122 | the seat dictionary is updated as AddSeatGroup |
| CreateEventPage.EventForm.DeleteGroup | frontend/app/src/pages/CreateEvent.tsx:125-129 | the seat dictionary is updated as DeleteSeatGroup |
| CreateEventPage.SortDayShape | frontend/app/src/pages/CreateEvent.tsx:185-187 | sorting a day's times in place leaves that day ascending and a permutation of its times, keeps the dates, and leaves every other day as it was |
| CreateEventPage.RenderStep | frontend/app/src/pages/CreateEvent.tsx:180-187 | sorting the next shown day keeps every day sorted before it sorted, every day's times as a multiset and every unshown day as it was |
| CreateEventPage.EventForm.Render | frontend/app/src/pages/CreateEvent.tsx:180-187 | rendering the dates sorts each shown day's times in the schedule itself: each shown day ends ascending, every day keeps its times as a multiset, days not shown and the other fields are unchanged |
| CreateEventPage.EventForm.UpdateGroup | frontend/app/src/pages/CreateEvent.tsx:219-225 | the seat dictionary is updated as UpdateSeatGroup |
| CreateEventComponent.HandleComplete | frontend/app/src/components/CreateEvent.tsx:30-40 | a time already on the date changes nothing; otherwise the date's list gains it and stays ascending; other dates are untouched |
| CreateEventComponent.FilterKeepsAscending | frontend/app/src/components/CreateEvent.tsx:43-48 | removing times keeps a list ascending |
| CreateEventComponent.DeleteKeepsAscending | frontend/app/src/components/CreateEvent.tsx:43-48 | deleting a time keeps the date's list ascending |
| CreateEventComponent.AddSeatGroupAsWritten | frontend/app/src/components/CreateEvent.tsx:50-59 | as written: appends an empty group whose id is the list's length |
| CreateEventComponent.AddAfterDeleteCollides | frontend/app/src/components/CreateEvent.tsx:50-73 | as written, add, delete id 0, add gives two groups with id 1; then one delete removes both and one update overwrites both |
| CreateEventComponent.NextId | frontend/app/src/pages/CreateEvent.tsx:113-116 | an id above every id in use |
| CreateEventComponent.HandleAddSeatGroup | frontend/app/src/components/CreateEvent.tsx:50-59 | corrected: appends an empty group under an id no group has, so ids stay distinct |
| CreateEventComponent.HandleDeleteSeatGroup | frontend/app/src/components/CreateEvent.tsx:71-73 | keeps exactly the groups with other ids, in order |
| CreateEventComponent.HandleUpdateSeatGroup | frontend/app/src/components/CreateEvent.tsx:61-69 | replaces every group with the id and keeps the rest |
| CreateEventComponent.DeleteKeepsUnique | frontend/app/src/components/CreateEvent.tsx:71-73 | deleting keeps ids distinct |
| CreateEventComponent.IdsStayUnique | frontend/app/src/components/CreateEvent.tsx:50-73 | with the corrected add, adding, updating and deleting keep ids distinct |
| ConfirmEvent.HeaderChecks | frontend/app/src/components/ConfirmEvent.tsx:52-57 | the loop collects the title, description, schedule and seat-dictionary errors |
| ConfirmEvent.Check | frontend/app/src/components/ConfirmEvent.tsx:52-69 | the loops collect exactly the errors and warnings of the specification functions |
| ConfirmEvent.CheckTickets | frontend/app/src/components/ConfirmEvent.tsx:64-68 | the inner loop adds exactly one group's ticket-name errors and zero-price warnings |
| ConfirmEvent.TicketErrorsEmpty | frontend/app/src/components/ConfirmEvent.tsx:58-69 | no ticket error exactly when no ticket name is blank |
| ConfirmEvent.GroupErrorsEmpty | frontend/app/src/components/ConfirmEvent.tsx:58-69 | no group error exactly when no ticket name in any group is blank |
| ConfirmEvent.ConfirmEnabled | frontend/app/src/components/ConfirmEvent.tsx:52-69 | confirm is enabled exactly when title and description are not blank, some time is scheduled, some seat group exists and every ticket is named |
| ConfirmEvent.TicketWarningsEmpty | frontend/app/src/components/ConfirmEvent.tsx:58-69 | no price warning exactly when no price is 0 |
| ConfirmEvent.GroupWarningsEmpty | frontend/app/src/components/ConfirmEvent.tsx:58-69 | no group warning exactly when no group has capacity 0, no group is without types, and no price is 0 |
| ConfirmEvent.NoWarnings | frontend/app/src/components/ConfirmEvent.tsx:58-69 | the same for the whole seat dictionary |
| ConfirmEvent.StageCalls | frontend/app/src/components/ConfirmEvent.tsx:81-87 | one stage per scheduled time, ending two hours after it starts |
| ConfirmEvent.BuildPlan | frontend/app/src/components/ConfirmEvent.tsx:72-105 | the nested loops issue exactly the planned calls, in order |
| ConfirmEvent.AppendGroupCalls | frontend/app/src/components/ConfirmEvent.tsx:93-104 | the loop over the seat dictionary adds exactly one stage's groups, each followed by its ticket types |
| ConfirmEvent.AppendTicketCalls | frontend/app/src/components/ConfirmEvent.tsx:101-103 | the loop over a group's ticket types adds one create per type, in order |
| ConfirmEvent.TicketCallsShape | frontend/app/src/components/ConfirmEvent.tsx:97-103 | one create per ticket type, with its name and price, in order |
| ConfirmEvent.GroupCallsContents | frontend/app/src/components/ConfirmEvent.tsx:92-104 | each seat group and each of its ticket types is created for the stage, and nothing else |
| ConfirmEvent.GroupCallsHasGroup | frontend/app/src/components/ConfirmEvent.tsx:93-97 | every seat group is created for the stage |
| ConfirmEvent.GroupCallsHasType | frontend/app/src/components/ConfirmEvent.tsx:101-103 | every ticket type of every group is created for the stage, under that group |
| ConfirmEvent.GroupCallsOnly | frontend/app/src/components/ConfirmEvent.tsx:93-104 | a stage's calls are only seat groups and ticket types of that stage |
| ConfirmEvent.StageGroupCallsSnoc | frontend/app/src/components/ConfirmEvent.tsx:92 | one more stage adds its own groups after those of the earlier stages |
| ConfirmEvent.StageGroupCallsOnly | frontend/app/src/components/ConfirmEvent.tsx:92-104 | after the stages come only seat groups and ticket types of created stages |
| ConfirmEvent.StageGroupCallsGroup | frontend/app/src/components/ConfirmEvent.tsx:92-97 | every created stage gets every seat group |
| ConfirmEvent.StageGroupCallsType | frontend/app/src/components/ConfirmEvent.tsx:92-103 | every created stage gets every ticket type of every group |
| ConfirmEvent.StageGroupCallsContents | frontend/app/src/components/ConfirmEvent.tsx:92-104 | every stage gets every seat group with its ticket types, and nothing else |
| ConfirmEvent.PlanContents | frontend/app/src/components/ConfirmEvent.tsx:72-105 | the event first, then one stage per time (end = start + 2 h), then every group and type for every stage |
| ConfirmEvent.ConfirmDialog.constructor | frontend/app/src/components/ConfirmEvent.tsx:49 | not creating |
| ConfirmEvent.ConfirmDialog.BeginConfirm | frontend/app/src/components/ConfirmEvent.tsx:72-74 | a second confirm while creating is ignored; otherwise the plan is issued |
| ConfirmEvent.ConfirmDialog.FinishConfirm | frontend/app/src/components/ConfirmEvent.tsx:107-122 | creation ends; the failure message shows exactly on failure |
| AppData.EarliestStartIsMinimum | frontend/app/src/context/AppData.tsx:108-128 | the start date is the earliest stage start of the event, or the sentinel when it has none |
| AppData.LatestEndIsMaximum | frontend/app/src/context/AppData.tsx:108-128 | the end date is the latest stage end of the event, or the sentinel when it has none |
| AppData.EventDateRanges | frontend/app/src/context/AppData.tsx:108-128 | the nested loops give every event its earliest start and latest end |
| AppData.TypeNames | frontend/app/src/context/AppData.tsx:131-139 | exactly the names of the group's ticket types |
| AppData.SeatGroupNames | frontend/app/src/context/AppData.tsx:131-139 | one entry per seat group, holding its ticket-type names in order |
| AppData.Resolve | frontend/app/src/context/AppData.tsx:142-171 | a resolved reservation is linked through its ticket type, seat group, stage, event and user; an unknown type or user fails |
| AppData.ResolveComplete | frontend/app/src/context/AppData.tsx:142-171 | with distinct ids, resolving fails exactly when some link is missing |
| AppData.Join | frontend/app/src/context/AppData.tsx:142-171 | a successful join has one detail per reservation |
| AppData.JoinResolvesEach | frontend/app/src/context/AppData.tsx:142-176 | the join fails exactly when some reservation fails to resolve; otherwise each detail is its reservation resolved |
| AppData.UsersFor | frontend/app/src/context/AppData.tsx:97-98 | an admin sees every user; anyone else sees only themself |
| AppData.NonAdminSeesOwn | frontend/app/src/context/AppData.tsx:97-98 | a non-admin's joined reservations are all their own |
| AppData.FutureEvents | frontend/app/src/context/AppData.tsx:190-200 | exactly the events starting after now, ascending by start |
| AppData.PastEvents | frontend/app/src/context/AppData.tsx:202-212 | exactly the events starting at or before now, descending by start |
| AppData.EventsPartitioned | frontend/app/src/context/AppData.tsx:190-212 | together the two lists hold every event exactly once |
| AppData.AppDataStore.constructor | frontend/app/src/context/AppData.tsx:62-77 | empty tables, no task running, not loading |
| AppData.AppDataStore.StartLoad | frontend/app/src/context/AppData.tsx:79-84 | with a user, one more task runs, the error is cleared and loading holds; without one nothing starts; every table, date record and name map is kept either way |
| AppData.AppDataStore.StoreFetched | frontend/app/src/context/AppData.tsx:101-139 | the fetched tables, date ranges and name map are stored, with the user list as UsersFor gives it |
| AppData.AppDataStore.FinishLoad | frontend/app/src/context/AppData.tsx:141-179 | one task ends; a failed fetch only sets the error and keeps every table, date record and name map; otherwise the fetch is stored, and a failed join sets the error while a successful one stores the details |
| AppData.ReservationsOfGroup | frontend/app/src/components/CheckInSeatGroup.tsx:32-34 | exactly the details of the seat group |
| AppData.SeatsTakenSnoc | frontend/app/src/components/EventDuplicater.tsx:83-88 | one more reservation adds its seats when it is of the group |
| AppData.SeatsTakenNonNegative | frontend/app/src/components/CheckInSeatGroup.tsx:35-38 | with no negative reservation, the seats taken are never negative |
| ManageUser.LowerChar | frontend/app/src/pages/ManageUser.tsx:84-88 | `toLowerCase` on one character, ASCII letters only |
| ManageUser.Lower | frontend/app/src/pages/ManageUser.tsx:84-88 | lower-cases every character and keeps the length |
| ManageUser.LowerIdempotent | frontend/app/src/pages/ManageUser.tsx:84-88 | lower-casing twice equals once |
| ManageUser.IncludesOccurs | frontend/app/src/pages/ManageUser.tsx:84-88 | `includes` holds exactly when the term occurs as a substring |
| ManageUser.SearchIsSubstring | frontend/app/src/pages/ManageUser.tsx:84-88 | a user matches exactly when the lower-cased term occurs in the lower-cased nickname or email |
| ManageUser.SearchIgnoresCase | frontend/app/src/pages/ManageUser.tsx:84-88 | the case of the term and of the email does not matter, and the empty term matches everyone |
| ManageUser.FilteredUsers | frontend/app/src/pages/ManageUser.tsx:83-108 | a subsequence of the users: exactly those matching the search with a reservation in the chosen event and stage; an empty choice does not filter |
| ManageUser.PageItems | frontend/app/src/pages/ManageUser.tsx:169-171 | page p shows the items from (p − 1)·10, at most 10 of them |
| ManageUser.PageCount | frontend/app/src/pages/ManageUser.tsx:228-234 | ceil(n / 10) pages |
| ManageUser.PagesArePrefix | frontend/app/src/pages/ManageUser.tsx:169-171 | the first c pages together are the first c·10 items |
| ManageUser.PagesCoverList | frontend/app/src/pages/ManageUser.tsx:228-234 | all pages together are the whole list, and the pager shows exactly when there is more than one page |
| ManageUser.SelectEvent | frontend/app/src/pages/ManageUser.tsx:59-65 | choosing an event clears the stage, goes to page 1, and offers exactly that event's stages |
| ManageUser.SetTerm | frontend/app/src/pages/ManageUser.tsx:68-70 | a new term goes to page 1 |
| ManageUser.SelectStage | frontend/app/src/pages/ManageUser.tsx:68-70 | a new stage goes to page 1 |
| ManageUser.UsersChanged | frontend/app/src/pages/ManageUser.tsx:68-70 | a new user list goes to page 1 and changes nothing else |
| ReservationList.ToggleExpanded | frontend/app/src/pages/ReservationList.tsx:25-27 | clicking the expanded card collapses it; clicking another expands that one |
| ReservationList.ToggleTwice | frontend/app/src/pages/ReservationList.tsx:25-27 | two clicks on a card leave it expanded if it was, and otherwise leave no card expanded |
| ReservationList.UnpaidPastReservations | frontend/app/src/pages/ReservationList.tsx:32-36 | exactly the unpaid reservations that have started |
| ReservationList.HeadBanner | frontend/app/src/pages/ReservationList.tsx:50-62 | "no reservations" exactly when the list is empty |
| ReservationList.BannersShowExactly | frontend/app/src/pages/ReservationList.tsx:44-89 | the unpaid warning shows exactly when some past reservation is unpaid; the past header exactly when some reservation is past |
| ReservationList.Upcoming | frontend/app/src/pages/ReservationList.tsx:63-81 | exactly the reservations starting at or after now, ascending by start |
| ReservationList.Past | frontend/app/src/pages/ReservationList.tsx:91-109 | exactly the reservations starting before now, descending by start |
| ReservationList.ListsPartition | frontend/app/src/pages/ReservationList.tsx:63-109 | each reservation is in exactly one of the two lists |
| ReservationList.ReservationListPage.constructor | frontend/app/src/pages/ReservationList.tsx:20-27 | nothing expanded |
| ReservationList.ReservationListPage.CardClick | frontend/app/src/pages/ReservationList.tsx:25-27 | the expanded card toggles as ToggleExpanded |
| ReservationList.ReservationListPage.Render | frontend/app/src/pages/ReservationList.tsx:63-109 | the two in-place sorts reorder the shared list without losing a reservation; the lists are the upcoming and past ones |
| Sorting.SortPermutes | frontend/app/src/pages/ReservationList.tsx:64 | sorting keeps the same reservations |
| Sorting.SortSorted | frontend/app/src/pages/ReservationList.tsx:64 | sorting with a total preorder gives a sorted list |
| Sorting.SortStable | frontend/app/src/components/CheckInSeatGroup.tsx:124-133 | sorting is stable: equal keys keep their order |
| Sorting.OrdersArePreorders | frontend/app/src/components/CheckInSeatGroup.tsx:124-133 | numeric order, its reverse and `localeCompare` order are total preorders |
| StageManager.HasReservations | frontend/app/src/components/StageManager.tsx:43-49 | one entry per stage, true exactly when some reservation is of that stage |
| StageManager.CanDeleteExactly | frontend/app/src/components/StageManager.tsx:245-250 | a stage's chip can be deleted exactly when it has no reservation |
| StageManager.AddToBucketShape | frontend/app/src/components/StageManager.tsx:54-60 | a new date opens a bucket at the end; a known date keeps every bucket in its place |
| StageManager.AddToBucketStages | frontend/app/src/components/StageManager.tsx:54-60 | the stage goes at the end of its date's bucket; every other date's bucket is untouched |
| StageManager.AddToBucketDates | frontend/app/src/components/StageManager.tsx:54-60 | a date has a bucket afterwards exactly when it had one before or is the stage's date |
| StageManager.AddToBucketUnique | frontend/app/src/components/StageManager.tsx:54-60 | distinct buckets keep distinct dates |
| StageManager.BucketHoldsItsDay | frontend/app/src/components/StageManager.tsx:52-62 | each date's bucket holds exactly that date's stages, in order |
| StageManager.EveryStageBucketed | frontend/app/src/components/StageManager.tsx:52-62 | a date has a bucket exactly when some stage is on that date |
| StageManager.BucketsDistinct | frontend/app/src/components/StageManager.tsx:52-62 | no date has two buckets |
| StageManager.StagesByDate | frontend/app/src/components/StageManager.tsx:52-62 | the loop puts each of the event's stages into exactly the bucket of its date |
| StageManager.SortedTypes | frontend/app/src/components/StageManager.tsx:81-83 | the group's ticket types, sorted by name |
| StageManager.StagePattern | frontend/app/src/components/StageManager.tsx:77-85 | one entry per seat group of the stage |
| StageManager.PatternOf | frontend/app/src/components/StageManager.tsx:94-96 | the pattern stored under a key, or none |
| StageManager.Patterns | frontend/app/src/components/StageManager.tsx:65-99 | no key is stored twice |
| StageManager.FirstWith | frontend/app/src/components/StageManager.tsx:94-96 | the first stage with the key, or none |
| StageManager.FirstStageWins | frontend/app/src/components/StageManager.tsx:65-99 | the pattern under a key is that of the first stage with the key |
| StageManager.OnlyOnePatternIff | frontend/app/src/components/StageManager.tsx:160-167 | at most one pattern exactly when all stages share one key |
| StageManager.GroupEntries | frontend/app/src/components/StageManager.tsx:80-91 | the loop over a stage's seat groups gives one entry per group, in order, with that group's ticket types, and the keys of exactly those entries |
| StageManager.StageEntry | frontend/app/src/components/StageManager.tsx:71-93 | the inner loop builds the stage's groups and its sorted key |
| StageManager.SeatPatterns | frontend/app/src/components/StageManager.tsx:65-99 | the outer loop builds exactly the pattern dictionary |
| StageManager.CheckNewStage | frontend/app/src/components/StageManager.tsx:131-157 | a missing date or time is rejected first, then a start equal to any stage's |
| StageManager.PatternSeats | frontend/app/src/components/StageManager.tsx:177-187 | the copied groups have the pattern's capacities and ticket types |
| StageManager.StagePlanCopiesPattern | frontend/app/src/components/StageManager.tsx:170-189 | a new stage ending two hours after its start, then every pattern group and type for it |
| StageManager.AddStageCalls | frontend/app/src/components/StageManager.tsx:172-189 | the stage, then each pattern group followed by its ticket types: exactly the planned calls, in order |
| StageManager.AddStage | frontend/app/src/components/StageManager.tsx:170-192 | the stage is always created; the groups follow exactly when the key is in the dictionary |
| StageManager.OnStartChosen | frontend/app/src/components/StageManager.tsx:107-115 | with one pattern it is copied at once; with none only the stage is created; with several the dialog opens |
| StageManager.TypeDeletions | frontend/app/src/components/StageManager.tsx:196-200 | exactly the ticket types of the stage's groups are deleted |
| StageManager.GroupDeletions | frontend/app/src/components/StageManager.tsx:196-201 | exactly the stage's groups are deleted |
| StageManager.RemoveStageCalls | frontend/app/src/components/StageManager.tsx:195-205 | types before groups, and the stage last |
| StageManager.RemoveStageDeletesOnlyItsOwn | frontend/app/src/components/StageManager.tsx:195-205 | every deletion is of a ticket type of one of the stage's groups, one of the stage's groups, or the stage itself |
| StageManager.RemoveStageDeletesAll | frontend/app/src/components/StageManager.tsx:195-205 | every ticket type of the stage's groups and every group of the stage is deleted |
| CapacityAdjuster.InitialCapacities | frontend/app/src/components/CapacityAdjuster.tsx:32-36 | one draft per seat-group id, holding the capacity of the last group with it |
| CapacityAdjuster.InitialHoldsEachCapacity | frontend/app/src/components/CapacityAdjuster.tsx:32-36 | with distinct ids, each group's draft starts at its capacity, and there is no other draft |
| CapacityAdjuster.SliderValue | frontend/app/src/components/CapacityAdjuster.tsx:139 | the draft, or 0 without one |
| CapacityAdjuster.SliderMax | frontend/app/src/components/CapacityAdjuster.tsx:143-148 | 50 below 35 seats, else ⌊1.5·capacity⌋ capped at 1000 |
| CapacityAdjuster.SliderReachesCapacity | frontend/app/src/components/CapacityAdjuster.tsx:143-148 | the slider reaches any capacity up to 1000 |
| CapacityAdjuster.SaveUpdates | frontend/app/src/components/CapacityAdjuster.tsx:44-62 | one update for exactly each group whose draft differs from its capacity |
| CapacityAdjuster.NoEditSavesNothing | frontend/app/src/components/CapacityAdjuster.tsx:32-62 | saving without an edit sends nothing |
| CapacityAdjuster.EditedAfterOneEdit | frontend/app/src/components/CapacityAdjuster.tsx:32-62 | after one edit, only that group can count as changed, and only with a new value |
| CapacityAdjuster.OneEditSavesIt | frontend/app/src/components/CapacityAdjuster.tsx:32-62 | after one edit the save sends exactly that group's new capacity, and only when it changed |
| CapacityAdjuster.CapacityEditor.constructor | frontend/app/src/components/CapacityAdjuster.tsx:26-30 | no drafts, no stage open |
| CapacityAdjuster.CapacityEditor.LoadGroups | frontend/app/src/components/CapacityAdjuster.tsx:32-36 | the drafts are reset to the loaded capacities |
| CapacityAdjuster.CapacityEditor.ChangeCapacity | frontend/app/src/components/CapacityAdjuster.tsx:39-41 | only that group's draft changes |
| CapacityAdjuster.CapacityEditor.PressStageButton | frontend/app/src/components/CapacityAdjuster.tsx:106-117 | on the open stage it saves and closes; on another it opens that stage and saves nothing |
| EventDuplicater.Midnight | frontend/app/src/components/EventDuplicater.tsx:41-44 | the start of the day holding the time |
| EventDuplicater.DayNumber | frontend/app/src/components/EventDuplicater.tsx:45-49 | the number of the day holding the time |
| EventDuplicater.DayOffset | frontend/app/src/components/EventDuplicater.tsx:45-49 | the whole days from the event's first day to the chosen day |
| EventDuplicater.ShiftByDays | frontend/app/src/components/EventDuplicater.tsx:61-76 | moving a time by whole days moves its day number by as many |
| EventDuplicater.ShiftLandsOnChosenDay | frontend/app/src/components/EventDuplicater.tsx:41-76 | a time k days after the event's start lands k days after the chosen day |
| EventDuplicater.MaxCapacity | frontend/app/src/components/EventDuplicater.tsx:83-88 | the loop adds the seats of the group's reservations to its free seats |
| EventDuplicater.CopyHasFreeSeats | frontend/app/src/components/EventDuplicater.tsx:83-88 | a copy never has fewer seats than are free now |
| EventDuplicater.CopyGroup | frontend/app/src/components/EventDuplicater.tsx:83-102 | the copy has the full number of seats and a copy of each of the group's ticket types, with the same name and price |
| EventDuplicater.CopyStage | frontend/app/src/components/EventDuplicater.tsx:61-77 | start and end move by the same whole days, so the length is kept; each group is copied |
| EventDuplicater.DuplicatePlan | frontend/app/src/components/EventDuplicater.tsx:51-77 | the name gains "のコピー", the description is kept, and exactly the event's stages are copied |
| EventDuplicater.CopiedStagesKeepTheirDays | frontend/app/src/components/EventDuplicater.tsx:41-77 | each copied stage is as many days after the chosen day as the original was after the event's first day |
| CheckInSeatGroup.GroupTotals | frontend/app/src/components/CheckInSeatGroup.tsx:32-44 | total is the seats reserved in the group, and total seats is total plus the seats left |
| CheckInSeatGroup.PaidWithinTotal | frontend/app/src/components/CheckInSeatGroup.tsx:35-43 | 0 ≤ paid ≤ total; all when every reservation is paid, none when none is |
| CheckInSeatGroup.RemainingTone | frontend/app/src/components/CheckInSeatGroup.tsx:80 | the error colour exactly when no seat is left |
| CheckInSeatGroup.CheckInList | frontend/app/src/components/CheckInSeatGroup.tsx:123-133 | the group's reservations, unpaid ones first |
| CheckInSeatGroup.CheckInListOrder | frontend/app/src/components/CheckInSeatGroup.tsx:123-133 | every unpaid reservation precedes every paid one, and names are in order within each part |
| TicketTypeManager.EventSeatGroups | frontend/app/src/components/TicketTypeManager.tsx:55-66 | exactly the seat groups of the event's stages, in order |
| TicketTypeManager.EventTicketTypes | frontend/app/src/components/TicketTypeManager.tsx:55-76 | exactly the ticket types of those groups, in order |
| TicketTypeManager.ShownTypesBelongToEvent | frontend/app/src/components/TicketTypeManager.tsx:55-76 | a type is shown exactly when its seat group belongs to a stage of the event |
| TicketTypeManager.ReservedTypes | frontend/app/src/components/TicketTypeManager.tsx:79-90 | true exactly for the shown types some reservation is of |
| TicketTypeManager.DeleteDisabledExactly | frontend/app/src/components/TicketTypeManager.tsx:248-257 | a shown type's delete is disabled exactly when some reservation is of it |
| TicketTypeManager.HandleDelete | frontend/app/src/components/TicketTypeManager.tsx:109-123 | nothing for an unknown id; otherwise the type, then its group when it was the group's only type |
| TicketTypeManager.GroupCount | frontend/app/src/components/TicketTypeManager.tsx:113-117 | with distinct ids, a group's types are the deleted one and the others |
| TicketTypeManager.DeleteCascadesWhenLast | frontend/app/src/components/TicketTypeManager.tsx:109-118 | the group is deleted exactly when no other type of it remains |
| TicketTypeManager.HandleAddTicketType | frontend/app/src/components/TicketTypeManager.tsx:126-130 | one placeholder type at price 0 in the group |
| TicketTypeManager.HandleAddSeatGroup | frontend/app/src/components/TicketTypeManager.tsx:139-144 | a group with no seats, then one placeholder type at price 0 in it |
| ClientData.EventStages | frontend/app/src/components/EventDuplicater.tsx:61-62 | exactly the stages of the event |
| ClientData.TypesOfGroups | frontend/app/src/components/ReservationChanger.tsx:86-93 | exactly the ticket types of the given groups |
| ClientData.TypesOfStage | frontend/app/src/components/ReservationCreater.tsx:77-80 | exactly the ticket types of the stage's seat groups |

## Left out

- Concurrency and transactions: the row locks (`with_for_update`), commits and rollbacks are left out. Each handler is one sequential step, so freedom from overbooking under concurrent requests is not modelled.
- Authentication: JWT, cookies and password hashing are foreign libraries. The caller is a (id, is_admin) pair, and `check_admin` is `Models.CheckAdmin`.
- `read_ticket_types` (backend/routes/ticket_type.py:29-33) and `read_seat_groups` (backend/routes/seat_group.py:27-31) return whole tables and check nothing. They are not modelled.
- `CrudReservation.create` is declared with one argument (backend/crud/reservation.py:50), but the route calls it with the ticket type, the user and the data (backend/routes/reservation.py:146). The model follows the three-argument call: the reservation gets the caller's id and the ticket type in the path, and any user id in the body is ignored.
- The request schemas are not part of this model, so positivity of `num_attendees` is not visible in the source. It is an explicit precondition (`numAttendees >= 1`) of the reservation create and update handlers.
- Database errors other than the ones the code raises (a unique-constraint violation on a type name or an email) are modelled as `ServerError` from the CRUD layer. The routes turn them into their own statuses, as the source does.
- Time zones: `toJST` and date-fns are not part of this model. Dates are integer milliseconds, the date key of a day is a function parameter, and `EventDuplicater.Midnight` is taken in UTC.
- `localeCompare` is read as code-point order. `toLowerCase` lowers ASCII letters only.
- Prices are reals, and their text form in the stage key is a parameter (`priceText`). Floating-point rounding and the percentage bars in CheckInSeatGroup.tsx:48-49 are left out.
- `JSON.stringify` of a stage key is one-to-one, so the key is modelled as the sorted list of group keys itself.
- CreateEvent.tsx:45 removes a time by reference (`t !== time`). The model compares values, which is the same when the time object comes from the list itself.
- EditSeatGroup.tsx mutates the shared `ticketTypes` array and seat-group object in place. The model holds them as sequence fields of the editor, so aliasing with the parent's copy is not modelled.
- API calls are returned as plans (sequences of `Call`, `Removal`, `Addition`). Their results, a failure part-way (which leaves a partial copy behind) and the concurrency of `Promise.all` are left out. `EventDuplicater.DuplicatePlan` is a tree of copies rather than a sequence of calls.
- Rendering, MUI components, snack messages, `reloadData` and the memo dependency lists are left out.
- The render-time sorts of StageManager.tsx:221-222 and 235-240, and the stage listing of CapacityAdjuster.tsx:79-81 and 119-121, only order what is shown. They are left out. The in-place sort of each day's times in pages/CreateEvent.tsx:185-187 changes the form state and is modelled (`CreateEventPage.EventForm.Render`).
- TicketTypeManager.tsx `handleSave` (103-106) and the form default values (92-98) only forward form state to the API. They are left out.
- CapacityAdjuster.SliderReachesCapacity: states only that the slider reaches capacities up to 1000; above 1000 the source's slider cannot reach the capacity.

## Findings

| source | as written | input that shows it | evidently intended | confidence | as-written member | corrected member |
|---|---|---|---|---|---|---|
| frontend/app/src/components/CreateEvent.tsx:50-59 | a new seat group gets `id: prev.length` | start with group 0; add (ids 0, 1); delete group 0 (ids [1]); add again: the new group also gets id 1, and a later delete or update of id 1 hits both groups | a fresh id, above every id in use, as pages/CreateEvent.tsx:113-116 does | not executed | CreateEventComponent.AddAfterDeleteCollides | CreateEventComponent.HandleAddSeatGroup |

=== FILE: app_data.dfy ===
/** The application's shared data: everything loaded from the server, each
    event's first and last day, the ticket-type names of each seat group,
    the reservations joined with what they refer to, and the events split
    into coming and past ones. */
module AppData {
  import opened Common
  import opened Sorting
  import opened ClientData

  /** `new Date(3000, 1, 1)` and `new Date(1000, 1, 1)`: 1 February of the
      years 3000 and 1000, in milliseconds (at midnight UTC). */
  const StartSentinel: int := 32506358400000
  const EndSentinel: int := -30607545600000

  // ---------------------------------------------------------------------
  // First and last day of each event

  /** The running earliest start after the first `n` stages: a stage of the
      event replaces it only when strictly earlier. */
  function EarliestStart(stages: seq<StageRow>, eventId: int, n: nat): int
    requires n <= |stages|
  {
    if n == 0 then StartSentinel
    else
      var m := EarliestStart(stages, eventId, n - 1);
      if stages[n - 1].eventId == eventId && stages[n - 1].startTime < m then stages[n - 1].startTime else m
  }

  /** The running latest end after the first `n` stages. */
  function LatestEnd(stages: seq<StageRow>, eventId: int, n: nat): int
    requires n <= |stages|
  {
    if n == 0 then EndSentinel
    else
      var m := LatestEnd(stages, eventId, n - 1);
      if stages[n - 1].eventId == eventId && stages[n - 1].endTime > m then stages[n - 1].endTime else m
  }

  /** The start is the earliest of the event's stage starts and the
      sentinel: no later than any of them, and equal to one of them. */
  lemma {:induction false} EarliestStartIsMinimum(stages: seq<StageRow>, eventId: int, n: nat)
    requires n <= |stages|
    ensures EarliestStart(stages, eventId, n) <= StartSentinel
    ensures forall i :: 0 <= i < n && stages[i].eventId == eventId ==> EarliestStart(stages, eventId, n) <= stages[i].startTime
    ensures EarliestStart(stages, eventId, n) == StartSentinel
            || exists i :: 0 <= i < n && stages[i].eventId == eventId && stages[i].startTime == EarliestStart(stages, eventId, n)
  {
    if n > 0 {
      EarliestStartIsMinimum(stages, eventId, n - 1);
    }
  }

  /** The end is the latest of the event's stage ends and the sentinel. */
  lemma {:induction false} LatestEndIsMaximum(stages: seq<StageRow>, eventId: int, n: nat)
    requires n <= |stages|
    ensures LatestEnd(stages, eventId, n) >= EndSentinel
    ensures forall i :: 0 <= i < n && stages[i].eventId == eventId ==> LatestEnd(stages, eventId, n) >= stages[i].endTime
    ensures LatestEnd(stages, eventId, n) == EndSentinel
            || exists i :: 0 <= i < n && stages[i].eventId == eventId && stages[i].endTime == LatestEnd(stages, eventId, n)
  {
    if n > 0 {
      LatestEndIsMaximum(stages, eventId, n - 1);
    }
  }

  /** The loops of `loadData` that fill the start and end records, one
      entry per event id. */
  method EventDateRanges(events: seq<EventRow>, stages: seq<StageRow>) returns (starts: map<int, int>, ends: map<int, int>)
    ensures starts.Keys == (set i | 0 <= i < |events| :: events[i].id)
    ensures ends.Keys == starts.Keys
    ensures forall id :: id in starts ==> starts[id] == EarliestStart(stages, id, |stages|)
    ensures forall id :: id in ends ==> ends[id] == LatestEnd(stages, id, |stages|)
  {
    starts := map[];
    ends := map[];
    for i := 0 to |events|
      invariant starts.Keys == (set k | 0 <= k < i :: events[k].id)
      invariant ends.Keys == starts.Keys
      invariant forall id :: id in starts ==> starts[id] == EarliestStart(stages, id, |stages|)
      invariant forall id :: id in ends ==> ends[id] == LatestEnd(stages, id, |stages|)
    {
      var id := events[i].id;
      var startDate := StartSentinel;
      var endDate := EndSentinel;
      for j := 0 to |stages|
        invariant startDate == EarliestStart(stages, id, j)
        invariant endDate == LatestEnd(stages, id, j)
      {
        if stages[j].eventId == id {
          if stages[j].startTime < startDate {
            startDate := stages[j].startTime;
          }
          if stages[j].endTime > endDate {
            endDate := stages[j].endTime;
          }
        }
      }
      starts := starts[id := startDate];
      ends := ends[id := endDate];
      assert (set k | 0 <= k < i + 1 :: events[k].id) == (set k | 0 <= k < i :: events[k].id) + {id};
    }
  }

  // ---------------------------------------------------------------------
  // Ticket-type names per seat group

  /** The names of a group's ticket types, in the order of the list. */
  function TypeNames(types: seq<TicketTypeRow>, groupId: int): (names: seq<string>)
    ensures forall n :: n in names <==> exists t :: t in types && t.seatGroupId == groupId && t.typeName == n
  {
    var own := Filter(types, (t: TicketTypeRow) => t.seatGroupId == groupId);
    var names := MapSeq(own, (t: TicketTypeRow) => t.typeName);
    assert forall n :: n in names ==> exists t :: t in types && t.seatGroupId == groupId && t.typeName == n by {
      forall n | n in names ensures exists t :: t in types && t.seatGroupId == groupId && t.typeName == n {
        var i :| 0 <= i < |names| && names[i] == n;
        assert own[i] in types;
      }
    }
    assert forall n :: (exists t :: t in types && t.seatGroupId == groupId && t.typeName == n) ==> n in names by {
      forall n | exists t :: t in types && t.seatGroupId == groupId && t.typeName == n ensures n in names {
        var t :| t in types && t.seatGroupId == groupId && t.typeName == n;
        var k :| 0 <= k < |types| && types[k] == t;
        assert t in own;
        var i :| 0 <= i < |own| && own[i] == t;
        assert names[i] == n;
      }
    }
    names
  }

  /** `seatGroupNames`: one entry per seat group id. */
  function SeatGroupNames(groups: seq<SeatGroupRow>, types: seq<TicketTypeRow>): (m: map<int, seq<string>>)
    ensures m.Keys == set i | 0 <= i < |groups| :: groups[i].id
    ensures forall id :: id in m ==> m[id] == TypeNames(types, id)
  {
    map id | id in (set i | 0 <= i < |groups| :: groups[i].id) :: TypeNames(types, id)
  }

  // ---------------------------------------------------------------------
  // Reservations with what they refer to

  datatype Detail = Detail(
    reservation: ReservationRow, event: EventRow, stage: StageRow,
    seatGroup: SeatGroupRow, ticketType: TicketTypeRow, user: UserRow)

  /** The rows of one reservation's references fit together: the ticket
      type, its seat group, that group's stage, the stage's event, and the
      reservation's user.  A zero stage or event id counts as missing. */
  predicate Linked(res: ReservationRow, t: TicketTypeRow, g: SeatGroupRow, s: StageRow, e: EventRow, u: UserRow)
  {
    && t.id == res.ticketTypeId && g.id == t.seatGroupId
    && g.stageId != 0 && s.id == g.stageId
    && s.eventId != 0 && e.id == s.eventId
    && u.id == res.userId
  }

  /** One reservation of the join.  Each table is looked up as a `Map` built
      from the list, where the last row with an id wins; a missing row, or
      a zero id in a link (a falsy value), makes the whole load fail. */
  function Resolve(res: ReservationRow, types: seq<TicketTypeRow>, groups: seq<SeatGroupRow>,
                   stages: seq<StageRow>, events: seq<EventRow>, users: seq<UserRow>): (r: Option<Detail>)
    ensures r.Some? ==>
              && r.value.reservation == res
              && Linked(res, r.value.ticketType, r.value.seatGroup, r.value.stage, r.value.event, r.value.user)
              && r.value.ticketType in types && r.value.seatGroup in groups && r.value.stage in stages
              && r.value.event in events && r.value.user in users
    ensures (forall i :: 0 <= i < |types| ==> types[i].id != res.ticketTypeId) ==> r.None?
    ensures (forall i :: 0 <= i < |users| ==> users[i].id != res.userId) ==> r.None?
  {
    var t := FindLast(types, (x: TicketTypeRow) => x.id == res.ticketTypeId);
    var g := if t.Some? then FindLast(groups, (x: SeatGroupRow) => x.id == t.value.seatGroupId) else None;
    var s := if g.Some? && g.value.stageId != 0 then FindLast(stages, (x: StageRow) => x.id == g.value.stageId) else None;
    var e := if s.Some? && s.value.eventId != 0 then FindLast(events, (x: EventRow) => x.id == s.value.eventId) else None;
    var u := FindLast(users, (x: UserRow) => x.id == res.userId);
    if t.None? || g.None? || s.None? || e.None? || u.None? then None
    else Some(Detail(res, e.value, s.value, g.value, t.value, u.value))
  }

  predicate UniqueTableIds(types: seq<TicketTypeRow>, groups: seq<SeatGroupRow>, stages: seq<StageRow>, events: seq<EventRow>, users: seq<UserRow>)
  {
    && (forall i, j :: 0 <= i < |types| && 0 <= j < |types| && types[i].id == types[j].id ==> i == j)
    && (forall i, j :: 0 <= i < |groups| && 0 <= j < |groups| && groups[i].id == groups[j].id ==> i == j)
    && (forall i, j :: 0 <= i < |stages| && 0 <= j < |stages| && stages[i].id == stages[j].id ==> i == j)
    && (forall i, j :: 0 <= i < |events| && 0 <= j < |events| && events[i].id == events[j].id ==> i == j)
    && (forall i, j :: 0 <= i < |users| && 0 <= j < |users| && users[i].id == users[j].id ==> i == j)
  }

  /** With one row per id in every table, a reservation fails to resolve
      exactly when no rows link up for it. */
  lemma ResolveComplete(res: ReservationRow, types: seq<TicketTypeRow>, groups: seq<SeatGroupRow>,
                        stages: seq<StageRow>, events: seq<EventRow>, users: seq<UserRow>)
    requires UniqueTableIds(types, groups, stages, events, users)
    ensures Resolve(res, types, groups, stages, events, users).None? <==>
              !exists t, g, s, e, u :: t in types && g in groups && s in stages && e in events && u in users && Linked(res, t, g, s, e, u)
  {
    var r := Resolve(res, types, groups, stages, events, users);
    if r.Some? {
      var d := r.value;
      assert d.ticketType in types && d.seatGroup in groups && d.stage in stages && d.event in events && d.user in users
             && Linked(res, d.ticketType, d.seatGroup, d.stage, d.event, d.user);
    }
    if exists t, g, s, e, u :: t in types && g in groups && s in stages && e in events && u in users && Linked(res, t, g, s, e, u) {
      var t, g, s, e, u :| t in types && g in groups && s in stages && e in events && u in users && Linked(res, t, g, s, e, u);
      FindLastOnly(types, (x: TicketTypeRow) => x.id == res.ticketTypeId, t);
      FindLastOnly(groups, (x: SeatGroupRow) => x.id == t.seatGroupId, g);
      FindLastOnly(stages, (x: StageRow) => x.id == g.stageId, s);
      FindLastOnly(events, (x: EventRow) => x.id == s.eventId, e);
      FindLastOnly(users, (x: UserRow) => x.id == res.userId, u);
      assert r == Some(Detail(res, e, s, g, t, u));
    }
  }

  /** `reservationsData.map(...)`: every reservation resolved, or a failure
      when any one of them does not resolve. */
  function Join(reservations: seq<ReservationRow>, types: seq<TicketTypeRow>, groups: seq<SeatGroupRow>,
                stages: seq<StageRow>, events: seq<EventRow>, users: seq<UserRow>): (r: Option<seq<Detail>>)
    ensures r.Some? ==> |r.value| == |reservations|
    decreases |reservations|
  {
    if reservations == [] then Some([])
    else
      var first := Resolve(reservations[0], types, groups, stages, events, users);
      var rest := Join(reservations[1..], types, groups, stages, events, users);
      if first.None? || rest.None? then None else Some([first.value] + rest.value)
  }

  /** The join fails exactly when some reservation does not resolve, and
      otherwise holds each reservation's resolution in order. */
  lemma {:induction false} JoinResolvesEach(reservations: seq<ReservationRow>, types: seq<TicketTypeRow>, groups: seq<SeatGroupRow>,
                                           stages: seq<StageRow>, events: seq<EventRow>, users: seq<UserRow>)
    ensures var r := Join(reservations, types, groups, stages, events, users);
            && (r.None? <==> exists i :: 0 <= i < |reservations| && Resolve(reservations[i], types, groups, stages, events, users).None?)
            && (r.Some? ==> forall i :: 0 <= i < |reservations| ==> Some(r.value[i]) == Resolve(reservations[i], types, groups, stages, events, users))
    decreases |reservations|
  {
    if reservations != [] {
      var tail := reservations[1..];
      JoinResolvesEach(tail, types, groups, stages, events, users);
      var first := Resolve(reservations[0], types, groups, stages, events, users);
      var rest := Join(tail, types, groups, stages, events, users);
      var r := Join(reservations, types, groups, stages, events, users);
      if first.None? {
        assert r.None?;
      } else if rest.None? {
        assert r.None?;
        var i :| 0 <= i < |tail| && Resolve(tail[i], types, groups, stages, events, users).None?;
        assert reservations[i + 1] == tail[i];
      } else {
        assert r == Some([first.value] + rest.value);
        forall i | 0 <= i < |reservations| ensures Some(r.value[i]) == Resolve(reservations[i], types, groups, stages, events, users) {
          if i > 0 {
            assert reservations[i] == tail[i - 1] && r.value[i] == rest.value[i - 1];
          }
        }
      }
    }
  }

  /** The users list a client holds: everyone for an administrator, only
      the signed-in user otherwise. */
  function UsersFor(user: UserRow, fetchedUsers: seq<UserRow>): (users: seq<UserRow>)
    ensures user.isAdmin ==> users == fetchedUsers
    ensures !user.isAdmin ==> users == [user]
  {
    if user.isAdmin then fetchedUsers else [user]
  }

  /** For a user who is not an administrator, a load that succeeds holds
      only that user's reservations: any other would have no user row. */
  lemma NonAdminSeesOwn(user: UserRow, fetchedUsers: seq<UserRow>, reservations: seq<ReservationRow>,
                        types: seq<TicketTypeRow>, groups: seq<SeatGroupRow>, stages: seq<StageRow>, events: seq<EventRow>)
    requires !user.isAdmin
    requires Join(reservations, types, groups, stages, events, UsersFor(user, fetchedUsers)).Some?
    ensures forall i :: 0 <= i < |reservations| ==> reservations[i].userId == user.id
  {
    var users := UsersFor(user, fetchedUsers);
    JoinResolvesEach(reservations, types, groups, stages, events, users);
    forall i | 0 <= i < |reservations| ensures reservations[i].userId == user.id {
      var r := Resolve(reservations[i], types, groups, stages, events, users);
      assert r.Some?;
    }
  }

  // ---------------------------------------------------------------------
  // Coming and past events

  /** An event's start from the record; an event without an entry compares
      false both ways, so it is in neither list. */
  predicate IsFuture(starts: map<int, int>, now: int, e: EventRow)
  {
    e.id in starts && starts[e.id] > now
  }

  predicate IsPast(starts: map<int, int>, now: int, e: EventRow)
  {
    e.id in starts && starts[e.id] <= now
  }

  function EventStart(starts: map<int, int>, e: EventRow): int
  {
    if e.id in starts then starts[e.id] else 0
  }

  /** `futureEvents`: the events starting after `now`, earliest first; the
      sort is stable, so events starting together keep the list's order. */
  function FutureEvents(events: seq<EventRow>, starts: map<int, int>, now: int): (r: seq<EventRow>)
    ensures multiset(r) == multiset(Filter(events, (e: EventRow) => IsFuture(starts, now, e)))
    ensures forall e :: e in r ==> IsFuture(starts, now, e)
    ensures forall i, j :: 0 <= i < j < |r| ==> EventStart(starts, r[i]) <= EventStart(starts, r[j])
  {
    var chosen := Filter(events, (e: EventRow) => IsFuture(starts, now, e));
    var key := (e: EventRow) => EventStart(starts, e);
    OrdersArePreorders();
    SortPermutes(chosen, key, IntLe);
    SortSorted(chosen, key, IntLe);
    var r := SortBy(chosen, key, IntLe);
    assert forall e :: e in r ==> e in multiset(chosen);
    r
  }

  /** `pastEvents`: the events starting at or before `now`, latest first. */
  function PastEvents(events: seq<EventRow>, starts: map<int, int>, now: int): (r: seq<EventRow>)
    ensures multiset(r) == multiset(Filter(events, (e: EventRow) => IsPast(starts, now, e)))
    ensures forall e :: e in r ==> IsPast(starts, now, e)
    ensures forall i, j :: 0 <= i < j < |r| ==> EventStart(starts, r[i]) >= EventStart(starts, r[j])
  {
    var chosen := Filter(events, (e: EventRow) => IsPast(starts, now, e));
    var key := (e: EventRow) => EventStart(starts, e);
    OrdersArePreorders();
    SortPermutes(chosen, key, IntGe);
    SortSorted(chosen, key, IntGe);
    var r := SortBy(chosen, key, IntGe);
    assert forall e :: e in r ==> e in multiset(chosen);
    r
  }

  /** Every event with a start date is in exactly one of the two lists, and
      only once. */
  lemma EventsPartitioned(events: seq<EventRow>, starts: map<int, int>, now: int)
    requires forall i :: 0 <= i < |events| ==> events[i].id in starts
    ensures multiset(FutureEvents(events, starts, now)) + multiset(PastEvents(events, starts, now)) == multiset(events)
  {
    FilterPartition(events, (e: EventRow) => IsFuture(starts, now, e), (e: EventRow) => IsPast(starts, now, e));
  }

  // ---------------------------------------------------------------------
  // The store

  /** What one load fetches. */
  datatype Fetched = Fetched(
    events: seq<EventRow>, stages: seq<StageRow>, seatGroups: seq<SeatGroupRow>,
    ticketTypes: seq<TicketTypeRow>, reservations: seq<ReservationRow>, users: seq<UserRow>)

  class AppDataStore {
    var events: seq<EventRow>
    var stages: seq<StageRow>
    var seatGroups: seq<SeatGroupRow>
    var ticketTypes: seq<TicketTypeRow>
    var users: seq<UserRow>
    var reservations: seq<Detail>
    var eventStartDates: map<int, int>
    var eventEndDates: map<int, int>
    var seatGroupNames: map<int, seq<string>>
    /** Loads under way. */
    var tasks: nat
    /** The load error is shown. */
    var failed: bool

    constructor ()
      ensures events == [] && stages == [] && seatGroups == [] && ticketTypes == [] && users == [] && reservations == []
      ensures eventStartDates == map[] && eventEndDates == map[] && seatGroupNames == map[]
      ensures tasks == 0 && !failed && !Loading()
    {
      events := [];
      stages := [];
      seatGroups := [];
      ticketTypes := [];
      users := [];
      reservations := [];
      eventStartDates := map[];
      eventEndDates := map[];
      seatGroupNames := map[];
      tasks := 0;
      failed := false;
    }

    /** `loading`. */
    predicate Loading()
      reads this
    {
      tasks > 0
    }

    /** The start of `loadData`: nothing happens without a signed-in user;
        otherwise the error is cleared and one more load is under way. */
    method StartLoad(user: Option<UserRow>) returns (started: bool)
      modifies this
      ensures started <==> user.Some?
      ensures started ==> tasks == old(tasks) + 1 && !failed && Loading()
      ensures !started ==> tasks == old(tasks) && failed == old(failed)
      ensures events == old(events) && stages == old(stages) && seatGroups == old(seatGroups)
      ensures ticketTypes == old(ticketTypes) && users == old(users) && reservations == old(reservations)
      ensures eventStartDates == old(eventStartDates) && eventEndDates == old(eventEndDates)
      ensures seatGroupNames == old(seatGroupNames)
    {
      if user.None? {
        return false;
      }
      failed := false;
      tasks := tasks + 1;
      started := true;
    }

    /** The tables, the date records and the names hold what was fetched
        for this user. */
    ghost predicate HoldsFetched(user: UserRow, f: Fetched)
      reads this
    {
      && events == f.events && stages == f.stages && seatGroups == f.seatGroups
      && ticketTypes == f.ticketTypes && users == UsersFor(user, f.users)
      && eventStartDates.Keys == (set i | 0 <= i < |f.events| :: f.events[i].id)
      && (forall id :: id in eventStartDates ==> eventStartDates[id] == EarliestStart(f.stages, id, |f.stages|))
      && eventEndDates.Keys == eventStartDates.Keys
      && (forall id :: id in eventEndDates ==> eventEndDates[id] == LatestEnd(f.stages, id, |f.stages|))
      && seatGroupNames == SeatGroupNames(f.seatGroups, f.ticketTypes)
    }

    /** Storing a successful fetch, before the join. */
    method StoreFetched(user: UserRow, f: Fetched)
      modifies this
      ensures HoldsFetched(user, f)
      ensures tasks == old(tasks) && failed == old(failed) && reservations == old(reservations)
    {
      events := f.events;
      stages := f.stages;
      seatGroups := f.seatGroups;
      ticketTypes := f.ticketTypes;
      users := UsersFor(user, f.users);
      eventStartDates, eventEndDates := EventDateRanges(f.events, f.stages);
      seatGroupNames := SeatGroupNames(f.seatGroups, f.ticketTypes);
    }

    /** The end of `loadData`.  A failed fetch only shows the error.
        Otherwise the tables, the date records and the names are stored;
        then the join either stores the reservations or shows the error.
        Either way one load fewer is under way. */
    method FinishLoad(user: UserRow, fetched: Option<Fetched>)
      requires tasks > 0
      modifies this
      ensures tasks == old(tasks) - 1
      ensures fetched.None? ==>
                && failed && events == old(events) && stages == old(stages) && seatGroups == old(seatGroups)
                && ticketTypes == old(ticketTypes) && users == old(users) && reservations == old(reservations)
                && eventStartDates == old(eventStartDates) && eventEndDates == old(eventEndDates)
                && seatGroupNames == old(seatGroupNames)
      ensures fetched.Some? ==>
                var f := fetched.value;
                var joined := Join(f.reservations, f.ticketTypes, f.seatGroups, f.stages, f.events, UsersFor(user, f.users));
                && HoldsFetched(user, f)
                && (joined.Some? ==> reservations == joined.value && failed == old(failed))
                && (joined.None? ==> reservations == old(reservations) && failed)
    {
      tasks := tasks - 1;
      if fetched.None? {
        failed := true;
        return;
      }
      var f := fetched.value;
      StoreFetched(user, f);
      var joined := Join(f.reservations, f.ticketTypes, f.seatGroups, f.stages, f.events, users);
      if joined.Some? {
        reservations := joined.value;
      } else {
        failed := true;
      }
    }
  }

  // ---------------------------------------------------------------------
  // Seats held by reservations

  /** `data => data.seatGroup.id === groupId`. */
  function InGroup(groupId: int): Detail -> bool
  {
    (d: Detail) => d.seatGroup.id == groupId
  }

  /** The joined reservations of one seat group, in list order. */
  function ReservationsOfGroup(rs: seq<Detail>, groupId: int): (r: seq<Detail>)
    ensures forall d :: d in r <==> d in rs && d.seatGroup.id == groupId
  {
    Filter(rs, InGroup(groupId))
  }

  /** A reservation's number of attendees. */
  function Seats(d: Detail): int
  {
    d.reservation.numAttendees
  }

  /** The seats the reservations of a group hold. */
  function SeatsTaken(rs: seq<Detail>, groupId: int): int
  {
    Sum(ReservationsOfGroup(rs, groupId), Seats)
  }

  /** One more reservation adds its seats when it is of the group. */
  lemma SeatsTakenSnoc(rs: seq<Detail>, d: Detail, groupId: int)
    ensures SeatsTaken(rs + [d], groupId) == SeatsTaken(rs, groupId) + (if d.seatGroup.id == groupId then Seats(d) else 0)
  {
    FilterSnoc(rs, d, InGroup(groupId));
    SumAppend(ReservationsOfGroup(rs, groupId), if d.seatGroup.id == groupId then [d] else [], Seats);
    assert Sum([d], Seats) == Seats(d) + Sum([d][1..], Seats);
  }

  /** With no negative reservation, a group's reservations hold no negative
      number of seats. */
  lemma SeatsTakenNonNegative(rs: seq<Detail>, groupId: int)
    requires forall i :: 0 <= i < |rs| ==> rs[i].reservation.numAttendees >= 0
    ensures SeatsTaken(rs, groupId) >= 0
  {
    var mine := ReservationsOfGroup(rs, groupId);
    forall i | 0 <= i < |mine| ensures Seats(mine[i]) >= 0 {
      var j :| 0 <= j < |rs| && rs[j] == mine[i];
    }
    SumNonNegative(mine, Seats);
  }
}

=== FILE: capacity_adjuster.dfy ===
/** The capacity adjuster of an event: a draft capacity per seat group,
    edited one stage at a time, and saved as one update per seat group whose
    draft differs from the loaded capacity. */
module CapacityAdjuster {
  import opened Common
  import opened ClientData

  // ---------------------------------------------------------------------
  // Drafts

  /** The last seat group with an id. */
  function LastGroup(groups: seq<SeatGroupRow>, id: int): Option<SeatGroupRow>
  {
    FindLast(groups, (g: SeatGroupRow) => g.id == id)
  }

  /** `Object.fromEntries(seatGroups.map(sg => [sg.id, sg.capacity]))`:
      one entry per id, holding the capacity of the last group with that id
      (a later pair overwrites an earlier one). */
  function InitialCapacities(groups: seq<SeatGroupRow>): (m: map<int, int>)
    ensures forall id :: id in m <==> LastGroup(groups, id).Some?
    ensures forall id :: id in m ==> m[id] == LastGroup(groups, id).value.capacity
    decreases |groups|
  {
    if groups == [] then map[]
    else
      var last := groups[|groups| - 1];
      InitialCapacities(groups[..|groups| - 1])[last.id := last.capacity]
  }

  predicate UniqueGroupIds(groups: seq<SeatGroupRow>)
  {
    forall i, j :: 0 <= i < |groups| && 0 <= j < |groups| && groups[i].id == groups[j].id ==> i == j
  }

  /** With distinct ids, every group's draft starts at its capacity, and
      there is no other draft. */
  lemma InitialHoldsEachCapacity(groups: seq<SeatGroupRow>)
    requires UniqueGroupIds(groups)
    ensures forall i :: 0 <= i < |groups| ==>
              groups[i].id in InitialCapacities(groups) && InitialCapacities(groups)[groups[i].id] == groups[i].capacity
    ensures forall id :: id in InitialCapacities(groups) ==> exists i :: 0 <= i < |groups| && groups[i].id == id
  {
    var m := InitialCapacities(groups);
    forall i | 0 <= i < |groups| ensures groups[i].id in m && m[groups[i].id] == groups[i].capacity {
      var found := LastGroup(groups, groups[i].id);
      assert found.Some?;
      var k :| 0 <= k < |groups| && groups[k] == found.value && groups[k].id == groups[i].id;
    }
    forall id | id in m ensures exists i :: 0 <= i < |groups| && groups[i].id == id {
      var k :| 0 <= k < |groups| && groups[k] == LastGroup(groups, id).value && groups[k].id == id;
    }
  }

  /** `newCapacities[sg.id] || 0`: the slider's position; a missing draft
      (and a draft of 0) shows 0. */
  function SliderValue(m: map<int, int>, id: int): (v: int)
    ensures id in m ==> v == m[id]
    ensures id !in m ==> v == 0
  {
    if id in m then m[id] else 0
  }

  /** The slider's upper bound: 50 below 35 seats, otherwise one and a half
      times the capacity rounded down, at most 1000. */
  function SliderMax(capacity: int): (m: int)
    ensures capacity < 35 ==> m == 50
    ensures 35 <= capacity <= 666 ==> 2 * m <= 3 * capacity < 2 * m + 2
    ensures 667 <= capacity ==> m == 1000
    ensures 50 <= m <= 1000
  {
    if capacity < 35 then 50 else Min(3 * capacity / 2, 1000)
  }

  /** The slider always reaches the group's current capacity, up to 1000. */
  lemma SliderReachesCapacity(capacity: int)
    requires 0 <= capacity <= 1000
    ensures 0 <= capacity <= SliderMax(capacity)
  {
  }

  // ---------------------------------------------------------------------
  // Saving

  /** `updateSeatGroup(sg.id, { capacity: newCapacities[sg.id] })`; a group
      without a draft sends no capacity. */
  datatype CapacityUpdate = CapacityUpdate(seatGroupId: int, capacity: Option<int>)

  /** `sg.capacity !== newCapacities[sg.id]`: a missing draft reads as
      `undefined`, which differs from every number. */
  predicate Edited(g: SeatGroupRow, m: map<int, int>)
  {
    !(g.id in m && m[g.id] == g.capacity)
  }

  function UpdateFor(g: SeatGroupRow, m: map<int, int>): CapacityUpdate
  {
    CapacityUpdate(g.id, if g.id in m then Some(m[g.id]) else None)
  }

  /** `handleSave`: the updates come in the order of `groups`, the whole
      list and not only the open stage's, one for each group whose draft
      differs from its capacity and none for the others. */
  function SaveUpdates(groups: seq<SeatGroupRow>, m: map<int, int>): (r: seq<CapacityUpdate>)
    ensures forall k :: 0 <= k < |r| ==> exists i :: 0 <= i < |groups| && Edited(groups[i], m) && r[k] == UpdateFor(groups[i], m)
    ensures forall i :: 0 <= i < |groups| && Edited(groups[i], m) ==> UpdateFor(groups[i], m) in r
    ensures (forall i :: 0 <= i < |groups| ==> !Edited(groups[i], m)) ==> r == []
  {
    var edited := Filter(groups, (g: SeatGroupRow) => Edited(g, m));
    var r := MapSeq(edited, (g: SeatGroupRow) => UpdateFor(g, m));
    forall k | 0 <= k < |r| ensures exists i :: 0 <= i < |groups| && Edited(groups[i], m) && r[k] == UpdateFor(groups[i], m) {
      var i :| 0 <= i < |groups| && groups[i] == edited[k];
    }
    assert (forall i :: 0 <= i < |groups| ==> !Edited(groups[i], m)) ==> r == [] by {
      if r != [] {
        var i :| 0 <= i < |groups| && groups[i] == edited[0];
      }
    }
    forall i | 0 <= i < |groups| && Edited(groups[i], m) ensures UpdateFor(groups[i], m) in r {
      var k :| 0 <= k < |edited| && edited[k] == groups[i];
      assert r[k] == UpdateFor(groups[i], m);
    }
    r
  }

  /** Saving without an edit sends nothing. */
  lemma NoEditSavesNothing(groups: seq<SeatGroupRow>)
    requires UniqueGroupIds(groups)
    ensures SaveUpdates(groups, InitialCapacities(groups)) == []
  {
    InitialHoldsEachCapacity(groups);
  }

  /** After one edit, a group counts as edited exactly when it is the
      edited one and the new value differs from its capacity. */
  lemma EditedAfterOneEdit(groups: seq<SeatGroupRow>, id: int, capacity: int)
    requires UniqueGroupIds(groups)
    ensures forall i :: 0 <= i < |groups| ==>
              (Edited(groups[i], InitialCapacities(groups)[id := capacity]) <==> groups[i].id == id && groups[i].capacity != capacity)
    ensures forall i :: 0 <= i < |groups| && groups[i].id == id ==>
              UpdateFor(groups[i], InitialCapacities(groups)[id := capacity]) == CapacityUpdate(id, Some(capacity))
  {
    InitialHoldsEachCapacity(groups);
  }

  /** After one edit the save sends exactly that group's new capacity, and
      only when it differs from the loaded one. */
  lemma OneEditSavesIt(groups: seq<SeatGroupRow>, id: int, capacity: int)
    requires UniqueGroupIds(groups)
    ensures var r := SaveUpdates(groups, InitialCapacities(groups)[id := capacity]);
            && (forall k :: 0 <= k < |r| ==> r[k] == CapacityUpdate(id, Some(capacity)))
            && (forall i :: 0 <= i < |groups| && groups[i].id == id && groups[i].capacity != capacity ==>
                  CapacityUpdate(id, Some(capacity)) in r)
            && ((forall i :: 0 <= i < |groups| && groups[i].id == id ==> groups[i].capacity == capacity) ==> r == [])
  {
    var m := InitialCapacities(groups)[id := capacity];
    EditedAfterOneEdit(groups, id, capacity);
    var r := SaveUpdates(groups, m);
    forall k | 0 <= k < |r| ensures r[k] == CapacityUpdate(id, Some(capacity)) {
      var i :| 0 <= i < |groups| && Edited(groups[i], m) && r[k] == UpdateFor(groups[i], m);
    }
  }

  // ---------------------------------------------------------------------
  // The component

  class CapacityEditor {
    /** `newCapacities`: the draft capacity of each seat group. */
    var drafts: map<int, int>
    /** `changingStage`: the stage whose sliders are enabled, if any. */
    var changingStage: Option<int>

    constructor ()
      ensures drafts == map[] && changingStage == None
    {
      drafts := map[];
      changingStage := None;
    }

    /** The sliders of a stage move only while it is the stage being
        changed. */
    predicate Editable(stageId: int)
      reads this
    {
      changingStage == Some(stageId)
    }

    /** The effect on `seatGroups`: each draft is reset to the loaded
        capacity. */
    method LoadGroups(groups: seq<SeatGroupRow>)
      modifies this
      ensures drafts == InitialCapacities(groups)
      ensures changingStage == old(changingStage)
    {
      drafts := InitialCapacities(groups);
    }

    /** `handleCapacityChange`: only that group's draft changes. */
    method ChangeCapacity(id: int, capacity: int)
      modifies this
      ensures drafts == old(drafts)[id := capacity]
      ensures forall other :: other != id && other in old(drafts) ==> other in drafts && drafts[other] == old(drafts)[other]
      ensures changingStage == old(changingStage)
    {
      drafts := drafts[id := capacity];
    }

    /** The stage's button: pressing it on the stage being changed saves the
        drafts and closes the stage; on any other stage it opens that stage
        instead, saving nothing (drafts of the stage left open stay). */
    method PressStageButton(stageId: int, groups: seq<SeatGroupRow>) returns (saved: seq<CapacityUpdate>)
      modifies this
      ensures old(changingStage) == Some(stageId) ==> changingStage == None && saved == SaveUpdates(groups, drafts)
      ensures old(changingStage) != Some(stageId) ==> changingStage == Some(stageId) && saved == []
      ensures drafts == old(drafts)
    {
      if changingStage == Some(stageId) {
        saved := SaveUpdates(groups, drafts);
        changingStage := None;
      } else {
        saved := [];
        changingStage := Some(stageId);
      }
    }
  }
}

=== FILE: check_in_seat_group.dfy ===
/** One seat group on the check-in page: its totals, the colour of the
    seats left, and its reservations listed unpaid first, by name. */
module CheckInSeatGroup {
  import opened Common
  import opened Sorting
  import opened ClientData
  import opened AppData

  // ---------------------------------------------------------------------
  // Totals

  /** A reservation's seats when it is paid, none otherwise. */
  function PaidSeats(d: Detail): int
  {
    if d.reservation.isPaid then d.reservation.numAttendees else 0
  }

  datatype Totals = Totals(total: int, paid: int, totalSeats: int)

  /** `total`, `paid` and `totalCapacity` of a seat group. */
  function GroupTotals(reservations: seq<Detail>, seatGroup: SeatGroupRow): (t: Totals)
    ensures t.total == SeatsTaken(reservations, seatGroup.id)
    ensures t.totalSeats == t.total + seatGroup.capacity
  {
    var total := SeatsTaken(reservations, seatGroup.id);
    var paid := Sum(ReservationsOfGroup(reservations, seatGroup.id), PaidSeats);
    Totals(total, paid, total + seatGroup.capacity)
  }

  /** With no negative reservation, the paid seats are between none and
      all of the reserved ones; all of them when every reservation is paid,
      none when no reservation is. */
  lemma PaidWithinTotal(reservations: seq<Detail>, seatGroup: SeatGroupRow)
    requires forall i :: 0 <= i < |reservations| ==> reservations[i].reservation.numAttendees >= 0
    ensures var t := GroupTotals(reservations, seatGroup);
            0 <= t.paid <= t.total
    ensures (forall i :: 0 <= i < |reservations| && reservations[i].seatGroup.id == seatGroup.id ==> reservations[i].reservation.isPaid)
              ==> GroupTotals(reservations, seatGroup).paid == GroupTotals(reservations, seatGroup).total
    ensures (forall i :: 0 <= i < |reservations| && reservations[i].seatGroup.id == seatGroup.id ==> !reservations[i].reservation.isPaid)
              ==> GroupTotals(reservations, seatGroup).paid == 0
  {
    var mine := ReservationsOfGroup(reservations, seatGroup.id);
    forall i | 0 <= i < |mine| ensures 0 <= PaidSeats(mine[i]) <= Seats(mine[i]) {
      var j :| 0 <= j < |reservations| && reservations[j] == mine[i];
    }
    SumMonotone(mine, PaidSeats, Seats);
    SumNonNegative(mine, PaidSeats);
    if forall i :: 0 <= i < |reservations| && reservations[i].seatGroup.id == seatGroup.id ==> reservations[i].reservation.isPaid {
      forall i | 0 <= i < |mine| ensures Seats(mine[i]) <= PaidSeats(mine[i]) {
        var j :| 0 <= j < |reservations| && reservations[j] == mine[i];
      }
      SumMonotone(mine, Seats, PaidSeats);
    }
    if forall i :: 0 <= i < |reservations| && reservations[i].seatGroup.id == seatGroup.id ==> !reservations[i].reservation.isPaid {
      forall i | 0 <= i < |mine| ensures PaidSeats(mine[i]) <= 0 {
        var j :| 0 <= j < |reservations| && reservations[j] == mine[i];
      }
      SumAtMost(mine, PaidSeats, 0);
    }
  }

  /** The colour of the seats left. */
  datatype Tone = ErrorTone | SuccessTone

  function RemainingTone(capacity: int): (t: Tone)
    ensures t == ErrorTone <==> capacity == 0
  {
    if capacity == 0 then ErrorTone else SuccessTone
  }

  // ---------------------------------------------------------------------
  // The list

  /** `a.user.nickname || a.user.email`: an empty nickname counts as none. */
  function DisplayName(d: Detail): string
  {
    if d.user.nickname.Some? && d.user.nickname.value != "" then d.user.nickname.value else d.user.email
  }

  /** `Number(is_paid)`. */
  function PaidRank(d: Detail): int
  {
    if d.reservation.isPaid then 1 else 0
  }

  /** The group's reservations sorted by name, then stably by payment. */
  function CheckInList(reservations: seq<Detail>, groupId: int): (r: seq<Detail>)
    ensures multiset(r) == multiset(ReservationsOfGroup(reservations, groupId))
    ensures SortedBy(r, PaidRank, IntLe)
  {
    var mine := ReservationsOfGroup(reservations, groupId);
    var byName := SortBy(mine, DisplayName, StringLe);
    OrdersArePreorders();
    SortPermutes(mine, DisplayName, StringLe);
    SortPermutes(byName, PaidRank, IntLe);
    SortSorted(byName, PaidRank, IntLe);
    SortBy(byName, PaidRank, IntLe)
  }

  /** Every unpaid reservation comes before every paid one, and within each
      of the two parts the names are in order. */
  lemma CheckInListOrder(reservations: seq<Detail>, groupId: int)
    ensures var r := CheckInList(reservations, groupId);
            forall i, j :: 0 <= i < |r| && 0 <= j < |r| && !r[i].reservation.isPaid && r[j].reservation.isPaid ==> i < j
    ensures var r := CheckInList(reservations, groupId);
            forall i, j :: 0 <= i < j < |r| && PaidRank(r[i]) == PaidRank(r[j]) ==> StringLe(DisplayName(r[i]), DisplayName(r[j]))
  {
    var mine := ReservationsOfGroup(reservations, groupId);
    var byName := SortBy(mine, DisplayName, StringLe);
    var r := CheckInList(reservations, groupId);
    OrdersArePreorders();
    SortSorted(mine, DisplayName, StringLe);
    forall i, j | 0 <= i < j < |r| && PaidRank(r[i]) == PaidRank(r[j]) ensures StringLe(DisplayName(r[i]), DisplayName(r[j])) {
      var k := PaidRank(r[i]);
      var p := SameClass(PaidRank, IntLe, k);
      SortStable(byName, PaidRank, IntLe, k);
      FilterKeepsSorted(byName, DisplayName, StringLe, p);
      SortedFilterPairs(r, p, DisplayName, StringLe);
      assert p(r[i]) && p(r[j]);
    }
  }
}

=== FILE: client_data.dfy ===
/** The records the browser receives from the server, as the components
    use them.  Dates are abstract integers (milliseconds since the epoch);
    prices are reals. */
module ClientData {
  import opened Common

  datatype EventRow = EventRow(id: int, name: string, description: string)
  datatype StageRow = StageRow(id: int, eventId: int, startTime: int, endTime: int)
  datatype SeatGroupRow = SeatGroupRow(id: int, stageId: int, capacity: int)
  datatype TicketTypeRow = TicketTypeRow(id: int, seatGroupId: int, typeName: string, price: real)
  datatype ReservationRow = ReservationRow(id: int, ticketTypeId: int, userId: int, numAttendees: int, isPaid: bool)
  datatype UserRow = UserRow(id: int, email: string, nickname: Option<string>, isAdmin: bool)

  /** Two hours, the fixed length of a stage. */
  const TwoHours: int := 2 * 60 * 60 * 1000
  /** One day. */
  const Day: int := 24 * 60 * 60 * 1000

  /** `list.find(x => x.id === id)` on each kind of row. */
  function FindStage(stages: seq<StageRow>, id: int): (r: Option<StageRow>)
    ensures r.Some? ==> r.value in stages && r.value.id == id
    ensures r.None? ==> forall i :: 0 <= i < |stages| ==> stages[i].id != id
  {
    var r := Find(stages, (s: StageRow) => s.id == id);
    assert r.None? ==> forall i :: 0 <= i < |stages| ==> !((s: StageRow) => s.id == id)(stages[i]);
    r
  }

  function FindSeatGroup(groups: seq<SeatGroupRow>, id: int): (r: Option<SeatGroupRow>)
    ensures r.Some? ==> r.value in groups && r.value.id == id
    ensures r.None? ==> forall i :: 0 <= i < |groups| ==> groups[i].id != id
  {
    var r := Find(groups, (g: SeatGroupRow) => g.id == id);
    assert r.None? ==> forall i :: 0 <= i < |groups| ==> !((g: SeatGroupRow) => g.id == id)(groups[i]);
    r
  }

  function FindTicketType(types: seq<TicketTypeRow>, id: int): (r: Option<TicketTypeRow>)
    ensures r.Some? ==> r.value in types && r.value.id == id
    ensures r.None? ==> forall i :: 0 <= i < |types| ==> types[i].id != id
  {
    var r := Find(types, (t: TicketTypeRow) => t.id == id);
    assert r.None? ==> forall i :: 0 <= i < |types| ==> !((t: TicketTypeRow) => t.id == id)(types[i]);
    r
  }

  function FindEvent(events: seq<EventRow>, id: int): (r: Option<EventRow>)
    ensures r.Some? ==> r.value in events && r.value.id == id
    ensures r.None? ==> forall i :: 0 <= i < |events| ==> events[i].id != id
  {
    var r := Find(events, (e: EventRow) => e.id == id);
    assert r.None? ==> forall i :: 0 <= i < |events| ==> !((e: EventRow) => e.id == id)(events[i]);
    r
  }

  function FindUser(users: seq<UserRow>, id: int): (r: Option<UserRow>)
    ensures r.Some? ==> r.value in users && r.value.id == id
    ensures r.None? ==> forall i :: 0 <= i < |users| ==> users[i].id != id
  {
    var r := Find(users, (u: UserRow) => u.id == id);
    assert r.None? ==> forall i :: 0 <= i < |users| ==> !((u: UserRow) => u.id == id)(users[i]);
    r
  }

  /** The stages of one event. */
  function EventStages(stages: seq<StageRow>, eventId: int): (r: seq<StageRow>)
    ensures forall s :: s in r <==> s in stages && s.eventId == eventId
  {
    var r := Filter(stages, (s: StageRow) => s.eventId == eventId);
    assert forall s :: s in stages && s.eventId == eventId ==> s in r by {
      forall s | s in stages && s.eventId == eventId ensures s in r {
        var i :| 0 <= i < |stages| && stages[i] == s;
      }
    }
    r
  }

  /** The seat groups of a stage, in list order. */
  function GroupsOfStage(groups: seq<SeatGroupRow>, stageId: int): (r: seq<SeatGroupRow>)
    ensures forall i :: 0 <= i < |r| ==> r[i] in groups && r[i].stageId == stageId
    ensures forall i :: 0 <= i < |groups| && groups[i].stageId == stageId ==> groups[i] in r
  {
    Filter(groups, (g: SeatGroupRow) => g.stageId == stageId)
  }

  /** For each group in turn, its ticket types in list order, one after
      another (the `groups.map(g => types.push(...filter))` idiom). */
  function TypesOfGroups(groups: seq<SeatGroupRow>, types: seq<TicketTypeRow>): (r: seq<TicketTypeRow>)
    ensures forall i :: 0 <= i < |r| ==> r[i] in types && exists j :: 0 <= j < |groups| && groups[j].id == r[i].seatGroupId
    ensures forall i, j :: 0 <= i < |types| && 0 <= j < |groups| && groups[j].id == types[i].seatGroupId ==> types[i] in r
    decreases |groups|
  {
    if groups == [] then []
    else
      var here := Filter(types, (t: TicketTypeRow) => t.seatGroupId == groups[0].id);
      var rest := TypesOfGroups(groups[1..], types);
      assert forall i :: 0 <= i < |rest| ==> exists j :: 0 <= j < |groups| && groups[j].id == rest[i].seatGroupId by {
        forall i | 0 <= i < |rest| ensures exists j :: 0 <= j < |groups| && groups[j].id == rest[i].seatGroupId {
          var j :| 0 <= j < |groups[1..]| && groups[1..][j].id == rest[i].seatGroupId;
          assert groups[j + 1].id == rest[i].seatGroupId;
        }
      }
      forall i, j | 0 <= i < |types| && 0 <= j < |groups| && groups[j].id == types[i].seatGroupId
        ensures types[i] in here + rest {
        if j > 0 {
          assert groups[1..][j - 1] == groups[j];
        }
      }
      here + rest
  }

  /** `g => g.id === groupId`. */
  function GroupIdIs(groupId: int): SeatGroupRow -> bool
  {
    (g: SeatGroupRow) => g.id == groupId
  }

  /** `t => groups.some(g => g.id === t.seat_group_id)`. */
  function InGroups(groups: seq<SeatGroupRow>): TicketTypeRow -> bool
  {
    (t: TicketTypeRow) => Any(groups, GroupIdIs(t.seatGroupId))
  }

  /** A ticket type passes exactly when one of the groups is its own. */
  lemma InGroupsMeans(groups: seq<SeatGroupRow>, t: TicketTypeRow)
    ensures InGroups(groups)(t) <==> exists g :: g in groups && g.id == t.seatGroupId
  {
    if InGroups(groups)(t) {
      var g := AnyWitness(groups, GroupIdIs(t.seatGroupId));
    }
    if exists g :: g in groups && g.id == t.seatGroupId {
      var g :| g in groups && g.id == t.seatGroupId;
      AnyOf(groups, GroupIdIs(t.seatGroupId), g);
    }
  }

  /** The ticket types of a stage: those whose group belongs to it. */
  function TypesOfStage(stageId: int, groups: seq<SeatGroupRow>, types: seq<TicketTypeRow>): (r: seq<TicketTypeRow>)
    ensures forall t :: t in r <==> t in types && exists i :: 0 <= i < |groups| && groups[i].stageId == stageId && groups[i].id == t.seatGroupId
  {
    var mine := GroupsOfStage(groups, stageId);
    var r := Filter(types, InGroups(mine));
    assert forall t :: t in r <==> t in types && exists i :: 0 <= i < |groups| && groups[i].stageId == stageId && groups[i].id == t.seatGroupId by {
      forall t ensures t in r <==> t in types && exists i :: 0 <= i < |groups| && groups[i].stageId == stageId && groups[i].id == t.seatGroupId {
        FilterMember(types, InGroups(mine), t);
        InStageGroups(groups, stageId, t);
      }
    }
    r
  }

  /** A ticket type is of one of the stage's groups exactly when some group
      of the stage has its group id. */
  lemma InStageGroups(groups: seq<SeatGroupRow>, stageId: int, t: TicketTypeRow)
    ensures InGroups(GroupsOfStage(groups, stageId))(t) <==>
              exists i :: 0 <= i < |groups| && groups[i].stageId == stageId && groups[i].id == t.seatGroupId
  {
    var mine := GroupsOfStage(groups, stageId);
    InGroupsMeans(mine, t);
    if exists g :: g in mine && g.id == t.seatGroupId {
      var g :| g in mine && g.id == t.seatGroupId;
      var j :| 0 <= j < |mine| && mine[j] == g;
      var i :| 0 <= i < |groups| && groups[i] == mine[j];
    }
    if exists i :: 0 <= i < |groups| && groups[i].stageId == stageId && groups[i].id == t.seatGroupId {
      var i :| 0 <= i < |groups| && groups[i].stageId == stageId && groups[i].id == t.seatGroupId;
      assert groups[i] in mine;
    }
  }
}

=== FILE: common.dfy ===
/** Small shared vocabulary: optional values, order-preserving filters and sums
    over sequences, and a few integer helpers used by both the server model
    and the browser-side logic. */
module Common {

  datatype Option<+T> = None | Some(value: T) {
    function GetOr(default: T): T {
      match this
      case Some(v) => v
      case None => default
    }
  }

  function Min(a: int, b: int): (r: int)
    ensures r <= a && r <= b
    ensures r == a || r == b
  {
    if a <= b then a else b
  }

  function Max(a: int, b: int): (r: int)
    ensures r >= a && r >= b
    ensures r == a || r == b
  {
    if a >= b then a else b
  }

  /** The elements of `s` that satisfy `p`, in their original order
      (JavaScript's `Array.prototype.filter`, a list comprehension with `if`). */
  function Filter<T>(s: seq<T>, p: T -> bool): (r: seq<T>)
    ensures |r| <= |s|
    ensures forall i :: 0 <= i < |r| ==> p(r[i]) && r[i] in s
    ensures forall i :: 0 <= i < |s| && p(s[i]) ==> s[i] in r
    decreases |s|
  {
    if s == [] then []
    else if p(s[0]) then [s[0]] + Filter(s[1..], p)
    else Filter(s[1..], p)
  }

  /** An element is kept exactly when it is in the list and passes. */
  lemma FilterMember<T>(s: seq<T>, p: T -> bool, x: T)
    ensures x in Filter(s, p) <==> x in s && p(x)
  {
    var r := Filter(s, p);
    if x in r {
      var i :| 0 <= i < |r| && r[i] == x;
    }
    if x in s && p(x) {
      var i :| 0 <= i < |s| && s[i] == x;
    }
  }

  /** `a` can be obtained from `b` by deleting elements: same relative order. */
  predicate IsSubsequence<T(==)>(a: seq<T>, b: seq<T>)
    decreases |b|
  {
    if a == [] then true
    else if b == [] then false
    else if a[0] == b[0] then IsSubsequence(a[1..], b[1..])
    else IsSubsequence(a, b[1..])
  }

  lemma {:induction false} FilterIsSubsequence<T>(s: seq<T>, p: T -> bool)
    ensures IsSubsequence(Filter(s, p), s)
    decreases |s|
  {
    if s != [] {
      FilterIsSubsequence(s[1..], p);
      if !p(s[0]) {
        SubsequenceOfTail(Filter(s[1..], p), s);
      }
    }
  }

  lemma {:induction false} SubsequenceOfTail<T>(a: seq<T>, b: seq<T>)
    requires b != [] && IsSubsequence(a, b[1..])
    ensures IsSubsequence(a, b)
    decreases |b|, |a|
  {
    if a != [] && a[0] == b[0] {
      if |b| > 1 && a[1..] != [] {
        // a = [b0] + a', and a is a subsequence of b[1..]; drop to a' and b[1..]
        SubsequenceDropHead(a, b[1..]);
      }
    }
  }

  lemma {:induction false} SubsequenceDropHead<T>(a: seq<T>, b: seq<T>)
    requires a != [] && IsSubsequence(a, b)
    ensures IsSubsequence(a[1..], b)
    decreases |b|, |a|
  {
    if a[0] == b[0] {
      if a[1..] != [] {
        SubsequenceOfTail(a[1..], b);
      }
    } else {
      SubsequenceDropHead(a, b[1..]);
      if a[1..] != [] {
        SubsequenceOfTail(a[1..], b);
      }
    }
  }

  /** Filtering a list with one more element at the end. */
  lemma {:induction false} FilterSnoc<T>(s: seq<T>, x: T, p: T -> bool)
    ensures Filter(s + [x], p) == Filter(s, p) + (if p(x) then [x] else [])
    decreases |s|
  {
    if s != [] {
      assert (s + [x])[1..] == s[1..] + [x];
      FilterSnoc(s[1..], x, p);
    }
  }

  /** How often `x` is kept: as often as it occurs when it passes, else never. */
  lemma {:induction false} FilterCount<T>(s: seq<T>, p: T -> bool, x: T)
    ensures multiset(Filter(s, p))[x] == if p(x) then multiset(s)[x] else 0
    decreases |s|
  {
    if s != [] {
      FilterCount(s[1..], p, x);
      assert s == [s[0]] + s[1..];
    }
  }

  /** Two tests that agree on every element keep the same elements. */
  lemma {:induction false} FilterAgree<T>(s: seq<T>, p: T -> bool, q: T -> bool)
    requires forall i :: 0 <= i < |s| ==> p(s[i]) == q(s[i])
    ensures Filter(s, p) == Filter(s, q)
    decreases |s|
  {
    if s != [] {
      FilterAgree(s[1..], p, q);
    }
  }

  /** Filtering two rearrangements of a list gives rearrangements. */
  lemma FilterPermutation<T>(s: seq<T>, t: seq<T>, p: T -> bool)
    requires multiset(s) == multiset(t)
    ensures multiset(Filter(s, p)) == multiset(Filter(t, p))
  {
    forall x ensures multiset(Filter(s, p))[x] == multiset(Filter(t, p))[x] {
      FilterCount(s, p, x);
      FilterCount(t, p, x);
    }
  }

  /** A list splits into the part a predicate keeps and the part its
      opposite keeps. */
  lemma FilterPartition<T>(s: seq<T>, p: T -> bool, q: T -> bool)
    requires forall x :: x in s ==> (p(x) <==> !q(x))
    ensures multiset(Filter(s, p)) + multiset(Filter(s, q)) == multiset(s)
  {
    forall x ensures (multiset(Filter(s, p)) + multiset(Filter(s, q)))[x] == multiset(s)[x] {
      FilterCount(s, p, x);
      FilterCount(s, q, x);
    }
  }

  lemma {:induction false} SubsequenceTransitive<T>(a: seq<T>, b: seq<T>, c: seq<T>)
    requires IsSubsequence(a, b) && IsSubsequence(b, c)
    ensures IsSubsequence(a, c)
    decreases |c|
  {
    if a != [] {
      if b[0] == c[0] {
        if a[0] == b[0] {
          SubsequenceTransitive(a[1..], b[1..], c[1..]);
        } else {
          SubsequenceTransitive(a, b[1..], c[1..]);
          SubsequenceOfTail(a, c);
        }
      } else {
        SubsequenceTransitive(a, b, c[1..]);
        SubsequenceOfTail(a, c);
      }
    }
  }

  /** Filtering by `p` and then by `q` is filtering by both. */
  lemma {:induction false} FilterFilter<T>(s: seq<T>, p: T -> bool, q: T -> bool)
    ensures Filter(Filter(s, p), q) == Filter(s, x => p(x) && q(x))
    decreases |s|
  {
    if s != [] {
      FilterFilter(s[1..], p, q);
    }
  }

  /** `s.reduce((acc, x) => acc + f(x), 0)`. */
  function Sum<T>(s: seq<T>, f: T -> int): int
    decreases |s|
  {
    if s == [] then 0 else f(s[0]) + Sum(s[1..], f)
  }

  lemma {:induction false} SumAppend<T>(a: seq<T>, b: seq<T>, f: T -> int)
    ensures Sum(a + b, f) == Sum(a, f) + Sum(b, f)
    decreases |a|
  {
    if a == [] {
      assert a + b == b;
    } else {
      assert (a + b)[1..] == a[1..] + b;
      SumAppend(a[1..], b, f);
    }
  }

  /** The sum over all elements splits into the part selected by `p` and the rest. */
  lemma {:induction false} SumFilterSplit<T>(s: seq<T>, f: T -> int, p: T -> bool)
    ensures Sum(s, f) == Sum(Filter(s, p), f) + Sum(Filter(s, x => !p(x)), f)
    decreases |s|
  {
    if s != [] {
      SumFilterSplit(s[1..], f, p);
    }
  }

  /** A pointwise smaller summand gives a smaller sum. */
  lemma {:induction false} SumMonotone<T>(s: seq<T>, f: T -> int, g: T -> int)
    requires forall i :: 0 <= i < |s| ==> f(s[i]) <= g(s[i])
    ensures Sum(s, f) <= Sum(s, g)
    decreases |s|
  {
    if s != [] {
      SumMonotone(s[1..], f, g);
    }
  }

  /** A summand that is at most `c` everywhere sums to at most `c` per
      element. */
  lemma {:induction false} SumAtMost<T>(s: seq<T>, f: T -> int, c: int)
    requires forall i :: 0 <= i < |s| ==> f(s[i]) <= c
    ensures Sum(s, f) <= c * |s|
    decreases |s|
  {
    if s != [] {
      SumAtMost(s[1..], f, c);
      assert c * |s| == c + c * (|s| - 1);
    }
  }

  /** Sum of a nonnegative summand is nonnegative. */
  lemma {:induction false} SumNonNegative<T>(s: seq<T>, f: T -> int)
    requires forall i :: 0 <= i < |s| ==> f(s[i]) >= 0
    ensures Sum(s, f) >= 0
    decreases |s|
  {
    if s != [] {
      SumNonNegative(s[1..], f);
    }
  }

  /** `s.some(p)`. */
  predicate Any<T>(s: seq<T>, p: T -> bool)
  {
    exists i :: 0 <= i < |s| && p(s[i])
  }

  /** An element of the list that passes is a witness of `some`. */
  lemma AnyOf<T>(s: seq<T>, p: T -> bool, x: T)
    requires x in s && p(x)
    ensures Any(s, p)
  {
    var i :| 0 <= i < |s| && s[i] == x;
  }

  /** `some` holds only with a witness in the list. */
  lemma AnyWitness<T>(s: seq<T>, p: T -> bool) returns (x: T)
    requires Any(s, p)
    ensures x in s && p(x)
  {
    var i :| 0 <= i < |s| && p(s[i]);
    x := s[i];
  }

  /** `s.every(p)`: true of the empty sequence. */
  predicate All<T>(s: seq<T>, p: T -> bool)
  {
    forall i :: 0 <= i < |s| ==> p(s[i])
  }

  /** `s.find(p)`: the first element satisfying `p`. */
  function Find<T(==)>(s: seq<T>, p: T -> bool): (r: Option<T>)
    ensures r.None? <==> !Any(s, p)
    ensures r.Some? ==> r.value in s && p(r.value)
    ensures r.Some? ==> exists i :: 0 <= i < |s| && s[i] == r.value && forall j :: 0 <= j < i ==> !p(s[j])
    decreases |s|
  {
    if s == [] then None
    else if p(s[0]) then Some(s[0])
    else
      var r := Find(s[1..], p);
      assert r.Some? ==> exists i :: 0 <= i < |s[1..]| && s[1..][i] == r.value && forall j :: 0 <= j < i ==> !p(s[1..][j]);
      if r.Some? then
        var i :| 0 <= i < |s[1..]| && s[1..][i] == r.value && forall j :: 0 <= j < i ==> !p(s[1..][j]);
        assert s[i + 1] == r.value && forall j :: 0 <= j < i + 1 ==> !p(s[j]);
        r
      else
        assert !Any(s, p) by {
          forall i | 0 <= i < |s| ensures !p(s[i]) {
            if i > 0 { assert s[i] == s[1..][i - 1]; }
          }
        }
        r
  }

  /** The last element satisfying `p`: what a `Map` built from a list of
      key-value pairs returns for a key, since later pairs overwrite. */
  function FindLast<T>(s: seq<T>, p: T -> bool): (r: Option<T>)
    ensures r.None? <==> forall i :: 0 <= i < |s| ==> !p(s[i])
    ensures r.Some? ==> exists i :: 0 <= i < |s| && s[i] == r.value && p(s[i])
                                   && forall j :: i < j < |s| ==> !p(s[j])
    decreases |s|
  {
    if s == [] then None
    else if p(s[|s| - 1]) then Some(s[|s| - 1])
    else
      var front := s[..|s| - 1];
      var r := FindLast(front, p);
      assert forall i :: 0 <= i < |front| ==> front[i] == s[i];
      assert r.Some? ==> exists i :: 0 <= i < |s| && s[i] == r.value && p(s[i]) && forall j :: i < j < |s| ==> !p(s[j]) by {
        if r.Some? {
          var i :| 0 <= i < |front| && front[i] == r.value && p(front[i]) && forall j :: i < j < |front| ==> !p(front[j]);
          assert s[i] == r.value && p(s[i]) && forall j :: i < j < |s| ==> !p(s[j]);
        }
      }
      r
  }

  /** When at most one position satisfies `p`, the last element satisfying
      it is that element. */
  lemma FindLastOnly<T>(s: seq<T>, p: T -> bool, x: T)
    requires x in s && p(x)
    requires forall i, j :: 0 <= i < |s| && 0 <= j < |s| && p(s[i]) && p(s[j]) ==> i == j
    ensures FindLast(s, p) == Some(x)
  {
    var k :| 0 <= k < |s| && s[k] == x;
  }

  /** `s.map(f)`. */
  function MapSeq<T, U>(s: seq<T>, f: T -> U): (r: seq<U>)
    ensures |r| == |s|
    ensures forall i :: 0 <= i < |s| ==> r[i] == f(s[i])
  {
    seq(|s|, i requires 0 <= i < |s| => f(s[i]))
  }

  /** Everything in a mapped list is the image of something in the list. */
  lemma MapSeqMember<T, U>(s: seq<T>, f: T -> U, y: U)
    requires y in MapSeq(s, f)
    ensures exists x :: x in s && y == f(x)
  {
    var i :| 0 <= i < |s| && MapSeq(s, f)[i] == y;
    assert s[i] in s;
  }

  /** The image of everything in a list is in the mapped list. */
  lemma MapSeqHas<T, U>(s: seq<T>, f: T -> U, x: T)
    requires x in s
    ensures f(x) in MapSeq(s, f)
  {
    var i :| 0 <= i < |s| && s[i] == x;
    assert MapSeq(s, f)[i] == f(x);
  }

  /** `[].concat(...xs)`: the lists one after another. */
  function Flatten<T>(xs: seq<seq<T>>): (r: seq<T>)
    decreases |xs|
  {
    if xs == [] then [] else xs[0] + Flatten(xs[1..])
  }

  /** Whatever one of the lists holds, the concatenation holds. */
  lemma {:induction false} FlattenHas<T>(xs: seq<seq<T>>, i: int, x: T)
    requires 0 <= i < |xs| && x in xs[i]
    ensures x in Flatten(xs)
    decreases |xs|
  {
    if i > 0 {
      FlattenHas(xs[1..], i - 1, x);
    }
  }

  /** Whatever the concatenation holds comes from one of the lists. */
  lemma {:induction false} FlattenOnly<T>(xs: seq<seq<T>>, x: T) returns (i: int)
    requires x in Flatten(xs)
    ensures 0 <= i < |xs| && x in xs[i]
    decreases |xs|
  {
    if x in xs[0] {
      i := 0;
    } else {
      var k := FlattenOnly(xs[1..], x);
      i := k + 1;
    }
  }

  /** One more list adds its elements at the end. */
  lemma {:induction false} FlattenSnoc<T>(xs: seq<seq<T>>, y: seq<T>)
    ensures Flatten(xs + [y]) == Flatten(xs) + y
    decreases |xs|
  {
    if xs != [] {
      assert (xs + [y])[1..] == xs[1..] + [y];
      FlattenSnoc(xs[1..], y);
    }
  }

  lemma {:induction false} FlattenLength<T>(xs: seq<seq<T>>)
    ensures |Flatten(xs)| == Sum(xs, (x: seq<T>) => |x|)
    decreases |xs|
  {
    if xs != [] {
      FlattenLength(xs[1..]);
    }
  }
}

=== FILE: confirm_event.dfy ===
/** The dialog that confirms a new event: it lists what blocks creation
    (errors) and what only deserves a second look (warnings), and on
    confirmation creates the event, one stage per chosen start time, and
    every seat group with its ticket types for each stage. */
module ConfirmEvent {
  import opened Common
  import opened Text
  import opened Schedule
  import opened SeatGroupEditor
  import opened CreateEventPage
  import opened ClientData

  datatype Problem =
    | TitleMissing | DescriptionMissing | NoStageTime | NoSeatGroup | BlankTicketName
    | ZeroCapacity | NoTicketTypes | ZeroPrice

  // ---------------------------------------------------------------------
  // Errors and warnings, in the order they are pushed

  function HeaderErrors(title: string, description: string, schedule: Record, seats: SeatDict): seq<Problem>
  {
    (if Blank(title) then [TitleMissing] else [])
    + (if Blank(description) then [DescriptionMissing] else [])
    + (if NoTimes(schedule) then [NoStageTime] else [])
    + (if |seats| == 0 then [NoSeatGroup] else [])
  }

  /** The errors for the first `k` ticket types of a group. */
  function TicketErrors(tts: seq<TicketDraft>, k: nat): seq<Problem>
    requires k <= |tts|
  {
    if k == 0 then [] else TicketErrors(tts, k - 1) + (if Blank(tts[k - 1].typeName) then [BlankTicketName] else [])
  }

  /** The errors for the first `m` seat groups. */
  function GroupErrors(seats: SeatDict, m: nat): seq<Problem>
    requires m <= |seats|
  {
    if m == 0 then [] else GroupErrors(seats, m - 1) + TicketErrors(seats[m - 1].entry.ticketTypes, |seats[m - 1].entry.ticketTypes|)
  }

  function TicketWarnings(tts: seq<TicketDraft>, k: nat): seq<Problem>
    requires k <= |tts|
  {
    if k == 0 then [] else TicketWarnings(tts, k - 1) + (if tts[k - 1].price == 0.0 then [ZeroPrice] else [])
  }

  /** A group's own warnings, before those of its ticket types. */
  function EntryWarnings(e: SeatEntry): seq<Problem>
  {
    (if e.capacity == 0 then [ZeroCapacity] else []) + (if |e.ticketTypes| == 0 then [NoTicketTypes] else [])
  }

  function GroupWarnings(seats: SeatDict, m: nat): seq<Problem>
    requires m <= |seats|
  {
    if m == 0 then []
    else
      var e := seats[m - 1].entry;
      GroupWarnings(seats, m - 1) + EntryWarnings(e) + TicketWarnings(e.ticketTypes, |e.ticketTypes|)
  }

  function Errors(title: string, description: string, schedule: Record, seats: SeatDict): seq<Problem>
  {
    HeaderErrors(title, description, schedule, seats) + GroupErrors(seats, |seats|)
  }

  function Warnings(seats: SeatDict): seq<Problem>
  {
    GroupWarnings(seats, |seats|)
  }

  /** The checks on the texts, the schedule and the dictionary's size. */
  method HeaderChecks(title: string, description: string, schedule: Record, seats: SeatDict) returns (errors: seq<Problem>)
    ensures errors == HeaderErrors(title, description, schedule, seats)
  {
    errors := [];
    if Blank(title) { errors := errors + [TitleMissing]; }
    if Blank(description) { errors := errors + [DescriptionMissing]; }
    if NoTimes(schedule) { errors := errors + [NoStageTime]; }
    if |seats| == 0 { errors := errors + [NoSeatGroup]; }
  }

  /** The checks run on every render. */
  method Check(title: string, description: string, schedule: Record, seats: SeatDict) returns (errors: seq<Problem>, warnings: seq<Problem>)
    ensures errors == Errors(title, description, schedule, seats)
    ensures warnings == Warnings(seats)
  {
    errors := HeaderChecks(title, description, schedule, seats);
    warnings := [];
    var header := errors;
    for j := 0 to |seats|
      invariant errors == header + GroupErrors(seats, j)
      invariant warnings == GroupWarnings(seats, j)
    {
      var e := seats[j].entry;
      if e.capacity == 0 { warnings := warnings + [ZeroCapacity]; }
      if |e.ticketTypes| == 0 { warnings := warnings + [NoTicketTypes]; }
      assert warnings == GroupWarnings(seats, j) + EntryWarnings(e);
      ghost var errorsBefore, warningsBefore := errors, warnings;
      errors, warnings := CheckTickets(errors, warnings, e.ticketTypes);
      assert GroupErrors(seats, j + 1) == GroupErrors(seats, j) + TicketErrors(e.ticketTypes, |e.ticketTypes|);
      assert GroupWarnings(seats, j + 1) == warningsBefore + TicketWarnings(e.ticketTypes, |e.ticketTypes|);
    }
  }

  /** The checks on one group's ticket types: a blank name is an error, a
      zero price a warning. */
  method CheckTickets(errorsBefore: seq<Problem>, warningsBefore: seq<Problem>, tts: seq<TicketDraft>)
    returns (errors: seq<Problem>, warnings: seq<Problem>)
    ensures errors == errorsBefore + TicketErrors(tts, |tts|)
    ensures warnings == warningsBefore + TicketWarnings(tts, |tts|)
  {
    errors, warnings := errorsBefore, warningsBefore;
    for k := 0 to |tts|
      invariant errors == errorsBefore + TicketErrors(tts, k)
      invariant warnings == warningsBefore + TicketWarnings(tts, k)
    {
      if Blank(tts[k].typeName) { errors := errors + [BlankTicketName]; }
      if tts[k].price == 0.0 { warnings := warnings + [ZeroPrice]; }
    }
  }

  /** Every ticket type of every group has a name. */
  predicate AllNamed(seats: SeatDict)
  {
    forall j, k :: 0 <= j < |seats| && 0 <= k < |seats[j].entry.ticketTypes| ==> !Blank(seats[j].entry.ticketTypes[k].typeName)
  }

  lemma {:induction false} TicketErrorsEmpty(tts: seq<TicketDraft>, k: nat)
    requires k <= |tts|
    ensures TicketErrors(tts, k) == [] <==> forall i :: 0 <= i < k ==> !Blank(tts[i].typeName)
  {
    if k > 0 {
      TicketErrorsEmpty(tts, k - 1);
    }
  }

  lemma {:induction false} GroupErrorsEmpty(seats: SeatDict, m: nat)
    requires m <= |seats|
    ensures GroupErrors(seats, m) == [] <==>
              forall j, k :: 0 <= j < m && 0 <= k < |seats[j].entry.ticketTypes| ==> !Blank(seats[j].entry.ticketTypes[k].typeName)
  {
    if m > 0 {
      GroupErrorsEmpty(seats, m - 1);
      TicketErrorsEmpty(seats[m - 1].entry.ticketTypes, |seats[m - 1].entry.ticketTypes|);
    }
  }

  /** The confirm button is enabled exactly when the title and the
      description are not blank, at least one start time is chosen, there
      is a seat group and every ticket type has a name. */
  lemma ConfirmEnabled(title: string, description: string, schedule: Record, seats: SeatDict)
    ensures Errors(title, description, schedule, seats) == [] <==>
              && !Blank(title) && !Blank(description)
              && AllTimes(schedule) != []
              && |seats| > 0
              && AllNamed(seats)
  {
    NoTimesIffEmpty(schedule);
    GroupErrorsEmpty(seats, |seats|);
  }

  lemma {:induction false} TicketWarningsEmpty(tts: seq<TicketDraft>, k: nat)
    requires k <= |tts|
    ensures TicketWarnings(tts, k) == [] <==> forall i :: 0 <= i < k ==> tts[i].price != 0.0
  {
    if k > 0 {
      TicketWarningsEmpty(tts, k - 1);
    }
  }

  lemma {:induction false} GroupWarningsEmpty(seats: SeatDict, m: nat)
    requires m <= |seats|
    ensures GroupWarnings(seats, m) == [] <==>
              forall j :: 0 <= j < m ==>
                && seats[j].entry.capacity != 0
                && |seats[j].entry.ticketTypes| > 0
                && forall k :: 0 <= k < |seats[j].entry.ticketTypes| ==> seats[j].entry.ticketTypes[k].price != 0.0
  {
    if m > 0 {
      GroupWarningsEmpty(seats, m - 1);
      TicketWarningsEmpty(seats[m - 1].entry.ticketTypes, |seats[m - 1].entry.ticketTypes|);
    }
  }

  /** No warning is shown exactly when every group has seats and at least
      one ticket type, and no ticket type is free. */
  lemma NoWarnings(seats: SeatDict)
    ensures Warnings(seats) == [] <==>
              forall j :: 0 <= j < |seats| ==>
                && seats[j].entry.capacity != 0
                && |seats[j].entry.ticketTypes| > 0
                && forall k :: 0 <= k < |seats[j].entry.ticketTypes| ==> seats[j].entry.ticketTypes[k].price != 0.0
  {
    GroupWarningsEmpty(seats, |seats|);
  }

  // ---------------------------------------------------------------------
  // Creation

  /** The server calls of a creation.  A stage is named by its position
      among the created stages, a seat group by its position in the
      dictionary: the server's ids come back from the earlier calls. */
  datatype Call =
    | CreateEvent(name: string, description: string)
    | CreateStage(startTime: int, endTime: int)
    | CreateSeatGroup(stage: nat, capacity: int)
    | CreateTicketType(stage: nat, group: nat, typeName: string, price: real)

  /** One stage per time, two hours long. */
  function StageCalls(times: seq<int>): (r: seq<Call>)
    ensures |r| == |times|
    ensures forall i :: 0 <= i < |times| ==> r[i] == CreateStage(times[i], times[i] + TwoHours)
  {
    MapSeq(times, (t: int) => CreateStage(t, t + TwoHours))
  }

  /** The first `k` ticket types of group `j` on stage `i`. */
  function TicketCalls(i: nat, j: nat, tts: seq<TicketDraft>, k: nat): seq<Call>
    requires k <= |tts|
  {
    if k == 0 then [] else TicketCalls(i, j, tts, k - 1) + [CreateTicketType(i, j, tts[k - 1].typeName, tts[k - 1].price)]
  }

  /** The first `m` seat groups of stage `i`, each followed by its ticket
      types. */
  function GroupCalls(i: nat, seats: SeatDict, m: nat): seq<Call>
    requires m <= |seats|
  {
    if m == 0 then []
    else
      var tts := seats[m - 1].entry.ticketTypes;
      GroupCalls(i, seats, m - 1) + [CreateSeatGroup(i, seats[m - 1].entry.capacity)] + TicketCalls(i, m - 1, tts, |tts|)
  }

  /** The calls of each of the first `n` stages. */
  function PerStage(seats: SeatDict, n: nat): (r: seq<seq<Call>>)
    ensures |r| == n
    ensures forall i :: 0 <= i < n ==> r[i] == GroupCalls(i, seats, |seats|)
  {
    seq(n, i requires 0 <= i < n => GroupCalls(i, seats, |seats|))
  }

  /** The seat groups of the first `n` stages, stage after stage. */
  function StageGroupCalls(seats: SeatDict, n: nat): seq<Call>
  {
    Flatten(PerStage(seats, n))
  }

  /** Every call `handleConfirm` makes when none fails. */
  function Plan(title: string, description: string, schedule: Record, seats: SeatDict): seq<Call>
  {
    var times := AllTimes(schedule);
    [CreateEvent(title, description)] + StageCalls(times) + StageGroupCalls(seats, |times|)
  }

  /** `handleConfirm`'s calls: the event, its stages, then for each stage
      each group and its ticket types. */
  method BuildPlan(title: string, description: string, schedule: Record, seats: SeatDict) returns (calls: seq<Call>)
    ensures calls == Plan(title, description, schedule, seats)
  {
    var times := AllTimes(schedule);
    calls := [CreateEvent(title, description)] + StageCalls(times);
    ghost var prefix := calls;
    for i := 0 to |times|
      invariant calls == prefix + StageGroupCalls(seats, i)
    {
      StageGroupCallsSnoc(seats, i);
      calls := AppendGroupCalls(calls, i, seats);
    }
  }

  /** The calls for stage `i`: each seat group, then its ticket types. */
  method AppendGroupCalls(before: seq<Call>, i: nat, seats: SeatDict) returns (calls: seq<Call>)
    ensures calls == before + GroupCalls(i, seats, |seats|)
  {
    calls := before;
    for j := 0 to |seats|
      invariant calls == before + GroupCalls(i, seats, j)
    {
      GroupCallsSnoc(i, seats, j + 1);
      calls := calls + [CreateSeatGroup(i, seats[j].entry.capacity)];
      calls := AppendTicketCalls(calls, i, j, seats[j].entry.ticketTypes);
    }
  }

  /** The ticket types of seat group `j` on stage `i`. */
  method AppendTicketCalls(before: seq<Call>, i: nat, j: nat, tts: seq<TicketDraft>) returns (calls: seq<Call>)
    ensures calls == before + TicketCalls(i, j, tts, |tts|)
  {
    calls := before;
    for k := 0 to |tts|
      invariant calls == before + TicketCalls(i, j, tts, k)
    {
      calls := calls + [CreateTicketType(i, j, tts[k].typeName, tts[k].price)];
    }
  }

  lemma {:induction false} TicketCallsShape(i: nat, j: nat, tts: seq<TicketDraft>, k: nat)
    requires k <= |tts|
    ensures |TicketCalls(i, j, tts, k)| == k
    ensures forall p :: 0 <= p < k ==> TicketCalls(i, j, tts, k)[p] == CreateTicketType(i, j, tts[p].typeName, tts[p].price)
  {
    if k > 0 {
      TicketCallsShape(i, j, tts, k - 1);
    }
  }

  /** The first `m` groups of stage `i`: the first `m - 1`, then group
      `m - 1` and its ticket types. */
  lemma GroupCallsSnoc(i: nat, seats: SeatDict, m: nat)
    requires 0 < m <= |seats|
    ensures GroupCalls(i, seats, m) == GroupCalls(i, seats, m - 1) + [CreateSeatGroup(i, seats[m - 1].entry.capacity)]
                                       + TicketCalls(i, m - 1, seats[m - 1].entry.ticketTypes, |seats[m - 1].entry.ticketTypes|)
  {
  }

  /** Stage `i` gets each of the first `m` groups. */
  lemma {:induction false} GroupCallsHasGroup(i: nat, seats: SeatDict, m: nat, j: nat)
    requires j < m <= |seats|
    ensures CreateSeatGroup(i, seats[j].entry.capacity) in GroupCalls(i, seats, m)
  {
    GroupCallsSnoc(i, seats, m);
    if j < m - 1 {
      GroupCallsHasGroup(i, seats, m - 1, j);
    }
  }

  /** Stage `i` gets every ticket type of each of the first `m` groups. */
  lemma {:induction false} GroupCallsHasType(i: nat, seats: SeatDict, m: nat, j: nat, k: nat)
    requires j < m <= |seats| && k < |seats[j].entry.ticketTypes|
    ensures var t := seats[j].entry.ticketTypes[k];
            CreateTicketType(i, j, t.typeName, t.price) in GroupCalls(i, seats, m)
  {
    GroupCallsSnoc(i, seats, m);
    if j < m - 1 {
      GroupCallsHasType(i, seats, m - 1, j, k);
    } else {
      var tts := seats[m - 1].entry.ticketTypes;
      TicketCallsShape(i, m - 1, tts, |tts|);
      assert TicketCalls(i, m - 1, tts, |tts|)[k] == CreateTicketType(i, j, tts[k].typeName, tts[k].price);
    }
  }

  /** Stage `i`'s calls are seat groups and ticket types of stage `i`. */
  lemma {:induction false} GroupCallsOnly(i: nat, seats: SeatDict, m: nat, c: Call)
    requires m <= |seats|
    ensures c in GroupCalls(i, seats, m) ==> (c.CreateSeatGroup? || c.CreateTicketType?) && c.stage == i
  {
    if m > 0 && c in GroupCalls(i, seats, m) {
      GroupCallsSnoc(i, seats, m);
      var tts := seats[m - 1].entry.ticketTypes;
      var last := TicketCalls(i, m - 1, tts, |tts|);
      if c in GroupCalls(i, seats, m - 1) {
        GroupCallsOnly(i, seats, m - 1, c);
      } else if c in last {
        TicketCallsShape(i, m - 1, tts, |tts|);
        var p :| 0 <= p < |last| && last[p] == c;
      }
    }
  }

  /** Stage `i` gets the first `m` groups and all their ticket types, and
      nothing else: no stage call, and no call for another stage. */
  lemma GroupCallsContents(i: nat, seats: SeatDict, m: nat)
    requires m <= |seats|
    ensures forall j :: 0 <= j < m ==> CreateSeatGroup(i, seats[j].entry.capacity) in GroupCalls(i, seats, m)
    ensures forall j, k :: 0 <= j < m && 0 <= k < |seats[j].entry.ticketTypes| ==>
              var t := seats[j].entry.ticketTypes[k];
              CreateTicketType(i, j, t.typeName, t.price) in GroupCalls(i, seats, m)
    ensures forall c :: c in GroupCalls(i, seats, m) ==> (c.CreateSeatGroup? || c.CreateTicketType?) && c.stage == i
  {
    forall j | 0 <= j < m ensures CreateSeatGroup(i, seats[j].entry.capacity) in GroupCalls(i, seats, m) {
      GroupCallsHasGroup(i, seats, m, j);
    }
    forall j, k | 0 <= j < m && 0 <= k < |seats[j].entry.ticketTypes|
      ensures CreateTicketType(i, j, seats[j].entry.ticketTypes[k].typeName, seats[j].entry.ticketTypes[k].price) in GroupCalls(i, seats, m)
    {
      GroupCallsHasType(i, seats, m, j, k);
    }
    forall c | c in GroupCalls(i, seats, m) ensures (c.CreateSeatGroup? || c.CreateTicketType?) && c.stage == i {
      GroupCallsOnly(i, seats, m, c);
    }
  }

  /** One more stage adds its groups at the end. */
  lemma StageGroupCallsSnoc(seats: SeatDict, n: nat)
    ensures StageGroupCalls(seats, n + 1) == StageGroupCalls(seats, n) + GroupCalls(n, seats, |seats|)
  {
    assert PerStage(seats, n + 1) == PerStage(seats, n) + [GroupCalls(n, seats, |seats|)];
    FlattenSnoc(PerStage(seats, n), GroupCalls(n, seats, |seats|));
  }

  /** Every call after the stages is a seat group or a ticket type of one
      of the first `n` stages. */
  lemma StageGroupCallsOnly(seats: SeatDict, n: nat, c: Call)
    ensures c in StageGroupCalls(seats, n) ==> (c.CreateSeatGroup? || c.CreateTicketType?) && c.stage < n
  {
    if c in StageGroupCalls(seats, n) {
      var i := FlattenOnly(PerStage(seats, n), c);
      GroupCallsOnly(i, seats, |seats|, c);
    }
  }

  /** Stage `i` of the first `n` gets seat group `j`. */
  lemma StageGroupCallsGroup(seats: SeatDict, n: nat, i: nat, j: nat)
    requires i < n && j < |seats|
    ensures CreateSeatGroup(i, seats[j].entry.capacity) in StageGroupCalls(seats, n)
  {
    GroupCallsHasGroup(i, seats, |seats|, j);
    FlattenHas(PerStage(seats, n), i, CreateSeatGroup(i, seats[j].entry.capacity));
  }

  /** Stage `i` of the first `n` gets ticket type `k` of seat group `j`. */
  lemma StageGroupCallsType(seats: SeatDict, n: nat, i: nat, j: nat, k: nat)
    requires i < n && j < |seats| && k < |seats[j].entry.ticketTypes|
    ensures var t := seats[j].entry.ticketTypes[k];
            CreateTicketType(i, j, t.typeName, t.price) in StageGroupCalls(seats, n)
  {
    var t := seats[j].entry.ticketTypes[k];
    GroupCallsHasType(i, seats, |seats|, j, k);
    FlattenHas(PerStage(seats, n), i, CreateTicketType(i, j, t.typeName, t.price));
  }

  /** Every one of the first `n` stages gets every seat group with its
      ticket types, and nothing else is created for them. */
  lemma StageGroupCallsContents(seats: SeatDict, n: nat)
    ensures forall i, j :: 0 <= i < n && 0 <= j < |seats| ==> CreateSeatGroup(i, seats[j].entry.capacity) in StageGroupCalls(seats, n)
    ensures forall i, j, k :: 0 <= i < n && 0 <= j < |seats| && 0 <= k < |seats[j].entry.ticketTypes| ==>
              var t := seats[j].entry.ticketTypes[k];
              CreateTicketType(i, j, t.typeName, t.price) in StageGroupCalls(seats, n)
    ensures forall c :: c in StageGroupCalls(seats, n) ==> (c.CreateSeatGroup? || c.CreateTicketType?) && c.stage < n
  {
    forall c | c in StageGroupCalls(seats, n) ensures (c.CreateSeatGroup? || c.CreateTicketType?) && c.stage < n {
      StageGroupCallsOnly(seats, n, c);
    }
    forall i, j | 0 <= i < n && 0 <= j < |seats|
      ensures CreateSeatGroup(i, seats[j].entry.capacity) in StageGroupCalls(seats, n)
    {
      StageGroupCallsGroup(seats, n, i, j);
    }
    forall i, j, k | 0 <= i < n && 0 <= j < |seats| && 0 <= k < |seats[j].entry.ticketTypes|
      ensures CreateTicketType(i, j, seats[j].entry.ticketTypes[k].typeName, seats[j].entry.ticketTypes[k].price) in StageGroupCalls(seats, n)
    {
      StageGroupCallsType(seats, n, i, j, k);
    }
  }

  /** Creation makes the event first, then exactly one stage per chosen
      start time, two hours long, in schedule order; after them come only
      seat groups and ticket types, and every stage gets every seat group
      and every one of its ticket types. */
  lemma PlanContents(title: string, description: string, schedule: Record, seats: SeatDict)
    ensures var p := Plan(title, description, schedule, seats);
            var times := AllTimes(schedule);
            && p[0] == CreateEvent(title, description)
            && (forall t :: 0 <= t < |times| ==> p[1 + t] == CreateStage(times[t], times[t] + TwoHours))
            && (forall q :: 1 + |times| <= q < |p| ==> (p[q].CreateSeatGroup? || p[q].CreateTicketType?) && p[q].stage < |times|)
            && (forall i, j :: 0 <= i < |times| && 0 <= j < |seats| ==> CreateSeatGroup(i, seats[j].entry.capacity) in p)
            && (forall i, j, k :: 0 <= i < |times| && 0 <= j < |seats| && 0 <= k < |seats[j].entry.ticketTypes| ==>
                  var t := seats[j].entry.ticketTypes[k];
                  CreateTicketType(i, j, t.typeName, t.price) in p)
  {
    var times := AllTimes(schedule);
    var p := Plan(title, description, schedule, seats);
    var pre := [CreateEvent(title, description)] + StageCalls(times);
    var rest := StageGroupCalls(seats, |times|);
    StageGroupCallsContents(seats, |times|);
    assert p == pre + rest;
    forall t | 0 <= t < |times| ensures p[1 + t] == CreateStage(times[t], times[t] + TwoHours) {
      assert p[1 + t] == pre[1 + t];
    }
    forall q | 1 + |times| <= q < |p|
      ensures (p[q].CreateSeatGroup? || p[q].CreateTicketType?) && p[q].stage < |times|
    {
      assert p[q] == rest[q - 1 - |times|];
    }
    forall c: Call | c in rest ensures c in p {
    }
  }

  // ---------------------------------------------------------------------
  // The dialog

  datatype Snack = Created | Failed

  class ConfirmDialog {
    /** A creation is under way. */
    var isCreating: bool

    constructor ()
      ensures !isCreating
    {
      isCreating := false;
    }

    /** The confirm button: ignored while a creation is under way;
        otherwise the creation starts and its calls are made. */
    method BeginConfirm(title: string, description: string, schedule: Record, seats: SeatDict) returns (calls: Option<seq<Call>>)
      modifies this
      ensures isCreating
      ensures old(isCreating) ==> calls.None?
      ensures !old(isCreating) ==> calls == Some(Plan(title, description, schedule, seats))
    {
      if isCreating {
        return None;
      }
      isCreating := true;
      var plan := BuildPlan(title, description, schedule, seats);
      calls := Some(plan);
    }

    /** The end of a creation, whether or not a call failed: the dialog can
        be used again and a snackbar reports the outcome.  Resetting the
        form is the parent's `onConfirm` (`CreateEventPage.EventForm.Reset`). */
    method FinishConfirm(failed: bool) returns (snack: Snack)
      modifies this
      ensures !isCreating
      ensures snack == Failed <==> failed
    {
      isCreating := false;
      snack := if failed then Failed else Created;
    }
  }
}

=== FILE: create_event_component.dfy ===
/** The event-creation component: start times per day kept sorted, and a
    list of seat groups told apart by an id. */
module CreateEventComponent {
  import opened Common
  import opened Schedule
  import opened Sorting
  import opened SeatGroupEditor
  import opened CreateEventPage
  import Models

  /** One seat group of the component: an id and the group's values. */
  datatype SeatProps = SeatProps(id: int, entry: SeatEntry)

  /** The component starts with group 0: no seats and the 一般 ticket type
      at price 0. */
  const InitialSeatGroups: seq<SeatProps> := [SeatProps(0, SeatEntry(0, [TicketDraft(Models.DefaultTypeName, 0.0)]))]

  // ---------------------------------------------------------------------
  // Times

  /** `handleComplete`: a time already on that day changes nothing;
      otherwise the day's times (none for a new day) gain it and are sorted
      ascending.  Other days keep their times. */
  function HandleComplete(prev: Record, date: string, time: int): (r: Record)
    ensures HasTime(prev, date, time) ==> r == prev
    ensures !HasTime(prev, date, time) ==>
              && Get(r, date).Some?
              && AscendingTimes(Get(r, date).value)
              && multiset(Get(r, date).value) == multiset(Get(prev, date).GetOr([])) + multiset{time}
    ensures forall d :: d != date ==> Get(r, d) == Get(prev, d)
  {
    if HasTime(prev, date, time) then prev
    else
      var added := Get(prev, date).GetOr([]) + [time];
      var sorted := SortBy(added, TimeOf, IntLe);
      OrdersArePreorders();
      SortSorted(added, TimeOf, IntLe);
      SortPermutes(added, TimeOf, IntLe);
      var r := Put(prev, date, sorted);
      PutGet(prev, date, sorted);
      forall d | d != date ensures Get(r, d) == Get(prev, d) {
        PutOthers(prev, date, sorted, d);
      }
      r
  }

  /** Filtering keeps a sorted list sorted. */
  lemma {:induction false} FilterKeepsAscending(s: seq<int>, p: int -> bool)
    requires AscendingTimes(s)
    ensures AscendingTimes(Filter(s, p))
    decreases |s|
  {
    if s != [] {
      assert AscendingTimes(s[1..]);
      FilterKeepsAscending(s[1..], p);
      var rest := Filter(s[1..], p);
      if p(s[0]) {
        assert Filter(s, p) == [s[0]] + rest;
        forall j | 0 <= j < |rest| ensures s[0] <= rest[j] {
          var k :| 0 <= k < |s[1..]| && s[1..][k] == rest[j];
          assert s[k + 1] == rest[j];
        }
        AscendingCons(s[0], rest);
      } else {
        assert Filter(s, p) == rest;
      }
    }
  }

  lemma AscendingCons(x: int, rest: seq<int>)
    requires AscendingTimes(rest) && forall j :: 0 <= j < |rest| ==> x <= rest[j]
    ensures AscendingTimes([x] + rest)
  {
    var s := [x] + rest;
    forall i, j | 0 <= i < j < |s| ensures s[i] <= s[j] {
      assert s[j] == rest[j - 1];
      if i > 0 {
        assert s[i] == rest[i - 1];
      }
    }
  }

  /** `handleDelete` removes the time from its day as the page's
      `deleteSchedule` does; the day's list stays sorted. */
  lemma DeleteKeepsAscending(prev: Record, date: string, time: int)
    requires Get(prev, date).Some? && AscendingTimes(Get(prev, date).value)
    ensures DeleteSchedule(prev, date, time).Some?
    ensures AscendingTimes(Get(DeleteSchedule(prev, date, time).value, date).value)
  {
    FilterKeepsAscending(Get(prev, date).value, (t: int) => t != time);
  }

  // ---------------------------------------------------------------------
  // Seat groups

  predicate UniqueIds(gs: seq<SeatProps>)
  {
    forall i, j :: 0 <= i < j < |gs| ==> gs[i].id != gs[j].id
  }

  /** A group added by the component: no seats and no ticket types. */
  const EmptyEntry: SeatEntry := SeatEntry(0, [])

  /** `handleAddSeatGroup` as written: the new group's id is the current
      number of groups. */
  function AddSeatGroupAsWritten(prev: seq<SeatProps>): (r: seq<SeatProps>)
    ensures |r| == |prev| + 1 && r[..|prev|] == prev
    ensures r[|prev|].entry == EmptyEntry
  {
    prev + [SeatProps(|prev|, EmptyEntry)]
  }

  /** `handleDeleteSeatGroup`: every group with the id goes, the others stay
      in order. */
  function HandleDeleteSeatGroup(prev: seq<SeatProps>, id: int): (r: seq<SeatProps>)
    ensures forall i :: 0 <= i < |r| ==> r[i].id != id && r[i] in prev
    ensures forall i :: 0 <= i < |prev| && prev[i].id != id ==> prev[i] in r
    ensures IsSubsequence(r, prev)
  {
    FilterIsSubsequence(prev, (g: SeatProps) => g.id != id);
    Filter(prev, (g: SeatProps) => g.id != id)
  }

  /** `handleUpdateSeatGroup`: every group with the id becomes the edited
      group; the others stay. */
  function HandleUpdateSeatGroup(prev: seq<SeatProps>, id: int, updated: SeatProps): (r: seq<SeatProps>)
    ensures |r| == |prev|
    ensures forall i :: 0 <= i < |prev| ==> r[i] == (if prev[i].id == id then updated else prev[i])
  {
    MapSeq(prev, (g: SeatProps) => if g.id == id then updated else g)
  }

  /** Adding after a deletion reuses an id still in use: from the initial
      list, add (ids 0, 1), delete group 0 (id 1 left), add again: the new
      group also gets id 1.  Deleting that id then removes both groups, and
      editing one edits both. */
  lemma AddAfterDeleteCollides(edited: SeatProps)
    ensures var s1 := AddSeatGroupAsWritten(InitialSeatGroups);
            var s2 := HandleDeleteSeatGroup(s1, 0);
            var s3 := AddSeatGroupAsWritten(s2);
            && UniqueIds(s1) && UniqueIds(s2) && !UniqueIds(s3)
            && s3[0].id == 1 && s3[1].id == 1
            && HandleDeleteSeatGroup(s3, 1) == []
            && HandleUpdateSeatGroup(s3, 1, edited) == [edited, edited]
  {
    var s1 := AddSeatGroupAsWritten(InitialSeatGroups);
    assert s1 == [SeatProps(0, InitialSeatGroups[0].entry), SeatProps(1, EmptyEntry)];
    var s2 := HandleDeleteSeatGroup(s1, 0);
    assert s2 == [SeatProps(1, EmptyEntry)] by {
      assert s1[1..] == [SeatProps(1, EmptyEntry)];
    }
    var s3 := AddSeatGroupAsWritten(s2);
    assert s3 == [SeatProps(1, EmptyEntry), SeatProps(1, EmptyEntry)];
  }

  /** One more than the largest id, or 0 for an empty list. */
  function NextId(gs: seq<SeatProps>): (id: int)
    ensures forall i :: 0 <= i < |gs| ==> gs[i].id < id
    decreases |gs|
  {
    if gs == [] then 0 else Max(gs[0].id + 1, NextId(gs[1..]))
  }

  /** `handleAddSeatGroup` with the id taken as the page's `addSeatGroup`
      takes it: above every id in use. */
  function HandleAddSeatGroup(prev: seq<SeatProps>): (r: seq<SeatProps>)
    ensures |r| == |prev| + 1 && r[..|prev|] == prev
    ensures r[|prev|].entry == EmptyEntry
    ensures forall i :: 0 <= i < |prev| ==> prev[i].id != r[|prev|].id
    ensures UniqueIds(prev) ==> UniqueIds(r)
  {
    prev + [SeatProps(NextId(prev), EmptyEntry)]
  }

  lemma {:induction false} DeleteKeepsUnique(prev: seq<SeatProps>, id: int)
    requires UniqueIds(prev)
    ensures UniqueIds(HandleDeleteSeatGroup(prev, id))
    decreases |prev|
  {
    if prev != [] {
      assert UniqueIds(prev[1..]) by {
        forall i, j | 0 <= i < j < |prev[1..]| ensures prev[1..][i].id != prev[1..][j].id {
          assert prev[1..][i] == prev[i + 1] && prev[1..][j] == prev[j + 1];
        }
      }
      DeleteKeepsUnique(prev[1..], id);
      var p := (g: SeatProps) => g.id != id;
      var rest := Filter(prev[1..], p);
      assert HandleDeleteSeatGroup(prev[1..], id) == rest;
      if p(prev[0]) {
        forall j | 0 <= j < |rest| ensures prev[0].id != rest[j].id {
          var k :| 0 <= k < |prev[1..]| && prev[1..][k] == rest[j];
          assert prev[k + 1] == rest[j];
        }
        var r := [prev[0]] + rest;
        forall i, j | 0 <= i < j < |r| ensures r[i].id != r[j].id {
          assert r[j] == rest[j - 1];
          if i > 0 {
            assert r[i] == rest[i - 1];
          }
        }
      }
    }
  }

  /** With ids taken above the largest, the groups' ids stay distinct
      through any additions, edits that keep a group's id, and deletions. */
  lemma IdsStayUnique(prev: seq<SeatProps>, id: int, updated: SeatProps)
    requires UniqueIds(prev) && updated.id == id
    ensures UniqueIds(HandleAddSeatGroup(prev))
    ensures UniqueIds(HandleUpdateSeatGroup(prev, id, updated))
    ensures UniqueIds(HandleDeleteSeatGroup(prev, id))
  {
    DeleteKeepsUnique(prev, id);
  }
}

=== FILE: create_event_page.dfy ===
/** The page that creates an event: its form holds the title, the
    description, the first and last day, the schedule (start times per
    day) and the seat dictionary (seat groups with their ticket types). */
module CreateEventPage {
  import opened Common
  import opened Schedule
  import opened SeatGroupEditor
  import opened ClientData
  import opened Sorting
  import Models

  // ---------------------------------------------------------------------
  // Days of the event

  /** `eventDates`: every day from the first to the last, both included,
      one day apart; nothing while either day is unset. */
  method EventDates(startDate: Option<int>, endDate: Option<int>) returns (dates: seq<int>)
    ensures startDate.None? || endDate.None? ==> dates == []
    ensures startDate.Some? && endDate.Some? ==>
              && (forall i :: 0 <= i < |dates| ==> dates[i] == startDate.value + i * Day && dates[i] <= endDate.value)
              && startDate.value + |dates| * Day > endDate.value
  {
    dates := [];
    if startDate.None? || endDate.None? {
      return;
    }
    var current := startDate.value;
    while current <= endDate.value
      invariant current == startDate.value + |dates| * Day
      invariant forall i :: 0 <= i < |dates| ==> dates[i] == startDate.value + i * Day && dates[i] <= endDate.value
      decreases endDate.value - current
    {
      dates := dates + [current];
      current := current + Day;
    }
  }

  /** The days found are exactly as many as the calendar says: none when
      the last day comes before the first. */
  lemma DayCount(first: int, last: int, dates: seq<int>)
    requires forall i :: 0 <= i < |dates| ==> dates[i] == first + i * Day && dates[i] <= last
    requires first + |dates| * Day > last
    ensures last < first ==> dates == []
    ensures first <= last ==> |dates| == (last - first) / Day + 1
  {
    if dates != [] {
      assert dates[0] == first;
      var n := |dates|;
      assert dates[n - 1] == first + (n - 1) * Day <= last;
      var rem := last - first - (n - 1) * Day;
      assert 0 <= rem < Day;
      assert last - first == (n - 1) * Day + rem;
    }
  }

  /** The texts of the first `n` days. */
  function DayKeys(dates: seq<int>, key: int -> string, n: nat): set<string>
    requires n <= |dates|
  {
    set i | 0 <= i < n :: key(dates[i])
  }

  lemma DayKeysSnoc(dates: seq<int>, key: int -> string, n: nat)
    requires 0 < n <= |dates|
    ensures DayKeys(dates, key, n) == DayKeys(dates, key, n - 1) + {key(dates[n - 1])}
  {
    forall x | x in DayKeys(dates, key, n) ensures x in DayKeys(dates, key, n - 1) + {key(dates[n - 1])} {
      var i :| 0 <= i < n && key(dates[i]) == x;
      if i < n - 1 { assert x in DayKeys(dates, key, n - 1); }
    }
  }

  /** After the first `n` days: one entry per day, for exactly those days,
      each with the times it had. */
  predicate Synced(updated: Record, now: Record, dates: seq<int>, key: int -> string, n: nat)
    requires n <= |dates|
  {
    && UniqueDates(updated)
    && Dates(updated) == DayKeys(dates, key, n)
    && forall i :: 0 <= i < n ==> Get(updated, key(dates[i])) == Some(Get(now, key(dates[i])).GetOr([]))
  }

  /** One more day written keeps the schedule synchronised. */
  lemma SyncStep(updated: Record, now: Record, dates: seq<int>, key: int -> string, n: nat)
    requires n < |dates| && Synced(updated, now, dates, key, n)
    ensures Synced(Put(updated, key(dates[n]), Get(now, key(dates[n])).GetOr([])), now, dates, key, n + 1)
  {
    var k := key(dates[n]);
    var times := Get(now, k).GetOr([]);
    var q := Put(updated, k, times);
    PutKeepsUnique(updated, k, times);
    PutGet(updated, k, times);
    PutDates(updated, k, times);
    DayKeysSnoc(dates, key, n + 1);
    forall i | 0 <= i < n + 1 ensures Get(q, key(dates[i])) == Some(Get(now, key(dates[i])).GetOr([])) {
      if key(dates[i]) != k {
        PutOthers(updated, k, times, key(dates[i]));
      }
    }
  }

  /** The schedule after the days change (the effect on `eventDates`): a
      day keeps the times it had and a new day starts with none; days no
      longer in the range are dropped.  `key` is the day's text. */
  method SyncSchedule(now: Record, dates: seq<int>, key: int -> string) returns (updated: Record)
    ensures UniqueDates(updated)
    ensures Dates(updated) == DayKeys(dates, key, |dates|)
    ensures forall i :: 0 <= i < |dates| ==> Get(updated, key(dates[i])) == Some(Get(now, key(dates[i])).GetOr([]))
  {
    updated := [];
    for n := 0 to |dates|
      invariant Synced(updated, now, dates, key, n)
    {
      SyncStep(updated, now, dates, key, n);
      updated := Put(updated, key(dates[n]), Get(now, key(dates[n])).GetOr([]));
    }
  }

  // ---------------------------------------------------------------------
  // Times of a day

  /** The time `addSchedule` builds: the day's midnight with the picked
      hour and minute, and zero seconds. */
  function ScheduleItem(dayStart: int, hours: int, minutes: int): (t: int)
    requires 0 <= hours < 24 && 0 <= minutes < 60
    ensures dayStart <= t < dayStart + Day
    ensures (t - dayStart) % 60000 == 0
  {
    dayStart + hours * 3600000 + minutes * 60000
  }

  predicate HasTime(r: Record, date: string, time: int)
  {
    Get(r, date).Some? && time in Get(r, date).value
  }

  /** `addSchedule`: a time already on that day changes nothing; otherwise
      the day (created if missing) gains it as its last time.  Other days
      keep their times. */
  function AddSchedule(now: Record, date: string, newItem: int): (r: Record)
    ensures HasTime(r, date, newItem)
    ensures HasTime(now, date, newItem) ==> r == now
    ensures !HasTime(now, date, newItem) ==> Get(r, date) == Some(Get(now, date).GetOr([]) + [newItem])
    ensures forall d :: d != date ==> Get(r, d) == Get(now, d)
  {
    if HasTime(now, date, newItem) then now
    else
      var r := Put(now, date, Get(now, date).GetOr([]) + [newItem]);
      PutGet(now, date, Get(now, date).GetOr([]) + [newItem]);
      forall d | d != date ensures Get(r, d) == Get(now, d) {
        PutOthers(now, date, Get(now, date).GetOr([]) + [newItem], d);
      }
      r
  }

  /** No time appears twice in a day's list. */
  predicate DistinctTimes(times: seq<int>)
  {
    forall a, b :: 0 <= a < b < |times| ==> times[a] != times[b]
  }

  predicate NoRepeatedTimes(r: Record)
  {
    forall i :: 0 <= i < |r| ==> DistinctTimes(r[i].times)
  }

  /** Adding times one by one never puts the same time twice on a day, and
      never gives two entries for one day. */
  lemma AddScheduleKeepsShape(now: Record, date: string, newItem: int)
    requires UniqueDates(now) && NoRepeatedTimes(now)
    ensures UniqueDates(AddSchedule(now, date, newItem)) && NoRepeatedTimes(AddSchedule(now, date, newItem))
  {
    if !HasTime(now, date, newItem) {
      var old_ := Get(now, date).GetOr([]);
      var times := old_ + [newItem];
      var r := Put(now, date, times);
      assert r == AddSchedule(now, date, newItem);
      PutKeepsUnique(now, date, times);
      PutShape(now, date, times);
      PutGet(now, date, times);
      if HasDate(now, date) {
        var k :| 0 <= k < |now| && now[k].date == date && old_ == now[k].times;
      }
      AppendKeepsDistinct(old_, newItem);
      forall i | 0 <= i < |r| ensures DistinctTimes(r[i].times) {
        if r[i].date == date {
          GetUnique(r, i);
        } else {
          assert r[i] == now[i];
        }
      }
    }
  }

  lemma AppendKeepsDistinct(times: seq<int>, x: int)
    requires DistinctTimes(times) && x !in times
    ensures DistinctTimes(times + [x])
  {
  }

  /** `deleteSchedule`: the day's list loses every copy of the time and
      keeps the others in order; other days keep their times.  A day the
      schedule lacks makes the handler fail, shown as no result. */
  function DeleteSchedule(now: Record, date: string, time: int): (r: Option<Record>)
    ensures r.None? <==> !HasDate(now, date)
    ensures r.Some? ==> !HasTime(r.value, date, time)
    ensures r.Some? ==> forall t :: t != time ==> (HasTime(r.value, date, t) <==> HasTime(now, date, t))
    ensures r.Some? ==> Get(r.value, date).Some? && IsSubsequence(Get(r.value, date).value, Get(now, date).value)
    ensures r.Some? ==> forall d :: d != date ==> Get(r.value, d) == Get(now, d)
  {
    match Get(now, date)
    case None => None
    case Some(times) =>
      var kept := Filter(times, (t: int) => t != time);
      var q := Put(now, date, kept);
      PutGet(now, date, kept);
      FilterIsSubsequence(times, (t: int) => t != time);
      forall d | d != date ensures Get(q, d) == Get(now, d) {
        PutOthers(now, date, kept, d);
      }
      Some(q)
  }

  // ---------------------------------------------------------------------
  // Seat dictionary

  /** One seat group of the form: its number of seats and ticket types. */
  datatype SeatEntry = SeatEntry(capacity: int, ticketTypes: seq<TicketDraft>)

  datatype SeatSlot = SeatSlot(id: nat, entry: SeatEntry)

  /** An object with integer keys lists its keys in ascending order, so the
      dictionary is a list of slots ordered by id. */
  type SeatDict = seq<SeatSlot>

  function Ids(d: SeatDict): set<nat>
    decreases |d|
  {
    if d == [] then {} else {d[0].id} + Ids(d[1..])
  }

  /** Each id is below every later one. */
  predicate Ascending(d: SeatDict)
    decreases |d|
  {
    d == [] || ((forall k :: k in Ids(d[1..]) ==> d[0].id < k) && Ascending(d[1..]))
  }

  lemma {:induction false} IdsAreIds(d: SeatDict)
    ensures forall i :: 0 <= i < |d| ==> d[i].id in Ids(d)
    ensures forall k :: k in Ids(d) ==> exists i :: 0 <= i < |d| && d[i].id == k
    decreases |d|
  {
    if d != [] {
      IdsAreIds(d[1..]);
      forall i | 0 < i < |d| ensures d[i].id in Ids(d) {
        assert d[i] == d[1..][i - 1];
      }
      forall k | k in Ids(d[1..]) ensures exists i :: 0 <= i < |d| && d[i].id == k {
        var i :| 0 <= i < |d[1..]| && d[1..][i].id == k;
        assert d[i + 1].id == k;
      }
    }
  }

  /** The ordering spelled out: the ids increase along the list. */
  lemma {:induction false} AscendingIsOrdered(d: SeatDict)
    requires Ascending(d)
    ensures forall i, j :: 0 <= i < j < |d| ==> d[i].id < d[j].id
    decreases |d|
  {
    if d != [] {
      AscendingIsOrdered(d[1..]);
      IdsAreIds(d[1..]);
      forall i, j | 0 <= i < j < |d| ensures d[i].id < d[j].id {
        assert d[j] == d[1..][j - 1];
        if i > 0 {
          assert d[i] == d[1..][i - 1];
        }
      }
    }
  }

  /** `d[id]`. */
  function Lookup(d: SeatDict, id: nat): (r: Option<SeatEntry>)
    ensures r.None? <==> id !in Ids(d)
    decreases |d|
  {
    if d == [] then None
    else if d[0].id == id then Some(d[0].entry)
    else Lookup(d[1..], id)
  }

  /** `d[id] = entry`: the id takes the entry, in its ascending place when
      it is new; every other id keeps its entry. */
  function PutSeat(d: SeatDict, id: nat, entry: SeatEntry): (r: SeatDict)
    requires Ascending(d)
    ensures Ascending(r)
    ensures Ids(r) == Ids(d) + {id}
    ensures Lookup(r, id) == Some(entry)
    ensures forall k :: k != id ==> Lookup(r, k) == Lookup(d, k)
    decreases |d|
  {
    if d == [] then [SeatSlot(id, entry)]
    else if id <= d[0].id then
      var rest := if d[0].id == id then d[1..] else d;
      var r := [SeatSlot(id, entry)] + rest;
      assert r[1..] == rest;
      r
    else
      var rest := PutSeat(d[1..], id, entry);
      var r := [d[0]] + rest;
      assert r[1..] == rest;
      r
  }

  /** `delete d[id]`: the id is gone and every other id keeps its entry. */
  function RemoveSeat(d: SeatDict, id: nat): (r: SeatDict)
    requires Ascending(d)
    ensures Ascending(r)
    ensures Ids(r) == Ids(d) - {id}
    ensures Lookup(r, id).None?
    ensures forall k :: k != id ==> Lookup(r, k) == Lookup(d, k)
    decreases |d|
  {
    if d == [] then []
    else if d[0].id == id then
      assert id !in Ids(d[1..]);
      d[1..]
    else
      var rest := RemoveSeat(d[1..], id);
      var r := [d[0]] + rest;
      assert r[1..] == rest;
      r
  }

  /** The id `addSeatGroup` gives: 0 for an empty dictionary, otherwise one
      more than the largest id. */
  function NewSeatId(d: SeatDict): (id: nat)
    ensures id !in Ids(d)
    ensures forall k :: k in Ids(d) ==> k < id
    ensures d != [] ==> id - 1 in Ids(d)
    decreases |d|
  {
    if d == [] then 0 else Max(d[0].id + 1, NewSeatId(d[1..]))
  }

  /** A new seat group: no seats yet and one S席 ticket type at price 0. */
  const NewSeatEntry: SeatEntry := SeatEntry(0, [TicketDraft("S席", 0.0)])

  /** `addSeatGroup`: a fresh id above all others takes a new group, which
      therefore comes last; the existing groups are untouched. */
  function AddSeatGroup(d: SeatDict): (r: SeatDict)
    requires Ascending(d)
    ensures Ascending(r)
    ensures r == d + [SeatSlot(NewSeatId(d), NewSeatEntry)]
    ensures NewSeatId(d) !in Ids(d) && Ids(r) == Ids(d) + {NewSeatId(d)}
  {
    var id := NewSeatId(d);
    PutSeatAbove(d, id, NewSeatEntry);
    PutSeat(d, id, NewSeatEntry)
  }

  lemma {:induction false} PutSeatAbove(d: SeatDict, id: nat, entry: SeatEntry)
    requires Ascending(d)
    requires forall k :: k in Ids(d) ==> k < id
    ensures PutSeat(d, id, entry) == d + [SeatSlot(id, entry)]
    decreases |d|
  {
    if d != [] {
      assert Ids(d) == {d[0].id} + Ids(d[1..]);
      PutSeatAbove(d[1..], id, entry);
      assert d == [d[0]] + d[1..];
    }
  }

  /** `deleteSeatGroup`. */
  function DeleteSeatGroup(d: SeatDict, id: nat): (r: SeatDict)
    requires Ascending(d)
    ensures Ascending(r) && Ids(r) == Ids(d) - {id}
    ensures forall k :: k != id ==> Lookup(r, k) == Lookup(d, k)
  {
    RemoveSeat(d, id)
  }

  /** The seat group editor's `onUpdate`: the group's slot takes the new
      capacity and ticket types. */
  function UpdateSeatGroup(d: SeatDict, id: nat, entry: SeatEntry): (r: SeatDict)
    requires Ascending(d)
    ensures Ascending(r) && Ids(r) == Ids(d) + {id}
    ensures Lookup(r, id) == Some(entry)
    ensures forall k :: k != id ==> Lookup(r, k) == Lookup(d, k)
  {
    PutSeat(d, id, entry)
  }

  // ---------------------------------------------------------------------
  // Sorting a day's times

  /** A time's sort key: its milliseconds. */
  function TimeOf(t: int): int { t }

  predicate AscendingTimes(s: seq<int>)
  {
    forall i, j :: 0 <= i < j < |s| ==> s[i] <= s[j]
  }

  /** The day lists its times ascending, if the record has it. */
  predicate DaySorted(r: Record, date: string)
  {
    Get(r, date).Some? ==> AscendingTimes(Get(r, date).value)
  }

  /** `r[date].sort((a, b) => a.getTime() - b.getTime())`: the day's array
      is sorted where it stands, so the record keeps its keys in their
      order, and a day the record lacks is skipped. */
  function SortDay(r: Record, date: string): Record
  {
    match Get(r, date)
    case None => r
    case Some(times) => Put(r, date, SortBy(times, TimeOf, IntLe))
  }

  /** Sorting a day leaves it ascending with the same times, and leaves the
      keys and every other day alone. */
  lemma SortDayShape(r: Record, date: string)
    requires UniqueDates(r)
    ensures UniqueDates(SortDay(r, date)) && Dates(SortDay(r, date)) == Dates(r)
    ensures DaySorted(SortDay(r, date), date)
    ensures multiset(Get(SortDay(r, date), date).GetOr([])) == multiset(Get(r, date).GetOr([]))
    ensures forall d :: d != date ==> Get(SortDay(r, date), d) == Get(r, d)
  {
    var g := Get(r, date);
    if g.Some? {
      var sorted := SortBy(g.value, TimeOf, IntLe);
      OrdersArePreorders();
      SortSorted(g.value, TimeOf, IntLe);
      SortPermutes(g.value, TimeOf, IntLe);
      PutKeepsUnique(r, date, sorted);
      PutDates(r, date, sorted);
      PutGet(r, date, sorted);
      forall d | d != date ensures Get(SortDay(r, date), d) == Get(r, d) {
        PutOthers(r, date, sorted, d);
      }
    }
  }

  /** `r` is `r0` with the days `keys` sorted: same dates, same times per
      day, every day of `keys` ascending and every other day as it was. */
  ghost predicate Rendered(r0: Record, r: Record, keys: seq<string>)
  {
    && UniqueDates(r) && Dates(r) == Dates(r0)
    && (forall i :: 0 <= i < |keys| ==> DaySorted(r, keys[i]))
    && (forall d :: multiset(Get(r, d).GetOr([])) == multiset(Get(r0, d).GetOr([])))
    && (forall d :: d !in keys ==> Get(r, d) == Get(r0, d))
  }

  /** Sorting one more day keeps the days sorted before it sorted. */
  lemma RenderStep(r0: Record, r: Record, keys: seq<string>, date: string)
    requires Rendered(r0, r, keys)
    ensures Rendered(r0, SortDay(r, date), keys + [date])
  {
    SortDayShape(r, date);
    var r' := SortDay(r, date);
    forall i | 0 <= i < |keys| + 1 ensures DaySorted(r', (keys + [date])[i]) {
      if i < |keys| && keys[i] != date {
        assert Get(r', keys[i]) == Get(r, keys[i]);
      }
    }
  }

  // ---------------------------------------------------------------------
  // The form

  const DefaultSeatDict: SeatDict := [SeatSlot(0, SeatEntry(0, [TicketDraft(Models.DefaultTypeName, 0.0)]))]

  /** The form's values, changed by the page's handlers. */
  class EventForm {
    var title: string
    var description: string
    var startDate: Option<int>
    var endDate: Option<int>
    var schedule: Record
    var seatDict: SeatDict

    /** Ascending ids in the dictionary and one entry per day. */
    ghost predicate Valid()
      reads this
    {
      Ascending(seatDict) && UniqueDates(schedule)
    }

    /** The default values: empty texts, no days, no times, and seat group
        0 with no seats and the 一般 ticket type at price 0. */
    constructor ()
      ensures Valid()
      ensures title == [] && description == [] && startDate.None? && endDate.None?
      ensures schedule == [] && seatDict == DefaultSeatDict
    {
      title := [];
      description := [];
      startDate := None;
      endDate := None;
      schedule := [];
      seatDict := DefaultSeatDict;
    }

    /** Rendering the days `dates` (keyed by `key`) sorts each shown day's
        times in the form's own arrays: afterwards every shown day the
        schedule has lists its times ascending, each day keeps the same
        times, and days not shown keep their order. */
    method Render(dates: seq<int>, key: int -> string)
      requires Valid()
      modifies this
      ensures Valid() && Dates(schedule) == Dates(old(schedule))
      ensures forall i :: 0 <= i < |dates| ==> DaySorted(schedule, key(dates[i]))
      ensures forall d :: multiset(Get(schedule, d).GetOr([])) == multiset(Get(old(schedule), d).GetOr([]))
      ensures forall d :: (forall i :: 0 <= i < |dates| ==> key(dates[i]) != d) ==> Get(schedule, d) == Get(old(schedule), d)
      ensures title == old(title) && description == old(description) && seatDict == old(seatDict)
      ensures startDate == old(startDate) && endDate == old(endDate)
    {
      var k := 0;
      ghost var keys: seq<string> := [];
      while k < |dates|
        invariant 0 <= k <= |dates| && |keys| == k
        invariant forall i :: 0 <= i < k ==> keys[i] == key(dates[i])
        invariant Ascending(seatDict) && Rendered(old(schedule), schedule, keys)
        invariant title == old(title) && description == old(description) && seatDict == old(seatDict)
        invariant startDate == old(startDate) && endDate == old(endDate)
      {
        RenderStep(old(schedule), schedule, keys, key(dates[k]));
        schedule := SortDay(schedule, key(dates[k]));
        keys := keys + [key(dates[k])];
        k := k + 1;
      }
    }

    /** After a confirmed creation the form goes back to its defaults. */
    method Reset()
      modifies this
      ensures Valid()
      ensures title == [] && description == [] && startDate.None? && endDate.None?
      ensures schedule == [] && seatDict == DefaultSeatDict
    {
      title := [];
      description := [];
      startDate := None;
      endDate := None;
      schedule := [];
      seatDict := DefaultSeatDict;
    }

    /** A new first or last day: the schedule is synchronised with the new
        list of days. */
    method SetDates(newStart: Option<int>, newEnd: Option<int>, key: int -> string) returns (dates: seq<int>)
      requires Valid()
      modifies this
      ensures Valid()
      ensures startDate == newStart && endDate == newEnd
      ensures forall d :: HasDate(schedule, d) <==> exists i :: 0 <= i < |dates| && key(dates[i]) == d
      ensures forall i :: 0 <= i < |dates| ==> Get(schedule, key(dates[i])) == Some(Get(old(schedule), key(dates[i])).GetOr([]))
      ensures title == old(title) && description == old(description) && seatDict == old(seatDict)
    {
      startDate := newStart;
      endDate := newEnd;
      dates := EventDates(newStart, newEnd);
      schedule := SyncSchedule(schedule, dates, key);
    }

    method AddTime(date: string, dayStart: int, hours: int, minutes: int)
      requires Valid() && 0 <= hours < 24 && 0 <= minutes < 60
      modifies this
      ensures Valid()
      ensures schedule == AddSchedule(old(schedule), date, ScheduleItem(dayStart, hours, minutes))
      ensures title == old(title) && description == old(description) && seatDict == old(seatDict)
      ensures startDate == old(startDate) && endDate == old(endDate)
    {
      var item := ScheduleItem(dayStart, hours, minutes);
      if !HasTime(schedule, date, item) {
        PutKeepsUnique(schedule, date, Get(schedule, date).GetOr([]) + [item]);
      }
      schedule := AddSchedule(schedule, date, item);
    }

    /** Deleting from a day the schedule lacks throws, and nothing changes. */
    method DeleteTime(date: string, time: int) returns (failed: bool)
      requires Valid()
      modifies this
      ensures Valid()
      ensures failed <==> !HasDate(old(schedule), date)
      ensures !failed ==> schedule == DeleteSchedule(old(schedule), date, time).value
      ensures failed ==> schedule == old(schedule)
      ensures title == old(title) && description == old(description) && seatDict == old(seatDict)
      ensures startDate == old(startDate) && endDate == old(endDate)
    {
      var r := DeleteSchedule(schedule, date, time);
      failed := r.None?;
      if r.Some? {
        var times := Get(schedule, date).value;
        PutKeepsUnique(schedule, date, Filter(times, (t: int) => t != time));
        schedule := r.value;
      }
    }

    method AddGroup()
      requires Valid()
      modifies this
      ensures Valid()
      ensures seatDict == AddSeatGroup(old(seatDict))
      ensures title == old(title) && description == old(description) && schedule == old(schedule)
      ensures startDate == old(startDate) && endDate == old(endDate)
    {
      seatDict := AddSeatGroup(seatDict);
    }

    method DeleteGroup(id: nat)
      requires Valid()
      modifies this
      ensures Valid()
      ensures seatDict == DeleteSeatGroup(old(seatDict), id)
      ensures title == old(title) && description == old(description) && schedule == old(schedule)
      ensures startDate == old(startDate) && endDate == old(endDate)
    {
      seatDict := DeleteSeatGroup(seatDict, id);
    }

    method UpdateGroup(id: nat, entry: SeatEntry)
      requires Valid()
      modifies this
      ensures Valid()
      ensures seatDict == UpdateSeatGroup(old(seatDict), id, entry)
      ensures title == old(title) && description == old(description) && schedule == old(schedule)
      ensures startDate == old(startDate) && endDate == old(endDate)
    {
      seatDict := UpdateSeatGroup(seatDict, id, entry);
    }
  }
}

=== FILE: event_duplicater.dfy ===
/** Duplicating an event onto another start day: the copy has the event's
    stages moved by a whole number of days, each seat group with its
    original number of seats, and the same ticket types. */
module EventDuplicater {
  import opened Common
  import opened ClientData
  import opened AppData

  // ---------------------------------------------------------------------
  // The day offset

  /** `normalizeDate`: midnight at the start of the day holding `t`. */
  function Midnight(t: int): (r: int)
    ensures r % Day == 0 && r <= t < r + Day
  {
    t - t % Day
  }

  /** `Math.floor(normalizeDate(t).getTime() / (1000 * 60 * 60 * 24))`:
      the number of the day holding `t`. */
  function DayNumber(t: int): (n: int)
    ensures n * Day <= t < n * Day + Day
  {
    Midnight(t) / Day
  }

  /** `diff`: the whole days from the event's first day to the chosen day. */
  function DayOffset(chosen: int, eventStart: int): (d: int)
    ensures DayNumber(eventStart) + d == DayNumber(chosen)
  {
    DayNumber(chosen) - DayNumber(eventStart)
  }

  /** Moving a time by whole days moves its day number by as many. */
  lemma ShiftByDays(t: int, d: int)
    ensures DayNumber(t + d * Day) == DayNumber(t) + d
  {
    var n := DayNumber(t);
    assert (n + d) * Day <= t + d * Day < (n + d) * Day + Day;
    var m := DayNumber(t + d * Day);
    assert m * Day <= t + d * Day < m * Day + Day;
  }

  /** A time on the event's first day is moved onto the chosen day; a time
      `k` days later lands `k` days after the chosen day. */
  lemma ShiftLandsOnChosenDay(chosen: int, eventStart: int, t: int)
    ensures DayNumber(t + DayOffset(chosen, eventStart) * Day) - DayNumber(chosen) == DayNumber(t) - DayNumber(eventStart)
  {
    ShiftByDays(t, DayOffset(chosen, eventStart));
  }

  // ---------------------------------------------------------------------
  // Seats of a copied group

  /** The copy of a seat group gets the seats still free plus the seats its
      reservations hold: the number it was created with. */
  function CopiedCapacity(g: SeatGroupRow, reservations: seq<Detail>): int
  {
    g.capacity + SeatsTaken(reservations, g.id)
  }

  /** The `forEach` that adds up `maxCapacity`. */
  method MaxCapacity(g: SeatGroupRow, reservations: seq<Detail>) returns (maxCapacity: int)
    ensures maxCapacity == CopiedCapacity(g, reservations)
  {
    maxCapacity := g.capacity;
    for i := 0 to |reservations|
      invariant maxCapacity == g.capacity + SeatsTaken(reservations[..i], g.id)
    {
      SeatsTakenSnoc(reservations[..i], reservations[i], g.id);
      assert reservations[..i + 1] == reservations[..i] + [reservations[i]];
      if reservations[i].seatGroup.id == g.id {
        maxCapacity := maxCapacity + reservations[i].reservation.numAttendees;
      }
    }
    assert reservations[..|reservations|] == reservations;
  }

  /** No copy has fewer seats than are free now, when no reservation is
      negative. */
  lemma CopyHasFreeSeats(g: SeatGroupRow, reservations: seq<Detail>)
    requires forall i :: 0 <= i < |reservations| ==> reservations[i].reservation.numAttendees >= 0
    ensures CopiedCapacity(g, reservations) >= g.capacity
  {
    SeatsTakenNonNegative(reservations, g.id);
  }

  // ---------------------------------------------------------------------
  // The copy

  datatype TypeCopy = TypeCopy(typeName: string, price: real)
  datatype GroupCopy = GroupCopy(capacity: int, ticketTypes: seq<TypeCopy>)
  datatype StageCopy = StageCopy(startTime: int, endTime: int, seatGroups: seq<GroupCopy>)
  /** What `handleDuplicate` creates: an event, its stages, each stage's
      seat groups and each group's ticket types. */
  datatype EventCopy = EventCopy(name: string, description: string, stages: seq<StageCopy>)

  const CopySuffix: string := "のコピー"

  function CopyType(t: TicketTypeRow): TypeCopy
  {
    TypeCopy(t.typeName, t.price)
  }

  /** A seat group's copy: its full number of seats and a copy of each of
      its ticket types, in list order. */
  function CopyGroup(g: SeatGroupRow, types: seq<TicketTypeRow>, reservations: seq<Detail>): (r: GroupCopy)
    ensures r.capacity == CopiedCapacity(g, reservations)
    ensures forall j :: 0 <= j < |r.ticketTypes| ==>
              exists t :: t in types && t.seatGroupId == g.id && r.ticketTypes[j] == CopyType(t)
    ensures forall t :: t in types && t.seatGroupId == g.id ==> CopyType(t) in r.ticketTypes
  {
    var own := Filter(types, (t: TicketTypeRow) => t.seatGroupId == g.id);
    var copies := MapSeq(own, CopyType);
    forall t | t in types && t.seatGroupId == g.id ensures CopyType(t) in copies {
      var i :| 0 <= i < |types| && types[i] == t;
      var k :| 0 <= k < |own| && own[k] == t;
      assert copies[k] == CopyType(t);
    }
    GroupCopy(CopiedCapacity(g, reservations), copies)
  }

  /** A stage's copy: moved by `offset` days, lasting as long, with a copy
      of each of its seat groups in list order. */
  function CopyStage(s: StageRow, offset: int, groups: seq<SeatGroupRow>, types: seq<TicketTypeRow>,
                     reservations: seq<Detail>): (r: StageCopy)
    ensures r.startTime - s.startTime == offset * Day && r.endTime - s.endTime == offset * Day
    ensures r.endTime - r.startTime == s.endTime - s.startTime
    ensures |r.seatGroups| == |GroupsOfStage(groups, s.id)|
    ensures forall j :: 0 <= j < |r.seatGroups| ==> r.seatGroups[j] == CopyGroup(GroupsOfStage(groups, s.id)[j], types, reservations)
  {
    StageCopy(s.startTime + offset * Day, s.endTime + offset * Day,
              MapSeq(GroupsOfStage(groups, s.id), (g: SeatGroupRow) => CopyGroup(g, types, reservations)))
  }

  /** `handleDuplicate`: the event's name with のコピー appended, the same
      description, and a copy of each of the event's stages, all moved by
      the days from the event's first day (`eventStart`) to the chosen one. */
  function DuplicatePlan(event: EventRow, chosen: int, eventStart: int, stages: seq<StageRow>,
                         groups: seq<SeatGroupRow>, types: seq<TicketTypeRow>, reservations: seq<Detail>): (r: EventCopy)
    ensures r.name == event.name + CopySuffix && r.description == event.description
    ensures |r.stages| == |EventStages(stages, event.id)|
    ensures forall k :: 0 <= k < |r.stages| ==>
              r.stages[k] == CopyStage(EventStages(stages, event.id)[k], DayOffset(chosen, eventStart), groups, types, reservations)
  {
    var offset := DayOffset(chosen, eventStart);
    EventCopy(event.name + CopySuffix, event.description,
              MapSeq(EventStages(stages, event.id), (s: StageRow) => CopyStage(s, offset, groups, types, reservations)))
  }

  /** Each copied stage starts as many days after the chosen day as the
      original started after the event's first day, so a stage on the first
      day lands on the chosen day. */
  lemma CopiedStagesKeepTheirDays(event: EventRow, chosen: int, eventStart: int, stages: seq<StageRow>,
                                  groups: seq<SeatGroupRow>, types: seq<TicketTypeRow>, reservations: seq<Detail>, k: nat)
    requires k < |EventStages(stages, event.id)|
    ensures var copy := DuplicatePlan(event, chosen, eventStart, stages, groups, types, reservations).stages[k];
            var original := EventStages(stages, event.id)[k];
            && DayNumber(copy.startTime) - DayNumber(chosen) == DayNumber(original.startTime) - DayNumber(eventStart)
            && DayNumber(copy.endTime) - DayNumber(chosen) == DayNumber(original.endTime) - DayNumber(eventStart)
  {
    var original := EventStages(stages, event.id)[k];
    ShiftLandsOnChosenDay(chosen, eventStart, original.startTime);
    ShiftLandsOnChosenDay(chosen, eventStart, original.endTime);
  }
}

=== FILE: form_rules.dfy ===
/** The shared form field: a fixed set of validation rules per kind of
    field, the clean-up applied to number fields when they lose focus, and
    the HTML input type. */
module FormRules {
  import opened Common
  import opened Text

  datatype FieldType = Title | Description | Email | Password | Nickname | Number | Default

  /** What a rule can object to. */
  datatype Violation = Missing | TooShort | TooLong | Mismatch

  /** The length JavaScript reports: UTF-16 code units, so a character
      beyond the Basic Multilingual Plane counts twice. */
  function JsLength(s: string): (n: int)
    ensures |s| <= n <= 2 * |s|
  {
    var n := Sum(s, (c: char) => if c as int >= 0x10000 then 2 else 1);
    SumBounds(s);
    n
  }

  lemma {:induction false} SumBounds(s: string)
    ensures |s| <= Sum(s, (c: char) => if c as int >= 0x10000 then 2 else 1) <= 2 * |s|
    decreases |s|
  {
    if s != [] {
      SumBounds(s[1..]);
    }
  }

  // ---------------------------------------------------------------------
  // Patterns

  predicate IsLetter(c: char)
  {
    'A' <= c <= 'Z' || 'a' <= c <= 'z'
  }

  /** `[A-Za-z0-9._%+-]`. */
  predicate IsLocalChar(c: char)
  {
    IsLetter(c) || IsDigit(c) || c in {'.', '_', '%', '+', '-'}
  }

  /** `[A-Za-z0-9.-]`. */
  predicate IsDomainChar(c: char)
  {
    IsLetter(c) || IsDigit(c) || c == '.' || c == '-'
  }

  /** `[A-Za-z0-9.-]+\.[A-Za-z]{2,4}` matching the whole of `d`: the last
      two to four characters are letters after a dot, with at least one
      domain character before it. */
  predicate DomainShape(d: string)
  {
    TopLevelOf(d, 2) || TopLevelOf(d, 3) || TopLevelOf(d, 4)
  }

  /** `d` ends in a dot and `k` letters, with at least one domain character
      before the dot. */
  predicate TopLevelOf(d: string, k: nat)
  {
    k + 2 <= |d| && d[|d| - k - 1] == '.'
    && (forall i :: 0 <= i < |d| - k - 1 ==> IsDomainChar(d[i]))
    && (forall i :: |d| - k <= i < |d| ==> IsLetter(d[i]))
  }

  /** `/^[A-Za-z0-9._%+-]+@[A-Za-z0-9.-]+\.[A-Za-z]{2,4}$/`.  Neither part
      can hold an `@`, so the split is at the one `@` of the text. */
  predicate EmailShape(s: string)
  {
    exists i :: 0 < i < |s| && s[i] == '@'
      && (forall j :: 0 <= j < i ==> IsLocalChar(s[j]))
      && DomainShape(s[i + 1..])
  }

  /** `/^[0-9０-９]+$/`. */
  predicate NumberShape(s: string)
  {
    |s| > 0 && forall i :: 0 <= i < |s| ==> IsAnyDigit(s[i])
  }

  // ---------------------------------------------------------------------
  // Rules

  datatype Pattern = EmailPattern | NumberPattern

  datatype Rules = Rules(required: bool, minLength: Option<int>, maxLength: Option<int>, pattern: Option<Pattern>)

  /** The rule table.  A kind without an entry gets no rules. */
  function RulesOf(f: FieldType): (r: Rules)
    ensures r.minLength.Some? ==> f == Password
    ensures r.required <==> f in {Title, Description, Email, Password, Number}
  {
    match f
    case Title => Rules(true, None, Some(50), None)
    case Description => Rules(true, None, Some(500), None)
    case Email => Rules(true, None, None, Some(EmailPattern))
    case Password => Rules(true, Some(6), Some(20), None)
    case Nickname => Rules(false, None, Some(50), None)
    case Number => Rules(true, None, None, Some(NumberPattern))
    case Default => Rules(false, None, None, None)
  }

  predicate Matches(p: Pattern, s: string)
  {
    match p
    case EmailPattern => EmailShape(s)
    case NumberPattern => NumberShape(s)
  }

  /** The rules a value breaks.  An empty value only breaks `required`;
      the length and pattern rules look at non-empty values. */
  function Violations(f: FieldType, v: string): (r: set<Violation>)
    ensures v == [] ==> r == (if RulesOf(f).required then {Missing} else {})
    ensures Missing in r <==> RulesOf(f).required && v == []
  {
    var rules := RulesOf(f);
    if v == [] then (if rules.required then {Missing} else {})
    else
      (if rules.minLength.Some? && JsLength(v) < rules.minLength.value then {TooShort} else {})
      + (if rules.maxLength.Some? && JsLength(v) > rules.maxLength.value then {TooLong} else {})
      + (if rules.pattern.Some? && !Matches(rules.pattern.value, v) then {Mismatch} else {})
  }

  predicate Accepts(f: FieldType, v: string)
  {
    Violations(f, v) == {}
  }

  /** What each kind of field accepts, spelled out. */
  lemma AcceptedValues(v: string)
    ensures Accepts(Title, v) <==> 1 <= JsLength(v) <= 50
    ensures Accepts(Description, v) <==> 1 <= JsLength(v) <= 500
    ensures Accepts(Email, v) <==> EmailShape(v)
    ensures Accepts(Password, v) <==> 6 <= JsLength(v) <= 20
    ensures Accepts(Nickname, v) <==> JsLength(v) <= 50
    ensures Accepts(Number, v) <==> NumberShape(v)
    ensures Accepts(Default, v)
  {
    if v == [] {
      assert !EmailShape(v);
      assert JsLength(v) == 0;
    } else {
      assert JsLength(v) >= 1;
    }
  }

  // ---------------------------------------------------------------------
  // Clean-up on leaving the field

  /** `handleBlur`: a number field has its full-width digits narrowed and
      then every other character removed; other fields are untouched. */
  function OnBlur(f: FieldType, v: string): (r: string)
    ensures f != Number ==> r == v
    ensures f == Number ==> AllDigits(r) && r == DigitsInOrder(v)
  {
    if f == Number then
      KeepNarrowIsDigitsInOrder(v);
      KeepDigits(NarrowDigits(v))
    else v
  }

  /** Cleaning a cleaned value changes nothing. */
  lemma OnBlurIdempotent(f: FieldType, v: string)
    ensures OnBlur(f, OnBlur(f, v)) == OnBlur(f, v)
  {
    if f == Number {
      DigitsInOrderOfDigits(OnBlur(f, v));
    }
  }

  /** After clean-up a number field is accepted exactly when the typed text
      held at least one digit of either width. */
  lemma CleanedNumberAccepted(v: string)
    ensures Accepts(Number, OnBlur(Number, v)) <==> exists i :: 0 <= i < |v| && IsAnyDigit(v[i])
  {
    var r := OnBlur(Number, v);
    DigitsInOrderEmpty(v);
    AcceptedValues(r);
    assert NumberShape(r) <==> |r| > 0;
  }

  /** The input element's type. */
  function InputType(f: FieldType): (r: string)
    ensures r == "password" <==> f == Password
    ensures r == "email" <==> f == Email
    ensures r == "text" <==> f != Password && f != Email
  {
    if f == Password then "password" else if f == Email then "email" else "text"
  }
}

=== FILE: ledger.dfy ===
/** The database behind the ticketing server and its per-table operations
    (the CRUD layer).  The central quantity is, per seat group, the total
    number of seats it was given: the seats still unsold (`capacity`) plus
    the attendees of the live reservations whose ticket type belongs to the
    group.  The reservation handlers move seats between the two terms and
    keep the total fixed. */
module Ledger {
  import opened Common
  import opened Models

  // ---------------------------------------------------------------------
  // Reservation table queries

  /** Rows are kept in primary-key order, as `SELECT … ORDER BY id` sees them. */
  predicate IdsAscending(rs: seq<Reservation>)
  {
    forall i, j :: 0 <= i < j < |rs| ==> rs[i].id < rs[j].id
  }

  /** The position of the reservation with primary key `id`. */
  function IndexOf(rs: seq<Reservation>, id: int): (r: Option<nat>)
    ensures r.Some? ==> r.value < |rs| && rs[r.value].id == id
    ensures r.None? ==> forall i :: 0 <= i < |rs| ==> rs[i].id != id
    decreases |rs|
  {
    if rs == [] then None
    else if rs[0].id == id then Some(0)
    else
      var k := IndexOf(rs[1..], id);
      if k.Some? then Some(k.value + 1) else None
  }

  /** `CrudReservation.read_by_ticket_type_id`. */
  function ReservationsOfTicketType(rs: seq<Reservation>, ticketTypeId: int): (r: seq<Reservation>)
    ensures forall i :: 0 <= i < |r| ==> r[i] in rs && r[i].ticketTypeId == ticketTypeId
    ensures forall i :: 0 <= i < |rs| && rs[i].ticketTypeId == ticketTypeId ==> rs[i] in r
    ensures IsSubsequence(r, rs)
  {
    FilterIsSubsequence(rs, (x: Reservation) => x.ticketTypeId == ticketTypeId);
    Filter(rs, (x: Reservation) => x.ticketTypeId == ticketTypeId)
  }

  /** `CrudReservation.read_by_user_id`. */
  function ReservationsOfUser(rs: seq<Reservation>, userId: int): (r: seq<Reservation>)
    ensures forall i :: 0 <= i < |r| ==> r[i] in rs && r[i].userId == userId
    ensures forall i :: 0 <= i < |rs| && rs[i].userId == userId ==> rs[i] in r
    ensures IdsAscending(rs) ==> IdsAscending(r)
  {
    FilterKeepsIdOrder(rs, (x: Reservation) => x.userId == userId);
    Filter(rs, (x: Reservation) => x.userId == userId)
  }

  /** `CrudReservation.read_by_user_and_ticket_type_id`: both filters, in either
      order, give the same list. */
  function ReservationsOfUserAndTicketType(rs: seq<Reservation>, userId: int, ticketTypeId: int): (r: seq<Reservation>)
    ensures forall i :: 0 <= i < |r| ==> r[i] in rs && r[i].userId == userId && r[i].ticketTypeId == ticketTypeId
    ensures forall i :: 0 <= i < |rs| && rs[i].userId == userId && rs[i].ticketTypeId == ticketTypeId ==> rs[i] in r
    ensures r == ReservationsOfTicketType(ReservationsOfUser(rs, userId), ticketTypeId)
  {
    FilterFilter(rs, (x: Reservation) => x.userId == userId, (x: Reservation) => x.ticketTypeId == ticketTypeId);
    Filter(Filter(rs, (x: Reservation) => x.userId == userId), (x: Reservation) => x.ticketTypeId == ticketTypeId)
  }

  lemma {:induction false} FilterKeepsIdOrder(rs: seq<Reservation>, p: Reservation -> bool)
    ensures IdsAscending(rs) ==> IdsAscending(Filter(rs, p))
    decreases |rs|
  {
    if rs != [] && IdsAscending(rs) {
      FilterKeepsIdOrder(rs[1..], p);
      var tail := Filter(rs[1..], p);
      if p(rs[0]) {
        forall j | 0 <= j < |tail| ensures rs[0].id < tail[j].id {
          var k :| 0 <= k < |rs[1..]| && rs[1..][k] == tail[j];
          assert rs[k + 1] == tail[j];
        }
        assert Filter(rs, p) == [rs[0]] + tail;
      }
    }
  }

  // ---------------------------------------------------------------------
  // Seat accounting

  /** The seats reservation `r` holds in seat group `seatGroupId`: its
      attendees when its ticket type exists and belongs to that group. */
  function Share(r: Reservation, ticketTypes: map<int, TicketType>, seatGroupId: int): int
  {
    if r.ticketTypeId in ticketTypes && ticketTypes[r.ticketTypeId].seatGroupId == seatGroupId
    then r.numAttendees else 0
  }

  /** Seats of `seatGroupId` held by the reservations `rs`. */
  function Booked(rs: seq<Reservation>, ticketTypes: map<int, TicketType>, seatGroupId: int): int
    decreases |rs|
  {
    if rs == [] then 0
    else Share(rs[0], ticketTypes, seatGroupId) + Booked(rs[1..], ticketTypes, seatGroupId)
  }

  lemma {:induction false} BookedNonNegative(rs: seq<Reservation>, tts: map<int, TicketType>, g: int)
    requires forall i :: 0 <= i < |rs| ==> rs[i].numAttendees >= 0
    ensures Booked(rs, tts, g) >= 0
    decreases |rs|
  {
    if rs != [] {
      BookedNonNegative(rs[1..], tts, g);
    }
  }

  lemma {:induction false} BookedAppend(rs: seq<Reservation>, r: Reservation, tts: map<int, TicketType>, g: int)
    ensures Booked(rs + [r], tts, g) == Booked(rs, tts, g) + Share(r, tts, g)
    decreases |rs|
  {
    if rs == [] {
      assert rs + [r] == [r];
    } else {
      assert (rs + [r])[1..] == rs[1..] + [r];
      BookedAppend(rs[1..], r, tts, g);
    }
  }

  lemma {:induction false} BookedRemoveAt(rs: seq<Reservation>, i: nat, tts: map<int, TicketType>, g: int)
    requires i < |rs|
    ensures Booked(rs[..i] + rs[i + 1..], tts, g) == Booked(rs, tts, g) - Share(rs[i], tts, g)
    decreases |rs|
  {
    if i == 0 {
      assert rs[..0] + rs[1..] == rs[1..];
    } else {
      assert (rs[..i] + rs[i + 1..])[0] == rs[0];
      assert (rs[..i] + rs[i + 1..])[1..] == rs[1..][..i - 1] + rs[1..][i..];
      BookedRemoveAt(rs[1..], i - 1, tts, g);
    }
  }

  lemma {:induction false} BookedReplaceAt(rs: seq<Reservation>, i: nat, r: Reservation, tts: map<int, TicketType>, g: int)
    requires i < |rs|
    ensures Booked(rs[i := r], tts, g) == Booked(rs, tts, g) - Share(rs[i], tts, g) + Share(r, tts, g)
    decreases |rs|
  {
    if i > 0 {
      assert rs[i := r][1..] == rs[1..][i - 1 := r];
      BookedReplaceAt(rs[1..], i - 1, r, tts, g);
    }
  }

  /** Changing ticket types in a way no reservation can tell apart (a new
      type nobody booked, a rename) leaves every group's booked seats alone. */
  lemma {:induction false} BookedCongruent(rs: seq<Reservation>, tts: map<int, TicketType>, tts': map<int, TicketType>, g: int)
    requires forall i :: 0 <= i < |rs| ==> Share(rs[i], tts, g) == Share(rs[i], tts', g)
    ensures Booked(rs, tts', g) == Booked(rs, tts, g)
    decreases |rs|
  {
    if rs != [] {
      BookedCongruent(rs[1..], tts, tts', g);
    }
  }

  // ---------------------------------------------------------------------
  // Uniqueness rules of the schema

  /** (seat_group_id, type_name) is unique. */
  predicate UniqueTypeNames(tts: map<int, TicketType>)
  {
    forall a, b :: a in tts && b in tts && a != b && tts[a].seatGroupId == tts[b].seatGroupId
      ==> tts[a].typeName != tts[b].typeName
  }

  /** Some ticket type of seat group `g` other than `except` is named `name`. */
  predicate TypeNameTaken(tts: map<int, TicketType>, g: int, name: string, except: int)
  {
    exists t :: t in tts && t != except && tts[t].seatGroupId == g && tts[t].typeName == name
  }

  /** (event_id, start_time) is unique. */
  predicate UniqueStageStarts(stages: map<int, Stage>)
  {
    forall a, b :: a in stages && b in stages && a != b && stages[a].eventId == stages[b].eventId
      ==> stages[a].startTime != stages[b].startTime
  }

  predicate StartTaken(stages: map<int, Stage>, eventId: int, startTime: int)
  {
    exists s :: s in stages && stages[s].eventId == eventId && stages[s].startTime == startTime
  }

  /** email is unique. */
  predicate UniqueEmails(users: map<int, User>)
  {
    forall a, b :: a in users && b in users && a != b ==> users[a].email != users[b].email
  }

  predicate EmailTaken(users: map<int, User>, email: string, except: int)
  {
    exists u :: u in users && u != except && users[u].email == email
  }

  // ---------------------------------------------------------------------
  // Foreign keys.  A child row's key to its parent is NOT NULL and the
  // relationships declare no cascade, so deleting a parent that still has
  // children makes the ORM null the children's key, and the commit fails.

  /** Some ticket type belongs to seat group `g`. */
  predicate GroupHasTypes(tts: map<int, TicketType>, g: int)
  {
    exists t :: t in tts && tts[t].seatGroupId == g
  }

  /** The reservation's ticket type exists, and so does that type's seat
      group. */
  predicate Linked(x: Reservation, tts: map<int, TicketType>, seatGroups: map<int, SeatGroup>)
  {
    x.ticketTypeId in tts && tts[x.ticketTypeId].seatGroupId in seatGroups
  }

  /** The unsold seats of the group a linked reservation books from. */
  function PoolOf(x: Reservation, tts: map<int, TicketType>, seatGroups: map<int, SeatGroup>): int
    requires Linked(x, tts, seatGroups)
  {
    seatGroups[tts[x.ticketTypeId].seatGroupId].capacity
  }

  /** Every ticket type's seat group, and every reservation's ticket type
      and user, are among the rows given. */
  ghost predicate LinksHold(seatGroups: map<int, SeatGroup>, tts: map<int, TicketType>,
                            rs: seq<Reservation>, users: map<int, User>)
  {
    && (forall t :: t in tts ==> tts[t].seatGroupId in seatGroups)
    && (forall i :: 0 <= i < |rs| ==> rs[i].ticketTypeId in tts)
    && (forall i :: 0 <= i < |rs| ==> rs[i].userId in users)
  }

  /** Keeping the seat groups' ids, and keeping only reservations that were
      there before or that point at an existing ticket type and user, keeps
      every link. */
  lemma LinksHoldKept(seatGroups: map<int, SeatGroup>, seatGroups': map<int, SeatGroup>, tts: map<int, TicketType>,
                      rs: seq<Reservation>, rs': seq<Reservation>, users: map<int, User>)
    requires LinksHold(seatGroups, tts, rs, users)
    requires seatGroups'.Keys == seatGroups.Keys
    requires forall x :: x in rs' ==> x in rs || (x.ticketTypeId in tts && x.userId in users)
    ensures LinksHold(seatGroups', tts, rs', users)
  {
    forall i | 0 <= i < |rs'| ensures rs'[i].ticketTypeId in tts && rs'[i].userId in users {
      assert rs'[i] in rs';
      if rs'[i] in rs {
        var j :| 0 <= j < |rs| && rs[j] == rs'[i];
      }
    }
  }

  /** Some reservation belongs to user `u`. */
  predicate UserHasReservations(rs: seq<Reservation>, u: int)
  {
    exists i :: 0 <= i < |rs| && rs[i].userId == u
  }

  /** Some reservation is made on ticket type `t`. */
  predicate TypeHasReservations(rs: seq<Reservation>, t: int)
  {
    exists i :: 0 <= i < |rs| && rs[i].ticketTypeId == t
  }

  // ---------------------------------------------------------------------
  // Table filters used by the list handlers

  /** `CrudSeatGroup.read_by_stage_id`. */
  function SeatGroupsOfStage(seatGroups: map<int, SeatGroup>, stageId: int): (r: map<int, SeatGroup>)
    ensures forall g :: g in r <==> g in seatGroups && seatGroups[g].stageId == stageId
    ensures forall g :: g in r ==> r[g] == seatGroups[g]
  {
    map g | g in seatGroups && seatGroups[g].stageId == stageId :: seatGroups[g]
  }

  /** `CrudTicketType.read_by_seat_group_id`. */
  function TicketTypesOfSeatGroup(tts: map<int, TicketType>, seatGroupId: int): (r: map<int, TicketType>)
    ensures forall t :: t in r <==> t in tts && tts[t].seatGroupId == seatGroupId
    ensures forall t :: t in r ==> r[t] == tts[t]
  {
    map t | t in tts && tts[t].seatGroupId == seatGroupId :: tts[t]
  }

  /** The names in a seat group's ticket-type list are pairwise distinct when
      the table keeps its unique constraint. */
  lemma TicketTypesOfSeatGroupDistinctNames(tts: map<int, TicketType>, g: int, a: int, b: int)
    requires UniqueTypeNames(tts)
    requires a in TicketTypesOfSeatGroup(tts, g) && b in TicketTypesOfSeatGroup(tts, g) && a != b
    ensures TicketTypesOfSeatGroup(tts, g)[a].typeName != TicketTypesOfSeatGroup(tts, g)[b].typeName
  {
  }

  // ---------------------------------------------------------------------
  // The database

  class Database {
    var stages: map<int, Stage>
    var seatGroups: map<int, SeatGroup>
    var ticketTypes: map<int, TicketType>
    var reservations: seq<Reservation>
    var users: map<int, User>
    // Autoincrement counters: the id the next inserted row receives.
    var nextStageId: int
    var nextSeatGroupId: int
    var nextTicketTypeId: int
    var nextReservationId: int
    var nextUserId: int

    /** Keys come from the counters and rows only point at ids already
        handed out; reservations are in key order and hold at least one
        seat; the unique constraints hold. */
    ghost predicate Valid()
      reads this
    {
      && 1 <= nextStageId && 1 <= nextSeatGroupId && 1 <= nextTicketTypeId
      && 1 <= nextReservationId && 1 <= nextUserId
      && (forall s :: s in stages ==> 1 <= s < nextStageId)
      && (forall g :: g in seatGroups ==> 1 <= g < nextSeatGroupId)
      && (forall t :: t in ticketTypes ==> 1 <= t < nextTicketTypeId && ticketTypes[t].seatGroupId < nextSeatGroupId)
      && (forall u :: u in users ==> 1 <= u < nextUserId)
      && (forall i :: 0 <= i < |reservations| ==>
            1 <= reservations[i].id < nextReservationId
            && reservations[i].ticketTypeId < nextTicketTypeId
            && reservations[i].numAttendees >= 1)
      && IdsAscending(reservations)
      && UniqueTypeNames(ticketTypes)
      && UniqueStageStarts(stages)
      && UniqueEmails(users)
    }

    /** No seat group is oversold. */
    ghost predicate NoOverbooking()
      reads this
    {
      forall g :: g in seatGroups ==> seatGroups[g].capacity >= 0
    }

    /** Seats given to seat group `g`: unsold plus booked. */
    function Total(g: int): int
      reads this
      requires g in seatGroups
    {
      seatGroups[g].capacity + Booked(reservations, ticketTypes, g)
    }

    /** Every ticket type's seat group, and every reservation's ticket type
        and user, exist. */
    ghost predicate NoDangling()
      reads this
    {
      LinksHold(seatGroups, ticketTypes, reservations, users)
    }

    /** Every seat group's total, and the set of seat groups, are unchanged. */
    twostate predicate TotalsKept()
      reads this
    {
      && seatGroups.Keys == old(seatGroups.Keys)
      && forall g :: g in seatGroups ==> Total(g) == old(Total(g))
    }

    constructor ()
      ensures Valid() && NoOverbooking()
      ensures stages == map[] && seatGroups == map[] && ticketTypes == map[]
      ensures reservations == [] && users == map[]
    {
      stages, seatGroups, ticketTypes, reservations, users := map[], map[], map[], [], map[];
      nextStageId, nextSeatGroupId, nextTicketTypeId, nextReservationId, nextUserId := 1, 1, 1, 1, 1;
    }

    /** The position of reservation `id`, if it exists. */
    function FindReservation(id: int): (r: Option<nat>)
      reads this
      ensures r.Some? ==> r.value < |reservations| && reservations[r.value].id == id
      ensures r.None? ==> forall i :: 0 <= i < |reservations| ==> reservations[i].id != id
    {
      IndexOf(reservations, id)
    }

    // -------------------------------------------------------------------
    // Stage table

    /** Inserting a stage; the (event_id, start_time) unique constraint
        rejects a second stage of the same event at the same start. */
    method InsertStage(eventId: int, startTime: int, endTime: int) returns (r: Outcome<int>)
      requires Valid()
      modifies this
      ensures Valid()
      ensures r.Err? <==> old(StartTaken(stages, eventId, startTime))
      ensures r.Err? ==> r.error == BadRequest && stages == old(stages)
      ensures r.Ok? ==> r.value !in old(stages) && stages == old(stages)[r.value := Stage(eventId, startTime, endTime)]
      ensures seatGroups == old(seatGroups) && ticketTypes == old(ticketTypes)
      ensures reservations == old(reservations) && users == old(users)
    {
      if StartTaken(stages, eventId, startTime) {
        return Err(BadRequest);
      }
      var id := nextStageId;
      stages := stages[id := Stage(eventId, startTime, endTime)];
      nextStageId := nextStageId + 1;
      r := Ok(id);
    }

    // -------------------------------------------------------------------
    // Seat-group table (CrudSeatGroup)

    /** `CrudSeatGroup.create`: a fresh group; nothing is booked in it yet. */
    method CreateSeatGroup(stageId: int, capacity: int) returns (id: int)
      requires Valid()
      modifies this
      ensures Valid()
      ensures id !in old(seatGroups) && seatGroups == old(seatGroups)[id := SeatGroup(stageId, capacity)]
      ensures Total(id) == capacity
      ensures forall g :: g in old(seatGroups) ==> Total(g) == old(Total(g))
      ensures stages == old(stages) && ticketTypes == old(ticketTypes)
      ensures reservations == old(reservations) && users == old(users)
    {
      id := nextSeatGroupId;
      seatGroups := seatGroups[id := SeatGroup(stageId, capacity)];
      nextSeatGroupId := nextSeatGroupId + 1;
      forall i | 0 <= i < |reservations| ensures Share(reservations[i], ticketTypes, id) == 0 { }
      BookedZero(reservations, ticketTypes, id);
    }

    /** `CrudSeatGroup.update`: the given fields are overwritten.  Only the
        group's unsold seats change, so its total moves by exactly the
        change in capacity. */
    method UpdateSeatGroup(g: int, patch: SeatGroupPatch)
      requires Valid() && g in seatGroups
      modifies this`seatGroups
      ensures Valid()
      ensures seatGroups == old(seatGroups)[g := PatchSeatGroup(old(seatGroups)[g], patch)]
      ensures Total(g) == old(Total(g)) - old(seatGroups[g].capacity) + seatGroups[g].capacity
      ensures forall h :: h in seatGroups && h != g ==> Total(h) == old(Total(h))
      ensures old(NoDangling()) ==> NoDangling()
    {
      seatGroups := seatGroups[g := PatchSeatGroup(seatGroups[g], patch)];
    }

    /** Deleting a seat group row.  While a ticket type still belongs to
        the group the commit fails (a server error) and nothing changes. */
    method DeleteSeatGroup(g: int) returns (r: Outcome<()>)
      requires Valid() && g in seatGroups
      modifies this`seatGroups
      ensures Valid()
      ensures r.Err? <==> GroupHasTypes(ticketTypes, g)
      ensures r.Err? ==> r.error == ServerError && seatGroups == old(seatGroups)
      ensures r.Ok? ==> seatGroups == old(seatGroups) - {g}
      ensures forall h :: h in seatGroups ==> Total(h) == old(Total(h))
      ensures old(NoDangling()) ==> NoDangling()
    {
      if GroupHasTypes(ticketTypes, g) {
        return Err(ServerError);
      }
      seatGroups := seatGroups - {g};
      r := Ok(());
    }

    // -------------------------------------------------------------------
    // Ticket-type table (CrudTicketType)

    /** `CrudTicketType.create`: a fresh ticket type of group `g`; no
        reservation uses it yet.  The (seat_group_id, type_name) constraint
        makes a clashing insert fail. */
    method CreateTicketType(g: int, typeName: string, price: real) returns (r: Outcome<int>)
      requires Valid() && g in seatGroups
      modifies this
      ensures Valid()
      ensures r.Err? <==> old(TypeNameTaken(ticketTypes, g, typeName, 0))
      ensures r.Err? ==> r.error == ServerError && ticketTypes == old(ticketTypes)
      ensures r.Ok? ==>
                r.value !in old(ticketTypes)
                && ticketTypes == old(ticketTypes)[r.value := TicketType(g, typeName, price)]
      ensures TotalsKept()
      ensures stages == old(stages) && seatGroups == old(seatGroups)
      ensures reservations == old(reservations) && users == old(users)
    {
      if TypeNameTaken(ticketTypes, g, typeName, 0) {
        return Err(ServerError);
      }
      var id := nextTicketTypeId;
      var tts := ticketTypes[id := TicketType(g, typeName, price)];
      forall h | h in seatGroups ensures Booked(reservations, tts, h) == Booked(reservations, ticketTypes, h) {
        BookedCongruent(reservations, ticketTypes, tts, h);
      }
      ticketTypes := tts;
      nextTicketTypeId := nextTicketTypeId + 1;
      r := Ok(id);
    }

    /** `CrudTicketType.update`: the given fields are overwritten; the group
        of the ticket type stays, so no seat moves.  A rename onto a name
        the group already has violates the unique constraint. */
    method UpdateTicketType(t: int, patch: TicketTypePatch) returns (r: Outcome<TicketType>)
      requires Valid() && t in ticketTypes
      modifies this`ticketTypes
      ensures Valid()
      ensures var updated := PatchTicketType(old(ticketTypes)[t], patch);
        && (r.Err? <==> old(TypeNameTaken(ticketTypes, updated.seatGroupId, updated.typeName, t)))
        && (r.Err? ==> r.error == ServerError && ticketTypes == old(ticketTypes))
        && (r.Ok? ==> r.value == updated && ticketTypes == old(ticketTypes)[t := updated])
      ensures TotalsKept()
    {
      var updated := PatchTicketType(ticketTypes[t], patch);
      if TypeNameTaken(ticketTypes, updated.seatGroupId, updated.typeName, t) {
        return Err(ServerError);
      }
      var tts := ticketTypes[t := updated];
      forall h | h in seatGroups ensures Booked(reservations, tts, h) == Booked(reservations, ticketTypes, h) {
        BookedCongruent(reservations, ticketTypes, tts, h);
      }
      ticketTypes := tts;
      r := Ok(updated);
    }

    /** Deleting a ticket type row.  While a reservation is still made on
        the type the commit fails (a server error) and nothing changes;
        otherwise no reservation held seats through the type, so every
        group's total is kept. */
    method DeleteTicketType(t: int) returns (r: Outcome<()>)
      requires Valid() && t in ticketTypes
      modifies this`ticketTypes
      ensures Valid()
      ensures r.Err? <==> TypeHasReservations(reservations, t)
      ensures r.Err? ==> r.error == ServerError && ticketTypes == old(ticketTypes)
      ensures r.Ok? ==> ticketTypes == old(ticketTypes) - {t}
      ensures TotalsKept()
      ensures old(NoDangling()) ==> NoDangling()
    {
      if TypeHasReservations(reservations, t) {
        return Err(ServerError);
      }
      var tts := ticketTypes - {t};
      forall h | h in seatGroups ensures Booked(reservations, tts, h) == Booked(reservations, ticketTypes, h) {
        BookedCongruent(reservations, ticketTypes, tts, h);
      }
      ticketTypes := tts;
      r := Ok(());
    }

    // -------------------------------------------------------------------
    // Reservation table (CrudReservation)

    /** `CrudReservation.create(ticket_type_id, user_id, data)`: a new unpaid
        row at the end of the table.  The group of its ticket type books
        `numAttendees` more seats. */
    method CreateReservation(ticketTypeId: int, userId: int, numAttendees: int) returns (created: Reservation)
      requires Valid() && ticketTypeId in ticketTypes && numAttendees >= 1
      modifies this`reservations, this`nextReservationId
      ensures Valid()
      ensures created == NewReservation(old(nextReservationId), ticketTypeId, userId, numAttendees)
      ensures forall i :: 0 <= i < |old(reservations)| ==> old(reservations)[i].id != created.id
      ensures reservations == old(reservations) + [created]
      ensures forall g :: Booked(reservations, ticketTypes, g)
                == Booked(old(reservations), ticketTypes, g) + Share(created, ticketTypes, g)
      ensures old(NoDangling()) && userId in users ==> NoDangling()
    {
      created := NewReservation(nextReservationId, ticketTypeId, userId, numAttendees);
      forall g ensures Booked(reservations + [created], ticketTypes, g)
                    == Booked(reservations, ticketTypes, g) + Share(created, ticketTypes, g) {
        BookedAppend(reservations, created, ticketTypes, g);
      }
      ghost var rs0, linked := reservations, NoDangling();
      reservations := reservations + [created];
      nextReservationId := nextReservationId + 1;
      if linked && userId in users {
        assert forall x :: x in reservations ==> x in rs0 || x == created;
        LinksHoldKept(seatGroups, seatGroups, ticketTypes, rs0, reservations, users);
      }
    }

    /** `CrudReservation.update`: an unknown id is a 404; otherwise the given
        fields are overwritten in place. */
    method UpdateReservation(id: int, patch: ReservationPatch) returns (r: Outcome<Reservation>)
      requires Valid()
      requires patch.numAttendees.Some? ==> patch.numAttendees.value >= 1
      modifies this`reservations
      ensures Valid()
      ensures r.Err? <==> old(FindReservation(id)).None?
      ensures r.Err? ==> r.error == NotFound && reservations == old(reservations)
      ensures r.Ok? ==> var i := old(FindReservation(id)).value;
        && r.value == PatchReservation(old(reservations)[i], patch)
        && reservations == old(reservations)[i := r.value]
        && forall g :: Booked(reservations, ticketTypes, g)
             == Booked(old(reservations), ticketTypes, g) - Share(old(reservations)[i], ticketTypes, g) + Share(r.value, ticketTypes, g)
      ensures old(NoDangling()) ==> NoDangling()
    {
      var k := FindReservation(id);
      if k.None? {
        return Err(NotFound);
      }
      var i := k.value;
      var updated := PatchReservation(reservations[i], patch);
      forall g ensures Booked(reservations[i := updated], ticketTypes, g)
          == Booked(reservations, ticketTypes, g) - Share(reservations[i], ticketTypes, g) + Share(updated, ticketTypes, g) {
        BookedReplaceAt(reservations, i, updated, ticketTypes, g);
      }
      ghost var rs0, linked := reservations, NoDangling();
      reservations := reservations[i := updated];
      r := Ok(updated);
      if linked {
        assert forall x :: x in reservations ==> x in rs0 || x == updated;
        LinksHoldKept(seatGroups, seatGroups, ticketTypes, rs0, reservations, users);
      }
    }

    /** Deleting the reservation row with key `id`. */
    method DeleteReservation(id: int)
      requires Valid() && FindReservation(id).Some?
      modifies this`reservations
      ensures Valid()
      ensures var i := old(FindReservation(id)).value;
        && reservations == old(reservations[..i] + reservations[i + 1..])
        && forall g :: Booked(reservations, ticketTypes, g)
             == Booked(old(reservations), ticketTypes, g) - Share(old(reservations)[i], ticketTypes, g)
      ensures FindReservation(id).None?
      ensures old(NoDangling()) ==> NoDangling()
    {
      var i := FindReservation(id).value;
      forall g ensures Booked(reservations[..i] + reservations[i + 1..], ticketTypes, g)
          == Booked(reservations, ticketTypes, g) - Share(reservations[i], ticketTypes, g) {
        BookedRemoveAt(reservations, i, ticketTypes, g);
      }
      RemoveAtKeepsOrder(reservations, i);
      ghost var rs0, linked := reservations, NoDangling();
      reservations := reservations[..i] + reservations[i + 1..];
      if linked {
        assert forall x :: x in reservations ==> x in rs0;
        LinksHoldKept(seatGroups, seatGroups, ticketTypes, rs0, reservations, users);
      }
    }

    // -------------------------------------------------------------------
    // User table

    /** `CrudUser.create`: a non-administrator with a fresh id; the unique
        email constraint rejects a second account for the same address. */
    method CreateUser(email: string, nickname: Option<string>) returns (r: Outcome<int>)
      requires Valid()
      modifies this`users, this`nextUserId
      ensures Valid()
      ensures r.Err? <==> old(EmailTaken(users, email, 0))
      ensures r.Err? ==> r.error == ServerError && users == old(users)
      ensures r.Ok? ==> r.value !in old(users) && users == old(users)[r.value := NewUser(email, nickname)]
    {
      if EmailTaken(users, email, 0) {
        return Err(ServerError);
      }
      var id := nextUserId;
      users := users[id := NewUser(email, nickname)];
      nextUserId := nextUserId + 1;
      r := Ok(id);
    }

    /** `CrudUser.update`: the given fields are overwritten. */
    method UpdateUser(u: int, patch: UserPatch) returns (r: Outcome<User>)
      requires Valid() && u in users
      modifies this`users
      ensures Valid()
      ensures var updated := PatchUser(old(users)[u], patch);
        && (r.Err? <==> old(EmailTaken(users, updated.email, u)))
        && (r.Err? ==> r.error == ServerError && users == old(users))
        && (r.Ok? ==> r.value == updated && users == old(users)[u := updated])
    {
      var updated := PatchUser(users[u], patch);
      if EmailTaken(users, updated.email, u) {
        return Err(ServerError);
      }
      users := users[u := updated];
      r := Ok(updated);
    }

    /** `CrudUser.delete`: `reservations.user_id` is NOT NULL and the
        relationship does not cascade, so a user who still has reservations
        makes the commit fail (500, nothing written); otherwise the row
        goes. */
    method DeleteUser(u: int) returns (r: Outcome<()>)
      requires Valid() && u in users
      modifies this`users
      ensures Valid()
      ensures r.Err? <==> UserHasReservations(reservations, u)
      ensures r.Err? ==> r.error == ServerError && users == old(users)
      ensures r.Ok? ==> users == old(users) - {u}
      ensures old(NoDangling()) ==> NoDangling()
      ensures TotalsKept() && NoOverbooking() == old(NoOverbooking())
    {
      if UserHasReservations(reservations, u) {
        return Err(ServerError);
      }
      users := users - {u};
      r := Ok(());
    }
  }

  lemma {:induction false} BookedZero(rs: seq<Reservation>, tts: map<int, TicketType>, g: int)
    requires forall i :: 0 <= i < |rs| ==> Share(rs[i], tts, g) == 0
    ensures Booked(rs, tts, g) == 0
    decreases |rs|
  {
    if rs != [] {
      BookedZero(rs[1..], tts, g);
    }
  }

  lemma RemoveAtKeepsOrder(rs: seq<Reservation>, i: nat)
    requires i < |rs| && IdsAscending(rs)
    ensures IdsAscending(rs[..i] + rs[i + 1..])
    ensures forall x :: x in rs[..i] + rs[i + 1..] ==> x in rs
  {
    var s := rs[..i] + rs[i + 1..];
    forall a, b | 0 <= a < b < |s| ensures s[a].id < s[b].id {
      var a' := if a < i then a else a + 1;
      var b' := if b < i then b else b + 1;
      assert s[a] == rs[a'] && s[b] == rs[b'];
    }
  }
}

=== FILE: manage_user.dfy ===
/** The user administration page: users found by a search text and by the
    event or stage they hold reservations for, shown ten to a page. */
module ManageUser {
  import opened Common
  import opened Text
  import opened ClientData
  import opened AppData

  // ---------------------------------------------------------------------
  // Search

  /** `toLowerCase` on one character, for the Latin capitals. */
  function LowerChar(c: char): (d: char)
    ensures 'A' <= c <= 'Z' ==> 'a' <= d <= 'z' && d as int - c as int == 32
    ensures !('A' <= c <= 'Z') ==> d == c
  {
    if 'A' <= c <= 'Z' then (c as int + 32) as char else c
  }

  function Lower(s: string): (r: string)
    ensures |r| == |s| && forall i :: 0 <= i < |s| ==> r[i] == LowerChar(s[i])
    decreases |s|
  {
    if s == [] then [] else [LowerChar(s[0])] + Lower(s[1..])
  }

  /** Lowering twice is lowering once. */
  lemma LowerIdempotent(s: string)
    ensures Lower(Lower(s)) == Lower(s)
  {
    assert forall i :: 0 <= i < |s| ==> LowerChar(LowerChar(s[i])) == LowerChar(s[i]);
  }

  /** `s.includes(p)`. */
  predicate Includes(s: string, p: string)
  {
    IndexOf(s, p).Some?
  }

  /** The search: the lowered search text occurs in the lowered nickname,
      when there is one, or in the lowered email. */
  predicate MatchesSearch(u: UserRow, term: string)
  {
    || (u.nickname.Some? && Includes(Lower(u.nickname.value), Lower(term)))
    || Includes(Lower(u.email), Lower(term))
  }

  /** `p` occurs somewhere in `s`. */
  predicate Contains(s: string, p: string)
  {
    exists i :: 0 <= i <= |s| && OccursAt(s, p, i)
  }

  lemma IncludesOccurs(s: string, p: string)
    ensures Includes(s, p) <==> Contains(s, p)
  {
    if Contains(s, p) {
      var i :| OccursAt(s, p, i);
    }
  }

  /** The search is a substring match of the lowered text in the lowered
      nickname or email. */
  lemma SearchIsSubstring(u: UserRow, term: string)
    ensures MatchesSearch(u, term) <==>
              (u.nickname.Some? && Contains(Lower(u.nickname.value), Lower(term))) || Contains(Lower(u.email), Lower(term))
  {
    if u.nickname.Some? {
      IncludesOccurs(Lower(u.nickname.value), Lower(term));
    }
    IncludesOccurs(Lower(u.email), Lower(term));
  }

  /** Case does not matter, neither in the search text nor in the email;
      the empty search text matches every user. */
  lemma SearchIgnoresCase(u: UserRow, term: string)
    ensures MatchesSearch(u, term) <==> MatchesSearch(u, Lower(term))
    ensures MatchesSearch(u, term) <==> MatchesSearch(u.(email := Lower(u.email)), term)
    ensures MatchesSearch(u, "")
  {
    LowerIdempotent(term);
    LowerIdempotent(u.email);
    assert Lower("") == "";
    assert OccursAt(Lower(u.email), "", 0);
    IncludesOccurs(Lower(u.email), "");
  }

  // ---------------------------------------------------------------------
  // Event and stage filters

  /** A selection filters only when it holds a truthy id: the empty choice
      (and an id of 0) does not. */
  predicate Chosen(selection: Option<int>)
  {
    selection.Some? && selection.value != 0
  }

  predicate HasReservationInEvent(u: UserRow, reservations: seq<Detail>, eventId: int)
  {
    exists i :: 0 <= i < |reservations| && reservations[i].user.id == u.id && reservations[i].event.id == eventId
  }

  predicate HasReservationAtStage(u: UserRow, reservations: seq<Detail>, stageId: int)
  {
    exists i :: 0 <= i < |reservations| && reservations[i].user.id == u.id && reservations[i].stage.id == stageId
  }

  /** A user is listed when the search matches and, for each chosen filter,
      the user holds a reservation there. */
  predicate Listed(u: UserRow, reservations: seq<Detail>, term: string, event: Option<int>, stage: Option<int>)
  {
    && MatchesSearch(u, term)
    && (Chosen(event) ==> HasReservationInEvent(u, reservations, event.value))
    && (Chosen(stage) ==> HasReservationAtStage(u, reservations, stage.value))
  }

  /** `filteredUsers`: the search, then the event filter, then the stage
      filter, each applied only when chosen. */
  function FilteredUsers(users: seq<UserRow>, reservations: seq<Detail>, term: string,
                         event: Option<int>, stage: Option<int>): (r: seq<UserRow>)
    ensures IsSubsequence(r, users)
    ensures forall u :: u in r <==> u in users && Listed(u, reservations, term, event, stage)
  {
    var bySearch := Filter(users, (u: UserRow) => MatchesSearch(u, term));
    var byEvent := if Chosen(event) then Filter(bySearch, (u: UserRow) => HasReservationInEvent(u, reservations, event.value)) else bySearch;
    var byStage := if Chosen(stage) then Filter(byEvent, (u: UserRow) => HasReservationAtStage(u, reservations, stage.value)) else byEvent;
    assert IsSubsequence(byStage, users) by {
      FilterIsSubsequence(users, (u: UserRow) => MatchesSearch(u, term));
      if Chosen(event) {
        FilterIsSubsequence(bySearch, (u: UserRow) => HasReservationInEvent(u, reservations, event.value));
        SubsequenceTransitive(byEvent, bySearch, users);
      }
      if Chosen(stage) {
        FilterIsSubsequence(byEvent, (u: UserRow) => HasReservationAtStage(u, reservations, stage.value));
        SubsequenceTransitive(byStage, byEvent, users);
      }
    }
    byStage
  }

  // ---------------------------------------------------------------------
  // Pages

  const PageLimit: nat := 10

  /** `slice((page - 1) * pageLimit, page * pageLimit)`: the bounds are cut
      to the list's length. */
  function PageItems<T>(s: seq<T>, page: nat): (r: seq<T>)
    requires page >= 1
    ensures |r| <= PageLimit
    ensures (page - 1) * PageLimit < |s| ==> |r| == Min(PageLimit, |s| - (page - 1) * PageLimit)
    ensures (page - 1) * PageLimit >= |s| ==> r == []
    ensures forall k :: 0 <= k < |r| ==> r[k] == s[(page - 1) * PageLimit + k]
  {
    var lo := Min((page - 1) * PageLimit, |s|);
    var hi := Min(page * PageLimit, |s|);
    s[lo..hi]
  }

  /** `Math.ceil(n / pageLimit)`. */
  function PageCount(n: nat): (c: nat)
    ensures n == 0 ==> c == 0
    ensures n > 0 ==> (c - 1) * PageLimit < n <= c * PageLimit
  {
    (n + PageLimit - 1) / PageLimit
  }

  /** The pager appears only when the list does not fit on one page. */
  predicate ShowsPager(n: nat)
  {
    n > PageLimit
  }

  /** The first `c` pages, one after the other. */
  function Pages<T>(s: seq<T>, c: nat): (r: seq<T>)
    decreases c
  {
    if c == 0 then [] else Pages(s, c - 1) + PageItems(s, c)
  }

  lemma {:induction false} PagesArePrefix<T>(s: seq<T>, c: nat)
    ensures Pages(s, c) == s[..Min(c * PageLimit, |s|)]
    decreases c
  {
    if c > 0 {
      PagesArePrefix(s, c - 1);
      var lo := Min((c - 1) * PageLimit, |s|);
      var hi := Min(c * PageLimit, |s|);
      assert s[..lo] + s[lo..hi] == s[..hi];
    }
  }

  /** Reading the pages in turn shows every user once, in order: the pages
      put together are the whole list, and a list that needs the pager has
      more than one page. */
  lemma PagesCoverList<T>(s: seq<T>)
    ensures Pages(s, PageCount(|s|)) == s
    ensures ShowsPager(|s|) <==> PageCount(|s|) > 1
  {
    PagesArePrefix(s, PageCount(|s|));
  }

  // ---------------------------------------------------------------------
  // Filter state

  datatype SearchState = SearchState(
    term: string, event: Option<int>, stage: Option<int>,
    selectableStages: seq<StageRow>, page: nat)

  const InitialSearch: SearchState := SearchState("", None, None, [], 1)

  /** Choosing an event clears the stage, offers only that event's stages,
      and goes back to the first page. */
  function SelectEvent(st: SearchState, stages: seq<StageRow>, event: Option<int>): (r: SearchState)
    ensures r.event == event && r.stage == None && r.page == 1 && r.term == st.term
    ensures forall s :: s in r.selectableStages <==> s in stages && event == Some(s.eventId)
    ensures IsSubsequence(r.selectableStages, stages)
  {
    FilterIsSubsequence(stages, (s: StageRow) => event == Some(s.eventId));
    st.(event := event, stage := None, page := 1,
        selectableStages := Filter(stages, (s: StageRow) => event == Some(s.eventId)))
  }

  /** A new search text, stage choice or user list goes back to the first
      page and keeps everything else. */
  function SetTerm(st: SearchState, term: string): (r: SearchState)
    ensures r.term == term && r.page == 1
    ensures r.event == st.event && r.stage == st.stage && r.selectableStages == st.selectableStages
  {
    st.(term := term, page := 1)
  }

  function SelectStage(st: SearchState, stage: Option<int>): (r: SearchState)
    ensures r.stage == stage && r.page == 1
    ensures r.event == st.event && r.term == st.term && r.selectableStages == st.selectableStages
  {
    st.(stage := stage, page := 1)
  }

  function UsersChanged(st: SearchState): (r: SearchState)
    ensures r.page == 1 && r == st.(page := 1)
  {
    st.(page := 1)
  }
}

=== FILE: models.dfy ===
/** The rows of the ticketing database and the values that travel through
    its request handlers: request patches, the authenticated caller and the
    HTTP error a handler answers with.  Dates are abstract integers
    (milliseconds), prices are reals. */
module Models {
  import opened Common

  datatype Stage = Stage(eventId: int, startTime: int, endTime: int)

  /** `capacity` is the number of seats still unsold in this group. */
  datatype SeatGroup = SeatGroup(stageId: int, capacity: int)

  datatype TicketType = TicketType(seatGroupId: int, typeName: string, price: real)

  datatype Reservation = Reservation(id: int, ticketTypeId: int, userId: int, numAttendees: int, isPaid: bool)

  datatype User = User(email: string, nickname: Option<string>, isAdmin: bool)

  /** The user a request is made by, as the authentication layer reports it. */
  datatype Caller = Caller(id: int, isAdmin: bool)

  /** The HTTP errors the handlers raise.  `SeatsShort` is the 400 whose
      message reports how many seats can still be booked. */
  datatype Error = NotFound | Forbidden | BadRequest | SeatsShort(remaining: int) | ServerError {
    function Status(): (code: int)
      ensures code in {400, 403, 404, 500}
      ensures code == 400 <==> (this.BadRequest? || this.SeatsShort?)
    {
      match this
      case NotFound => 404
      case Forbidden => 403
      case BadRequest => 400
      case SeatsShort(_) => 400
      case ServerError => 500
    }
  }

  datatype Outcome<+T> = Ok(value: T) | Err(error: Error)

  /** The type name a ticket type gets when none is given. */
  const DefaultTypeName: string := "一般"

  /** The row a new reservation becomes: the given ticket type, user and
      count, not yet paid. */
  function NewReservation(id: int, ticketTypeId: int, userId: int, numAttendees: int): (r: Reservation)
    ensures r.id == id && r.ticketTypeId == ticketTypeId && r.userId == userId
    ensures r.numAttendees == numAttendees && !r.isPaid
  {
    Reservation(id, ticketTypeId, userId, numAttendees, false)
  }

  /** A newly signed-up user is never an administrator. */
  function NewUser(email: string, nickname: Option<string>): (u: User)
    ensures u.email == email && u.nickname == nickname && !u.isAdmin
  {
    User(email, nickname, false)
  }

  /** `check_admin`: only an administrator passes. */
  function CheckAdmin(caller: Caller): (r: Option<Error>)
    ensures r.None? <==> caller.isAdmin
    ensures r.Some? ==> r.value == Forbidden
  {
    if caller.isAdmin then None else Some(Forbidden)
  }

  /** The owner-or-admin rule shared by the reservation and user handlers. */
  predicate MayAccess(caller: Caller, ownerId: int)
  {
    caller.isAdmin || ownerId == caller.id
  }

  // ---------------------------------------------------------------------
  // Partial updates: every field given (not None) is overwritten, every
  // field left out keeps its value.

  datatype ReservationPatch = ReservationPatch(numAttendees: Option<int>, isPaid: Option<bool>)
  datatype SeatGroupPatch = SeatGroupPatch(capacity: Option<int>)
  datatype TicketTypePatch = TicketTypePatch(typeName: Option<string>, price: Option<real>)
  datatype UserPatch = UserPatch(email: Option<string>, nickname: Option<string>)

  function PatchReservation(r: Reservation, p: ReservationPatch): (r': Reservation)
    ensures r'.id == r.id && r'.ticketTypeId == r.ticketTypeId && r'.userId == r.userId
    ensures p.numAttendees.None? ==> r'.numAttendees == r.numAttendees
    ensures p.numAttendees.Some? ==> r'.numAttendees == p.numAttendees.value
    ensures p.isPaid.None? ==> r'.isPaid == r.isPaid
    ensures p.isPaid.Some? ==> r'.isPaid == p.isPaid.value
  {
    var r1 := if p.numAttendees.Some? then r.(numAttendees := p.numAttendees.value) else r;
    if p.isPaid.Some? then r1.(isPaid := p.isPaid.value) else r1
  }

  function PatchSeatGroup(g: SeatGroup, p: SeatGroupPatch): (g': SeatGroup)
    ensures g'.stageId == g.stageId
    ensures g'.capacity == if p.capacity.Some? then p.capacity.value else g.capacity
  {
    if p.capacity.Some? then g.(capacity := p.capacity.value) else g
  }

  function PatchTicketType(t: TicketType, p: TicketTypePatch): (t': TicketType)
    ensures t'.seatGroupId == t.seatGroupId
    ensures p.typeName.None? ==> t'.typeName == t.typeName
    ensures p.typeName.Some? ==> t'.typeName == p.typeName.value
    ensures p.price.None? ==> t'.price == t.price
    ensures p.price.Some? ==> t'.price == p.price.value
  {
    var t1 := if p.typeName.Some? then t.(typeName := p.typeName.value) else t;
    if p.price.Some? then t1.(price := p.price.value) else t1
  }

  function PatchUser(u: User, p: UserPatch): (u': User)
    ensures u'.isAdmin == u.isAdmin
    ensures p.email.None? ==> u'.email == u.email
    ensures p.email.Some? ==> u'.email == p.email.value
    ensures p.nickname.None? ==> u'.nickname == u.nickname
    ensures p.nickname.Some? ==> u'.nickname == p.nickname
  {
    var u1 := if p.email.Some? then u.(email := p.email.value) else u;
    if p.nickname.Some? then u1.(nickname := p.nickname) else u1
  }

  /** Applying the same partial update twice is applying it once, and an
      empty update changes nothing. */
  lemma PatchReservationIdempotent(r: Reservation, p: ReservationPatch)
    ensures PatchReservation(PatchReservation(r, p), p) == PatchReservation(r, p)
    ensures PatchReservation(r, ReservationPatch(None, None)) == r
  {
  }
}

=== FILE: reservation_changer.dfy ===
/** The dialog in which a reservation is moved to another stage or ticket
    type, or given another party size.  The dialog works on the rows the
    browser has loaded; it offers at most 20 seats, counts the
    reservation's own seats as free when the target is in the same seat
    group, marks sold-out ticket types and stages, and on confirmation
    either updates the reservation in place or deletes it and books anew. */
module ReservationChanger {
  import opened Common
  import opened ClientData
  import Models
  import ReservationRoutes

  /** The most seats one reservation may hold in the browser. */
  const MaxPerReservation: int := 20

  // ---------------------------------------------------------------------
  // Seat limit

  /** The limit shown before any effect runs: the remaining seats of the
      reservation's own group plus the seats it already holds, uncapped. */
  function InitialLimit(ownGroup: SeatGroupRow, own: ReservationRow): int
  {
    ownGroup.capacity + own.numAttendees
  }

  /** Every count up to the initial limit is one the server would accept,
      whether it arrives as an update of the reservation or as a delete
      followed by a new booking in the same group. */
  lemma InitialLimitAccepted(ownGroup: SeatGroupRow, own: ReservationRow, n: int)
    requires n <= InitialLimit(ownGroup, own)
    ensures ReservationRoutes.CheckCapacity(Models.SeatGroup(ownGroup.stageId, ownGroup.capacity), own.numAttendees - n).None?
    ensures ReservationRoutes.CheckCapacity(Models.SeatGroup(ownGroup.stageId, ownGroup.capacity + own.numAttendees), -n).None?
  {
  }

  /** The seats a ticket type's group can give this reservation: its own
      seats count as free inside its own group (groups compared by id). */
  function Available(g: SeatGroupRow, ownGroupId: int, own: ReservationRow): int
  {
    if g.id == ownGroupId then g.capacity + own.numAttendees else g.capacity
  }

  /** What the limit effect does: nothing, or set the limit and the alert. */
  datatype LimitUpdate = Keep | SetLimit(limit: int, alert: bool)

  /** The effect run when the chosen ticket type or count changes.  It does
      nothing when the ticket type or its group is not among the loaded
      rows; otherwise the limit is the available seats capped at 20 and the
      alert (which disables the Change button) is raised exactly when the
      chosen count is above it. */
  function OnSelectionChange(types: seq<TicketTypeRow>, groups: seq<SeatGroupRow>, ownGroupId: int,
                             own: ReservationRow, chosenType: int, chosenCount: int): (r: LimitUpdate)
    ensures r.Keep? <==> FindTicketType(types, chosenType).None?
                         || FindSeatGroup(groups, FindTicketType(types, chosenType).value.seatGroupId).None?
    ensures r.SetLimit? ==> (
              var g := FindSeatGroup(groups, FindTicketType(types, chosenType).value.seatGroupId).value;
              && r.limit <= MaxPerReservation
              && r.limit <= Available(g, ownGroupId, own)
              && (r.limit == MaxPerReservation || r.limit == Available(g, ownGroupId, own))
              && (r.alert <==> chosenCount > r.limit))
  {
    var t := FindTicketType(types, chosenType);
    if t.None? then Keep
    else
      var g := FindSeatGroup(groups, t.value.seatGroupId);
      if g.None? then Keep
      else
        var limit := Min(Available(g.value, ownGroupId, own), MaxPerReservation);
        SetLimit(limit, chosenCount > limit)
  }

  /** When the dialog raises no alert, the count it lets through is at most
      20 and the server's capacity check passes on the loaded capacity: in
      the reservation's own group the delta is its old count minus the new
      one, in any other group the new count is debited outright. */
  lemma NoAlertServerAccepts(types: seq<TicketTypeRow>, groups: seq<SeatGroupRow>, ownGroupId: int,
                             own: ReservationRow, chosenType: int, chosenCount: int)
    requires var r := OnSelectionChange(types, groups, ownGroupId, own, chosenType, chosenCount); r.SetLimit? && !r.alert
    ensures chosenCount <= MaxPerReservation
    ensures var g := FindSeatGroup(groups, FindTicketType(types, chosenType).value.seatGroupId).value;
            var sg := Models.SeatGroup(g.stageId, g.capacity);
            if g.id == ownGroupId then ReservationRoutes.CheckCapacity(sg, own.numAttendees - chosenCount).None?
            else ReservationRoutes.CheckCapacity(sg, -chosenCount).None?
  {
  }

  /** The party sizes offered: 1 to the limit, then the current count as a
      disabled entry when it is above the limit.  A negative limit makes
      `Array(limit)` throw, which this models as no menu at all. */
  datatype CountOption = CountOption(value: int, disabled: bool)

  function CountOptions(limit: int, current: int): (r: Option<seq<CountOption>>)
    ensures r.None? <==> limit < 0
    ensures r.Some? ==> |r.value| == limit + (if current > limit then 1 else 0)
    ensures r.Some? ==> forall i :: 0 <= i < limit ==> r.value[i] == CountOption(i + 1, false)
    ensures r.Some? && current > limit ==> r.value[limit] == CountOption(current, true)
  {
    if limit < 0 then None
    else
      var choices := seq(limit, i requires 0 <= i < limit => CountOption(i + 1, false));
      Some(if current > limit then choices + [CountOption(current, true)] else choices)
  }

  /** Whatever the limit, every selectable (enabled) count lies in 1..limit. */
  lemma EnabledCountsWithinLimit(limit: int, current: int)
    requires limit >= 0
    ensures forall o :: o in CountOptions(limit, current).value && !o.disabled ==> 1 <= o.value <= limit
  {
    var r := CountOptions(limit, current).value;
    forall o | o in r && !o.disabled ensures 1 <= o.value <= limit {
      var i :| 0 <= i < |r| && r[i] == o;
    }
  }

  // ---------------------------------------------------------------------
  // Sold-out flags

  /** A ticket type outside the reservation's own group is sold out when
      some loaded group with its group id has no seats left. */
  predicate TypeSoldOut(t: TicketTypeRow, groups: seq<SeatGroupRow>, ownGroupId: int)
  {
    t.seatGroupId != ownGroupId && Any(groups, (g: SeatGroupRow) => g.id == t.seatGroupId && g.capacity == 0)
  }

  /** `m` is the flag map after the initialisation pass over `types`
      starting from `prev`: every type's id maps to the flag of its last
      occurrence, and other keys keep their earlier flag. */
  ghost predicate SoldOutMapOf(m: map<int, bool>, prev: map<int, bool>, types: seq<TicketTypeRow>, groups: seq<SeatGroupRow>, ownGroupId: int)
  {
    && (forall k :: k in m <==> k in prev || exists i :: 0 <= i < |types| && types[i].id == k)
    && (forall k :: k in prev && (forall i :: 0 <= i < |types| ==> types[i].id != k) ==> m[k] == prev[k])
    && (forall i :: 0 <= i < |types| && (forall j :: i < j < |types| ==> types[j].id != types[i].id) ==>
          m[types[i].id] == TypeSoldOut(types[i], groups, ownGroupId))
  }

  /** The `forEach` that fills the sold-out map, one ticket type at a time. */
  method BuildSoldOut(types: seq<TicketTypeRow>, groups: seq<SeatGroupRow>, ownGroupId: int, prev: map<int, bool>)
    returns (m: map<int, bool>)
    ensures SoldOutMapOf(m, prev, types, groups, ownGroupId)
  {
    m := prev;
    var k := 0;
    while k < |types|
      invariant 0 <= k <= |types|
      invariant forall x :: x in m <==> x in prev || exists i :: 0 <= i < k && types[i].id == x
      invariant forall x :: x in prev && (forall i :: 0 <= i < k ==> types[i].id != x) ==> m[x] == prev[x]
      invariant forall i :: 0 <= i < k && (forall j :: i < j < k ==> types[j].id != types[i].id) ==>
                  m[types[i].id] == TypeSoldOut(types[i], groups, ownGroupId)
    {
      var t := types[k];
      var flag: bool;
      if t.seatGroupId == ownGroupId {
        flag := false;
      } else if Find(groups, (g: SeatGroupRow) => g.id == t.seatGroupId && g.capacity == 0).Some? {
        flag := true;
      } else {
        flag := false;
      }
      m := m[t.id := flag];
      k := k + 1;
    }
  }

  /** A stage is sold out when every ticket type of it is flagged (a
      missing flag is falsy); a stage with no ticket types is sold out. */
  predicate StageSoldOut(stageId: int, groups: seq<SeatGroupRow>, types: seq<TicketTypeRow>, soldOut: map<int, bool>)
  {
    All(TypesOfStage(stageId, groups, types), (t: TicketTypeRow) => t.id in soldOut && soldOut[t.id])
  }

  predicate UniqueTypeIds(types: seq<TicketTypeRow>)
  {
    forall i, j :: 0 <= i < |types| && 0 <= j < |types| && types[i].id == types[j].id ==> i == j
  }

  /** With the flags built from the loaded rows (ticket-type ids unique), a
      stage is shown sold out exactly when each of its ticket types lies
      outside the reservation's own group in a group with no seats left. */
  lemma StageSoldOutIff(m: map<int, bool>, prev: map<int, bool>, stageId: int,
                        groups: seq<SeatGroupRow>, types: seq<TicketTypeRow>, ownGroupId: int)
    requires SoldOutMapOf(m, prev, types, groups, ownGroupId) && UniqueTypeIds(types)
    ensures StageSoldOut(stageId, groups, types, m) <==>
              forall t :: t in TypesOfStage(stageId, groups, types) ==> TypeSoldOut(t, groups, ownGroupId)
  {
    var st := TypesOfStage(stageId, groups, types);
    forall t | t in st ensures t.id in m && (m[t.id] <==> TypeSoldOut(t, groups, ownGroupId)) {
      var i :| 0 <= i < |types| && types[i] == t;
    }
    if StageSoldOut(stageId, groups, types, m) {
      forall t | t in st ensures TypeSoldOut(t, groups, ownGroupId) {
        var k :| 0 <= k < |st| && st[k] == t;
      }
    }
  }

  /** The stage holding the reservation's own group is never shown sold
      out as long as that group has a ticket type. */
  lemma OwnStageNotSoldOut(m: map<int, bool>, prev: map<int, bool>, stageId: int,
                           groups: seq<SeatGroupRow>, types: seq<TicketTypeRow>, ownGroupId: int, t: TicketTypeRow)
    requires SoldOutMapOf(m, prev, types, groups, ownGroupId) && UniqueTypeIds(types)
    requires t in types && t.seatGroupId == ownGroupId
    requires exists i :: 0 <= i < |groups| && groups[i].id == ownGroupId && groups[i].stageId == stageId
    ensures !StageSoldOut(stageId, groups, types, m)
  {
    StageSoldOutIff(m, prev, stageId, groups, types, ownGroupId);
    assert t in TypesOfStage(stageId, groups, types);
  }

  // ---------------------------------------------------------------------
  // Changing the stage

  /** What the stage effect sets: the ticket types on offer and the
      selected one. */
  datatype Retarget = Retarget(selectable: seq<TicketTypeRow>, ticketTypeId: int)

  /** The effect run when another stage is chosen.  Nothing happens for an
      unknown stage or one without groups or ticket types; otherwise the
      offer becomes the stage's ticket types, group by group, and the
      selection moves to the first one named `currentName`, the name of the
      reservation's own (original) ticket type, whatever was selected
      since, or else to the first one. */
  function OnStageChange(stages: seq<StageRow>, groups: seq<SeatGroupRow>, types: seq<TicketTypeRow>,
                         currentName: string, chosenStage: int): (r: Option<Retarget>)
    ensures r.None? <==> FindStage(stages, chosenStage).None?
                         || GroupsOfStage(groups, chosenStage) == []
                         || TypesOfGroups(GroupsOfStage(groups, chosenStage), types) == []
    ensures r.Some? ==> r.value == Retargeted(TypesOfGroups(GroupsOfStage(groups, chosenStage), types), currentName)
  {
    var s := FindStage(stages, chosenStage);
    if s.None? then None
    else
      var mine := GroupsOfStage(groups, chosenStage);
      var offer := TypesOfGroups(mine, types);
      if |mine| == 0 || |offer| == 0 then None
      else Some(Retargeted(offer, currentName))
  }

  /** The offer of a stage with some ticket type, and the selection moved
      to the first type with the current name, or else to the first type. */
  function Retargeted(offer: seq<TicketTypeRow>, currentName: string): (r: Retarget)
    requires |offer| > 0
    ensures r.selectable == offer
    ensures exists i :: 0 <= i < |offer| && offer[i].id == r.ticketTypeId
    ensures (exists i :: 0 <= i < |offer| && offer[i].typeName == currentName) ==>
              exists i :: 0 <= i < |offer| && offer[i].id == r.ticketTypeId && offer[i].typeName == currentName
                          && forall j :: 0 <= j < i ==> offer[j].typeName != currentName
    ensures (forall i :: 0 <= i < |offer| ==> offer[i].typeName != currentName) ==> r.ticketTypeId == offer[0].id
  {
    var p := (t: TicketTypeRow) => t.typeName == currentName;
    var same := Find(offer, p);
    assert same.None? ==> forall i :: 0 <= i < |offer| ==> offer[i].typeName != currentName by {
      if same.None? {
        forall i | 0 <= i < |offer| ensures offer[i].typeName != currentName {
          assert !p(offer[i]);
        }
      }
    }
    assert same.Some? ==> exists i :: 0 <= i < |offer| && offer[i] == same.value && forall j :: 0 <= j < i ==> !p(offer[j]);
    Retarget(offer, if same.Some? then same.value.id else offer[0].id)
  }

  // ---------------------------------------------------------------------
  // Submitting

  /** The calls the dialog makes, in order. */
  datatype Call =
    | DeleteReservation(reservationId: int)
    | CreateReservation(ticketTypeId: int, numAttendees: int, userId: int)
    | UpdateReservation(reservationId: int, numAttendees: int, userId: int)

  /** A new ticket type means deleting the reservation and booking the new
      type for the same user and count; the same ticket type means one
      update of the count. */
  function SubmitPlan(own: ReservationRow, chosenType: int, chosenCount: int): (r: seq<Call>)
    ensures chosenType != own.ticketTypeId <==> |r| == 2
    ensures chosenType == own.ticketTypeId <==> |r| == 1
    ensures |r| == 2 ==> r[0] == DeleteReservation(own.id) && r[1] == CreateReservation(chosenType, chosenCount, own.userId)
    ensures |r| == 1 ==> r[0] == UpdateReservation(own.id, chosenCount, own.userId)
    ensures forall c :: c in r ==> c.DeleteReservation? || c.userId == own.userId
  {
    if own.ticketTypeId != chosenType then
      [DeleteReservation(own.id), CreateReservation(chosenType, chosenCount, own.userId)]
    else
      [UpdateReservation(own.id, chosenCount, own.userId)]
  }
}

=== FILE: reservation_creater.dfy ===
/** The booking dialog for one stage: it offers the stage's ticket types,
    limits the party size to the seats left (at most 20) and sends one
    booking for the logged-in user. */
module ReservationCreater {
  import opened Common
  import opened ClientData
  import Models
  import ReservationRoutes

  const MaxPerReservation: int := 20

  /** The dialog's state after loading: the ticket types on offer, the
      preselected one (none is the empty selection) and the first limit. */
  datatype Offer = Offer(selectable: seq<TicketTypeRow>, preselected: Option<int>, limit: int)

  /** The initialisation effect.  The first ticket type is preselected
      unless there is none or its id is falsy (0); the first limit is the
      capacity of its group, or 0 when there is no such group. */
  function InitialOffer(stageId: int, groups: seq<SeatGroupRow>, types: seq<TicketTypeRow>): (r: Offer)
    ensures r.selectable == TypesOfStage(stageId, groups, types)
    ensures r.preselected.Some? <==> |r.selectable| > 0 && r.selectable[0].id != 0
    ensures r.preselected.Some? ==> r.preselected.value == r.selectable[0].id
    ensures |r.selectable| == 0 ==> r.limit == 0
    ensures |r.selectable| > 0 ==>
              var g := FindSeatGroup(GroupsOfStage(groups, stageId), r.selectable[0].seatGroupId);
              r.limit == (if g.Some? then g.value.capacity else 0)
  {
    var mine := GroupsOfStage(groups, stageId);
    var offer := TypesOfStage(stageId, groups, types);
    var first := if |offer| > 0 && offer[0].id != 0 then Some(offer[0].id) else None;
    var g := if |offer| > 0 then FindSeatGroup(mine, offer[0].seatGroupId) else None;
    Offer(offer, first, if g.Some? then g.value.capacity else 0)
  }

  /** Every ticket type on offer belongs to a group of the stage, so its
      group is found and the first limit is that group's capacity. */
  lemma OfferedTypesHaveGroups(stageId: int, groups: seq<SeatGroupRow>, types: seq<TicketTypeRow>)
    requires |InitialOffer(stageId, groups, types).selectable| > 0
    ensures var r := InitialOffer(stageId, groups, types);
            exists g :: g in groups && g.stageId == stageId && g.id == r.selectable[0].seatGroupId && r.limit == g.capacity
  {
    var r := InitialOffer(stageId, groups, types);
    var mine := GroupsOfStage(groups, stageId);
    assert r.selectable[0] in TypesOfStage(stageId, groups, types);
    var i :| 0 <= i < |groups| && groups[i].stageId == stageId && groups[i].id == r.selectable[0].seatGroupId;
    assert groups[i] in mine;
    var g := FindSeatGroup(mine, r.selectable[0].seatGroupId);
    assert g.Some?;
  }

  /** What the limit effect does: nothing, or set the limit and the alert. */
  datatype LimitUpdate = Keep | SetLimit(limit: int, alert: bool)

  /** The effect run when the chosen ticket type or count changes: nothing
      when the ticket type or its group is not loaded, else the group's
      capacity capped at 20, with the alert (which disables the Reserve
      button) raised exactly when the count is above it. */
  function OnSelectionChange(types: seq<TicketTypeRow>, groups: seq<SeatGroupRow>, chosenType: int, chosenCount: int)
    : (r: LimitUpdate)
    ensures r.Keep? <==> FindTicketType(types, chosenType).None?
                         || FindSeatGroup(groups, FindTicketType(types, chosenType).value.seatGroupId).None?
    ensures r.SetLimit? ==> (
              var g := FindSeatGroup(groups, FindTicketType(types, chosenType).value.seatGroupId).value;
              && r.limit <= MaxPerReservation && r.limit <= g.capacity
              && (r.limit == MaxPerReservation || r.limit == g.capacity)
              && (r.alert <==> chosenCount > r.limit))
  {
    var t := FindTicketType(types, chosenType);
    if t.None? then Keep
    else
      var g := FindSeatGroup(groups, t.value.seatGroupId);
      if g.None? then Keep
      else
        var limit := Min(g.value.capacity, MaxPerReservation);
        SetLimit(limit, chosenCount > limit)
  }

  /** A count the dialog lets through passes the server's capacity check on
      the loaded capacity, and is at most 20. */
  lemma NoAlertServerAccepts(types: seq<TicketTypeRow>, groups: seq<SeatGroupRow>, chosenType: int, chosenCount: int)
    requires var r := OnSelectionChange(types, groups, chosenType, chosenCount); r.SetLimit? && !r.alert
    ensures chosenCount <= MaxPerReservation
    ensures var g := FindSeatGroup(groups, FindTicketType(types, chosenType).value.seatGroupId).value;
            ReservationRoutes.CheckCapacity(Models.SeatGroup(g.stageId, g.capacity), -chosenCount).None?
  {
  }

  /** The one request the dialog sends. */
  datatype Booking = Booking(ticketTypeId: int, numAttendees: int, userId: int)

  /** Submitting: with no ticket type chosen or nobody logged in the alert is
      set and nothing is sent; otherwise one booking for the logged-in user. */
  function OnSubmit(chosenType: Option<int>, user: Option<UserRow>, chosenCount: int): (r: Option<Booking>)
    ensures r.None? <==> chosenType.None? || user.None?
    ensures r.Some? ==> r.value == Booking(chosenType.value, chosenCount, user.value.id)
  {
    if chosenType.None? || user.None? then None
    else Some(Booking(chosenType.value, chosenCount, user.value.id))
  }
}

=== FILE: reservation_list.dfy ===
/** The page listing the signed-in user's reservations: one card can be
    expanded at a time, a warning about unpaid past reservations, and the
    coming reservations before the past ones. */
module ReservationList {
  import opened Common
  import opened Sorting
  import opened AppData

  /** A reservation's stage start, in milliseconds. */
  function StartOf(d: Detail): int
  {
    d.stage.startTime
  }

  /** `handleCardClick`: clicking the expanded card collapses it, clicking
      any other card expands that one instead. */
  function ToggleExpanded(prev: Option<int>, id: int): (r: Option<int>)
    ensures prev == Some(id) ==> r.None?
    ensures prev != Some(id) ==> r == Some(id)
  {
    if prev == Some(id) then None else Some(id)
  }

  /** Two clicks on a card leave it collapsed, unless it was expanded to
      begin with, in which case it is expanded again. */
  lemma ToggleTwice(prev: Option<int>, id: int)
    ensures ToggleExpanded(ToggleExpanded(prev, id), id) == (if prev == Some(id) then prev else None)
  {
  }

  predicate UnpaidPast(d: Detail, now: int)
  {
    StartOf(d) < now && !d.reservation.isPaid
  }

  /** `unpaidPastReservations`. */
  function UnpaidPastReservations(rs: seq<Detail>, now: int): (r: seq<Detail>)
    ensures forall d :: d in r <==> d in rs && UnpaidPast(d, now)
  {
    Filter(rs, (d: Detail) => UnpaidPast(d, now))
  }

  /** The banners above the cards. */
  datatype Banner = NoReservations | QrHint

  function HeadBanner(rs: seq<Detail>): (b: Banner)
    ensures b == NoReservations <==> |rs| == 0
  {
    if |rs| == 0 then NoReservations else QrHint
  }

  /** The warning and the past header each show exactly when some
      reservation is of their kind. */
  lemma BannersShowExactly(rs: seq<Detail>, now: int)
    ensures |UnpaidPastReservations(rs, now)| > 0 <==> exists i :: 0 <= i < |rs| && StartOf(rs[i]) < now && !rs[i].reservation.isPaid
    ensures |Filter(rs, (d: Detail) => StartOf(d) < now)| > 0 <==> exists i :: 0 <= i < |rs| && StartOf(rs[i]) < now
  {
    var unpaid := UnpaidPastReservations(rs, now);
    if exists i :: 0 <= i < |rs| && StartOf(rs[i]) < now && !rs[i].reservation.isPaid {
      var i :| 0 <= i < |rs| && StartOf(rs[i]) < now && !rs[i].reservation.isPaid;
      assert rs[i] in unpaid;
    }
    if |unpaid| > 0 {
      assert unpaid[0] in unpaid;
    }
    var past := Filter(rs, (d: Detail) => StartOf(d) < now);
    if |past| > 0 {
      assert past[0] in rs;
    }
  }

  /** The coming reservations (starting at or after `now`), earliest first. */
  function Upcoming(rs: seq<Detail>, now: int): (r: seq<Detail>)
    ensures SortedBy(r, StartOf, IntLe)
    ensures forall i :: 0 <= i < |r| ==> StartOf(r[i]) >= now
    ensures multiset(r) == multiset(Filter(rs, (d: Detail) => StartOf(d) >= now))
  {
    var sorted := SortBy(rs, StartOf, IntLe);
    OrdersArePreorders();
    SortSorted(rs, StartOf, IntLe);
    SortPermutes(rs, StartOf, IntLe);
    FilterKeepsSorted(sorted, StartOf, IntLe, (d: Detail) => StartOf(d) >= now);
    FilterPermutation(sorted, rs, (d: Detail) => StartOf(d) >= now);
    Filter(sorted, (d: Detail) => StartOf(d) >= now)
  }

  /** The past reservations (starting before `now`), latest first. */
  function Past(rs: seq<Detail>, now: int): (r: seq<Detail>)
    ensures SortedBy(r, StartOf, IntGe)
    ensures forall i :: 0 <= i < |r| ==> StartOf(r[i]) < now
    ensures multiset(r) == multiset(Filter(rs, (d: Detail) => StartOf(d) < now))
  {
    var sorted := SortBy(rs, StartOf, IntGe);
    OrdersArePreorders();
    SortSorted(rs, StartOf, IntGe);
    SortPermutes(rs, StartOf, IntGe);
    FilterKeepsSorted(sorted, StartOf, IntGe, (d: Detail) => StartOf(d) < now);
    FilterPermutation(sorted, rs, (d: Detail) => StartOf(d) < now);
    Filter(sorted, (d: Detail) => StartOf(d) < now)
  }

  /** Each reservation is in exactly one of the two lists, once. */
  lemma ListsPartition(rs: seq<Detail>, now: int)
    ensures multiset(Upcoming(rs, now)) + multiset(Past(rs, now)) == multiset(rs)
  {
    FilterPartition(rs, (d: Detail) => StartOf(d) >= now, (d: Detail) => StartOf(d) < now);
  }

  /** The page's state, and the shared reservation list that its render
      sorts in place. */
  class ReservationListPage {
    var reservations: seq<Detail>
    var expanded: Option<int>

    constructor (rs: seq<Detail>)
      ensures reservations == rs && expanded.None?
    {
      reservations := rs;
      expanded := None;
    }

    method CardClick(id: int)
      modifies this
      ensures expanded == ToggleExpanded(old(expanded), id)
      ensures reservations == old(reservations)
    {
      expanded := ToggleExpanded(expanded, id);
    }

    /** One render: the shared list is sorted ascending for the coming
        cards, then descending for the past ones, and stays in that last
        order; the lists shown are the two lists above. */
    method Render(now: int) returns (upcoming: seq<Detail>, past: seq<Detail>)
      modifies this
      ensures upcoming == Upcoming(old(reservations), now)
      ensures past == Past(SortBy(old(reservations), StartOf, IntLe), now)
      ensures reservations == SortBy(SortBy(old(reservations), StartOf, IntLe), StartOf, IntGe)
      ensures multiset(reservations) == multiset(old(reservations))
      ensures multiset(upcoming) + multiset(past) == multiset(old(reservations))
      ensures expanded == old(expanded)
    {
      ghost var original := reservations;
      reservations := SortBy(reservations, StartOf, IntLe);
      upcoming := Filter(reservations, (d: Detail) => StartOf(d) >= now);
      ghost var ascending := reservations;
      reservations := SortBy(reservations, StartOf, IntGe);
      past := Filter(reservations, (d: Detail) => StartOf(d) < now);
      SortPermutes(original, StartOf, IntLe);
      SortPermutes(ascending, StartOf, IntGe);
      ListsPartition(ascending, now);
    }
  }
}

=== FILE: routes_reservation.dfy ===
/** The reservation endpoints.  Booking, changing and cancelling move seats
    between a seat group's unsold capacity and its reservations; every
    handler keeps each group's total (unsold + booked) fixed, and the guard
    `CheckCapacity` keeps the unsold count from going negative. */
module ReservationRoutes {
  import opened Common
  import opened Models
  import opened Ledger

  /** `check_capacity`: moving `delta` seats into the group's unsold pool
      is refused exactly when the pool would become negative; the refusal
      reports the seats that can still be booked. */
  function CheckCapacity(sg: SeatGroup, delta: int): (r: Option<Error>)
    ensures r.Some? <==> sg.capacity + delta < 0
    ensures r.Some? ==> r.value == SeatsShort(sg.capacity) && r.value.Status() == 400
  {
    if sg.capacity + delta < 0 then Some(SeatsShort(sg.capacity)) else None
  }

  /** A passed capacity check leaves the pool non-negative after the update. */
  lemma CheckedUpdateNonNegative(sg: SeatGroup, delta: int)
    requires CheckCapacity(sg, delta).None?
    ensures PatchSeatGroup(sg, SeatGroupPatch(Some(sg.capacity + delta))).capacity >= 0
  {
  }

  /** `update_capacity`: the group's unsold pool grows by `delta` (shrinks
      when negative); its total grows by the same amount. */
  method UpdateCapacity(db: Database, g: int, delta: int)
    requires db.Valid() && g in db.seatGroups
    modifies db
    ensures db.Valid()
    ensures db.seatGroups == old(db.seatGroups)[g := SeatGroup(old(db.seatGroups)[g].stageId, old(db.seatGroups)[g].capacity + delta)]
    ensures db.Total(g) == old(db.Total(g)) + delta
    ensures forall h :: h in db.seatGroups && h != g ==> db.Total(h) == old(db.Total(h))
    ensures db.stages == old(db.stages) && db.ticketTypes == old(db.ticketTypes)
    ensures db.reservations == old(db.reservations) && db.users == old(db.users)
    ensures db.nextReservationId == old(db.nextReservationId)
    ensures old(db.NoDangling()) ==> db.NoDangling()
  {
    db.UpdateSeatGroup(g, SeatGroupPatch(Some(db.seatGroups[g].capacity + delta)));
  }

  // ---------------------------------------------------------------------
  // Reads

  /** `GET /reservations/{id}`: 404 for an unknown id, then 403 unless the
      caller is an administrator or owns the reservation. */
  function ReadReservation(db: Database, caller: Caller, id: int): (r: Outcome<Reservation>)
    reads db
    ensures r == Err(NotFound) <==> db.FindReservation(id).None?
    ensures r == Err(Forbidden) <==>
              db.FindReservation(id).Some? && !MayAccess(caller, db.reservations[db.FindReservation(id).value].userId)
    ensures r.Ok? ==> r.value in db.reservations && r.value.id == id && MayAccess(caller, r.value.userId)
  {
    var k := db.FindReservation(id);
    if k.None? then Err(NotFound)
    else if !MayAccess(caller, db.reservations[k.value].userId) then Err(Forbidden)
    else Ok(db.reservations[k.value])
  }

  /** `GET /reservations`: the whole table, for administrators only. */
  function ReadReservations(db: Database, caller: Caller): (r: Outcome<seq<Reservation>>)
    reads db
    ensures r.Err? <==> !caller.isAdmin
    ensures r.Err? ==> r.error == Forbidden
    ensures r.Ok? ==> r.value == db.reservations
  {
    if !caller.isAdmin then Err(Forbidden) else Ok(db.reservations)
  }

  /** `GET /users/{user_id}/reservations`: 404 for an unknown user, then
      administrators and the user themself get exactly that user's
      reservations, anyone else 403. */
  function ReadReservationsByUser(db: Database, caller: Caller, userId: int): (r: Outcome<seq<Reservation>>)
    reads db
    ensures r == Err(NotFound) <==> userId !in db.users
    ensures r == Err(Forbidden) <==> userId in db.users && !MayAccess(caller, userId)
    ensures r.Ok? ==> forall i :: 0 <= i < |r.value| ==> r.value[i] in db.reservations && r.value[i].userId == userId
    ensures r.Ok? ==> forall i :: 0 <= i < |db.reservations| && db.reservations[i].userId == userId ==> db.reservations[i] in r.value
  {
    if userId !in db.users then Err(NotFound)
    else if MayAccess(caller, userId) then Ok(ReservationsOfUser(db.reservations, userId))
    else Err(Forbidden)
  }

  /** `GET /ticket_types/{id}/reservations`: 404 for an unknown ticket type;
      an administrator sees every reservation of the type, anyone else only
      their own. */
  function ReadReservationsByTicketType(db: Database, caller: Caller, ticketTypeId: int): (r: Outcome<seq<Reservation>>)
    reads db
    ensures r.Err? <==> ticketTypeId !in db.ticketTypes
    ensures r.Err? ==> r.error == NotFound
    ensures r.Ok? ==> forall i :: 0 <= i < |r.value| ==>
              r.value[i] in db.reservations && r.value[i].ticketTypeId == ticketTypeId
              && (caller.isAdmin || r.value[i].userId == caller.id)
    ensures r.Ok? ==> forall i :: 0 <= i < |db.reservations| ==>
              db.reservations[i].ticketTypeId == ticketTypeId && (caller.isAdmin || db.reservations[i].userId == caller.id)
              ==> db.reservations[i] in r.value
  {
    if ticketTypeId !in db.ticketTypes then Err(NotFound)
    else if caller.isAdmin then Ok(ReservationsOfTicketType(db.reservations, ticketTypeId))
    else Ok(ReservationsOfUserAndTicketType(db.reservations, caller.id, ticketTypeId))
  }

  // ---------------------------------------------------------------------
  // Writes

  /** `POST /ticket_types/{id}/reservations`.  404 for an unknown ticket type
      or seat group; a 400 reporting the remaining seats when there are not
      enough; otherwise the group's pool is debited by the party size and
      the caller gets a new unpaid reservation.  The group's total is kept. */
  method CreateReservationHandler(db: Database, caller: Caller, ticketTypeId: int, numAttendees: int)
    returns (r: Outcome<Reservation>)
    requires db.Valid() && numAttendees >= 1
    requires caller.id in db.users
    modifies db
    ensures db.Valid()
    ensures r == Err(NotFound) <==>
              ticketTypeId !in old(db.ticketTypes) || old(db.ticketTypes)[ticketTypeId].seatGroupId !in old(db.seatGroups)
    ensures r.Err? && r.error.SeatsShort? <==>
              && ticketTypeId in old(db.ticketTypes)
              && old(db.ticketTypes)[ticketTypeId].seatGroupId in old(db.seatGroups)
              && old(db.seatGroups)[old(db.ticketTypes)[ticketTypeId].seatGroupId].capacity < numAttendees
    ensures r.Err? ==> r.error.NotFound? || r.error == SeatsShort(old(db.seatGroups)[old(db.ticketTypes)[ticketTypeId].seatGroupId].capacity)
    ensures r.Err? ==> unchanged(db)
    ensures r.Ok? ==> var g := old(db.ticketTypes)[ticketTypeId].seatGroupId;
              && r.value.ticketTypeId == ticketTypeId && r.value.userId == caller.id
              && r.value.numAttendees == numAttendees && !r.value.isPaid
              && db.reservations == old(db.reservations) + [r.value]
              && db.seatGroups == old(db.seatGroups)[g := old(db.seatGroups)[g].(capacity := old(db.seatGroups)[g].capacity - numAttendees)]
    ensures db.TotalsKept()
    ensures old(db.NoOverbooking()) ==> db.NoOverbooking()
    ensures old(db.NoDangling()) ==> db.NoDangling()
    ensures db.ticketTypes == old(db.ticketTypes) && db.users == old(db.users) && db.stages == old(db.stages)
  {
    if ticketTypeId !in db.ticketTypes {
      return Err(NotFound);
    }
    var g := db.ticketTypes[ticketTypeId].seatGroupId;
    if g !in db.seatGroups {
      return Err(NotFound);
    }
    var check := CheckCapacity(db.seatGroups[g], -numAttendees);
    if check.Some? {
      return Err(check.value);
    }
    UpdateCapacity(db, g, -numAttendees);
    var created := db.CreateReservation(ticketTypeId, caller.id, numAttendees);
    forall h | h in db.seatGroups && h != g ensures Share(created, db.ticketTypes, h) == 0 { }
    r := Ok(created);
  }

  /** `PUT /reservations/{id}`.  404 for an unknown id, 403 for someone
      else's reservation, 400 when its ticket type or seat group is gone or
      when growing the party needs more seats than remain.  Otherwise the
      pool moves by old − new (no count given means no change) and the row
      takes the given fields.  The group's total is kept. */
  method UpdateReservationHandler(db: Database, caller: Caller, id: int, patch: ReservationPatch)
    returns (r: Outcome<Reservation>)
    requires db.Valid()
    requires patch.numAttendees.Some? ==> patch.numAttendees.value >= 1
    modifies db
    ensures db.Valid()
    ensures r == Err(NotFound) <==> old(db.FindReservation(id)).None?
    ensures r == Err(Forbidden) <==>
              old(db.FindReservation(id)).Some? && !MayAccess(caller, old(db.reservations)[old(db.FindReservation(id)).value].userId)
    ensures r.Err? ==> unchanged(db)
    ensures r.Ok? ==> (
              && old(db.FindReservation(id)).Some?
              && var i := old(db.FindReservation(id)).value;
              var before := old(db.reservations)[i];
              && MayAccess(caller, before.userId)
              && before.ticketTypeId in old(db.ticketTypes)
              && var g := old(db.ticketTypes)[before.ticketTypeId].seatGroupId;
              && g in old(db.seatGroups)
              && r.value == PatchReservation(before, patch)
              && db.reservations == old(db.reservations)[i := r.value]
              && db.seatGroups == old(db.seatGroups)[g := old(db.seatGroups)[g].(capacity := old(db.seatGroups)[g].capacity + before.numAttendees - r.value.numAttendees)])
    ensures r == Err(BadRequest) <==>
              old(db.FindReservation(id)).Some? && var before := old(db.reservations)[old(db.FindReservation(id)).value];
              MayAccess(caller, before.userId) && !Linked(before, old(db.ticketTypes), old(db.seatGroups))
    ensures r.Err? && r.error.SeatsShort? <==>
              old(db.FindReservation(id)).Some? && var before := old(db.reservations)[old(db.FindReservation(id)).value];
              && MayAccess(caller, before.userId) && Linked(before, old(db.ticketTypes), old(db.seatGroups))
              && PoolOf(before, old(db.ticketTypes), old(db.seatGroups)) < patch.numAttendees.GetOr(before.numAttendees) - before.numAttendees
    ensures r.Err? && r.error.SeatsShort? ==>
              var before := old(db.reservations)[old(db.FindReservation(id)).value];
              r.error == SeatsShort(PoolOf(before, old(db.ticketTypes), old(db.seatGroups)))
    ensures r.Ok? <==>
              old(db.FindReservation(id)).Some? && var before := old(db.reservations)[old(db.FindReservation(id)).value];
              && MayAccess(caller, before.userId) && Linked(before, old(db.ticketTypes), old(db.seatGroups))
              && PoolOf(before, old(db.ticketTypes), old(db.seatGroups)) >= patch.numAttendees.GetOr(before.numAttendees) - before.numAttendees
    ensures db.TotalsKept()
    ensures old(db.NoOverbooking()) ==> db.NoOverbooking()
    ensures old(db.NoDangling()) ==> db.NoDangling()
    ensures db.ticketTypes == old(db.ticketTypes) && db.users == old(db.users) && db.stages == old(db.stages)
  {
    var k := db.FindReservation(id);
    if k.None? {
      return Err(NotFound);
    }
    var before := db.reservations[k.value];
    if !MayAccess(caller, before.userId) {
      return Err(Forbidden);
    }
    if before.ticketTypeId !in db.ticketTypes {
      return Err(BadRequest);
    }
    var g := db.ticketTypes[before.ticketTypeId].seatGroupId;
    if g !in db.seatGroups {
      return Err(BadRequest);
    }
    var newCount := patch.numAttendees.GetOr(before.numAttendees);
    var delta := before.numAttendees - newCount;
    var check := CheckCapacity(db.seatGroups[g], delta);
    if check.Some? {
      return Err(check.value);
    }
    UpdateCapacity(db, g, delta);
    r := db.UpdateReservation(id, ReservationPatch(Some(newCount), patch.isPaid));
    assert r.Ok?;
    forall h | h in db.seatGroups && h != g
      ensures Share(before, db.ticketTypes, h) == 0 && Share(r.value, db.ticketTypes, h) == 0 { }
  }

  /** `DELETE /reservations/{id}`.  404 for an unknown id, 403 for someone
      else's reservation, 400 when its ticket type or seat group is gone.
      Otherwise the party's seats go back to the pool and the row is
      removed, so deleting the same id again is a 404. */
  method DeleteReservationHandler(db: Database, caller: Caller, id: int) returns (r: Outcome<()>)
    requires db.Valid()
    modifies db
    ensures db.Valid()
    ensures r == Err(NotFound) <==> old(db.FindReservation(id)).None?
    ensures r == Err(Forbidden) <==>
              old(db.FindReservation(id)).Some? && !MayAccess(caller, old(db.reservations)[old(db.FindReservation(id)).value].userId)
    ensures r == Err(BadRequest) <==>
              old(db.FindReservation(id)).Some? && var before := old(db.reservations)[old(db.FindReservation(id)).value];
              MayAccess(caller, before.userId) && !Linked(before, old(db.ticketTypes), old(db.seatGroups))
    ensures r.Ok? <==>
              old(db.FindReservation(id)).Some? && var before := old(db.reservations)[old(db.FindReservation(id)).value];
              MayAccess(caller, before.userId) && Linked(before, old(db.ticketTypes), old(db.seatGroups))
    ensures r.Err? ==> r.error in {NotFound, Forbidden, BadRequest} && unchanged(db)
    ensures r.Ok? ==> (
              && old(db.FindReservation(id)).Some?
              && var i := old(db.FindReservation(id)).value;
              var before := old(db.reservations)[i];
              && MayAccess(caller, before.userId)
              && before.ticketTypeId in old(db.ticketTypes)
              && var g := old(db.ticketTypes)[before.ticketTypeId].seatGroupId;
              && g in old(db.seatGroups)
              && db.reservations == old(db.reservations[..i] + db.reservations[i + 1..])
              && db.seatGroups == old(db.seatGroups)[g := old(db.seatGroups)[g].(capacity := old(db.seatGroups)[g].capacity + before.numAttendees)]
              && db.FindReservation(id).None?)
    ensures db.TotalsKept()
    ensures old(db.NoOverbooking()) ==> db.NoOverbooking()
    ensures old(db.NoDangling()) ==> db.NoDangling()
    ensures db.ticketTypes == old(db.ticketTypes) && db.users == old(db.users) && db.stages == old(db.stages)
  {
    var k := db.FindReservation(id);
    if k.None? {
      return Err(NotFound);
    }
    var before := db.reservations[k.value];
    if !MayAccess(caller, before.userId) {
      return Err(Forbidden);
    }
    if before.ticketTypeId !in db.ticketTypes {
      return Err(BadRequest);
    }
    var g := db.ticketTypes[before.ticketTypeId].seatGroupId;
    if g !in db.seatGroups {
      return Err(BadRequest);
    }
    UpdateCapacity(db, g, before.numAttendees);
    db.DeleteReservation(id);
    forall h | h in db.seatGroups && h != g ensures Share(before, db.ticketTypes, h) == 0 { }
    r := Ok(());
  }
}

=== FILE: routes_seat_group.dfy ===
/** The seat-group endpoints.  The administrator's update is the one write
    that sets a group's unsold seats to an arbitrary value, and so the one
    that changes a group's total.  A group that still has ticket types
    cannot be deleted. */
module SeatGroupRoutes {
  import opened Common
  import opened Models
  import opened Ledger

  /** `GET /seat_groups/{id}`. */
  function ReadSeatGroup(db: Database, seatGroupId: int): (r: Outcome<SeatGroup>)
    reads db
    ensures r.Err? <==> seatGroupId !in db.seatGroups
    ensures r.Err? ==> r.error == NotFound
    ensures r.Ok? ==> r.value == db.seatGroups[seatGroupId]
  {
    if seatGroupId !in db.seatGroups then Err(NotFound) else Ok(db.seatGroups[seatGroupId])
  }

  /** `GET /stages/{id}/seat_groups`: 404 for an unknown stage, otherwise
      exactly the stage's seat groups. */
  function ReadSeatGroupsByStage(db: Database, stageId: int): (r: Outcome<map<int, SeatGroup>>)
    reads db
    ensures r.Err? <==> stageId !in db.stages
    ensures r.Err? ==> r.error == NotFound
    ensures r.Ok? ==> forall g :: g in r.value <==> g in db.seatGroups && db.seatGroups[g].stageId == stageId
    ensures r.Ok? ==> forall g :: g in r.value ==> r.value[g] == db.seatGroups[g]
  {
    if stageId !in db.stages then Err(NotFound) else Ok(SeatGroupsOfStage(db.seatGroups, stageId))
  }

  /** `POST /stages/{id}/seat_groups`: 403, then 404 for an unknown stage;
      otherwise a new group whose total is the capacity it was given. */
  method CreateSeatGroupHandler(db: Database, caller: Caller, stageId: int, capacity: int) returns (r: Outcome<int>)
    requires db.Valid()
    modifies db
    ensures db.Valid()
    ensures r == Err(Forbidden) <==> !caller.isAdmin
    ensures r == Err(NotFound) <==> caller.isAdmin && stageId !in old(db.stages)
    ensures r.Ok? <==> caller.isAdmin && stageId in old(db.stages)
    ensures r.Err? ==> unchanged(db)
    ensures r.Ok? ==> r.value !in old(db.seatGroups)
                      && db.seatGroups == old(db.seatGroups)[r.value := SeatGroup(stageId, capacity)]
                      && db.Total(r.value) == capacity
    ensures forall g :: g in old(db.seatGroups) ==> g in db.seatGroups && db.Total(g) == old(db.Total(g))
    ensures db.ticketTypes == old(db.ticketTypes) && db.reservations == old(db.reservations)
    ensures old(db.NoDangling()) ==> db.NoDangling()
  {
    if CheckAdmin(caller).Some? {
      return Err(Forbidden);
    }
    if stageId !in db.stages {
      return Err(NotFound);
    }
    var id := db.CreateSeatGroup(stageId, capacity);
    r := Ok(id);
  }

  /** `PUT /seat_groups/{id}`: 403, then 404; then the given capacity
      replaces the unsold count with no look at the reservations.  The
      group's total moves by exactly the difference; no other group's
      total moves. */
  method UpdateSeatGroupHandler(db: Database, caller: Caller, seatGroupId: int, patch: SeatGroupPatch)
    returns (r: Outcome<SeatGroup>)
    requires db.Valid()
    modifies db
    ensures db.Valid()
    ensures r == Err(Forbidden) <==> !caller.isAdmin
    ensures r == Err(NotFound) <==> caller.isAdmin && seatGroupId !in old(db.seatGroups)
    ensures r.Ok? <==> caller.isAdmin && seatGroupId in old(db.seatGroups)
    ensures r.Err? ==> unchanged(db)
    ensures r.Ok? ==> r.value == PatchSeatGroup(old(db.seatGroups)[seatGroupId], patch)
                      && db.seatGroups == old(db.seatGroups)[seatGroupId := r.value]
                      && db.Total(seatGroupId) == old(db.Total(seatGroupId)) - old(db.seatGroups[seatGroupId].capacity) + r.value.capacity
    ensures forall g :: g in db.seatGroups && g != seatGroupId ==> db.Total(g) == old(db.Total(g))
    ensures db.ticketTypes == old(db.ticketTypes) && db.reservations == old(db.reservations)
    ensures old(db.NoDangling()) ==> db.NoDangling()
  {
    if CheckAdmin(caller).Some? {
      return Err(Forbidden);
    }
    if seatGroupId !in db.seatGroups {
      return Err(NotFound);
    }
    db.UpdateSeatGroup(seatGroupId, patch);
    r := Ok(db.seatGroups[seatGroupId]);
  }

  /** `DELETE /seat_groups/{id}`: 403, then 404; a group that still has
      ticket types makes the commit fail (500, nothing written); otherwise
      the row goes and every other group keeps its total. */
  method DeleteSeatGroupHandler(db: Database, caller: Caller, seatGroupId: int) returns (r: Outcome<()>)
    requires db.Valid()
    modifies db
    ensures db.Valid()
    ensures r == Err(Forbidden) <==> !caller.isAdmin
    ensures r == Err(NotFound) <==> caller.isAdmin && seatGroupId !in old(db.seatGroups)
    ensures r == Err(ServerError) <==>
              caller.isAdmin && seatGroupId in old(db.seatGroups) && GroupHasTypes(old(db.ticketTypes), seatGroupId)
    ensures r.Ok? <==>
              caller.isAdmin && seatGroupId in old(db.seatGroups) && !GroupHasTypes(old(db.ticketTypes), seatGroupId)
    ensures r.Err? ==> unchanged(db)
    ensures r.Ok? ==> db.seatGroups == old(db.seatGroups) - {seatGroupId}
    ensures forall g :: g in db.seatGroups ==> db.Total(g) == old(db.Total(g))
    ensures old(db.NoDangling()) ==> db.NoDangling()
    ensures db.ticketTypes == old(db.ticketTypes) && db.reservations == old(db.reservations)
  {
    if CheckAdmin(caller).Some? {
      return Err(Forbidden);
    }
    if seatGroupId !in db.seatGroups {
      return Err(NotFound);
    }
    r := db.DeleteSeatGroup(seatGroupId);
  }
}

=== FILE: routes_ticket_type.dfy ===
/** The ticket-type endpoints.  Writes are for administrators; a name may
    appear only once per seat group.  A ticket type that still has
    reservations cannot be deleted, so every write keeps the seat totals. */
module TicketTypeRoutes {
  import opened Common
  import opened Models
  import opened Ledger

  /** `GET /ticket_types/{id}`. */
  function ReadTicketType(db: Database, ticketTypeId: int): (r: Outcome<TicketType>)
    reads db
    ensures r.Err? <==> ticketTypeId !in db.ticketTypes
    ensures r.Err? ==> r.error == NotFound
    ensures r.Ok? ==> r.value == db.ticketTypes[ticketTypeId]
  {
    if ticketTypeId !in db.ticketTypes then Err(NotFound) else Ok(db.ticketTypes[ticketTypeId])
  }

  /** `GET /seat_groups/{id}/ticket_types`: 404 for an unknown seat group,
      otherwise exactly the ticket types that belong to it. */
  function ReadTicketTypesBySeatGroup(db: Database, seatGroupId: int): (r: Outcome<map<int, TicketType>>)
    reads db
    ensures r.Err? <==> seatGroupId !in db.seatGroups
    ensures r.Err? ==> r.error == NotFound
    ensures r.Ok? ==> forall t :: t in r.value <==> t in db.ticketTypes && db.ticketTypes[t].seatGroupId == seatGroupId
    ensures r.Ok? ==> forall t :: t in r.value ==> r.value[t] == db.ticketTypes[t]
  {
    if seatGroupId !in db.seatGroups then Err(NotFound)
    else Ok(TicketTypesOfSeatGroup(db.ticketTypes, seatGroupId))
  }

  /** `POST /seat_groups/{id}/ticket_types`: 403 for non-administrators, 404
      for an unknown seat group, 400 when that seat group already has a
      ticket type of this name (other groups do not matter); otherwise a
      new ticket type, which holds no seats yet. */
  method CreateTicketTypeHandler(db: Database, caller: Caller, seatGroupId: int, typeName: string, price: real)
    returns (r: Outcome<int>)
    requires db.Valid()
    modifies db
    ensures db.Valid()
    ensures r == Err(Forbidden) <==> !caller.isAdmin
    ensures r == Err(NotFound) <==> caller.isAdmin && seatGroupId !in old(db.seatGroups)
    ensures r == Err(BadRequest) <==>
              caller.isAdmin && seatGroupId in old(db.seatGroups) && old(TypeNameTaken(db.ticketTypes, seatGroupId, typeName, 0))
    ensures r.Ok? <==>
              caller.isAdmin && seatGroupId in old(db.seatGroups) && !old(TypeNameTaken(db.ticketTypes, seatGroupId, typeName, 0))
    ensures r.Err? ==> unchanged(db)
    ensures r.Ok? ==> r.value !in old(db.ticketTypes)
                      && db.ticketTypes == old(db.ticketTypes)[r.value := TicketType(seatGroupId, typeName, price)]
    ensures db.TotalsKept()
    ensures old(db.NoDangling()) ==> db.NoDangling()
    ensures db.seatGroups == old(db.seatGroups) && db.reservations == old(db.reservations)
  {
    if CheckAdmin(caller).Some? {
      return Err(Forbidden);
    }
    if seatGroupId !in db.seatGroups {
      return Err(NotFound);
    }
    if TypeNameTaken(db.ticketTypes, seatGroupId, typeName, 0) {
      return Err(BadRequest);
    }
    r := db.CreateTicketType(seatGroupId, typeName, price);
  }

  /** `PUT /ticket_types/{id}`: 403, then 404, then the given fields are
      overwritten; when the patched name is already another type's name in
      the same group the unique constraint refuses the commit (500, nothing
      written). */
  method UpdateTicketTypeHandler(db: Database, caller: Caller, ticketTypeId: int, patch: TicketTypePatch)
    returns (r: Outcome<TicketType>)
    requires db.Valid()
    modifies db
    ensures db.Valid()
    ensures r == Err(Forbidden) <==> !caller.isAdmin
    ensures r == Err(NotFound) <==> caller.isAdmin && ticketTypeId !in old(db.ticketTypes)
    ensures r == Err(ServerError) <==>
              caller.isAdmin && ticketTypeId in old(db.ticketTypes)
              && var u := PatchTicketType(old(db.ticketTypes)[ticketTypeId], patch);
                 old(TypeNameTaken(db.ticketTypes, u.seatGroupId, u.typeName, ticketTypeId))
    ensures r.Ok? <==>
              caller.isAdmin && ticketTypeId in old(db.ticketTypes)
              && var u := PatchTicketType(old(db.ticketTypes)[ticketTypeId], patch);
                 !old(TypeNameTaken(db.ticketTypes, u.seatGroupId, u.typeName, ticketTypeId))
    ensures r.Err? ==> unchanged(db)
    ensures r.Ok? ==> r.value == PatchTicketType(old(db.ticketTypes)[ticketTypeId], patch)
                      && db.ticketTypes == old(db.ticketTypes)[ticketTypeId := r.value]
    ensures db.TotalsKept()
    ensures old(db.NoDangling()) ==> db.NoDangling()
    ensures db.seatGroups == old(db.seatGroups) && db.reservations == old(db.reservations)
  {
    if CheckAdmin(caller).Some? {
      return Err(Forbidden);
    }
    if ticketTypeId !in db.ticketTypes {
      return Err(NotFound);
    }
    r := db.UpdateTicketType(ticketTypeId, patch);
  }

  /** `DELETE /ticket_types/{id}`: 403, then 404; a type that still has
      reservations makes the commit fail (500, nothing written); otherwise
      the row goes, and no seat moves. */
  method DeleteTicketTypeHandler(db: Database, caller: Caller, ticketTypeId: int) returns (r: Outcome<()>)
    requires db.Valid()
    modifies db
    ensures db.Valid()
    ensures r == Err(Forbidden) <==> !caller.isAdmin
    ensures r == Err(NotFound) <==> caller.isAdmin && ticketTypeId !in old(db.ticketTypes)
    ensures r == Err(ServerError) <==>
              caller.isAdmin && ticketTypeId in old(db.ticketTypes) && TypeHasReservations(old(db.reservations), ticketTypeId)
    ensures r.Ok? <==>
              caller.isAdmin && ticketTypeId in old(db.ticketTypes) && !TypeHasReservations(old(db.reservations), ticketTypeId)
    ensures r.Err? ==> unchanged(db)
    ensures r.Ok? ==> db.ticketTypes == old(db.ticketTypes) - {ticketTypeId}
    ensures db.TotalsKept()
    ensures old(db.NoDangling()) ==> db.NoDangling()
    ensures db.seatGroups == old(db.seatGroups) && db.reservations == old(db.reservations)
  {
    if CheckAdmin(caller).Some? {
      return Err(Forbidden);
    }
    if ticketTypeId !in db.ticketTypes {
      return Err(NotFound);
    }
    r := db.DeleteTicketType(ticketTypeId);
  }
}

=== FILE: routes_user.dfy ===
/** The user endpoints: signup, reads, profile update and the
    administrator's deletion of an ordinary user, which first hands every
    seat that user holds back to its seat group. */
module UserRoutes {
  import opened Common
  import opened Models
  import opened Ledger
  import opened ReservationRoutes

  /** `POST /signup`: 400 when the email is already registered, otherwise a
      new non-administrator account. */
  method CreateUserHandler(db: Database, email: string, nickname: Option<string>) returns (r: Outcome<int>)
    requires db.Valid()
    modifies db
    ensures db.Valid()
    ensures r.Err? <==> old(EmailTaken(db.users, email, 0))
    ensures r.Err? ==> r.error == BadRequest && unchanged(db)
    ensures r.Ok? ==> r.value !in old(db.users) && db.users == old(db.users)[r.value := NewUser(email, nickname)]
    ensures db.seatGroups == old(db.seatGroups) && db.ticketTypes == old(db.ticketTypes)
    ensures db.reservations == old(db.reservations) && db.stages == old(db.stages)
  {
    if EmailTaken(db.users, email, 0) {
      return Err(BadRequest);
    }
    r := db.CreateUser(email, nickname);
  }

  /** `GET /users/{id}`: the permission check (administrator or the user
      themself) comes first, then 404. */
  function ReadUser(db: Database, caller: Caller, userId: int): (r: Outcome<User>)
    reads db
    ensures r == Err(Forbidden) <==> !MayAccess(caller, userId)
    ensures r == Err(NotFound) <==> MayAccess(caller, userId) && userId !in db.users
    ensures r.Ok? ==> userId in db.users && r.value == db.users[userId]
  {
    if !MayAccess(caller, userId) then Err(Forbidden)
    else if userId !in db.users then Err(NotFound)
    else Ok(db.users[userId])
  }

  /** `GET /users`: administrators only. */
  function ReadUsers(db: Database, caller: Caller): (r: Outcome<map<int, User>>)
    reads db
    ensures r.Err? <==> !caller.isAdmin
    ensures r.Err? ==> r.error == Forbidden
    ensures r.Ok? ==> r.value == db.users
  {
    if CheckAdmin(caller).Some? then Err(Forbidden) else Ok(db.users)
  }

  /** `PUT /users/{id}`: 403 before 404, then the given fields are
      overwritten; an email already used by another account breaks the
      unique constraint (a server error, nothing written). */
  method UpdateUserHandler(db: Database, caller: Caller, userId: int, patch: UserPatch) returns (r: Outcome<User>)
    requires db.Valid()
    modifies db
    ensures db.Valid()
    ensures r == Err(Forbidden) <==> !MayAccess(caller, userId)
    ensures r == Err(NotFound) <==> MayAccess(caller, userId) && userId !in old(db.users)
    ensures r == Err(ServerError) <==>
              MayAccess(caller, userId) && userId in old(db.users)
              && old(EmailTaken(db.users, PatchUser(db.users[userId], patch).email, userId))
    ensures r.Ok? <==>
              MayAccess(caller, userId) && userId in old(db.users)
              && !old(EmailTaken(db.users, PatchUser(db.users[userId], patch).email, userId))
    ensures r.Err? ==> unchanged(db)
    ensures r.Ok? ==> userId in old(db.users) && r.value == PatchUser(old(db.users)[userId], patch)
                      && db.users == old(db.users)[userId := r.value]
    ensures db.seatGroups == old(db.seatGroups) && db.ticketTypes == old(db.ticketTypes)
    ensures db.reservations == old(db.reservations) && db.stages == old(db.stages)
  {
    if !MayAccess(caller, userId) {
      return Err(Forbidden);
    }
    if userId !in db.users {
      return Err(NotFound);
    }
    r := db.UpdateUser(userId, patch);
  }

  /** `DELETE /users/{id}`: 404, then 400 when the target is an
      administrator (whoever asks), then 403 unless the caller is an
      administrator.  Each of the user's reservations, in table order, is
      credited back to its seat group and deleted; then the user goes,
      which the database allows because none of their reservations is
      left.  A
      failure inside that loop (a ticket type or seat group that no longer
      exists) is a 500 and leaves the earlier iterations applied.  Seat
      totals are kept in every case. */
  method DeleteUserHandler(db: Database, caller: Caller, userId: int) returns (r: Outcome<()>)
    requires db.Valid()
    modifies db
    ensures db.Valid()
    ensures r == Err(NotFound) <==> userId !in old(db.users)
    ensures r == Err(BadRequest) <==> userId in old(db.users) && old(db.users)[userId].isAdmin
    ensures r == Err(Forbidden) <==> userId in old(db.users) && !old(db.users)[userId].isAdmin && !caller.isAdmin
    ensures r == Err(ServerError) <==>
              userId in old(db.users) && !old(db.users)[userId].isAdmin && caller.isAdmin && !old(Refundable(db, userId))
    ensures r.Ok? <==>
              userId in old(db.users) && !old(db.users)[userId].isAdmin && caller.isAdmin && old(Refundable(db, userId))
    ensures r.Err? && r.error != ServerError ==> unchanged(db)
    ensures r.Ok? ==> db.users == old(db.users) - {userId}
    ensures r.Ok? ==> forall x :: x in db.reservations ==> x.userId != userId
    ensures r.Ok? || r == Err(ServerError) ==> caller.isAdmin
    ensures r == Err(ServerError) ==> db.users == old(db.users)
    ensures forall x :: x in db.reservations ==> x in old(db.reservations)
    ensures forall x :: x in old(db.reservations) && x.userId != userId ==> x in db.reservations
    ensures db.TotalsKept()
    ensures old(db.NoOverbooking()) ==> db.NoOverbooking()
    ensures old(db.NoDangling()) ==> db.NoDangling()
    ensures db.ticketTypes == old(db.ticketTypes) && db.stages == old(db.stages)
  {
    if userId !in db.users {
      return Err(NotFound);
    }
    if db.users[userId].isAdmin {
      return Err(BadRequest);
    }
    if !caller.isAdmin {
      return Err(Forbidden);
    }
    r := RemoveUser(db, userId);
  }

  /** The tail of `DELETE /users/{id}`, once the checks pass: the
      deletion loop, then the user's own row, which the database lets go
      because none of their reservations is left. */
  method RemoveUser(db: Database, userId: int) returns (r: Outcome<()>)
    requires db.Valid() && userId in db.users
    modifies db
    ensures db.Valid()
    ensures r.Err? <==> !old(Refundable(db, userId))
    ensures r.Err? ==> r.error == ServerError && db.users == old(db.users)
    ensures r.Ok? ==> db.users == old(db.users) - {userId}
    ensures r.Ok? ==> forall x :: x in db.reservations ==> x.userId != userId
    ensures forall x :: x in db.reservations ==> x in old(db.reservations)
    ensures forall x :: x in old(db.reservations) && x.userId != userId ==> x in db.reservations
    ensures db.TotalsKept()
    ensures old(db.NoOverbooking()) ==> db.NoOverbooking()
    ensures old(db.NoDangling()) ==> db.NoDangling()
    ensures db.ticketTypes == old(db.ticketTypes) && db.stages == old(db.stages)
  {
    ghost var sgs0, rs0, tts0, users0 := db.seatGroups, db.reservations, db.ticketTypes, db.users;
    ghost var linked := LinksHold(sgs0, tts0, rs0, users0);
    assert linked == db.NoDangling();
    var refunded := RefundAll(db, userId);
    if linked {
      LinksHoldKept(sgs0, db.seatGroups, db.ticketTypes, rs0, db.reservations, db.users);
      assert db.NoDangling();
    }
    if !refunded {
      return Err(ServerError);
    }
    r := db.DeleteUser(userId);
  }

  /** Every reservation of the user can be credited back: its ticket type
      and that type's seat group exist. */
  ghost predicate Refundable(db: Database, userId: int)
    reads db
  {
    forall x :: x in db.reservations && x.userId == userId ==> Linked(x, db.ticketTypes, db.seatGroups)
  }

  /** The deletion loop: each of the user's reservations, in table order,
      is credited back and deleted; the loop stops at the first one whose
      ticket type or seat group is gone.  It gets through exactly when no
      reservation of the user is in that state. */
  method RefundAll(db: Database, userId: int) returns (refunded: bool)
    requires db.Valid()
    modifies db
    ensures db.Valid()
    ensures refunded <==> old(Refundable(db, userId))
    ensures db.TotalsKept()
    ensures old(db.NoOverbooking()) ==> db.NoOverbooking()
    ensures db.users == old(db.users) && db.ticketTypes == old(db.ticketTypes) && db.stages == old(db.stages)
    ensures forall x :: x in db.reservations ==> x in old(db.reservations)
    ensures forall x :: x in old(db.reservations) && x.userId != userId ==> x in db.reservations
    ensures refunded ==> forall x :: x in db.reservations ==> x.userId != userId
  {
    var mine := ReservationsOfUser(db.reservations, userId);
    ghost var rs0, tts0, sgs0 := db.reservations, db.ticketTypes, db.seatGroups;
    var k := 0;
    while k < |mine|
      invariant 0 <= k <= |mine|
      invariant db.Valid()
      invariant db.TotalsKept()
      invariant old(db.NoOverbooking()) ==> db.NoOverbooking()
      invariant db.users == old(db.users) && db.ticketTypes == old(db.ticketTypes) && db.stages == old(db.stages)
      invariant RefundProgress(rs0, db.reservations, mine, k, userId)
      invariant forall j :: 0 <= j < k ==> Linked(mine[j], tts0, sgs0)
    {
      var x := mine[k];
      ghost var rs := db.reservations;
      var credited := RefundReservation(db, x);
      if !credited {
        assert !Linked(x, tts0, sgs0);
        return false;
      }
      RefundStep(rs0, rs, db.reservations, mine, k, userId);
      k := k + 1;
    }
    EveryOneLinked(rs0, mine, userId, tts0, sgs0);
    refunded := true;
  }

  /** Part way through the loop over `mine`, the user's reservations in id
      order: the table `rs` only lost rows of `rs0`, kept every other
      user's, still holds `mine[k..]` and holds no other row of the user. */
  ghost predicate RefundProgress(rs0: seq<Reservation>, rs: seq<Reservation>, mine: seq<Reservation>, k: int, userId: int)
  {
    && 0 <= k <= |mine|
    && (forall x :: x in rs ==> x in rs0)
    && (forall x :: x in rs0 && x.userId != userId ==> x in rs)
    && (forall j :: k <= j < |mine| ==> mine[j] in rs)
    && (forall x :: x in rs && x.userId == userId ==> x in mine[k..])
  }

  /** Deleting `mine[k]` moves the loop on by one. */
  lemma RefundStep(rs0: seq<Reservation>, rs: seq<Reservation>, rs': seq<Reservation>, mine: seq<Reservation>, k: int, userId: int)
    requires RefundProgress(rs0, rs, mine, k, userId) && k < |mine|
    requires IdsAscending(mine) && forall j :: 0 <= j < |mine| ==> mine[j].userId == userId
    requires forall y :: y in rs' <==> y in rs && y != mine[k]
    ensures RefundProgress(rs0, rs', mine, k + 1, userId)
  {
    forall j | k + 1 <= j < |mine| ensures mine[j] in rs' {
      assert mine[k].id < mine[j].id;
    }
    forall x | x in rs' && x.userId == userId ensures x in mine[k + 1..] {
      var i :| 0 <= i < |mine[k..]| && mine[k..][i] == x;
      assert mine[k + 1..][i - 1] == x;
    }
  }

  /** When every reservation the user filter found is linked, so is every
      reservation of the user. */
  lemma EveryOneLinked(rs: seq<Reservation>, mine: seq<Reservation>, userId: int,
                       tts: map<int, TicketType>, seatGroups: map<int, SeatGroup>)
    requires forall i :: 0 <= i < |rs| && rs[i].userId == userId ==> rs[i] in mine
    requires forall j :: 0 <= j < |mine| ==> Linked(mine[j], tts, seatGroups)
    ensures forall x :: x in rs && x.userId == userId ==> Linked(x, tts, seatGroups)
  {
    forall x | x in rs && x.userId == userId ensures Linked(x, tts, seatGroups) {
      var i :| 0 <= i < |rs| && rs[i] == x;
      var j :| 0 <= j < |mine| && mine[j] == x;
    }
  }

  /** One turn of the deletion loop: look up the reservation's ticket type
      and seat group (failing when either is gone), give its seats back to
      the group and delete the row. */
  method RefundReservation(db: Database, x: Reservation) returns (credited: bool)
    requires db.Valid() && x in db.reservations
    modifies db
    ensures db.Valid()
    ensures credited <==> x.ticketTypeId in old(db.ticketTypes) && old(db.ticketTypes)[x.ticketTypeId].seatGroupId in old(db.seatGroups)
    ensures !credited ==> unchanged(db)
    ensures credited ==> forall y :: y in db.reservations <==> y in old(db.reservations) && y != x
    ensures credited ==> var g := old(db.ticketTypes)[x.ticketTypeId].seatGroupId;
              db.seatGroups == old(db.seatGroups)[g := old(db.seatGroups)[g].(capacity := old(db.seatGroups)[g].capacity + x.numAttendees)]
    ensures db.TotalsKept()
    ensures old(db.NoOverbooking()) ==> db.NoOverbooking()
    ensures db.users == old(db.users) && db.ticketTypes == old(db.ticketTypes) && db.stages == old(db.stages)
  {
    if x.ticketTypeId !in db.ticketTypes {
      return false;
    }
    var g := db.ticketTypes[x.ticketTypeId].seatGroupId;
    if g !in db.seatGroups {
      return false;
    }
    CreditBack(db, x);
    credited := true;
  }

  /** The turn when both rows exist: the seats go back to the group and the
      reservation is deleted. */
  method CreditBack(db: Database, x: Reservation)
    requires db.Valid() && x in db.reservations
    requires x.ticketTypeId in db.ticketTypes && db.ticketTypes[x.ticketTypeId].seatGroupId in db.seatGroups
    modifies db
    ensures db.Valid()
    ensures forall y :: y in db.reservations <==> y in old(db.reservations) && y != x
    ensures var g := old(db.ticketTypes)[x.ticketTypeId].seatGroupId;
              db.seatGroups == old(db.seatGroups)[g := old(db.seatGroups)[g].(capacity := old(db.seatGroups)[g].capacity + x.numAttendees)]
    ensures db.TotalsKept()
    ensures old(db.NoOverbooking()) ==> db.NoOverbooking()
    ensures db.users == old(db.users) && db.ticketTypes == old(db.ticketTypes) && db.stages == old(db.stages)
  {
    var g := db.ticketTypes[x.ticketTypeId].seatGroupId;
    ghost var before := db.reservations;
    ValidAttendees(db, x);
    InTableIsFound(before, x);
    ghost var i := IndexOf(before, x.id).value;
    SameIdSameRow(before, x, i);
    RemoveAtMembership(before, i);
    UpdateCapacity(db, g, x.numAttendees);
    db.DeleteReservation(x.id);
    forall h | h in db.seatGroups && h != g ensures Share(x, db.ticketTypes, h) == 0 { }
  }

  /** Every live reservation holds at least one seat. */
  lemma ValidAttendees(db: Database, x: Reservation)
    requires db.Valid() && x in db.reservations
    ensures x.numAttendees >= 1
  {
    var i :| 0 <= i < |db.reservations| && db.reservations[i] == x;
  }

  lemma InTableIsFound(rs: seq<Reservation>, x: Reservation)
    requires x in rs
    ensures IndexOf(rs, x.id).Some?
  {
    var i :| 0 <= i < |rs| && rs[i] == x;
  }

  /** Keys are unique, so the row found by a key is the row that has it. */
  lemma SameIdSameRow(rs: seq<Reservation>, x: Reservation, i: nat)
    requires IdsAscending(rs) && x in rs && i < |rs| && rs[i].id == x.id
    ensures rs[i] == x
  {
    var m :| 0 <= m < |rs| && rs[m] == x;
  }

  lemma RemoveAtMembership(rs: seq<Reservation>, i: nat)
    requires IdsAscending(rs) && i < |rs|
    ensures forall x :: x in rs[..i] + rs[i + 1..] <==> x in rs && x != rs[i]
  {
    forall x ensures x in rs[..i] + rs[i + 1..] <==> x in rs && x != rs[i] {
      if x in rs[..i] + rs[i + 1..] {
        var m :| 0 <= m < |rs[..i] + rs[i + 1..]| && (rs[..i] + rs[i + 1..])[m] == x;
        var m' := if m < i then m else m + 1;
        assert rs[m'] == x;
        assert rs[m'].id != rs[i].id;
      }
      if x in rs && x != rs[i] {
        var m :| 0 <= m < |rs| && rs[m] == x;
        if m < i {
          assert (rs[..i] + rs[i + 1..])[m] == x;
        } else {
          assert m > i;
          assert (rs[..i] + rs[i + 1..])[m - 1] == x;
        }
      }
    }
  }
}

=== FILE: scanner.dfy ===
/** Check-in by QR code.  A reservation card shows the code
    `Kakuho-<reservation id>`; the scanner at a stage decodes it, looks the
    reservation up among the loaded ones and either explains why it cannot
    be checked in or opens the payment dialog. */
module Scanner {
  import opened Common
  import opened Text
  import opened ClientData

  const CodePrefix: string := "Kakuho-"

  /** The text of a reservation's QR code (the card's template literal). */
  function EncodeReservation(id: int): (s: string)
    ensures StartsWith(s, CodePrefix)
  {
    CodePrefix + Show(id)
  }

  /** The id part of a decoded text: none when the text lacks the prefix,
      otherwise the text with the first occurrence of the prefix removed,
      which is everything after it. */
  function ScannedId(text: string): (r: Option<string>)
    ensures r.None? <==> !StartsWith(text, CodePrefix)
    ensures r.Some? ==> r.value == text[|CodePrefix|..]
  {
    if !StartsWith(text, CodePrefix) then None
    else
      ReplacePrefix(text, CodePrefix);
      Some(ReplaceFirst(text, CodePrefix, ""))
  }

  /** Decoding a card's code gives back the reservation id. */
  lemma {:induction false} DecodeEncode(id: int)
    ensures ScannedId(EncodeReservation(id)) == Some(Show(id))
    ensures ParseInt(ScannedId(EncodeReservation(id)).value) == Some(id)
  {
    assert EncodeReservation(id)[|CodePrefix|..] == Show(id);
    ParseShow(id);
  }

  /** A loaded reservation with the stage it is for. */
  datatype ScanEntry = ScanEntry(reservation: ReservationRow, stageId: int)

  /** What a scan leads to: one of four alerts, or the payment dialog. */
  datatype ScanOutcome = InvalidCode | NotFound | OtherStage | AlreadyPaid | Pay(reservationId: int)

  /** `handleCheckReservation`: the first loaded reservation whose id equals
      the parsed id (a text that is not a number matches none); its stage is
      checked before its payment. */
  function CheckReservation(idText: string, entries: seq<ScanEntry>, stageId: int): (r: ScanOutcome)
    ensures r != InvalidCode
    ensures r == NotFound <==> ParseInt(idText).None?
                               || forall i :: 0 <= i < |entries| ==> entries[i].reservation.id != ParseInt(idText).value
    ensures r != NotFound ==>
              exists i :: 0 <= i < |entries| && entries[i].reservation.id == ParseInt(idText).value
                && (forall j :: 0 <= j < i ==> entries[j].reservation.id != entries[i].reservation.id)
                && (r == OtherStage <==> entries[i].stageId != stageId)
                && (r == AlreadyPaid <==> entries[i].stageId == stageId && entries[i].reservation.isPaid)
                && (r.Pay? <==> entries[i].stageId == stageId && !entries[i].reservation.isPaid)
                && (r.Pay? ==> r.reservationId == entries[i].reservation.id)
  {
    var id := ParseInt(idText);
    if id.None? then NotFound
    else
      var p := (e: ScanEntry) => e.reservation.id == id.value;
      var found := Find(entries, p);
      if found.None? then
        assert forall i :: 0 <= i < |entries| ==> !p(entries[i]);
        NotFound
      else
        var e := found.value;
        if e.stageId != stageId then OtherStage
        else if e.reservation.isPaid then AlreadyPaid
        else Pay(e.reservation.id)
  }

  /** `onDecodeResult`: a text without the prefix is an invalid code and no
      lookup happens; otherwise the id part is checked. */
  function OnDecode(text: string, entries: seq<ScanEntry>, stageId: int): (r: ScanOutcome)
    ensures r == InvalidCode <==> !StartsWith(text, CodePrefix)
    ensures r != InvalidCode ==> r == CheckReservation(text[|CodePrefix|..], entries, stageId)
  {
    match ScannedId(text)
    case None => InvalidCode
    case Some(idText) => CheckReservation(idText, entries, stageId)
  }

  predicate UniqueReservationIds(entries: seq<ScanEntry>)
  {
    forall i, j :: 0 <= i < |entries| && 0 <= j < |entries| && entries[i].reservation.id == entries[j].reservation.id ==> i == j
  }

  /** Scanning a loaded reservation's own card: another stage's reservation
      is refused, a paid one is reported, and only an unpaid one of this
      stage opens the payment dialog. */
  lemma ScanOwnCard(e: ScanEntry, entries: seq<ScanEntry>, stageId: int)
    requires e in entries && UniqueReservationIds(entries)
    ensures OnDecode(EncodeReservation(e.reservation.id), entries, stageId) ==
              if e.stageId != stageId then OtherStage
              else if e.reservation.isPaid then AlreadyPaid
              else Pay(e.reservation.id)
  {
    DecodeEncode(e.reservation.id);
    var idText := Show(e.reservation.id);
    var r := OnDecode(EncodeReservation(e.reservation.id), entries, stageId);
    assert r == CheckReservation(idText, entries, stageId);
    assert ParseInt(idText) == Some(e.reservation.id);
    var k :| 0 <= k < |entries| && entries[k] == e;
    assert r != NotFound;
    var i :| 0 <= i < |entries| && entries[i].reservation.id == e.reservation.id
              && (r == OtherStage <==> entries[i].stageId != stageId)
              && (r == AlreadyPaid <==> entries[i].stageId == stageId && entries[i].reservation.isPaid)
              && (r.Pay? <==> entries[i].stageId == stageId && !entries[i].reservation.isPaid)
              && (r.Pay? ==> r.reservationId == entries[i].reservation.id);
    assert i == k;
  }

  /** The alerts the scanner shows. */
  datatype Alert = InvalidCodeAlert | NotFoundAlert | OtherStageAlert | AlreadyPaidAlert

  /** The scanner's state: the last id text read, the alert shown and
      whether the payment dialog is open. */
  class ScannerState {
    var scanResult: string
    var alert: Option<Alert>
    var isPaying: bool

    constructor ()
      ensures scanResult == [] && alert.None? && !isPaying
    {
      scanResult := [];
      alert := None;
      isPaying := false;
    }

    /** One decoded text: an invalid code only sets its alert; otherwise
        the id text is stored and the check either sets one alert or opens
        the payment dialog. */
    method OnDecodeResult(text: string, entries: seq<ScanEntry>, stageId: int)
      modifies this
      ensures var r := OnDecode(text, entries, stageId);
              && (r == InvalidCode ==> alert == Some(InvalidCodeAlert) && scanResult == old(scanResult) && isPaying == old(isPaying))
              && (r == NotFound ==> alert == Some(NotFoundAlert) && isPaying == old(isPaying))
              && (r == OtherStage ==> alert == Some(OtherStageAlert) && isPaying == old(isPaying))
              && (r == AlreadyPaid ==> alert == Some(AlreadyPaidAlert) && isPaying == old(isPaying))
              && (r.Pay? ==> isPaying && alert == old(alert))
              && (r != InvalidCode ==> scanResult == text[|CodePrefix|..])
    {
      var idText := ScannedId(text);
      if idText.None? {
        alert := Some(InvalidCodeAlert);
        return;
      }
      scanResult := idText.value;
      var r := CheckReservation(idText.value, entries, stageId);
      match r {
        case NotFound => alert := Some(NotFoundAlert);
        case OtherStage => alert := Some(OtherStageAlert);
        case AlreadyPaid => alert := Some(AlreadyPaidAlert);
        case Pay(_) => isPaying := true;
        case InvalidCode => assert false;
      }
    }

    /** Closing the scanner forgets the last id text. */
    method Close()
      modifies this
      ensures scanResult == [] && alert == old(alert) && isPaying == old(isPaying)
    {
      scanResult := [];
    }
  }
}

=== FILE: schedule.dfy ===
/** The schedule of a new event: a record from a date's text to the
    chosen start times on that date.  A JavaScript object with such keys
    keeps its keys in insertion order, and writing an existing key keeps
    its place, so the record is an association list with unique keys. */
module Schedule {
  import opened Common

  datatype DayTimes = DayTimes(date: string, times: seq<int>)

  type Record = seq<DayTimes>

  predicate UniqueDates(r: Record)
  {
    forall i, j :: 0 <= i < |r| && 0 <= j < |r| && r[i].date == r[j].date ==> i == j
  }

  /** The record's keys. */
  function Dates(r: Record): set<string>
  {
    set i | 0 <= i < |r| :: r[i].date
  }

  predicate HasDate(r: Record, date: string)
  {
    date in Dates(r)
  }

  /** `r[date]`: the times of the first entry with that date. */
  function Get(r: Record, date: string): (v: Option<seq<int>>)
    ensures v.None? <==> !HasDate(r, date)
    ensures v.Some? ==> exists i :: 0 <= i < |r| && r[i].date == date && v.value == r[i].times
    decreases |r|
  {
    if r == [] then None
    else if r[0].date == date then Some(r[0].times)
    else
      var v := Get(r[1..], date);
      if v.Some? then
        var i :| 0 <= i < |r[1..]| && r[1..][i].date == date && v.value == r[1..][i].times;
        assert r[i + 1] == r[1..][i];
        v
      else
        assert !HasDate(r, date) by {
          forall i | 0 <= i < |r| ensures r[i].date != date {
            if i > 0 { assert r[i] == r[1..][i - 1]; }
          }
        }
        v
  }

  /** With one entry per date, an entry's times are its date's times. */
  lemma GetUnique(r: Record, i: int)
    requires UniqueDates(r) && 0 <= i < |r|
    ensures Get(r, r[i].date) == Some(r[i].times)
  {
    assert r[i].date in Dates(r);
  }

  /** `{ ...r, [date]: times }`: an existing date keeps its place and takes
      the new times; a new date goes last. */
  function Put(r: Record, date: string, times: seq<int>): Record
    decreases |r|
  {
    if r == [] then [DayTimes(date, times)]
    else if r[0].date == date then [DayTimes(date, times)] + r[1..]
    else [r[0]] + Put(r[1..], date, times)
  }

  lemma DatesCons(r: Record)
    requires r != []
    ensures Dates(r) == {r[0].date} + Dates(r[1..])
  {
    assert forall i :: 1 <= i < |r| ==> r[i] == r[1..][i - 1];
  }

  /** A known date keeps its place, a new date goes last, and every other
      entry is left as it was. */
  lemma {:induction false} PutShape(r: Record, date: string, times: seq<int>)
    ensures HasDate(r, date) ==> |Put(r, date, times)| == |r|
    ensures !HasDate(r, date) ==> Put(r, date, times) == r + [DayTimes(date, times)]
    ensures forall i :: 0 <= i < |r| ==> Put(r, date, times)[i].date == r[i].date
    ensures forall i :: 0 <= i < |r| && r[i].date != date ==> Put(r, date, times)[i] == r[i]
    decreases |r|
  {
    if r != [] {
      DatesCons(r);
      var q := Put(r, date, times);
      if r[0].date == date {
        forall i | 0 <= i < |r| ensures q[i].date == r[i].date && (r[i].date != date ==> q[i] == r[i]) {
          if i > 0 { assert q[i] == r[1..][i - 1]; }
        }
      } else {
        var rest := Put(r[1..], date, times);
        PutShape(r[1..], date, times);
        assert q == [r[0]] + rest;
        if !HasDate(r, date) {
          assert r == [r[0]] + r[1..];
        }
        forall i | 0 <= i < |r| ensures q[i].date == r[i].date && (r[i].date != date ==> q[i] == r[i]) {
          if i > 0 { assert q[i] == rest[i - 1] && r[i] == r[1..][i - 1]; }
        }
      }
    }
  }

  /** After writing a date, the date holds the written times. */
  lemma {:induction false} PutGet(r: Record, date: string, times: seq<int>)
    ensures Get(Put(r, date, times), date) == Some(times)
    decreases |r|
  {
    if r != [] && r[0].date != date {
      PutGet(r[1..], date, times);
      assert Put(r, date, times) == [r[0]] + Put(r[1..], date, times);
    }
  }

  /** The keys after writing: the old ones and the written date. */
  lemma PutDates(r: Record, date: string, times: seq<int>)
    ensures Dates(Put(r, date, times)) == Dates(r) + {date}
  {
    var q := Put(r, date, times);
    PutShape(r, date, times);
    PutGet(r, date, times);
    forall x | x in Dates(q) ensures x in Dates(r) + {date} {
      var i :| 0 <= i < |q| && q[i].date == x;
      if i < |r| { assert r[i].date == x; }
    }
    forall x | x in Dates(r) ensures x in Dates(q) {
      var i :| 0 <= i < |r| && r[i].date == x;
      assert q[i].date == x;
    }
  }

  /** Writing a date leaves every other date's times as they were. */
  lemma PutOthers(r: Record, date: string, times: seq<int>, other: string)
    requires other != date
    ensures Get(Put(r, date, times), other) == Get(r, other)
    decreases |r|
  {
    if r != [] && r[0].date != date {
      PutOthers(r[1..], date, times, other);
      assert Put(r, date, times)[1..] == Put(r[1..], date, times);
    }
  }

  lemma PutKeepsUnique(r: Record, date: string, times: seq<int>)
    requires UniqueDates(r)
    ensures UniqueDates(Put(r, date, times))
  {
    PutShape(r, date, times);
    if !HasDate(r, date) {
      UniqueAfterNewDate(r, DayTimes(date, times));
    } else {
      UniqueSameDates(r, Put(r, date, times));
    }
  }

  lemma UniqueAfterNewDate(r: Record, e: DayTimes)
    requires UniqueDates(r) && e.date !in Dates(r)
    ensures UniqueDates(r + [e])
  {
    forall i | 0 <= i < |r| ensures r[i].date != e.date {
      assert r[i].date in Dates(r);
    }
  }

  lemma UniqueSameDates(r: Record, q: Record)
    requires UniqueDates(r) && |q| == |r| && forall i :: 0 <= i < |r| ==> q[i].date == r[i].date
    ensures UniqueDates(q)
  {
  }

  /** `Object.values(r).flat()`: every time, date by date. */
  function AllTimes(r: Record): (s: seq<int>)
    decreases |r|
  {
    if r == [] then [] else r[0].times + AllTimes(r[1..])
  }

  /** `Object.values(r).every(times => times.length === 0)`. */
  predicate NoTimes(r: Record)
  {
    forall i :: 0 <= i < |r| ==> |r[i].times| == 0
  }

  lemma {:induction false} NoTimesIffEmpty(r: Record)
    ensures NoTimes(r) <==> AllTimes(r) == []
    decreases |r|
  {
    if r != [] {
      NoTimesIffEmpty(r[1..]);
      assert NoTimes(r) <==> |r[0].times| == 0 && NoTimes(r[1..]) by {
        if |r[0].times| == 0 && NoTimes(r[1..]) {
          forall i | 0 <= i < |r| ensures |r[i].times| == 0 {
            if i > 0 { assert r[i] == r[1..][i - 1]; }
          }
        }
      }
    }
  }
}

=== FILE: seat_group_editor.dfy ===
/** The editor for one seat group of a new event: a text box for its number
    of seats and its list of ticket types, which the editor changes in
    place before telling its parent. */
module SeatGroupEditor {
  import opened Common
  import opened Text

  /** A ticket type not yet sent to the server. */
  datatype TicketDraft = TicketDraft(typeName: string, price: real)

  /** `validateNum`'s three answers: no error, not a number, negative. */
  datatype NumCheck = Valid | NotNumeric | Negative

  /** A value is valid when it is one or more ASCII digits.  The negative
      answer is never given: a run of digits never parses below zero. */
  function ValidateNum(value: string): (r: NumCheck)
    ensures r == Valid <==> |value| > 0 && AllDigits(value)
    ensures r != Negative
  {
    if !(|value| > 0 && AllDigits(value)) then NotNumeric
    else
      ParseDigits(value);
      if ParseInt(value).value < 0 then Negative else Valid
  }

  /** `splice(index, 1)`: a negative index counts from the end, and an index
      past the end removes nothing. */
  function SpliceOne<T>(s: seq<T>, index: int): (r: seq<T>)
    ensures 0 <= index < |s| ==> r == s[..index] + s[index + 1..]
    ensures index >= |s| ==> r == s
    ensures -|s| <= index < 0 ==> r == s[..|s| + index] + s[|s| + index + 1..]
  {
    var start := if index < 0 then Max(|s| + index, 0) else Min(index, |s|);
    if start < |s| then s[..start] + s[start + 1..] else s
  }

  class SeatGroupEditor {
    /** The group's number of seats, as the parent sees it. */
    var capacity: int
    /** The group's ticket types (the array the parent also holds). */
    var ticketTypes: seq<TicketDraft>
    /** The text in the box. */
    var inputValue: string
    /** The message under the box. */
    var error: NumCheck

    constructor (capacity: int, ticketTypes: seq<TicketDraft>)
      ensures this.capacity == capacity && this.ticketTypes == ticketTypes
      ensures inputValue == Show(capacity) && error == Valid
    {
      this.capacity := capacity;
      this.ticketTypes := ticketTypes;
      inputValue := Show(capacity);
      error := Valid;
    }

    /** `checkNumOfSeats`, run when the box loses focus: the full-width
        digits are narrowed and the text trimmed.  A run of digits becomes
        the capacity and the parent is told; anything else shows the error
        and puts the current capacity back in the box. */
    method CheckNumOfSeats() returns (notified: bool)
      modifies this
      ensures var cleaned := Trim(NarrowDigits(old(inputValue)));
              && error == ValidateNum(cleaned)
              && (notified <==> error == Valid)
              && (notified ==> AllDigits(cleaned) && ParseInt(cleaned) == Some(capacity) && inputValue == cleaned)
              && (!notified ==> capacity == old(capacity) && inputValue == Show(old(capacity)))
      ensures ticketTypes == old(ticketTypes)
    {
      var cleaned := Trim(NarrowDigits(inputValue));
      inputValue := cleaned;
      error := ValidateNum(cleaned);
      if error == Valid {
        ParseDigits(cleaned);
        capacity := ParseInt(cleaned).value;
        notified := true;
      } else {
        inputValue := Show(capacity);
        notified := false;
      }
    }

    /** A new ticket type, with an empty name and price 0, goes last. */
    method AddTicketType() returns (notified: bool)
      modifies this
      ensures ticketTypes == old(ticketTypes) + [TicketDraft("", 0.0)]
      ensures capacity == old(capacity) && inputValue == old(inputValue) && error == old(error)
      ensures notified
    {
      ticketTypes := ticketTypes + [TicketDraft("", 0.0)];
      notified := true;
    }

    /** The ticket type at `index` is replaced; the others stay. */
    method UpdateTicketType(index: int, ticket: TicketDraft) returns (notified: bool)
      requires 0 <= index < |ticketTypes|
      modifies this
      ensures ticketTypes == old(ticketTypes)[index := ticket]
      ensures capacity == old(capacity) && inputValue == old(inputValue) && error == old(error)
      ensures notified
    {
      ticketTypes := ticketTypes[index := ticket];
      notified := true;
    }

    /** The ticket type at `index` is removed; the others keep their order. */
    method DeleteTicketType(index: int) returns (notified: bool)
      modifies this
      ensures ticketTypes == SpliceOne(old(ticketTypes), index)
      ensures capacity == old(capacity) && inputValue == old(inputValue) && error == old(error)
      ensures notified
    {
      ticketTypes := SpliceOne(ticketTypes, index);
      notified := true;
    }
  }

  /** Removing one entry from a list keeps every other entry, in order, and
      shortens the list by one. */
  lemma SpliceOneKeepsOthers<T>(s: seq<T>, index: int)
    requires 0 <= index < |s|
    ensures |SpliceOne(s, index)| == |s| - 1
    ensures forall i :: 0 <= i < index ==> SpliceOne(s, index)[i] == s[i]
    ensures forall i :: index <= i < |s| - 1 ==> SpliceOne(s, index)[i] == s[i + 1]
  {
  }

  /** A cleaned box value that passes the check is digits only, so the
      capacity set from it is never negative. */
  lemma ValidCapacityNonNegative(value: string)
    requires ValidateNum(value) == Valid
    ensures ParseInt(value).Some? && ParseInt(value).value >= 0
  {
    ParseDigits(value);
  }
}

=== FILE: sorting.dfy ===
/** `Array.prototype.sort` with a comparator that orders by a key.  The
    language requires this sort to be stable, and for a comparator that is
    a total preorder there is exactly one stable sorted rearrangement, so
    a stable insertion sort computes the same list. */
module Sorting {
  import opened Common

  /** `le` is total and transitive: a consistent comparator. */
  ghost predicate TotalPreorder<K(!new)>(le: (K, K) -> bool)
  {
    && (forall a, b :: le(a, b) || le(b, a))
    && (forall a, b, c :: le(a, b) && le(b, c) ==> le(a, c))
  }

  /** Every element's key is at most every later element's key. */
  predicate SortedBy<T, K>(s: seq<T>, key: T -> K, le: (K, K) -> bool)
  {
    forall i, j :: 0 <= i < j < |s| ==> le(key(s[i]), key(s[j]))
  }

  /** Two keys the comparator cannot tell apart. */
  predicate Equivalent<K>(le: (K, K) -> bool, a: K, b: K)
  {
    le(a, b) && le(b, a)
  }

  /** `x` placed in front of the first element it is at most: after every
      element that is strictly smaller, before every equal one. */
  function Insert<T, K>(x: T, r: seq<T>, key: T -> K, le: (K, K) -> bool): (q: seq<T>)
    ensures |q| == |r| + 1
    decreases |r|
  {
    if r == [] then [x]
    else if le(key(x), key(r[0])) then [x] + r
    else [r[0]] + Insert(x, r[1..], key, le)
  }

  /** The stable sort: each element, from the last to the first, inserted
      in front of the elements equal to it. */
  function SortBy<T, K>(s: seq<T>, key: T -> K, le: (K, K) -> bool): (r: seq<T>)
    ensures |r| == |s|
    decreases |s|
  {
    if s == [] then [] else Insert(s[0], SortBy(s[1..], key, le), key, le)
  }

  lemma {:induction false} InsertPermutes<T, K>(x: T, r: seq<T>, key: T -> K, le: (K, K) -> bool)
    ensures multiset(Insert(x, r, key, le)) == multiset(r) + multiset{x}
    decreases |r|
  {
    if r != [] && !le(key(x), key(r[0])) {
      InsertPermutes(x, r[1..], key, le);
      assert r == [r[0]] + r[1..];
    }
  }

  /** The sort only rearranges. */
  lemma {:induction false} SortPermutes<T, K>(s: seq<T>, key: T -> K, le: (K, K) -> bool)
    ensures multiset(SortBy(s, key, le)) == multiset(s)
    decreases |s|
  {
    if s != [] {
      SortPermutes(s[1..], key, le);
      InsertPermutes(s[0], SortBy(s[1..], key, le), key, le);
      assert s == [s[0]] + s[1..];
    }
  }

  lemma {:induction false} InsertSorted<T, K(!new)>(x: T, r: seq<T>, key: T -> K, le: (K, K) -> bool)
    requires TotalPreorder(le) && SortedBy(r, key, le)
    ensures SortedBy(Insert(x, r, key, le), key, le)
    decreases |r|
  {
    if r != [] && !le(key(x), key(r[0])) {
      InsertSorted(x, r[1..], key, le);
      InsertPermutes(x, r[1..], key, le);
      var q := Insert(x, r[1..], key, le);
      forall j | 0 <= j < |q| ensures le(key(r[0]), key(q[j])) {
        assert q[j] in multiset(q);
        if q[j] == x {
        } else {
          assert q[j] in multiset(r[1..]);
          var k :| 0 <= k < |r[1..]| && r[1..][k] == q[j];
          assert r[k + 1] == q[j];
        }
      }
    } else if r != [] {
      forall j | 1 <= j < |r| + 1 ensures le(key(x), key(([x] + r)[j])) {
        assert ([x] + r)[j] == r[j - 1];
        if j > 1 {
          assert le(key(r[0]), key(r[j - 1]));
        }
      }
    }
  }

  /** The sort's result is in key order. */
  lemma {:induction false} SortSorted<T, K(!new)>(s: seq<T>, key: T -> K, le: (K, K) -> bool)
    requires TotalPreorder(le)
    ensures SortedBy(SortBy(s, key, le), key, le)
    decreases |s|
  {
    if s != [] {
      SortSorted(s[1..], key, le);
      InsertSorted(s[0], SortBy(s[1..], key, le), key, le);
    }
  }

  /** Membership in the class of elements whose key is equivalent to `k`. */
  function SameClass<T, K>(key: T -> K, le: (K, K) -> bool, k: K): T -> bool
  {
    (y: T) => Equivalent(le, key(y), k)
  }

  /** Inserting `x` in front of its equals: among the elements equivalent to
      a key, `x` (when it is one of them) comes first, and the others keep
      their order. */
  lemma {:induction false} InsertStable<T, K(!new)>(x: T, r: seq<T>, key: T -> K, le: (K, K) -> bool, k: K)
    requires TotalPreorder(le)
    ensures Filter(Insert(x, r, key, le), SameClass(key, le, k)) ==
              (if Equivalent(le, key(x), k) then [x] else []) + Filter(r, SameClass(key, le, k))
    decreases |r|
  {
    var p := SameClass(key, le, k);
    if r == [] {
      assert Insert(x, r, key, le) == [x] + r;
      FilterCons(x, r, p);
    } else if le(key(x), key(r[0])) {
      assert Insert(x, r, key, le) == [x] + r;
      FilterCons(x, r, p);
    } else {
      var q := Insert(x, r[1..], key, le);
      var rest := Filter(r[1..], p);
      assert Insert(x, r, key, le) == [r[0]] + q;
      InsertStable(x, r[1..], key, le, k);
      FilterCons(r[0], q, p);
      FilterCons(r[0], r[1..], p);
      assert r == [r[0]] + r[1..];
      if p(x) {
        NotInClassAfter(le, key(x), key(r[0]), k);
        assert Filter(r, p) == rest;
        assert Filter(q, p) == [x] + rest;
      } else if p(r[0]) {
        assert Filter(r, p) == [r[0]] + rest;
        assert Filter(q, p) == rest;
      } else {
        assert Filter(r, p) == rest;
        assert Filter(q, p) == rest;
      }
    }
  }

  /** An element strictly after one of a key's class is not in the class. */
  lemma NotInClassAfter<K(!new)>(le: (K, K) -> bool, a: K, b: K, k: K)
    requires TotalPreorder(le) && Equivalent(le, a, k) && !le(a, b)
    ensures !Equivalent(le, b, k)
  {
  }

  /** Dropping elements keeps a sorted list sorted. */
  lemma {:induction false} FilterKeepsSorted<T, K>(s: seq<T>, key: T -> K, le: (K, K) -> bool, p: T -> bool)
    requires SortedBy(s, key, le)
    ensures SortedBy(Filter(s, p), key, le)
    decreases |s|
  {
    if s != [] {
      FilterKeepsSorted(s[1..], key, le, p);
      var rest := Filter(s[1..], p);
      forall j | 0 <= j < |rest| ensures le(key(s[0]), key(rest[j])) {
        var k :| 0 <= k < |s[1..]| && s[1..][k] == rest[j];
        assert s[k + 1] == rest[j];
      }
    }
  }

  /** When the elements a filter keeps are in order, any two of them are in
      order in the whole list. */
  lemma {:induction false} SortedFilterPairs<T, K>(s: seq<T>, p: T -> bool, key: T -> K, le: (K, K) -> bool)
    requires SortedBy(Filter(s, p), key, le)
    ensures forall i, j :: 0 <= i < j < |s| && p(s[i]) && p(s[j]) ==> le(key(s[i]), key(s[j]))
    decreases |s|
  {
    if s != [] {
      var rest := Filter(s[1..], p);
      if p(s[0]) {
        assert Filter(s, p) == [s[0]] + rest;
        assert SortedBy(rest, key, le) by {
          forall a, b | 0 <= a < b < |rest| ensures le(key(rest[a]), key(rest[b])) {
            assert rest[a] == Filter(s, p)[a + 1] && rest[b] == Filter(s, p)[b + 1];
          }
        }
        SortedFilterPairs(s[1..], p, key, le);
        forall i, j | 0 <= i < j < |s| && p(s[i]) && p(s[j]) ensures le(key(s[i]), key(s[j])) {
          if i == 0 {
            assert s[j] == s[1..][j - 1];
            assert s[j] in rest;
            var k :| 0 <= k < |rest| && rest[k] == s[j];
            assert Filter(s, p)[0] == s[0] && Filter(s, p)[k + 1] == s[j];
          } else {
            assert s[i] == s[1..][i - 1] && s[j] == s[1..][j - 1];
            assert le(key(s[1..][i - 1]), key(s[1..][j - 1]));
          }
        }
      } else {
        SortedFilterPairs(s[1..], p, key, le);
        forall i, j | 0 <= i < j < |s| && p(s[i]) && p(s[j]) ensures le(key(s[i]), key(s[j])) {
          assert i > 0;
          assert s[i] == s[1..][i - 1] && s[j] == s[1..][j - 1];
          assert 0 <= i - 1 < j - 1 < |s[1..]| && p(s[1..][i - 1]) && p(s[1..][j - 1]);
          assert le(key(s[1..][i - 1]), key(s[1..][j - 1]));
        }
      }
    }
  }

  lemma FilterCons<T>(x: T, r: seq<T>, p: T -> bool)
    ensures Filter([x] + r, p) == (if p(x) then [x] else []) + Filter(r, p)
  {
    assert ([x] + r)[1..] == r;
  }

  /** Stability: the elements of any one key class appear in the sorted
      list in the order they had before. */
  lemma {:induction false} SortStable<T, K(!new)>(s: seq<T>, key: T -> K, le: (K, K) -> bool, k: K)
    requires TotalPreorder(le)
    ensures Filter(SortBy(s, key, le), SameClass(key, le, k)) == Filter(s, SameClass(key, le, k))
    decreases |s|
  {
    if s != [] {
      SortStable(s[1..], key, le, k);
      InsertStable(s[0], SortBy(s[1..], key, le), key, le, k);
      FilterCons(s[0], s[1..], SameClass(key, le, k));
      assert s == [s[0]] + s[1..];
    }
  }

  // ---------------------------------------------------------------------
  // Orders used by the pages

  /** `(a, b) => a - b` on integers. */
  function IntLe(a: int, b: int): bool { a <= b }

  /** `(a, b) => b - a`: the reverse order. */
  function IntGe(a: int, b: int): bool { a >= b }

  /** `a.localeCompare(b) <= 0`, read as the order of code points. */
  predicate StringLe(a: string, b: string)
    decreases |a|
  {
    if a == [] then true
    else if b == [] then false
    else if a[0] != b[0] then a[0] < b[0]
    else StringLe(a[1..], b[1..])
  }

  lemma {:induction false} StringLeTotal(a: string, b: string)
    ensures StringLe(a, b) || StringLe(b, a)
    decreases |a|
  {
    if a != [] && b != [] && a[0] == b[0] {
      StringLeTotal(a[1..], b[1..]);
    }
  }

  lemma {:induction false} StringLeTransitive(a: string, b: string, c: string)
    requires StringLe(a, b) && StringLe(b, c)
    ensures StringLe(a, c)
    decreases |a|
  {
    if a != [] && b != [] && c != [] && a[0] == b[0] && b[0] == c[0] {
      StringLeTransitive(a[1..], b[1..], c[1..]);
    }
  }

  lemma OrdersArePreorders()
    ensures TotalPreorder(IntLe) && TotalPreorder(IntGe)
    ensures TotalPreorder(StringLe)
  {
    forall a, b ensures StringLe(a, b) || StringLe(b, a) {
      StringLeTotal(a, b);
    }
    forall a, b, c | StringLe(a, b) && StringLe(b, c) ensures StringLe(a, c) {
      StringLeTransitive(a, b, c);
    }
  }
}

=== FILE: stage_manager.dfy ===
/** The stage manager of an event: its stages grouped by day, which of them
    hold reservations, the seat patterns its stages use, and adding a stage
    that copies one of those patterns. */
module StageManager {
  import opened Common
  import opened Sorting
  import opened ClientData
  import opened AppData
  import opened SeatGroupEditor
  import opened CreateEventPage
  import opened ConfirmEvent

  // ---------------------------------------------------------------------
  // Stages holding reservations

  predicate Reserved(reservations: seq<Detail>, stageId: int)
  {
    exists i :: 0 <= i < |reservations| && reservations[i].stage.id == stageId
  }

  /** `hasReservations`: for each stage in `stages`, whether some
      reservation is for it.  Callers pass the event's own stages,
      `EventStages(stages, event.id)`, as the page does. */
  method HasReservations(stages: seq<StageRow>, reservations: seq<Detail>) returns (dict: map<int, bool>)
    ensures dict.Keys == set i | 0 <= i < |stages| :: stages[i].id
    ensures forall id :: id in dict ==> (dict[id] <==> Reserved(reservations, id))
  {
    dict := map[];
    for i := 0 to |stages|
      invariant dict.Keys == set k | 0 <= k < i :: stages[k].id
      invariant forall id :: id in dict ==> (dict[id] <==> Reserved(reservations, id))
    {
      var id := stages[i].id;
      dict := dict[id := Any(reservations, (r: Detail) => r.stage.id == id)];
      assert (set k | 0 <= k < i + 1 :: stages[k].id) == (set k | 0 <= k < i :: stages[k].id) + {id};
    }
  }

  /** A stage's chip offers deletion only when no reservation is for it. */
  predicate CanDelete(dict: map<int, bool>, stageId: int)
  {
    !(stageId in dict && dict[stageId])
  }

  lemma CanDeleteExactly(stages: seq<StageRow>, reservations: seq<Detail>, dict: map<int, bool>, i: int)
    requires dict.Keys == set k | 0 <= k < |stages| :: stages[k].id
    requires forall id :: id in dict ==> (dict[id] <==> Reserved(reservations, id))
    requires 0 <= i < |stages|
    ensures CanDelete(dict, stages[i].id) <==> !Reserved(reservations, stages[i].id)
  {
    assert stages[i].id in dict;
  }

  // ---------------------------------------------------------------------
  // Stages by day

  datatype DateBucket = DateBucket(date: string, stages: seq<StageRow>)

  predicate UniqueBucketDates(bs: seq<DateBucket>)
  {
    forall i, j :: 0 <= i < |bs| && 0 <= j < |bs| && bs[i].date == bs[j].date ==> i == j
  }

  /** The days that have a bucket. */
  function BucketDates(bs: seq<DateBucket>): set<string>
  {
    set b | 0 <= b < |bs| :: bs[b].date
  }

  /** `dict[date]`, or nothing for a day without a bucket. */
  function StagesOn(bs: seq<DateBucket>, date: string): seq<StageRow>
    decreases |bs|
  {
    if bs == [] then [] else if bs[0].date == date then bs[0].stages else StagesOn(bs[1..], date)
  }

  /** `dict[date].push(stage)`, making the bucket first when the day has
      none. */
  function AddToBucket(bs: seq<DateBucket>, date: string, s: StageRow): seq<DateBucket>
    decreases |bs|
  {
    if bs == [] then [DateBucket(date, [s])]
    else if bs[0].date == date then [DateBucket(date, bs[0].stages + [s])] + bs[1..]
    else [bs[0]] + AddToBucket(bs[1..], date, s)
  }

  lemma BucketDatesCons(bs: seq<DateBucket>)
    requires bs != []
    ensures BucketDates(bs) == {bs[0].date} + BucketDates(bs[1..])
  {
    assert forall b :: 1 <= b < |bs| ==> bs[b] == bs[1..][b - 1];
  }

  /** A new day goes last as a new bucket; a known day keeps every bucket
      in its place. */
  lemma {:induction false} AddToBucketShape(bs: seq<DateBucket>, date: string, s: StageRow)
    ensures date !in BucketDates(bs) ==> AddToBucket(bs, date, s) == bs + [DateBucket(date, [s])]
    ensures date in BucketDates(bs) ==>
              |AddToBucket(bs, date, s)| == |bs| && forall i :: 0 <= i < |bs| ==> AddToBucket(bs, date, s)[i].date == bs[i].date
    decreases |bs|
  {
    if bs != [] {
      BucketDatesCons(bs);
      var r := AddToBucket(bs, date, s);
      if bs[0].date == date {
        forall i | 0 <= i < |bs| ensures r[i].date == bs[i].date {
          if i > 0 { assert r[i] == bs[1..][i - 1]; }
        }
      } else {
        var rest := AddToBucket(bs[1..], date, s);
        AddToBucketShape(bs[1..], date, s);
        assert r == [bs[0]] + rest;
        if date !in BucketDates(bs) {
          assert bs == [bs[0]] + bs[1..];
        } else {
          forall i | 0 <= i < |bs| ensures r[i].date == bs[i].date {
            if i > 0 { assert r[i] == rest[i - 1] && bs[i] == bs[1..][i - 1]; }
          }
        }
      }
    }
  }

  /** The stage goes at the end of its day's bucket, and every other day's
      bucket is left as it was. */
  lemma {:induction false} AddToBucketStages(bs: seq<DateBucket>, date: string, s: StageRow, d: string)
    ensures StagesOn(AddToBucket(bs, date, s), d) == StagesOn(bs, d) + (if d == date then [s] else [])
    decreases |bs|
  {
    if bs != [] {
      var r := AddToBucket(bs, date, s);
      if bs[0].date == date {
        assert r == [DateBucket(date, bs[0].stages + [s])] + bs[1..];
        assert r[1..] == bs[1..];
      } else {
        AddToBucketStages(bs[1..], date, s, d);
        assert r == [bs[0]] + AddToBucket(bs[1..], date, s);
        assert r[1..] == AddToBucket(bs[1..], date, s);
      }
    }
  }

  /** The days with a bucket after adding: the old ones and the new day. */
  lemma AddToBucketDates(bs: seq<DateBucket>, date: string, s: StageRow, x: string)
    ensures x in BucketDates(AddToBucket(bs, date, s)) <==> x in BucketDates(bs) || x == date
  {
    var r := AddToBucket(bs, date, s);
    AddToBucketShape(bs, date, s);
    if x in BucketDates(r) {
      var b :| 0 <= b < |r| && r[b].date == x;
      if b < |bs| { assert bs[b].date == x; }
    }
    if x in BucketDates(bs) {
      var b :| 0 <= b < |bs| && bs[b].date == x;
      assert r[b].date == x;
    }
    if x == date && date !in BucketDates(bs) {
      assert r[|bs|].date == date;
    }
  }

  /** Adding keeps distinct days distinct. */
  lemma AddToBucketUnique(bs: seq<DateBucket>, date: string, s: StageRow)
    requires UniqueBucketDates(bs)
    ensures UniqueBucketDates(AddToBucket(bs, date, s))
  {
    AddToBucketShape(bs, date, s);
    if date !in BucketDates(bs) {
      UniqueAfterNewDay(bs, DateBucket(date, [s]));
    } else {
      UniqueSameDays(bs, AddToBucket(bs, date, s));
    }
  }

  lemma UniqueAfterNewDay(bs: seq<DateBucket>, b: DateBucket)
    requires UniqueBucketDates(bs) && b.date !in BucketDates(bs)
    ensures UniqueBucketDates(bs + [b])
  {
    forall i | 0 <= i < |bs| ensures bs[i].date != b.date {
      assert bs[i].date in BucketDates(bs);
    }
  }

  lemma UniqueSameDays(bs: seq<DateBucket>, r: seq<DateBucket>)
    requires UniqueBucketDates(bs) && |r| == |bs| && forall i :: 0 <= i < |r| ==> r[i].date == bs[i].date
    ensures UniqueBucketDates(r)
  {
  }

  /** The buckets after the first `n` stages. */
  function Bucketed(stages: seq<StageRow>, dateOf: int -> string, n: nat): (r: seq<DateBucket>)
    requires n <= |stages|
  {
    if n == 0 then [] else AddToBucket(Bucketed(stages, dateOf, n - 1), dateOf(stages[n - 1].startTime), stages[n - 1])
  }

  /** `stage => date(stage.start_time) === day`. */
  function OnDay(dateOf: int -> string, date: string): StageRow -> bool
  {
    (x: StageRow) => dateOf(x.startTime) == date
  }

  /** A day's bucket holds exactly the stages of that day, in list order. */
  lemma {:induction false} BucketHoldsItsDay(stages: seq<StageRow>, dateOf: int -> string, n: nat, date: string)
    requires n <= |stages|
    ensures StagesOn(Bucketed(stages, dateOf, n), date) == Filter(stages[..n], OnDay(dateOf, date))
  {
    if n > 0 {
      BucketHoldsItsDay(stages, dateOf, n - 1, date);
      assert stages[..n] == stages[..n - 1] + [stages[n - 1]];
      BucketStep(Bucketed(stages, dateOf, n - 1), stages[..n - 1], stages[n - 1], dateOf, date);
    }
  }

  /** One step of the loop keeps a day's bucket equal to that day's stages. */
  lemma BucketStep(prev: seq<DateBucket>, front: seq<StageRow>, last: StageRow, dateOf: int -> string, date: string)
    requires StagesOn(prev, date) == Filter(front, OnDay(dateOf, date))
    ensures StagesOn(AddToBucket(prev, dateOf(last.startTime), last), date) == Filter(front + [last], OnDay(dateOf, date))
  {
    FilterSnoc(front, last, OnDay(dateOf, date));
    AddToBucketStages(prev, dateOf(last.startTime), last, date);
  }

  /** The days with a bucket are exactly the days of the stages. */
  lemma {:induction false} EveryStageBucketed(stages: seq<StageRow>, dateOf: int -> string, n: nat, x: string)
    requires n <= |stages|
    ensures x in BucketDates(Bucketed(stages, dateOf, n)) <==> x in StageDates(stages, dateOf, n)
  {
    if n > 0 {
      EveryStageBucketed(stages, dateOf, n - 1, x);
      AddToBucketDates(Bucketed(stages, dateOf, n - 1), dateOf(stages[n - 1].startTime), stages[n - 1], x);
      StageDatesSnoc(stages, dateOf, n, x);
    }
  }

  /** Each day has one bucket. */
  lemma {:induction false} BucketsDistinct(stages: seq<StageRow>, dateOf: int -> string, n: nat)
    requires n <= |stages|
    ensures UniqueBucketDates(Bucketed(stages, dateOf, n))
  {
    if n > 0 {
      BucketsDistinct(stages, dateOf, n - 1);
      AddToBucketUnique(Bucketed(stages, dateOf, n - 1), dateOf(stages[n - 1].startTime), stages[n - 1]);
    }
  }

  /** The days of the first `n` stages. */
  function StageDates(stages: seq<StageRow>, dateOf: int -> string, n: nat): set<string>
    requires n <= |stages|
  {
    set i | 0 <= i < n :: dateOf(stages[i].startTime)
  }

  /** One more stage adds its day to the days seen. */
  lemma StageDatesSnoc(stages: seq<StageRow>, dateOf: int -> string, n: nat, x: string)
    requires 0 < n <= |stages|
    ensures x in StageDates(stages, dateOf, n) <==> x in StageDates(stages, dateOf, n - 1) || x == dateOf(stages[n - 1].startTime)
  {
    if x in StageDates(stages, dateOf, n) {
      var i :| 0 <= i < n && dateOf(stages[i].startTime) == x;
      if i < n - 1 { assert x in StageDates(stages, dateOf, n - 1); }
    }
    if x in StageDates(stages, dateOf, n - 1) {
      var i :| 0 <= i < n - 1 && dateOf(stages[i].startTime) == x;
      assert x in StageDates(stages, dateOf, n);
    }
  }

  /** `stagesByDate`: the loop over the event's stages.  Each stage is in
      the bucket of its day and in no other. */
  method StagesByDate(stages: seq<StageRow>, eventId: int, dateOf: int -> string) returns (buckets: seq<DateBucket>)
    ensures UniqueBucketDates(buckets)
    ensures BucketDates(buckets) == StageDates(EventStages(stages, eventId), dateOf, |EventStages(stages, eventId)|)
    ensures forall date :: StagesOn(buckets, date) == Filter(EventStages(stages, eventId), OnDay(dateOf, date))
  {
    var filtered := EventStages(stages, eventId);
    buckets := [];
    for i := 0 to |filtered|
      invariant buckets == Bucketed(filtered, dateOf, i)
    {
      buckets := AddToBucket(buckets, dateOf(filtered[i].startTime), filtered[i]);
    }
    assert filtered[..|filtered|] == filtered;
    forall date ensures StagesOn(buckets, date) == Filter(filtered, OnDay(dateOf, date)) {
      BucketHoldsItsDay(filtered, dateOf, |filtered|, date);
    }
    forall x ensures x in BucketDates(buckets) <==> x in StageDates(filtered, dateOf, |filtered|) {
      EveryStageBucketed(filtered, dateOf, |filtered|, x);
    }
    BucketsDistinct(filtered, dateOf, |filtered|);
  }

  // ---------------------------------------------------------------------
  // Seat patterns

  /** A seat group with its ticket types ordered by name. */
  datatype GroupPattern = GroupPattern(seatGroup: SeatGroupRow, ticketTypes: seq<TicketTypeRow>)

  function TypeNameOf(t: TicketTypeRow): string { t.typeName }

  /** A group's ticket types sorted by `localeCompare` on the name. */
  function SortedTypes(types: seq<TicketTypeRow>, groupId: int): (r: seq<TicketTypeRow>)
    ensures SortedBy(r, TypeNameOf, StringLe)
    ensures multiset(r) == multiset(Filter(types, (t: TicketTypeRow) => t.seatGroupId == groupId))
  {
    var own := Filter(types, (t: TicketTypeRow) => t.seatGroupId == groupId);
    OrdersArePreorders();
    SortSorted(own, TypeNameOf, StringLe);
    SortPermutes(own, TypeNameOf, StringLe);
    SortBy(own, TypeNameOf, StringLe)
  }

  /** `parts.join(sep)`. */
  function Joined(parts: seq<string>, sep: string): string
    decreases |parts|
  {
    if parts == [] then "" else if |parts| == 1 then parts[0] else parts[0] + sep + Joined(parts[1..], sep)
  }

  /** A group's key: its ticket types' names, each followed by its price
      as text, joined by commas.  `priceText` is the number's printed form. */
  function GroupKey(types: seq<TicketTypeRow>, priceText: real -> string): string
  {
    Joined(MapSeq(types, (t: TicketTypeRow) => t.typeName + priceText(t.price)), ",")
  }

  /** A group with its ticket types sorted by name. */
  function GroupEntry(types: seq<TicketTypeRow>, g: SeatGroupRow): GroupPattern
  {
    GroupPattern(g, SortedTypes(types, g.id))
  }

  /** A stage's groups with their sorted ticket types, in list order. */
  function StagePattern(stage: StageRow, groups: seq<SeatGroupRow>, types: seq<TicketTypeRow>): (r: seq<GroupPattern>)
    ensures |r| == |GroupsOfStage(groups, stage.id)|
    ensures forall j :: 0 <= j < |r| ==> r[j].seatGroup.stageId == stage.id && r[j].seatGroup in groups
  {
    var mine := GroupsOfStage(groups, stage.id);
    MapSeq(mine, (g: SeatGroupRow) => GroupEntry(types, g))
  }

  function KeyOfGroup(priceText: real -> string, p: GroupPattern): string
  {
    GroupKey(p.ticketTypes, priceText)
  }

  function Identity(s: string): string { s }

  /** The keys of a stage's groups, in list order. */
  function GroupKeys(priceText: real -> string, d: seq<GroupPattern>): seq<string>
  {
    MapSeq(d, (g: GroupPattern) => KeyOfGroup(priceText, g))
  }

  /** One more entry adds its key at the end. */
  lemma GroupKeysSnoc(priceText: real -> string, d: seq<GroupPattern>, e: GroupPattern)
    ensures GroupKeys(priceText, d + [e]) == GroupKeys(priceText, d) + [KeyOfGroup(priceText, e)]
  {
    var a, b := GroupKeys(priceText, d + [e]), GroupKeys(priceText, d) + [KeyOfGroup(priceText, e)];
    assert forall i :: 0 <= i < |a| ==> a[i] == b[i];
  }

  /** A stage's key: its groups' keys in sorted order, so two stages with
      the same groups in another order share a key.  The text form of the
      key list is one-to-one, so the list stands for it. */
  function StageKey(stage: StageRow, groups: seq<SeatGroupRow>, types: seq<TicketTypeRow>, priceText: real -> string): seq<string>
  {
    SortBy(GroupKeys(priceText, StagePattern(stage, groups, types)), Identity, StringLe)
  }

  datatype PatternEntry = PatternEntry(key: seq<string>, groups: seq<GroupPattern>)

  predicate HasKey(dict: seq<PatternEntry>, key: seq<string>)
  {
    exists e :: 0 <= e < |dict| && dict[e].key == key
  }

  predicate UniqueKeys(dict: seq<PatternEntry>)
  {
    forall e, f :: 0 <= e < |dict| && 0 <= f < |dict| && dict[e].key == dict[f].key ==> e == f
  }

  /** `dict[key]`: the entry stored under a key. */
  function PatternOf(dict: seq<PatternEntry>, key: seq<string>): (r: Option<seq<GroupPattern>>)
    ensures r.None? <==> !HasKey(dict, key)
    ensures r.Some? ==> exists e :: 0 <= e < |dict| && dict[e].key == key && dict[e].groups == r.value
    decreases |dict|
  {
    if dict == [] then None
    else
      var front := dict[..|dict| - 1];
      var last := dict[|dict| - 1];
      assert forall e :: 0 <= e < |front| ==> front[e] == dict[e];
      assert HasKey(dict, key) <==> HasKey(front, key) || last.key == key by {
        if HasKey(dict, key) && !HasKey(front, key) {
          var e :| 0 <= e < |dict| && dict[e].key == key;
          assert e == |dict| - 1;
        }
      }
      var r := PatternOf(front, key);
      if r.Some? then r
      else if last.key == key then Some(last.groups)
      else None
  }

  /** The pattern dictionary after the first `n` stages: a stage whose key
      is already present adds nothing. */
  function Patterns(stages: seq<StageRow>, keyOf: StageRow -> seq<string>, patternOf: StageRow -> seq<GroupPattern>, n: nat): (d: seq<PatternEntry>)
    requires n <= |stages|
    ensures UniqueKeys(d)
  {
    if n == 0 then []
    else
      var d := Patterns(stages, keyOf, patternOf, n - 1);
      var key := keyOf(stages[n - 1]);
      if HasKey(d, key) then d
      else
        var r := d + [PatternEntry(key, patternOf(stages[n - 1]))];
        assert forall e :: 0 <= e < |d| ==> r[e] == d[e];
        r
  }

  /** Stage `i` has `key`, and no stage before it does. */
  predicate FirstWithKey(stages: seq<StageRow>, keyOf: StageRow -> seq<string>, i: int, key: seq<string>)
    requires 0 <= i < |stages|
  {
    keyOf(stages[i]) == key && forall k :: 0 <= k < i ==> keyOf(stages[k]) != key
  }

  /** The first of the first `n` stages that has `key`. */
  function FirstWith(stages: seq<StageRow>, keyOf: StageRow -> seq<string>, key: seq<string>, n: nat): (r: Option<nat>)
    requires n <= |stages|
    ensures r.None? <==> forall i :: 0 <= i < n ==> keyOf(stages[i]) != key
    ensures r.Some? ==> r.value < n && FirstWithKey(stages, keyOf, r.value, key)
  {
    if n == 0 then None
    else
      var r := FirstWith(stages, keyOf, key, n - 1);
      if r.Some? then r else if keyOf(stages[n - 1]) == key then Some(n - 1) else None
  }

  /** The entry under a key holds the pattern of the first stage with that
      key, and a key no stage has is absent. */
  lemma {:induction false} FirstStageWins(stages: seq<StageRow>, keyOf: StageRow -> seq<string>, patternOf: StageRow -> seq<GroupPattern>,
                                         n: nat, key: seq<string>)
    requires n <= |stages|
    ensures var first := FirstWith(stages, keyOf, key, n);
            PatternOf(Patterns(stages, keyOf, patternOf, n), key) == if first.None? then None else Some(patternOf(stages[first.value]))
  {
    if n > 0 {
      FirstStageWins(stages, keyOf, patternOf, n - 1, key);
      var d := Patterns(stages, keyOf, patternOf, n - 1);
      var k := keyOf(stages[n - 1]);
      if !HasKey(d, k) {
        var r := d + [PatternEntry(k, patternOf(stages[n - 1]))];
        assert r[..|r| - 1] == d;
      } else if k == key {
        assert PatternOf(d, key).Some?;
      }
    }
  }

  /** `onlyOnePattern`. */
  predicate OnlyOnePattern(dict: seq<PatternEntry>)
  {
    |dict| <= 1
  }

  /** There is at most one pattern exactly when all the stages share one
      key. */
  lemma OnlyOnePatternIff(stages: seq<StageRow>, keyOf: StageRow -> seq<string>, patternOf: StageRow -> seq<GroupPattern>)
    ensures OnlyOnePattern(Patterns(stages, keyOf, patternOf, |stages|)) <==>
              forall i, j :: 0 <= i < |stages| && 0 <= j < |stages| ==> keyOf(stages[i]) == keyOf(stages[j])
  {
    var n := |stages|;
    var d := Patterns(stages, keyOf, patternOf, n);
    if |d| > 1 {
      assert HasKey(d, d[0].key) && HasKey(d, d[1].key);
      FirstStageWins(stages, keyOf, patternOf, n, d[0].key);
      FirstStageWins(stages, keyOf, patternOf, n, d[1].key);
      var i := FirstWith(stages, keyOf, d[0].key, n).value;
      var j := FirstWith(stages, keyOf, d[1].key, n).value;
      assert keyOf(stages[i]) != keyOf(stages[j]);
    } else {
      forall i, j | 0 <= i < n && 0 <= j < n ensures keyOf(stages[i]) == keyOf(stages[j]) {
        FirstStageWins(stages, keyOf, patternOf, n, keyOf(stages[i]));
        FirstStageWins(stages, keyOf, patternOf, n, keyOf(stages[j]));
        assert HasKey(d, keyOf(stages[i])) && HasKey(d, keyOf(stages[j]));
      }
    }
  }

  /** Entries built group by group are the stage's pattern. */
  lemma PatternOfEntries(stage: StageRow, groups: seq<SeatGroupRow>, types: seq<TicketTypeRow>, d: seq<GroupPattern>)
    requires |d| == |GroupsOfStage(groups, stage.id)|
    requires forall k :: 0 <= k < |d| ==> d[k] == GroupEntry(types, GroupsOfStage(groups, stage.id)[k])
    ensures d == StagePattern(stage, groups, types)
  {
    var p := StagePattern(stage, groups, types);
    assert forall k :: 0 <= k < |d| ==> p[k] == d[k];
  }

  /** The loop over one stage's seat groups: an entry per group with its
      sorted ticket types, and that entry's key. */
  method GroupEntries(mine: seq<SeatGroupRow>, types: seq<TicketTypeRow>, priceText: real -> string)
    returns (entries: seq<GroupPattern>, keys: seq<string>)
    ensures |entries| == |mine| && |keys| == |mine|
    ensures forall k :: 0 <= k < |mine| ==> entries[k] == GroupEntry(types, mine[k])
    ensures keys == GroupKeys(priceText, entries)
  {
    entries := [];
    keys := [];
    for j := 0 to |mine|
      invariant |entries| == j && |keys| == j
      invariant forall k :: 0 <= k < j ==> entries[k] == GroupEntry(types, mine[k])
      invariant keys == GroupKeys(priceText, entries)
    {
      var entry := GroupEntry(types, mine[j]);
      GroupKeysSnoc(priceText, entries, entry);
      entries := entries + [entry];
      keys := keys + [KeyOfGroup(priceText, entry)];
    }
  }

  /** The inner part of `seatDict` for one stage: its groups with their
      sorted ticket types, and its key. */
  method StageEntry(stage: StageRow, groups: seq<SeatGroupRow>, types: seq<TicketTypeRow>, priceText: real -> string)
    returns (stageDict: seq<GroupPattern>, stageKey: seq<string>)
    ensures stageDict == StagePattern(stage, groups, types)
    ensures stageKey == StageKey(stage, groups, types, priceText)
  {
    var keys;
    stageDict, keys := GroupEntries(GroupsOfStage(groups, stage.id), types, priceText);
    PatternOfEntries(stage, groups, types, stageDict);
    stageKey := SortBy(keys, Identity, StringLe);
  }

  /** `seatDict`: the loop over `stages`.  Callers pass the event's own
      stages, `EventStages(stages, event.id)`, as the page does. */
  method SeatPatterns(stages: seq<StageRow>, groups: seq<SeatGroupRow>, types: seq<TicketTypeRow>, priceText: real -> string)
    returns (dict: seq<PatternEntry>)
    ensures dict == Patterns(stages, (s: StageRow) => StageKey(s, groups, types, priceText), (s: StageRow) => StagePattern(s, groups, types), |stages|)
  {
    var keyOf := (s: StageRow) => StageKey(s, groups, types, priceText);
    var patternOf := (s: StageRow) => StagePattern(s, groups, types);
    dict := [];
    for i := 0 to |stages|
      invariant dict == Patterns(stages, keyOf, patternOf, i)
    {
      var stageDict, stageKey := StageEntry(stages[i], groups, types, priceText);
      if !HasKey(dict, stageKey) {
        dict := dict + [PatternEntry(stageKey, stageDict)];
      }
    }
  }

  // ---------------------------------------------------------------------
  // Adding a stage

  /** A day and a time picked in the form. */
  datatype TimeOfDay = TimeOfDay(hours: int, minutes: int)

  predicate ValidTime(t: TimeOfDay)
  {
    0 <= t.hours < 24 && 0 <= t.minutes < 60
  }

  datatype StageCheck = MissingDateTime | SameStartExists | StageOk

  /** `isValid`: a day and a time are needed, and no stage at all (of any
      event) may start at that moment already. */
  function CheckNewStage(day: Option<int>, time: Option<TimeOfDay>, stages: seq<StageRow>): (r: StageCheck)
    requires time.Some? ==> ValidTime(time.value)
    ensures r == MissingDateTime <==> day.None? || time.None?
    ensures r == SameStartExists <==>
              day.Some? && time.Some? && exists i :: 0 <= i < |stages| && stages[i].startTime == ScheduleItem(day.value, time.value.hours, time.value.minutes)
    ensures r == StageOk ==> forall i :: 0 <= i < |stages| ==> stages[i].startTime != ScheduleItem(day.value, time.value.hours, time.value.minutes)
  {
    if day.None? || time.None? then MissingDateTime
    else
      var start := ScheduleItem(day.value, time.value.hours, time.value.minutes);
      if Any(stages, (s: StageRow) => s.startTime == start) then SameStartExists else StageOk
  }

  /** A pattern's ticket type as the plan builder takes it: its name and
      price. */
  function Draft(t: TicketTypeRow): TicketDraft
  {
    TicketDraft(t.typeName, t.price)
  }

  /** The pattern's groups as the seat list the plan builder takes. */
  function PatternSeats(pattern: seq<GroupPattern>): (r: SeatDict)
    ensures |r| == |pattern|
    ensures forall j :: 0 <= j < |r| ==> r[j].entry.capacity == pattern[j].seatGroup.capacity
    ensures forall j :: 0 <= j < |r| ==> r[j].entry.ticketTypes == MapSeq(pattern[j].ticketTypes, Draft)
  {
    seq(|pattern|, j requires 0 <= j < |pattern| =>
      SeatSlot(j, SeatEntry(pattern[j].seatGroup.capacity, MapSeq(pattern[j].ticketTypes, Draft))))
  }

  /** The calls of `addStage` for a pattern: the stage, two hours long,
      then each group with its capacity followed by its ticket types. */
  function StagePlan(start: int, pattern: seq<GroupPattern>): seq<Call>
  {
    [CreateStage(start, start + TwoHours)] + GroupCalls(0, PatternSeats(pattern), |pattern|)
  }

  /** The new stage copies the pattern: its capacities, and every ticket
      type's name and price; nothing else is created. */
  lemma StagePlanCopiesPattern(start: int, pattern: seq<GroupPattern>)
    ensures StagePlan(start, pattern)[0] == CreateStage(start, start + TwoHours)
    ensures forall j :: 0 <= j < |pattern| ==> CreateSeatGroup(0, pattern[j].seatGroup.capacity) in StagePlan(start, pattern)
    ensures forall j, k :: 0 <= j < |pattern| && 0 <= k < |pattern[j].ticketTypes| ==>
              CreateTicketType(0, j, pattern[j].ticketTypes[k].typeName, pattern[j].ticketTypes[k].price) in StagePlan(start, pattern)
    ensures forall c :: c in StagePlan(start, pattern)[1..] ==> (c.CreateSeatGroup? || c.CreateTicketType?) && c.stage == 0
  {
    var seats := PatternSeats(pattern);
    GroupCallsContents(0, seats, |pattern|);
    assert StagePlan(start, pattern)[1..] == GroupCalls(0, seats, |pattern|);
    forall j, k | 0 <= j < |pattern| && 0 <= k < |pattern[j].ticketTypes|
      ensures CreateTicketType(0, j, pattern[j].ticketTypes[k].typeName, pattern[j].ticketTypes[k].price) in StagePlan(start, pattern)
    {
      assert seats[j].entry.ticketTypes[k] == TicketDraft(pattern[j].ticketTypes[k].typeName, pattern[j].ticketTypes[k].price);
    }
  }

  /** `addStage`'s loops: the stage, then for each group of the pattern
      the group and its ticket types, the same nested loops as the
      confirmation dialog runs for one stage. */
  method AddStageCalls(start: int, pattern: seq<GroupPattern>) returns (calls: seq<Call>)
    ensures calls == StagePlan(start, pattern)
  {
    calls := [CreateStage(start, start + TwoHours)];
    calls := AppendGroupCalls(calls, 0, PatternSeats(pattern));
  }

  /** What `addStage` sends, and whether it gets through: the stage is
      always created; a key with no pattern (the first key of an empty
      dictionary) then fails on the missing pattern before any group. */
  datatype AddResult = AddResult(calls: seq<Call>, completed: bool)

  function AddStage(start: int, dict: seq<PatternEntry>, key: Option<seq<string>>): (r: AddResult)
    ensures |r.calls| >= 1 && r.calls[0] == CreateStage(start, start + TwoHours)
    ensures r.completed <==> key.Some? && HasKey(dict, key.value)
    ensures r.completed ==> r.calls == StagePlan(start, PatternOf(dict, key.value).value)
    ensures !r.completed ==> r.calls == [CreateStage(start, start + TwoHours)]
  {
    if key.Some? && PatternOf(dict, key.value).Some? then AddResult(StagePlan(start, PatternOf(dict, key.value).value), true)
    else AddResult([CreateStage(start, start + TwoHours)], false)
  }

  /** Once a start is chosen: with at most one pattern the stage is added
      at once with the first key; otherwise the pattern dialog opens. */
  function OnStartChosen(start: int, dict: seq<PatternEntry>): (r: Option<AddResult>)
    ensures r.None? <==> !OnlyOnePattern(dict)
    ensures |dict| == 1 ==> r == Some(AddResult(StagePlan(start, dict[0].groups), true))
    ensures dict == [] ==> r == Some(AddResult([CreateStage(start, start + TwoHours)], false))
  {
    if !OnlyOnePattern(dict) then None
    else if dict == [] then Some(AddStage(start, dict, None))
    else
      var r := AddStage(start, dict, Some(dict[0].key));
      assert |dict| == 1 ==> PatternOf(dict, dict[0].key).value == dict[0].groups;
      Some(r)
  }

  // ---------------------------------------------------------------------
  // Removing a stage

  datatype Removal = DeleteTicketType(id: int) | DeleteSeatGroup(id: int) | DeleteStage(id: int)

  /** `tt => deleteTicketType(tt.id)`. */
  function DeleteType(t: TicketTypeRow): Removal
  {
    DeleteTicketType(t.id)
  }

  /** `sg => deleteSeatGroup(sg.id)`. */
  function DeleteGroup(g: SeatGroupRow): Removal
  {
    DeleteSeatGroup(g.id)
  }

  /** The deletions of the ticket types of the stage's groups. */
  function TypeDeletions(stageId: int, groups: seq<SeatGroupRow>, types: seq<TicketTypeRow>): (r: seq<Removal>)
    ensures forall p :: 0 <= p < |r| ==> r[p].DeleteTicketType?
    ensures forall c :: c in r ==>
              exists t, g :: t in types && g in groups && t.id == c.id && g.stageId == stageId && g.id == t.seatGroupId
    ensures forall t, g :: t in types && g in groups && g.stageId == stageId && g.id == t.seatGroupId ==> DeleteTicketType(t.id) in r
  {
    var doomed := TypesOfStage(stageId, groups, types);
    var r := MapSeq(doomed, DeleteType);
    forall c | c in r
      ensures exists t, g :: t in types && g in groups && t.id == c.id && g.stageId == stageId && g.id == t.seatGroupId
    {
      MapSeqMember(doomed, DeleteType, c);
      var t :| t in doomed && c == DeleteType(t);
      var i :| 0 <= i < |groups| && groups[i].stageId == stageId && groups[i].id == t.seatGroupId;
      assert groups[i] in groups;
    }
    forall t, g | t in types && g in groups && g.stageId == stageId && g.id == t.seatGroupId ensures DeleteTicketType(t.id) in r {
      var i :| 0 <= i < |groups| && groups[i] == g;
      assert t in doomed;
      MapSeqHas(doomed, DeleteType, t);
    }
    r
  }

  /** The deletions of the stage's seat groups. */
  function GroupDeletions(stageId: int, groups: seq<SeatGroupRow>): (r: seq<Removal>)
    ensures forall p :: 0 <= p < |r| ==> r[p].DeleteSeatGroup?
    ensures forall c :: c in r ==> exists g :: g in groups && g.id == c.id && g.stageId == stageId
    ensures forall g :: g in groups && g.stageId == stageId ==> DeleteSeatGroup(g.id) in r
  {
    var mine := GroupsOfStage(groups, stageId);
    var r := MapSeq(mine, DeleteGroup);
    forall c | c in r ensures exists g :: g in groups && g.id == c.id && g.stageId == stageId {
      MapSeqMember(mine, DeleteGroup, c);
      var g :| g in mine && c == DeleteGroup(g);
      var p :| 0 <= p < |mine| && mine[p] == g;
    }
    forall g | g in groups && g.stageId == stageId ensures DeleteSeatGroup(g.id) in r {
      var p :| 0 <= p < |groups| && groups[p] == g;
      MapSeqHas(mine, DeleteGroup, g);
    }
    r
  }

  /** `removeStage`: the ticket types of the stage's groups, then the
      groups, then the stage: every ticket type goes before any group, and
      the stage goes last. */
  function RemoveStageCalls(stageId: int, groups: seq<SeatGroupRow>, types: seq<TicketTypeRow>): (r: seq<Removal>)
    ensures |r| >= 1 && r[|r| - 1] == DeleteStage(stageId)
    ensures forall p :: 0 <= p < |r| - 1 ==> !r[p].DeleteStage?
    ensures forall p, q :: 0 <= p < |r| && 0 <= q < |r| && r[p].DeleteSeatGroup? && r[q].DeleteTicketType? ==> q < p
  {
    var tc, gc := TypeDeletions(stageId, groups, types), GroupDeletions(stageId, groups);
    RemovalOrder(tc, gc, DeleteStage(stageId));
    tc + gc + [DeleteStage(stageId)]
  }

  lemma RemovalOrder(tc: seq<Removal>, gc: seq<Removal>, last: Removal)
    requires forall p :: 0 <= p < |tc| ==> tc[p].DeleteTicketType?
    requires forall p :: 0 <= p < |gc| ==> gc[p].DeleteSeatGroup?
    requires last.DeleteStage?
    ensures var r := tc + gc + [last];
            && (forall p :: 0 <= p < |r| - 1 ==> !r[p].DeleteStage?)
            && (forall p, q :: 0 <= p < |r| && 0 <= q < |r| && r[p].DeleteSeatGroup? && r[q].DeleteTicketType? ==> q < p)
  {
    var r := tc + gc + [last];
    forall p | 0 <= p < |r| ensures (p < |tc| ==> r[p].DeleteTicketType?) && (|tc| <= p < |tc| + |gc| ==> r[p].DeleteSeatGroup?) && (p == |r| - 1 ==> r[p].DeleteStage?) {
      if p < |tc| { assert r[p] == tc[p]; } else if p < |tc| + |gc| { assert r[p] == gc[p - |tc|]; }
    }
  }

  /** Removing a stage deletes nothing of another stage: each ticket type
      deleted belongs to one of its seat groups, each seat group deleted is
      one of its own. */
  lemma RemoveStageDeletesOnlyItsOwn(stageId: int, groups: seq<SeatGroupRow>, types: seq<TicketTypeRow>, c: Removal)
    requires c in RemoveStageCalls(stageId, groups, types)
    ensures c.DeleteTicketType? ==>
              exists t, g :: t in types && g in groups && t.id == c.id && g.stageId == stageId && g.id == t.seatGroupId
    ensures c.DeleteSeatGroup? ==> exists g :: g in groups && g.id == c.id && g.stageId == stageId
    ensures c.DeleteStage? ==> c.id == stageId
  {
    var tc := TypeDeletions(stageId, groups, types);
    var gc := GroupDeletions(stageId, groups);
    InRemoval(tc, gc, DeleteStage(stageId), c);
    if c in tc {
      var p :| 0 <= p < |tc| && tc[p] == c;
    } else if c in gc {
      var p :| 0 <= p < |gc| && gc[p] == c;
    }
  }

  /** Removing a stage deletes every ticket type of its seat groups and
      every one of its seat groups. */
  lemma RemoveStageDeletesAll(stageId: int, groups: seq<SeatGroupRow>, types: seq<TicketTypeRow>)
    ensures forall t, g :: t in types && g in groups && g.stageId == stageId && g.id == t.seatGroupId ==>
              DeleteTicketType(t.id) in RemoveStageCalls(stageId, groups, types)
    ensures forall g :: g in groups && g.stageId == stageId ==> DeleteSeatGroup(g.id) in RemoveStageCalls(stageId, groups, types)
  {
    var tc := TypeDeletions(stageId, groups, types);
    var gc := GroupDeletions(stageId, groups);
    forall c | c in tc || c in gc ensures c in RemoveStageCalls(stageId, groups, types) {
      InRemovalBack(tc, gc, DeleteStage(stageId), c);
    }
  }

  lemma InRemoval(tc: seq<Removal>, gc: seq<Removal>, last: Removal, c: Removal)
    requires c in tc + gc + [last]
    ensures c in tc || c in gc || c == last
  {
  }

  lemma InRemovalBack(tc: seq<Removal>, gc: seq<Removal>, last: Removal, c: Removal)
    requires c in tc || c in gc
    ensures c in tc + gc + [last]
  {
  }
}

=== FILE: text.dfy ===
/** The JavaScript string operations the browser code relies on, written
    out over `seq<char>`: prefix tests, replacing the first occurrence,
    `trim`, `parseInt(s, 10)`, the decimal form of an integer, and the
    full-width digit conversion used by the number inputs. */
module Text {
  import opened Common

  // ---------------------------------------------------------------------
  // Characters

  /** `[0-9]`, also the meaning of `\d` in a regular expression without the
      `u` flag. */
  predicate IsDigit(c: char)
  {
    '0' <= c <= '9'
  }

  /** `[０-９]`: the full-width digits U+FF10 to U+FF19. */
  predicate IsWideDigit(c: char)
  {
    '\U{FF10}' <= c <= '\U{FF19}'
  }

  /** `String.fromCharCode(c.charCodeAt(0) - 0xfee0)` on a full-width digit;
      every other character is left alone. */
  function Narrow(c: char): (d: char)
    ensures IsWideDigit(c) ==> IsDigit(d) && d as int == c as int - 0xFEE0
    ensures !IsWideDigit(c) ==> d == c
  {
    if IsWideDigit(c) then (c as int - 0xFEE0) as char else c
  }

  /** The white space `trim` and `parseInt` skip: the ECMAScript WhiteSpace
      and LineTerminator characters (tab, vertical tab, form feed, the
      space separators, the byte-order mark, and the four line breaks). */
  predicate IsSpace(c: char)
  {
    || c == '\t' || c == '\n' || c == '\U{B}' || c == '\U{C}' || c == '\r' || c == ' '
    || c == '\U{A0}' || c == '\U{1680}' || ('\U{2000}' <= c <= '\U{200A}')
    || c == '\U{2028}' || c == '\U{2029}' || c == '\U{202F}' || c == '\U{205F}'
    || c == '\U{3000}' || c == '\U{FEFF}'
  }

  predicate AllDigits(s: string)
  {
    forall i :: 0 <= i < |s| ==> IsDigit(s[i])
  }

  // ---------------------------------------------------------------------
  // Searching and replacing

  /** `s.startsWith(p)`. */
  predicate StartsWith(s: string, p: string)
  {
    |p| <= |s| && s[..|p|] == p
  }

  /** `p` occurs in `s` at position `i`. */
  predicate OccursAt(s: string, p: string, i: int)
  {
    0 <= i && i + |p| <= |s| && s[i..i + |p|] == p
  }

  /** `s.indexOf(p)`: the first position where `p` occurs, if any. */
  function IndexOf(s: string, p: string): (r: Option<nat>)
    ensures r.Some? ==> OccursAt(s, p, r.value) && forall i :: 0 <= i < r.value ==> !OccursAt(s, p, i)
    ensures r.None? ==> forall i :: !OccursAt(s, p, i)
    decreases |s|
  {
    if |s| < |p| then None
    else if s[..|p|] == p then Some(0)
    else
      var r := IndexOf(s[1..], p);
      assert forall i :: 1 <= i ==> (OccursAt(s, p, i) <==> OccursAt(s[1..], p, i - 1)) by {
        forall i | 1 <= i ensures OccursAt(s, p, i) <==> OccursAt(s[1..], p, i - 1) {
          if i + |p| <= |s| {
            var t := s[1..];
            var a, b := s[i..i + |p|], t[i - 1..i - 1 + |p|];
            assert forall k :: 0 <= k < |p| ==> a[k] == b[k];
            assert a == b;
          }
        }
      }
      if r.None? then None else Some(r.value + 1)
  }

  /** `s.replace(p, q)` with a string pattern: the first occurrence of `p`
      becomes `q`; without one, `s` is returned as it is. */
  function ReplaceFirst(s: string, p: string, q: string): (r: string)
    ensures IndexOf(s, p).None? ==> r == s
  {
    match IndexOf(s, p)
    case None => s
    case Some(i) => s[..i] + q + s[i + |p|..]
  }

  /** Replacing a prefix by nothing removes it. */
  lemma ReplacePrefix(s: string, p: string)
    requires StartsWith(s, p)
    ensures ReplaceFirst(s, p, "") == s[|p|..]
  {
    assert IndexOf(s, p) == Some(0);
  }

  // ---------------------------------------------------------------------
  // Trimming

  function LeadingSpaces(s: string): (n: nat)
    ensures n <= |s|
    ensures forall i :: 0 <= i < n ==> IsSpace(s[i])
    ensures n < |s| ==> !IsSpace(s[n])
    decreases |s|
  {
    if s != [] && IsSpace(s[0]) then 1 + LeadingSpaces(s[1..]) else 0
  }

  function TrailingSpaces(s: string): (n: nat)
    ensures n <= |s|
    ensures forall i :: |s| - n <= i < |s| ==> IsSpace(s[i])
    ensures n < |s| ==> !IsSpace(s[|s| - n - 1])
    decreases |s|
  {
    if s != [] && IsSpace(s[|s| - 1]) then 1 + TrailingSpaces(s[..|s| - 1]) else 0
  }

  /** `s.trim()`: the white space at both ends removed. */
  function Trim(s: string): (r: string)
    ensures r == [] || (!IsSpace(r[0]) && !IsSpace(r[|r| - 1]))
  {
    var rest := s[LeadingSpaces(s)..];
    rest[..|rest| - TrailingSpaces(rest)]
  }

  /** What `Trim` removes is white space, and only at the two ends. */
  lemma TrimIsSlice(s: string)
    ensures exists a, b :: 0 <= a <= b <= |s| && Trim(s) == s[a..b]
              && (forall i :: 0 <= i < a ==> IsSpace(s[i])) && (forall i :: b <= i < |s| ==> IsSpace(s[i]))
  {
    var a := LeadingSpaces(s);
    var rest := s[a..];
    var b := TrailingSpaces(rest);
    assert Trim(s) == s[a..a + |rest| - b];
    assert forall i :: a + |rest| - b <= i < |s| ==> s[i] == rest[i - a];
  }

  /** Text made of white space only (the empty text included). */
  predicate Blank(s: string)
  {
    forall i :: 0 <= i < |s| ==> IsSpace(s[i])
  }

  /** `!s.trim()`: trimming leaves nothing exactly when the text is white
      space only. */
  lemma TrimEmpty(s: string)
    ensures Trim(s) == [] <==> Blank(s)
  {
    var a := LeadingSpaces(s);
    var rest := s[a..];
    var b := TrailingSpaces(rest);
    if Trim(s) == [] {
      assert b == |rest|;
    }
  }

  /** Text with no white space at either end is its own trimmed form. */
  lemma TrimNoSpace(s: string)
    requires s == [] || (!IsSpace(s[0]) && !IsSpace(s[|s| - 1]))
    ensures Trim(s) == s
  {
    assert LeadingSpaces(s) == 0;
    assert TrailingSpaces(s) == 0;
  }

  // ---------------------------------------------------------------------
  // Numbers and their decimal form

  function DigitValue(c: char): (v: int)
    requires IsDigit(c)
    ensures 0 <= v <= 9
  {
    c as int - '0' as int
  }

  function DigitChar(v: int): (c: char)
    requires 0 <= v <= 9
    ensures IsDigit(c) && DigitValue(c) == v
  {
    ('0' as int + v) as char
  }

  /** The value of a run of decimal digits. */
  function DigitsValue(s: string): (v: int)
    requires AllDigits(s)
    ensures v >= 0
    decreases |s|
  {
    if s == [] then 0 else 10 * DigitsValue(s[..|s| - 1]) + DigitValue(s[|s| - 1])
  }

  /** The length of the run of decimal digits at the front of `s`. */
  function DigitRun(s: string): (n: nat)
    ensures n <= |s| && AllDigits(s[..n])
    ensures n < |s| ==> !IsDigit(s[n])
    decreases |s|
  {
    if s != [] && IsDigit(s[0]) then
      var n := 1 + DigitRun(s[1..]);
      assert forall i :: 1 <= i < n ==> s[..n][i] == s[1..][..n - 1][i - 1];
      n
    else 0
  }

  /** `s` splits the way `parseInt` reads it: white space up to `a`, an
      optional sign up to `b`, then a non-empty run of digits up to `e`
      that no further digit extends.  At most one split exists. */
  predicate Splits(s: string, a: int, b: int, e: int)
  {
    && 0 <= a <= b < e <= |s|
    && (forall i :: 0 <= i < a ==> IsSpace(s[i]))
    && (b == a || (b == a + 1 && (s[a] == '-' || s[a] == '+')))
    && AllDigits(s[b..e])
    && (e == |s| || !IsDigit(s[e]))
  }

  /** The integer a split denotes: the digits' value, negated after `-`. */
  function SplitValue(s: string, a: int, b: int, e: int): int
    requires Splits(s, a, b, e)
  {
    if b == a + 1 && s[a] == '-' then -DigitsValue(s[b..e]) else DigitsValue(s[b..e])
  }

  /** `parseInt(s, 10)`: leading white space is skipped, then an optional
      sign, then the longest run of digits; the rest is ignored.  No digit
      at all gives `NaN`, here `None`. */
  function ParseInt(s: string): (r: Option<int>)
    ensures r.Some? ==> exists a, b, e :: Splits(s, a, b, e) && r.value == SplitValue(s, a, b, e)
  {
    var a := LeadingSpaces(s);
    ReadSignedSplits(s, a);
    ReadSigned(s[a..])
  }

  /** What `parseInt` reads once the white space is skipped. */
  function ReadSigned(t: string): Option<int>
  {
    var u := if |t| > 0 && (t[0] == '-' || t[0] == '+') then t[1..] else t;
    var n := DigitRun(u);
    if n == 0 then None
    else
      var v := DigitsValue(u[..n]);
      Some(if |t| > 0 && t[0] == '-' then -v else v)
  }

  /** A number read after the white space comes from a split. */
  lemma ReadSignedSplits(s: string, a: nat)
    requires a == LeadingSpaces(s)
    ensures ReadSigned(s[a..]).Some? ==>
              exists b, e :: Splits(s, a, b, e) && ReadSigned(s[a..]).value == SplitValue(s, a, b, e)
  {
    var t := s[a..];
    var u := if |t| > 0 && (t[0] == '-' || t[0] == '+') then t[1..] else t;
    var n := DigitRun(u);
    if n > 0 {
      var b := |s| - |u|;
      assert s[b..b + n] == u[..n];
      assert b + n < |s| ==> s[b + n] == u[n];
      assert Splits(s, a, b, b + n);
    }
  }

  /** A run of digits that no further digit extends is what `DigitRun`
      measures. */
  lemma {:induction false} DigitRunIs(u: string, n: nat)
    requires n <= |u| && AllDigits(u[..n]) && (n == |u| || !IsDigit(u[n]))
    ensures DigitRun(u) == n
    decreases n
  {
    if n > 0 {
      assert u[1..][..n - 1] == u[..n][1..];
      assert n < |u| ==> u[1..][n - 1] == u[n];
      DigitRunIs(u[1..], n - 1);
    }
  }

  /** Every split gives the result: `parseInt` answers with the split's
      value whenever the text splits, so `NaN` comes exactly from text with
      no digit after its white space and sign. */
  lemma ParseIntExact(s: string, a: int, b: int, e: int)
    requires Splits(s, a, b, e)
    ensures ParseInt(s) == Some(SplitValue(s, a, b, e))
  {
    SplitAfterSpaces(s, a, b, e);
    if b == a {
      UnsignedExact(s, a, e);
    } else {
      SignedExact(s, a, e);
    }
  }

  /** A split without a sign reads as its digits' value. */
  lemma UnsignedExact(s: string, a: int, e: int)
    requires Splits(s, a, a, e)
    ensures ReadSigned(s[a..]) == Some(SplitValue(s, a, a, e))
  {
    var t := s[a..];
    var m := e - a;
    assert t[..m] == s[a..e];
    assert m < |t| ==> t[m] == s[e];
    DigitRunIs(t, m);
    assert IsDigit(t[0]) by { assert t[0] == s[a..e][0]; }
    BareRead(t, m);
  }

  /** A split with a sign reads as its digits' value, negated after `-`. */
  lemma SignedExact(s: string, a: int, e: int)
    requires Splits(s, a, a + 1, e)
    ensures ReadSigned(s[a..]) == Some(SplitValue(s, a, a + 1, e))
  {
    var t := s[a..];
    var m := e - a - 1;
    assert t[1..][..m] == s[a + 1..e];
    assert m < |t| - 1 ==> t[1..][m] == s[e];
    DigitRunIs(t[1..], m);
    SignRead(t, m);
  }

  /** Text starting with a digit reads as its leading run. */
  lemma BareRead(t: string, m: nat)
    requires 0 < m <= |t| && IsDigit(t[0]) && DigitRun(t) == m
    ensures ReadSigned(t) == Some(DigitsValue(t[..m]))
  {
  }

  /** Text starting with a sign reads as the run after it, signed. */
  lemma SignRead(t: string, m: nat)
    requires 0 < m < |t| && (t[0] == '-' || t[0] == '+') && DigitRun(t[1..]) == m
    ensures ReadSigned(t) == Some(if t[0] == '-' then -DigitsValue(t[1..][..m]) else DigitsValue(t[1..][..m]))
  {
  }

  /** The white space of a split is all the leading white space. */
  lemma SplitAfterSpaces(s: string, a: int, b: int, e: int)
    requires Splits(s, a, b, e)
    ensures LeadingSpaces(s) == a
  {
    var n := LeadingSpaces(s);
    assert !IsSpace(s[a]) by {
      if b == a { assert IsDigit(s[b..e][0]); }
    }
  }

  /** `parseInt` gives `NaN` exactly for text that does not split. */
  lemma ParseIntNone(s: string)
    ensures ParseInt(s).None? <==> forall a, b, e :: !Splits(s, a, b, e)
  {
    if exists a, b, e :: Splits(s, a, b, e) {
      var a, b, e :| Splits(s, a, b, e);
      ParseIntExact(s, a, b, e);
    }
  }

  /** The decimal form of a natural number, without leading zeros. */
  function ShowNat(n: nat): (s: string)
    ensures |s| > 0 && AllDigits(s)
    ensures DigitsValue(s) == n
    ensures |s| > 1 ==> s[0] != '0'
    decreases n
  {
    if n < 10 then [DigitChar(n)]
    else
      var s := ShowNat(n / 10) + [DigitChar(n % 10)];
      assert s[..|s| - 1] == ShowNat(n / 10);
      s
  }

  /** The decimal form of an integer, as a template literal prints it. */
  function Show(i: int): (s: string)
  {
    if i < 0 then "-" + ShowNat(-i) else ShowNat(i)
  }

  lemma DigitRunAll(s: string)
    requires AllDigits(s)
    ensures DigitRun(s) == |s|
    decreases |s|
  {
    if s != [] {
      DigitRunAll(s[1..]);
    }
  }

  /** `parseInt` reads back what `Show` writes, for every integer. */
  lemma {:induction false} ParseShow(i: int)
    ensures ParseInt(Show(i)) == Some(i)
  {
    var s := Show(i);
    var d := ShowNat(if i < 0 then -i else i);
    assert !IsSpace(s[0]);
    assert LeadingSpaces(s) == 0;
    DigitRunAll(d);
    if i < 0 {
      assert s[0..] == s;
      assert s[1..] == d && d[..|d|] == d;
    } else {
      assert s[0] != '-' && s[0] != '+';
      assert s[0..] == s && s[..|s|] == s;
    }
  }

  /** Digits of ASCII (after conversion) are exactly the digits of the
      value: a run of digits with its value given by `ParseInt`. */
  lemma ParseDigits(s: string)
    requires |s| > 0 && AllDigits(s)
    ensures ParseInt(s) == Some(DigitsValue(s))
  {
    assert !IsSpace(s[0]) && s[0] != '-' && s[0] != '+';
    assert LeadingSpaces(s) == 0;
    DigitRunAll(s);
    assert s[0..][..|s|] == s;
  }

  // ---------------------------------------------------------------------
  // Full-width digits

  /** `s.replace(/[０-９]/g, …)`: every full-width digit narrowed. */
  function NarrowDigits(s: string): (r: string)
    ensures |r| == |s|
    ensures forall i :: 0 <= i < |s| ==> r[i] == Narrow(s[i])
  {
    MapSeq(s, Narrow)
  }

  /** `s.replace(/[^0-9]/g, "")`: only the ASCII digits kept, in order. */
  function KeepDigits(s: string): (r: string)
    ensures AllDigits(r)
    ensures |r| <= |s|
  {
    Filter(s, IsDigit)
  }

  /** Either kind of digit. */
  predicate IsAnyDigit(c: char)
  {
    IsDigit(c) || IsWideDigit(c)
  }

  /** A reference reading of the two replaces together: the digits of
      either width, in their order, each written in ASCII. */
  function DigitsInOrder(s: string): (r: string)
    decreases |s|
  {
    if s == [] then []
    else if IsAnyDigit(s[0]) then [Narrow(s[0])] + DigitsInOrder(s[1..])
    else DigitsInOrder(s[1..])
  }

  lemma {:induction false} KeepNarrowIsDigitsInOrder(s: string)
    ensures KeepDigits(NarrowDigits(s)) == DigitsInOrder(s)
    decreases |s|
  {
    if s != [] {
      KeepNarrowIsDigitsInOrder(s[1..]);
      assert NarrowDigits(s) == [Narrow(s[0])] + NarrowDigits(s[1..]);
      assert NarrowDigits(s)[1..] == NarrowDigits(s[1..]);
    }
  }

  lemma {:induction false} DigitsInOrderOfDigits(s: string)
    requires AllDigits(s)
    ensures DigitsInOrder(s) == s
    decreases |s|
  {
    if s != [] {
      DigitsInOrderOfDigits(s[1..]);
    }
  }

  lemma {:induction false} DigitsInOrderAreDigits(s: string)
    ensures AllDigits(DigitsInOrder(s))
    decreases |s|
  {
    if s != [] {
      DigitsInOrderAreDigits(s[1..]);
    }
  }

  /** `DigitsInOrder` keeps one character for each digit of either width. */
  lemma {:induction false} DigitsInOrderEmpty(s: string)
    ensures DigitsInOrder(s) == [] <==> forall i :: 0 <= i < |s| ==> !IsAnyDigit(s[i])
    decreases |s|
  {
    if s != [] {
      DigitsInOrderEmpty(s[1..]);
      assert forall i :: 1 <= i < |s| ==> s[i] == s[1..][i - 1];
    }
  }
}

=== FILE: ticket_type_manager.dfy ===
/** The ticket type manager of an event: the event's seat groups and ticket
    types, which of them may be deleted, the deletion that takes an emptied
    seat group with it, and the placeholders it adds. */
module TicketTypeManager {
  import opened Common
  import opened ClientData
  import opened AppData
  import StageManager

  // ---------------------------------------------------------------------
  // The event's rows

  /** `filteredSeatGroups`: the groups of the event's stages, in list
      order. */
  function EventSeatGroups(stages: seq<StageRow>, groups: seq<SeatGroupRow>, eventId: int): (r: seq<SeatGroupRow>)
    ensures IsSubsequence(r, groups)
    ensures forall g :: g in r <==> g in groups && exists s :: s in stages && s.eventId == eventId && s.id == g.stageId
  {
    var mine := EventStages(stages, eventId);
    var p := (g: SeatGroupRow) => Any(mine, (s: StageRow) => s.id == g.stageId);
    var r := Filter(groups, p);
    FilterIsSubsequence(groups, p);
    assert forall g :: g in r <==> g in groups && exists s :: s in stages && s.eventId == eventId && s.id == g.stageId by {
      forall g ensures g in r <==> g in groups && exists s :: s in stages && s.eventId == eventId && s.id == g.stageId {
        FilterMember(groups, p, g);
        if p(g) {
          var i :| 0 <= i < |mine| && mine[i].id == g.stageId;
          assert mine[i] in mine;
        }
        if exists s :: s in stages && s.eventId == eventId && s.id == g.stageId {
          var s :| s in stages && s.eventId == eventId && s.id == g.stageId;
          var i :| 0 <= i < |mine| && mine[i] == s;
        }
      }
    }
    r
  }

  /** `filteredTicketTypes`: the ticket types of the event's seat groups,
      in list order. */
  function EventTicketTypes(stages: seq<StageRow>, groups: seq<SeatGroupRow>, types: seq<TicketTypeRow>, eventId: int): (r: seq<TicketTypeRow>)
    ensures IsSubsequence(r, types)
    ensures forall t :: t in r <==> t in types && exists g :: g in EventSeatGroups(stages, groups, eventId) && g.id == t.seatGroupId
  {
    var mine := EventSeatGroups(stages, groups, eventId);
    var r := Filter(types, InGroups(mine));
    FilterIsSubsequence(types, InGroups(mine));
    assert forall t :: t in r <==> t in types && exists g :: g in mine && g.id == t.seatGroupId by {
      forall t ensures t in r <==> t in types && exists g :: g in mine && g.id == t.seatGroupId {
        FilterMember(types, InGroups(mine), t);
        InGroupsMeans(mine, t);
      }
    }
    r
  }

  /** The ticket types shown are exactly those whose seat group belongs to a
      stage of the event. */
  lemma ShownTypesBelongToEvent(stages: seq<StageRow>, groups: seq<SeatGroupRow>, types: seq<TicketTypeRow>, eventId: int, t: TicketTypeRow)
    ensures t in EventTicketTypes(stages, groups, types, eventId) <==>
              t in types && exists g, s :: g in groups && s in stages && g.id == t.seatGroupId && s.id == g.stageId && s.eventId == eventId
  {
    if t in types && exists g, s :: g in groups && s in stages && g.id == t.seatGroupId && s.id == g.stageId && s.eventId == eventId {
      var g, s :| g in groups && s in stages && g.id == t.seatGroupId && s.id == g.stageId && s.eventId == eventId;
      assert g in EventSeatGroups(stages, groups, eventId);
    }
  }

  // ---------------------------------------------------------------------
  // Which types may be deleted

  /** Some reservation is of the ticket type. */
  predicate Referenced(id: int, reservations: seq<Detail>)
  {
    exists i :: 0 <= i < |reservations| && reservations[i].ticketType.id == id
  }

  /** `hasReservations`: the `reduce` that sets `true` for each shown type
      some reservation is of, and leaves the others out. */
  function ReservedTypes(types: seq<TicketTypeRow>, reservations: seq<Detail>): (r: map<int, bool>)
    ensures forall id :: id in r ==> r[id]
    ensures forall id :: id in r <==> Referenced(id, reservations) && exists i :: 0 <= i < |types| && types[i].id == id
    decreases |types|
  {
    if types == [] then map[]
    else
      var prev := ReservedTypes(types[..|types| - 1], reservations);
      var t := types[|types| - 1];
      assert forall i :: 0 <= i < |types| - 1 ==> types[..|types| - 1][i] == types[i];
      if Referenced(t.id, reservations) then prev[t.id := true] else prev
  }

  /** `disabled={hasReservations[tt.id]}`: a missing entry is falsy. */
  predicate DeleteDisabled(reserved: map<int, bool>, id: int)
  {
    id in reserved && reserved[id]
  }

  /** A shown type's delete button is disabled exactly when some
      reservation is of that type. */
  lemma DeleteDisabledExactly(stages: seq<StageRow>, groups: seq<SeatGroupRow>, types: seq<TicketTypeRow>,
                              reservations: seq<Detail>, eventId: int, t: TicketTypeRow)
    requires t in EventTicketTypes(stages, groups, types, eventId)
    ensures DeleteDisabled(ReservedTypes(EventTicketTypes(stages, groups, types, eventId), reservations), t.id) <==>
              Referenced(t.id, reservations)
  {
    var shown := EventTicketTypes(stages, groups, types, eventId);
    var i :| 0 <= i < |shown| && shown[i] == t;
  }

  // ---------------------------------------------------------------------
  // Deleting

  /** `tt => tt.seat_group_id === groupId`. */
  function OfGroup(groupId: int): TicketTypeRow -> bool
  {
    (t: TicketTypeRow) => t.seatGroupId == groupId
  }

  /** The types of a group other than the one with `id`. */
  function OthersOfGroup(groupId: int, id: int): TicketTypeRow -> bool
  {
    (t: TicketTypeRow) => t.seatGroupId == groupId && t.id != id
  }

  predicate UniqueTypeIds(types: seq<TicketTypeRow>)
  {
    forall i, j :: 0 <= i < |types| && 0 <= j < |types| && types[i].id == types[j].id ==> i == j
  }

  /** `handleDelete`: nothing for an unknown id or a type whose group id is
      falsy; otherwise the type, then its group when the type was the
      group's only one. */
  function HandleDelete(types: seq<TicketTypeRow>, id: int): (r: seq<StageManager.Removal>)
    ensures FindTicketType(types, id).None? ==> r == []
    ensures FindTicketType(types, id).Some? && FindTicketType(types, id).value.seatGroupId == 0 ==> r == []
    ensures FindTicketType(types, id).Some? && FindTicketType(types, id).value.seatGroupId != 0 ==>
              var g := FindTicketType(types, id).value.seatGroupId;
              && 1 <= |r| <= 2 && r[0] == StageManager.DeleteTicketType(id)
              && (|r| == 2 <==> |Filter(types, OfGroup(g))| == 1)
              && (|r| == 2 ==> r[1] == StageManager.DeleteSeatGroup(g))
  {
    match FindTicketType(types, id)
    case None => []
    case Some(t) =>
      if t.seatGroupId == 0 then []
      else
        [StageManager.DeleteTicketType(id)]
          + (if |Filter(types, OfGroup(t.seatGroupId))| == 1 then [StageManager.DeleteSeatGroup(t.seatGroupId)] else [])
  }

  /** With distinct ids, a group's types are the one with `id` and the
      others. */
  lemma {:induction false} GroupCount(types: seq<TicketTypeRow>, k: nat)
    requires UniqueTypeIds(types) && k < |types|
    ensures |Filter(types, OfGroup(types[k].seatGroupId))| == 1 + |Filter(types, OthersOfGroup(types[k].seatGroupId, types[k].id))|
    decreases |types|
  {
    var t := types[k];
    var tail := types[1..];
    assert UniqueTypeIds(tail) by {
      forall i, j | 0 <= i < |tail| && 0 <= j < |tail| && tail[i].id == tail[j].id ensures i == j {
        assert types[i + 1] == tail[i] && types[j + 1] == tail[j];
      }
    }
    if k == 0 {
      FilterAgree(tail, OfGroup(t.seatGroupId), OthersOfGroup(t.seatGroupId, t.id)) by {
        forall i | 0 <= i < |tail| ensures OfGroup(t.seatGroupId)(tail[i]) == OthersOfGroup(t.seatGroupId, t.id)(tail[i]) {
          assert types[i + 1] == tail[i];
        }
      }
    } else {
      assert types[0].id != t.id;
      assert tail[k - 1] == t;
      GroupCount(tail, k - 1);
    }
  }

  /** With distinct ids, deleting a type takes its seat group with it
      exactly when no other type of that group remains. */
  lemma DeleteCascadesWhenLast(types: seq<TicketTypeRow>, k: nat)
    requires UniqueTypeIds(types) && k < |types| && types[k].seatGroupId != 0
    ensures var r := HandleDelete(types, types[k].id);
            && |r| >= 1 && r[0] == StageManager.DeleteTicketType(types[k].id)
            && (StageManager.DeleteSeatGroup(types[k].seatGroupId) in r <==>
                  forall u :: u in types && u.seatGroupId == types[k].seatGroupId ==> u.id == types[k].id)
  {
    var t := types[k];
    var found := FindTicketType(types, t.id);
    assert found == Some(t) by {
      var i :| 0 <= i < |types| && types[i] == found.value;
    }
    GroupCount(types, k);
    var others := Filter(types, OthersOfGroup(t.seatGroupId, t.id));
    assert others != [] ==> OthersOfGroup(t.seatGroupId, t.id)(others[0]) && others[0] in types;
    forall u | u in types && u.seatGroupId == t.seatGroupId && u.id != t.id ensures u in others {
      var i :| 0 <= i < |types| && types[i] == u;
    }
  }

  // ---------------------------------------------------------------------
  // Adding

  /** The name a new ticket type starts with. */
  const PlaceholderName: string := "名前を入力して下さい"

  /** The seat group a new ticket type goes to: a known one, or the one
      created just before it. */
  datatype GroupRef = ExistingGroup(id: int) | CreatedGroup

  datatype Addition = AddGroup(stageId: int, capacity: int) | AddType(group: GroupRef, typeName: string, price: real)

  /** `handleAddTicketType`: one placeholder type at price 0 in the group. */
  function HandleAddTicketType(groupId: int): (r: seq<Addition>)
    ensures |r| == 1 && r[0].AddType? && r[0].group == ExistingGroup(groupId)
    ensures r[0].typeName == PlaceholderName && r[0].price == 0.0
  {
    [AddType(ExistingGroup(groupId), PlaceholderName, 0.0)]
  }

  /** `handleAddSeatGroup`: a group of the stage with no seats, then one
      placeholder type at price 0 in it, so no group is added without a
      ticket type. */
  function HandleAddSeatGroup(stageId: int): (r: seq<Addition>)
    ensures |r| == 2 && r[0] == AddGroup(stageId, 0)
    ensures r[1].AddType? && r[1].group == CreatedGroup && r[1].typeName == PlaceholderName && r[1].price == 0.0
  {
    [AddGroup(stageId, 0), AddType(CreatedGroup, PlaceholderName, 0.0)]
  }
}
